=== FILE: README.md ===
# FlexiStudy, modelled in Dafny

FlexiStudy is a study tracker driven by a chat assistant. At its centre is
`manage_log.py`, a command-line datastore kept in a single SQLite file. It
records study sessions as rows of a `study_logs` table: START, BREAK, RESUME
and END events, each with a start time, an end time and a duration in
minutes. Before every change it copies the whole store file into a
short-term snapshot pool. The first session started on a day also goes to a
long-term pool. Undo and redo trade the live store against these pools and
a redo pool. On the read side it groups a day's rows into sessions with
totals, computes the study streak, extracts and counts hashtags, and orders
and pages search hits.

Around that datastore sits a Node web front end:

- `webnew/server.js` and its background worker `webnew/background-gemini.js`
  hold the port list, the JSON-block scanner for assistant replies, the
  stream-chunk de-duplication, the daily-summary and quiet-hours time
  parsers, cron fields, the action-name normaliser, the hidden-decision
  nesting, the pending-notify merge, and the shell tokenizer with the
  command-key classifier behind automatic tool permissions.
- A rescue chat app, `webnew/rescue-chat-app`, has a proxy that decides
  which paths it answers itself, and a JSON settings file addressed by
  dot-paths.
- The upload route sanitises file names.
- The React components and hooks hold reference-preserving merges,
  colour and tag helpers, chat templates, message de-duplication and the
  history merge, and the chart and record-list formatters.
- `webnew/scripts/generate-icons.mjs` writes ICO containers.
- `notify_tool.py` validates notification payloads and lists the server
  addresses it tries.

The model follows each source file's own form.

- `manage_log.py` becomes:
  - values: `StudyLog`, `SnapshotPools` and `StoreState` specify every
    command as a function from one on-disk state to the next;
  - a class: `StudyLogStore.Database` in `store.dfy` holds the store file,
    the three pools and the journal as fields. Its methods change them
    step by step, in the source's order, and each method is proved to
    reach the state the function describes.
- Loops in the source become methods with loop invariants, each proved
  against a specification function. Examples are the tokenizer, the JSON
  block scanner, the port list, the upload name claim, the ICO writer and
  the endpoint generator.
- Objects the source updates in place become classes: the settings file,
  the outgoing proxy headers and the upload request. So do objects whose
  identity matters, such as the JavaScript objects of the reconcilers.

Clocks, randomness, the environment and the file system are parameters of
the operations that use them.

## Model

| member | source | states |
|---|---|---|
| StudyLog.Minutes | manage_log.py:409-410 | the duration in minutes truncates toward zero: for a non-negative span `m*60 <= span < m*60+60`, for a negative one `m*60-60 < span <= m*60` |
| StudyLog.LatestStartWhere | manage_log.py:312-319 | the row picked by `ORDER BY start_time DESC LIMIT 1` under a filter: None exactly when no row passes, otherwise a passing row with no later start; among rows of equal start the model settles on the lowest id, a choice of the model's own |
| StudyLog.LastOpenIndex | manage_log.py:1922-1929 | `end_time IS NULL ORDER BY id DESC LIMIT 1`: None exactly when no row is open, otherwise an open row with no open row after it |
| StudyLog.IndexOfId | manage_log.py:397-404 | `WHERE id = ?`: None exactly when no row has the id, otherwise the first row that has it |
| StudyLog.IndexOfStartId | manage_log.py:578-581 | `WHERE id = ? AND event_type = 'START'`: None exactly when no START row has the id, otherwise the first such row |
| StudyLog.LastInRange | manage_log.py:591-592 | the row first in `ORDER BY start_time DESC, id DESC` among ids in `[lo, hi)`: None exactly when the range is empty, otherwise a row of the range that is (start, id)-greatest |
| StudyLog.UpdateEndTime | manage_log.py:397-418 | no contract of its own: the table update_end_time writes, None when no row has the id; StudyLogProperties.UpdateEndTimeSpec states it |
| StudyLog.StartImage | manage_log.py:521-531 | no contract of its own: the table after start_session's INSERT; StudyLogProperties.StartSpec states it |
| StudyLog.EndImage | manage_log.py:533-541 | no contract of its own: the table after end_session, None when no row is open; StudyLogProperties.EndSpec states it |
| StudyLog.BreakImage | manage_log.py:543-569 | no contract of its own: the table after break_session, None when no row is open; StudyLogProperties.BreakSpec states it |
| StudyLog.ResumeImage | manage_log.py:616-640 | no contract of its own: the table after resume_session, None when no row is open; StudyLogProperties.ResumeSpec and ResumeAfterClose state it |
| StudyLog.MergeImage | manage_log.py:571-614 | no contract of its own: the table after merge_sessions or its error; StudyLogProperties.MergeErrors, MergeSuccess and MergeKeepsInvariants state it |
| StudyLog.ConsolidateImage | manage_log.py:363-395 | no contract of its own: the table after consolidate_last_break_into_resume or its error; StudyLogProperties.ConsolidateSpec states it |
| StudyLog.SessionActive | manage_log.py:1922-1934 | no contract of its own: the `active` flag and event type action_session_active reports; StudyLogProperties.SessionActiveSpec states it |
| StudyLogProperties.AppendWellFormed | manage_log.py:525-529 | an INSERT with the next AUTOINCREMENT id keeps ids positive, increasing and below the counter |
| StudyLogProperties.CloseRowWellFormed | manage_log.py:412-415 | setting end_time and duration of one row keeps the table well formed |
| StudyLogProperties.IdFindsRow | manage_log.py:400-401 | in a well-formed table a row's id selects exactly that row |
| StudyLogProperties.OpenCountUpdate | manage_log.py:412-415 | replacing one row changes the number of open rows by what that row contributes before and after |
| StudyLogProperties.OpenCountZero | manage_log.py:312-319 | no open row counted exactly when every row has an end time |
| StudyLogProperties.OpenCountTwo | manage_log.py:312-319 | two distinct open rows make the open count at least two |
| StudyLogProperties.LatestUnique | manage_log.py:315-316 | the model's choice for `ORDER BY start_time DESC LIMIT 1` (a latest start, the lowest id among equal starts) is unique |
| StudyLogProperties.LatestStartAfterClose | manage_log.py:616-630 | closing the active row does not change which START row resume_session copies subject and content from |
| StudyLogProperties.MinutesExamples | manage_log.py:409-410 | 09:00:00 to 09:45:30 gives 45 minutes; an end 90 seconds before the start gives -1 (truncation, not floor) |
| StudyLogProperties.UpdateEndTimeSpec | manage_log.py:397-418 | update_end_time errors exactly when no row has the id; otherwise it sets end_time and the truncated duration on that row only, keeping the table well formed |
| StudyLogProperties.ActiveSelectorsAgree | manage_log.py:1922-1929 | with at most one open row, get_last_active_log_id (latest start, manage_log.py lines 312-319) and action_session_active (greatest id) pick the same row |
| StudyLogProperties.ActiveSelectorsCanDiffer | manage_log.py:1922-1929 | with two open rows whose start times run against their ids, the two selectors pick different rows |
| StudyLogProperties.SessionActiveSpec | manage_log.py:1922-1934 | session.active reports active exactly when some row is open and the open row with the greatest id is not a BREAK |
| StudyLogProperties.EndSpec | manage_log.py:533-541 | end_session fails exactly when no row is open; otherwise it closes the open row with the latest start at `now`, keeps the table well formed and lowers the open count by one |
| StudyLogProperties.BreakSpec | manage_log.py:543-569 | break_session fails exactly when no row is open; otherwise it closes the active row and appends an open BREAK row with the given content and no subject; the open count is unchanged |
| StudyLogProperties.ResumeSpec | manage_log.py:616-640 | resume_session fails exactly when no row is open; otherwise it closes the active row and appends an open RESUME row with memo and impression and the subject and content of the latest START row (None when there is none); the open count is unchanged |
| StudyLogProperties.ResumeAfterClose | manage_log.py:619-635 | the RESUME row appended after closing the active row has the next id and the source START row's subject and content, and the table stays well formed |
| StudyLogProperties.StartSpec | manage_log.py:521-531 | start_session appends an open START row without looking for an open one, so the open count rises by one |
| StudyLogProperties.MergeErrors | manage_log.py:571-595 | merge_sessions fails with "START not found" exactly when either id is not a START row, with "summary mismatch" exactly when the summaries differ, and with "end missing" exactly when the last row of session 1 is missing or open |
| StudyLogProperties.MergeSuccess | manage_log.py:597-613 | a successful merge turns session 2's START into a RESUME with no summary, appends a closed BREAK from session 1's last end to session 2's start with session 1's subject, and changes no other row |
| StudyLogProperties.MergeKeepsInvariants | manage_log.py:597-613 | a successful merge keeps the table well formed and adds no open row |
| StudyLogProperties.ConsolidateSpec | manage_log.py:363-395 | consolidation fails for fewer than two rows or when the last two are not RESUME then BREAK; on success the BREAK is deleted, the RESUME takes its end time and the joined content and keeps every other field, its duration included, earlier rows and the counter are unchanged |
| StudyLogProperties.ConsolidatedContentCases | manage_log.py:372-378 | both texts non-empty: joined by a space; BREAK text empty: the RESUME text; RESUME text empty: the BREAK text |
| StudyLogProperties.AtMostOneOpenPreserved | manage_log.py:363-640 | end, break, resume, merge and consolidate keep "at most one open row" |
| SnapshotPools.Cap | manage_log.py:19-23 | every pool keeps at least one file (100 short-term, 30 long-term, 10 redo) |
| SnapshotPools.Latest | manage_log.py:295-301 | get_latest_backup_file: None exactly for an empty pool, otherwise the first file of greatest mtime |
| SnapshotPools.Oldest | manage_log.py:250-259 | the file the pruning loop deletes next: the first file of least mtime |
| SnapshotPools.PrunedSize | manage_log.py:250-281 | after pruning a pool holds `cap` files, or all of them when there were fewer |
| SnapshotPools.PrunedOnlyDeletes | manage_log.py:250-281 | pruning only deletes files |
| SnapshotPools.PrunedDeletesOldest | manage_log.py:250-281 | no deleted file is newer than a kept one |
| SnapshotPools.NewestIsLatest | manage_log.py:295-301 | the newest-file lookup finds the pool's unique newest file |
| SnapshotPools.NewestAfterOlderAdded | manage_log.py:217-243 | adding an older file keeps the unique newest |
| SnapshotPools.NewestWhenAddedLast | manage_log.py:217-243 | a file added to a pool of strictly older files becomes the unique newest |
| SnapshotPools.PrunedKeepsNewest | manage_log.py:250-281 | the unique newest file survives pruning and stays the newest |
| SnapshotPools.NewestHoldsLatest | manage_log.py:295-301 | when every file of the newest mtime holds the same content, the newest-file lookup returns that content, whichever tied file it picks |
| SnapshotPools.NewestHoldsWhenAddedLast | manage_log.py:217-243 | a file added to a pool of files no newer than it, the equally new ones holding its content, fixes what the newest files hold |
| SnapshotPools.PrunedKeepsNewestHolds | manage_log.py:250-281 | pruning keeps a file of the newest mtime, so what the newest files hold is unchanged |
| SnapshotPools.Pruned | manage_log.py:250-281 | no contract of its own: the three pruning loops; SnapshotPools.PrunedSize, PrunedOnlyDeletes, PrunedDeletesOldest and PrunedKeepsNewest state it |
| StoreState.WithPool | manage_log.py:217-224 | replacing one pool leaves the other pools, the table, the mtime and the journal unchanged |
| StoreState.Backup | manage_log.py:217-243 | backup_database never changes the table or its mtime, nor any pool other than its own |
| StoreState.Restore | manage_log.py:283-293 | no contract of its own: restore_database's copy, journal line and status; StoreProperties.UndoSpec and RedoSpec state its effect through undo and redo |
| StoreState.Undo | manage_log.py:321-333 | no contract of its own: undo_last_operation; StoreProperties.UndoSpec, UndoRedoOnEmptyPool and UndoRevertsMutation state it |
| StoreState.RedoOp | manage_log.py:335-347 | no contract of its own: redo_last_undo; StoreProperties.RedoSpec, UndoRedoOnEmptyPool and UndoThenRedo state it |
| StoreState.Mutate | manage_log.py:533-541 | no contract of its own: a short-term snapshot followed, when the operation found its rows, by the table write, which gives the store the write's file time `wtime`; StoreProperties.FailedOperationOnlySnapshots, UndoRevertsMutation and MutateKeepsUndoReady state it |
| StoreState.StartSession | manage_log.py:521-531 | no contract of its own: start_session with its snapshots; StoreProperties.StartSessionSpec states it |
| StoreState.LogCreate | manage_log.py:1787-1796 | no contract of its own: action_log_create; StoreProperties.LogCreateSpec states it |
| StoreState.EndSession | manage_log.py:533-541 | no contract of its own: end_session with its snapshot; StoreProperties.FailedOperationOnlySnapshots and UndoRevertsMutation state it |
| StoreState.BreakSession | manage_log.py:543-569 | no contract of its own: break_session with its snapshot; StoreProperties.FailedOperationOnlySnapshots and UndoRevertsMutation state it |
| StoreState.ResumeSession | manage_log.py:616-640 | no contract of its own: resume_session with its snapshot; StoreProperties.UndoRevertsMutation states it |
| StoreState.MergeSessions | manage_log.py:571-614 | no contract of its own: merge_sessions with its snapshot; StoreProperties.UndoRevertsMutation states it |
| StoreState.Consolidate | manage_log.py:363-395 | no contract of its own: consolidate_last_break_into_resume with its snapshot; StoreProperties.UndoRevertsMutation states it |
| StoreState.UpdateEndTimeAction | manage_log.py:1983-1989 | no contract of its own: action_log_update_end_time; StoreProperties.UpdateEndTimeActionTakesNoSnapshot states it |
| StudyLogStore.FindLatest | manage_log.py:295-301 | the scan returns the newest file of the pool, or None for an empty pool |
| StudyLogStore.FindOldest | manage_log.py:250-257 | the scan returns the first file of least mtime |
| StudyLogStore.PrunePool | manage_log.py:250-281 | the pruning loop computes the pruned pool |
| StudyLogStore.ScanLatestStart | manage_log.py:312-319 | the scan returns the model's reading of `ORDER BY start_time DESC LIMIT 1`: a row of latest start, the lowest id among equal starts |
| StudyLogStore.ScanId | manage_log.py:400-401 | the scan returns the row with the id |
| StudyLogStore.ScanStartId | manage_log.py:578-581 | the scan returns the START row with the id |
| StudyLogStore.ScanLastInRange | manage_log.py:591-592 | the scan returns the last row of session 1 |
| StudyLogStore.ScanLastOpen | manage_log.py:1924-1926 | the scan returns the open row with the greatest id |
| StudyLogStore.ScanToday | manage_log.py:1704-1706 | the scan answers whether some row starts on `today` |
| StudyLogStore.Database.constructor | manage_log.py:145-187 | the store opens in the given state |
| StudyLogStore.Database.SetPool | manage_log.py:250-281 | one pool is replaced, everything else is kept |
| StudyLogStore.Database.Backup | manage_log.py:217-243 | the new state is the backup of the old one |
| StudyLogStore.Database.Restore | manage_log.py:283-293 | the new state and status are those of restore_database |
| StudyLogStore.Database.Undo | manage_log.py:321-333 | the new state and the "found" flag are those of undo_last_operation |
| StudyLogStore.Database.RedoLastUndo | manage_log.py:335-347 | the new state and the "found" flag are those of redo_last_undo |
| StudyLogStore.Database.Insert | manage_log.py:525-529 | an INSERT appends a row with the next id and gives the file the write's time `wtime` as its mtime |
| StudyLogStore.Database.UpdateEndTime | manage_log.py:397-418 | succeeds exactly when the id exists; then the row is closed and the file's mtime becomes the write's time `wtime`, otherwise nothing changes |
| StudyLogStore.Database.StartSession | manage_log.py:521-531 | the new state is that of start_session, including the long-term snapshot before the day's first row |
| StudyLogStore.Database.LogCreate | manage_log.py:1787-1796 | the new state and status are those of action_log_create |
| StudyLogStore.Database.EndSession | manage_log.py:533-541 | the new state is that of end_session |
| StudyLogStore.Database.BreakSession | manage_log.py:543-569 | the new state and status are those of break_session |
| StudyLogStore.Database.ResumeSession | manage_log.py:616-640 | the new state is that of resume_session |
| StudyLogStore.Database.ResumeRows | manage_log.py:619-638 | after the snapshot: the table becomes the resume image when a row is open, otherwise nothing changes |
| StudyLogStore.Database.MergeSessions | manage_log.py:571-614 | the new state and error are those of merge_sessions |
| StudyLogStore.Database.MergeRows | manage_log.py:573-614 | after the snapshot: an error leaves everything as it was; success writes the merged table |
| StudyLogStore.Database.Consolidate | manage_log.py:363-395 | the new state and error are those of consolidate_last_break_into_resume |
| StudyLogStore.Database.UpdateEndTimeAction | manage_log.py:1983-1989 | the new state and status are those of update_end_time, with no snapshot |
| StudyLogStore.Database.SessionActive | manage_log.py:1922-1934 | returns what action_session_active reports for the current rows |
| StoreProperties.BackupCopiedSpec | manage_log.py:217-281 | a backup whose copy and journal append succeed adds the snapshot, appends the journal line, prunes the pool to its cap deleting oldest first, and leaves the other pools alone |
| StoreProperties.BackupJournalFailedSkipsPruning | manage_log.py:230-243 | when the journal append fails the pruning is skipped, so a full pool ends one file over its cap |
| StoreProperties.BackupKeepsNewest | manage_log.py:217-281 | a backup whose copy happened keeps a pool's unique newest file |
| StoreProperties.UndoRedoOnEmptyPool | manage_log.py:321-347 | undo with no short-term snapshot and redo with no redo snapshot change nothing and report not found |
| StoreProperties.UndoSpec | manage_log.py:321-333 | undo saves the current store into the redo pool, restores the newest short-term snapshot and deletes it; a failed restore copy leaves the table and its mtime as they were |
| StoreProperties.RedoSpec | manage_log.py:335-347 | redo saves the current store into the short-term pool, restores the newest redo snapshot and deletes it even when the restore fails; a failed restore copy leaves the table and its mtime as they were; the long-term pool is untouched |
| StoreProperties.UndoThenRedo | manage_log.py:321-347 | a redo right after an undo brings back the store as it was |
| StoreProperties.TwoUndosThenRedo | manage_log.py:321-347 | after two undos a redo returns to the state before the first undo, skipping the state between them |
| StoreProperties.UndoRevertsMutation | manage_log.py:321-333 | an undo right after any snapshotting session operation (manage_log.py lines 533-640) whose snapshot copy happened restores the store as it was before it, provided no short-term file is newer than the store and any as new holds the store's content (which holds after an operation that found nothing to change, whose snapshot ties the store) |
| StoreProperties.MutateKeepsUndoReady | manage_log.py:533-640 | a session operation whose write comes at a later file time than the store's mtime, or that writes nothing, leaves the store ready for UndoRevertsMutation, so each of a run of operations is undoable in turn |
| StoreProperties.BackupKeepsNewestHolds | manage_log.py:217-281 | a backup whose copy happened keeps what the pool's newest files hold when the store ties them only on equal content |
| StoreProperties.StartSessionSpec | manage_log.py:521-531 | start_session appends the START row, gives the store the write's file time as its mtime, takes a long-term snapshot exactly when no row starts today, and leaves a row for today |
| StoreProperties.LogCreateSpec | manage_log.py:1787-1796 | action_log_create succeeds exactly when subject and content are both non-empty; a refusal changes nothing |
| StoreProperties.FailedOperationOnlySnapshots | manage_log.py:533-555 | with no open row, break and end still take their snapshot but leave the table and its mtime alone |
| StoreProperties.UpdateEndTimeActionTakesNoSnapshot | manage_log.py:1983-1989 | the update_end_time action leaves every pool and the journal untouched and succeeds exactly when the id exists |
| DayView.ClockText | manage_log.py:908 | `%H:%M` is always five characters |
| DayView.ClockTextReadsBack | manage_log.py:908-918 | the clock text is two digits, a colon and two digits that read back as the hour and minute of the day |
| DayView.Details | manage_log.py:905-916 | one detail per row of the session, in order |
| DayView.SessionsOf | manage_log.py:887-920 | one session per run, in order |
| DayView.AddRowExtends | manage_log.py:897-919 | the per-row step of the loop turns the session of a run into the session of the run one row longer |
| DayView.FirstRow | manage_log.py:891-919 | a fresh session after its first row is the session of that one row |
| DayView.RunsSnoc | manage_log.py:891-896 | a START row opens a new run; any other row extends the last run, or is dropped before the first START |
| DayView.GroupSessions | manage_log.py:887-920 | the grouping loop produces the sessions of the runs, one per START row |
| DayView.StartStep | manage_log.py:891-896 | a START row closes the session being built and starts a new one |
| DayView.ContinueStep | manage_log.py:897-919 | a non-START row is added to the session being built |
| DayView.FirstStart | manage_log.py:887-897 | the index of the first START row: no START before it, a START at it |
| DayView.RunsCoverFromFirstStart | manage_log.py:887-920 | the sessions hold exactly the rows from the first START on, in order: earlier rows are dropped, no later row is |
| DayView.RunsCoverSnoc | manage_log.py:887-920 | the step of the coverage proof: one more row |
| DayView.RunsStartOnce | manage_log.py:891-896 | each session is one START row followed by rows that are not STARTs |
| DayView.RunsCountStarts | manage_log.py:891-896 | there is one session per START row |
| DayView.DayTotalIsStudyMinutes | manage_log.py:902-924 | the day total is the sum of the START and RESUME minutes of the rows from the first START on |
| DayView.DayTotalFlatten | manage_log.py:924 | the sum of the session totals is the study minutes of all their rows |
| DayView.StudyMinutesAppend | manage_log.py:903-904 | study minutes add up over concatenation |
| DayView.SubjectsStudiedFails | manage_log.py:925 | `sorted(set(...))` raises exactly when a NULL subject meets a non-NULL one |
| DayView.SubjectsStudiedSorted | manage_log.py:925 | otherwise the subjects are each session subject once, in ascending order |
| DayView.SubjectsStudied | manage_log.py:925 | no contract of its own: `sorted(list(set(...)))` of the session subjects; DayView.SubjectsStudiedFails and SubjectsStudiedSorted state it |
| DayView.DayTotal | manage_log.py:924 | no contract of its own: the sum of the session totals; DayView.DayTotalIsStudyMinutes states it |
| DayView.Runs | manage_log.py:887-920 | no contract of its own: the rows cut into runs, each opened by a START row; DayView.RunsCoverFromFirstStart, RunsStartOnce and RunsCountStarts state it |
| DayView.SortedDistinct | manage_log.py:925 | `sorted(set(xs))` holds each element of `xs` once |
| DayView.Subjects | manage_log.py:925 | one subject per session, in order |
| DayView.Streak | manage_log.py:1126-1136 | the streak is positive exactly when today has a row; every day of the streak has a row and the day before it does not |
| Tags.IsTagChar | manage_log.py:1236 | no contract of its own: the character class `[\w\u0080-\uFFFF\-]` limited to the BMP; Tags.TagRun and HashtagsAreNames state it |
| Tags.TagRun | manage_log.py:1236 | the run of tag characters from a position: every character in it is a tag character and the one after it is not |
| Tags.HashtagsAreNames | manage_log.py:1236-1241 | every name the pattern finds is a non-empty run of tag characters right after a `#` or `＃` and not followed by another tag character |
| Tags.HashtagsFrom | manage_log.py:1236-1241 | no contract of its own: the names `finditer` finds from a position; Tags.HashtagsAreNames and Tags.HashtagsSplitFrom state it |
| Tags.Hashtags | manage_log.py:1238-1241 | no contract of its own: _extract_hashtags_from_text, empty for a missing or empty text |
| Tags.HashtagsSuffix | manage_log.py:1236-1241 | the names found depend only on the text from where the scan starts |
| Tags.HashtagsShift | manage_log.py:1236-1241 | scanning after a prefix finds what scanning the rest alone finds |
| Tags.TagRunPrefix | manage_log.py:1236 | a run stops at a following character that is not a tag character |
| Tags.HashtagsSplitFrom | manage_log.py:1236-1241 | text joined by a separator that is neither a marker nor a tag character yields the tags of each side, in order |
| Tags.HashtagsOfJoin | manage_log.py:1322-1323 | the tags of the newline-joined text fields of a row are the tags of each field, in field order |
| Tags.HashtagOfName | manage_log.py:1236-1241 | a marker directly followed by a tag name yields exactly that name |
| Tags.NoMarkNoTags | manage_log.py:1236-1241 | text without `#` or `＃` has no tags |
| Tags.Clip | manage_log.py:1247-1248 | the text itself when it fits; otherwise its first `max` characters and an ellipsis |
| Tags.BlankStrips | manage_log.py:1244-1247 | a field is skipped exactly when it is missing or `strip()` leaves nothing |
| Tags.FirstFilled | manage_log.py:1244-1248 | the position of the first field that is not blank |
| Tags.FirstFilledAfterBlanks | manage_log.py:1244-1248 | every field before that position is blank |
| Tags.PreviewSpec | manage_log.py:1243-1249 | the preview is the first non-blank field, stripped and clipped to 80 characters with an ellipsis; it is empty exactly when every field is blank; it is at most 81 characters |
| Tags.Preview | manage_log.py:1243-1249 | no contract of its own: _make_preview; Tags.PreviewSpec states it |
| Tags.FirstMatchIndex | manage_log.py:1260-1273 | -1 for an empty text or when no non-empty term occurs in the normalized text; otherwise the least position at which some non-empty term occurs |
| Tags.SnippetParts | manage_log.py:1275-1290 | for a valid match position the snippet is the window of `max_len // 2` characters on each side, with an ellipsis on each side that was cut |
| Tags.CenteredSnippetHoldsMatch | manage_log.py:1275-1290 | the snippet holds the matched text, cut at the end of the text |
| Tags.CenteredSnippetLength | manage_log.py:1283-1290 | the snippet is at most the match plus `max_len // 2` on each side plus two ellipses |
| Tags.CenteredSnippetEnds | manage_log.py:1283-1290 | an ellipsis stands exactly where the text was cut; otherwise the snippet starts with the text's beginning or ends with its end |
| Tags.CenteredSnippet | manage_log.py:1275-1290 | no contract of its own: _make_centered_snippet; Tags.CenteredSnippetHoldsMatch, CenteredSnippetLength and CenteredSnippetEnds state it |
| Tags.WithinRangeMonotone | manage_log.py:1353-1367 | widening the range never drops a date, and a range whose start is after its end holds no date |
| Tags.WithinRange | manage_log.py:1353-1367 | no contract of its own: _within_range on day numbers; Tags.WithinRangeMonotone states it |
| TagCounts.GoalTagNames | manage_log.py:1310-1314 | a goal's tag names are stripped and never empty |
| TagCounts.CountPositive | manage_log.py:1313-1331 | a name is counted exactly when it occurs in the stream |
| TagCounts.SourceSnoc | manage_log.py:1315-1331 | the reported source after one more occurrence: a goal occurrence overwrites, any other source is kept by `setdefault` once set |
| TagCounts.CountTags | manage_log.py:1300-1331 | the counting loops: names in first-seen order without repeats, each occurring name counted with its true count and its reported source |
| TagCounts.TallyStep | manage_log.py:1313-1331 | one turn of the counting loop keeps the dicts in step with the stream |
| TagCounts.CountsStep | manage_log.py:1314-1330 | the count part of that step |
| TagCounts.SourcesStep | manage_log.py:1315-1331 | the source part of that step |
| TagCounts.TagKeyOrder | manage_log.py:1348 | items come in descending count, then ascending name |
| TagCounts.ParseLimit | manage_log.py:1297-1300 | the limit is used exactly when its text is non-empty and all digits |
| TagCounts.SelectItems | manage_log.py:1333-1342 | one item per counted name that starts with the prefix, with its count and source, no name twice, none missing |
| TagCounts.GetAllTags | manage_log.py:1292-1351 | the items are the selected names with their true counts and sources, no name twice, ordered by count then name; without a limit every selected name is listed, with a limit the list is the first `limit` items of that ordering (every selected name when there are fewer), so no name left out ranks before one kept |
| TagCounts.RankTags | manage_log.py:1337-1350 | selection, sort and cut give a ranked list: true, distinct, sorted, complete or cut at the limit, and never keeping a name that ranks after one left out |
| TagCounts.SelectedTrue | manage_log.py:1333-1342 | the selected items are true and complete |
| TagCounts.Reordered | manage_log.py:1348 | sorting keeps the items true, complete and distinct |
| TagCounts.Truncated | manage_log.py:1349-1350 | cutting the complete sorted list to the limit keeps the items true, distinct and sorted, and every name left out ranks after every name kept |
| TagCounts.RankedIsTopSlice | manage_log.py:1347-1350 | any ranked list under a limit `k` has exactly `min(k, n)` items and is the first part of the full ranking of the `n` selected names, so the limited answer is fully determined |
| TagCounts.CompleteKeepsAll | manage_log.py:1347-1350 | a list holding every selected name leaves out nothing that could rank before it |
| TagCounts.SamePrefix | manage_log.py:1347-1350 | a list cut from the ranking and the full ranking agree item by item on their common length |
| TagCounts.SamePrefixStep | manage_log.py:1347-1350 | when the first `p` items agree, the next one agrees too |
| TagCounts.KeptNoLater | manage_log.py:1347-1350 | the `i`th kept item ranks no later than the `i`th item of the full ranking, once the items before agree |
| TagCounts.FullNoLater | manage_log.py:1347-1350 | the `i`th item of the full ranking ranks no later than the `i`th kept item, once the items before agree |
| TagCounts.TagKeyInjective | manage_log.py:1348 | the sort key `(-count, name)` tells apart items of different name or count |
| TagCounts.SameNameSameItem | manage_log.py:1341-1345 | two true items of the same name are the same item |
| TagCounts.GoalStreamNames | manage_log.py:1305-1315 | the goal stream holds the goal tag names, each marked goal |
| TagCounts.GoalSourceIffGoalTag | manage_log.py:1315-1331 | a listed tag is reported as a goal tag exactly when some goal lists it |
| TagCounts.EntrySources | manage_log.py:1318-1325 | every occurrence from a study-log row is marked entry |
| TagCounts.SummarySources | manage_log.py:1327-1331 | every occurrence from a daily summary is marked summary |
| TagCounts.FirstSourceIn | manage_log.py:1325-1331 | the first-seen source is the source of an actual occurrence |
| Search.SortHits | manage_log.py:1622-1628 | sorting only reorders the hits, and stably: hits of equal key (for relevance, the same score and date) keep their input order |
| Search.RelevanceOrder | manage_log.py:1624 | relevance order: scores never increase, and among equal scores the later date comes first |
| Search.OldestOrder | manage_log.py:1625-1626 | `oldest`: dates never decrease, a hit without a date counting as "" |
| Search.NewestOrder | manage_log.py:1627-1628 | any other order, and relevance without query words: dates never increase |
| Search.SliceBound | manage_log.py:1630 | a Python slice bound: negative counts from the end, both ends clamped |
| Search.PySlice | manage_log.py:1630 | `items[start:stop]` is the window between the clamped bounds, empty when they cross |
| Search.Paginate | manage_log.py:1629-1639 | the total is the number of hits; more remain exactly when offset + limit is below it; the next offset moves by the limit only then |
| Search.SearchAnswer | manage_log.py:1622-1639 | the total counts every hit |
| Search.PageWindow | manage_log.py:1630 | for a non-negative offset and limit the page is the window of at most `limit` hits from `offset` |
| Search.PagesTile | manage_log.py:1630-1632 | when more remain, the page is full and it and the next page together make the page of twice the limit |
| Search.LastPage | manage_log.py:1630-1632 | when nothing is left the page runs to the end and the next offset stays put |
| Search.NegativeOffsetPage | manage_log.py:1630-1632 | a negative offset `-k` with limit `k` gives an empty page that still reports more and a next offset of 0 |
| Ordering.LexLeTotal | manage_log.py:1348 | tuple keys compare totally |
| Ordering.LexLeTrans | manage_log.py:1348 | tuple key order is transitive |
| Ordering.LexLeAntisym | manage_log.py:1348 | tuple keys that compare both ways are equal |
| Ordering.StrKeyField | manage_log.py:1624-1628 | a string field followed by further fields compares as the string does, and only equal strings let the later fields decide |
| Ordering.InsertAsc | manage_log.py:1348 | inserting into an ascending sequence keeps it ascending and adds exactly the element |
| Ordering.InsertDesc | manage_log.py:1624 | inserting into a descending sequence keeps it descending and adds exactly the element |
| Ordering.SortAsc | manage_log.py:1348 | `sorted(xs, key=...)` is ascending by key, a permutation of `xs`, and stable: for every key, the elements with that key come in their order in `xs` |
| Ordering.SortDesc | manage_log.py:1624-1628 | `sorted(..., reverse=True)` is descending by key, a permutation, and stable: for every key, the elements with that key come in their input order |
| Ordering.InsertAscStable | manage_log.py:1348 | inserting into an ascending sequence keeps the order of the elements of each key, and puts the new element after those of its own key |
| Ordering.InsertDescStable | manage_log.py:1624-1628 | the same for a descending sequence |
| Text.IndexOfFrom | manage_log.py:1266 | `find` from a position: -1 exactly when no occurrence follows, otherwise the first one |
| Text.IndexOf | manage_log.py:1266 | `find`: -1 exactly when the text does not occur, otherwise its first position |
| Text.TrimAll | webnew/rescue-chat-app/app/api/settings/route.ts:34 | `map(s => s.trim())` trims each piece |
| Text.NonEmpty | webnew/rescue-chat-app/app/api/settings/route.ts:34 | `.filter(Boolean)` keeps exactly the non-empty strings |
| Text.Split | webnew/rescue-chat-app/app/api/settings/route.ts:39 | `split` gives at least one piece and no piece holds the separator |
| Text.SplitJoin | webnew/rescue-chat-app/app/api/settings/route.ts:39 | joining the pieces of a split with the separator gives the text back |
| Text.JoinSplit | webnew/rescue-chat-app/app/api/settings/route.ts:39 | splitting pieces joined by a separator they do not contain gives the pieces back |
| Text.Pad2 | webnew/server.js:2545-2547 | `padStart(2, '0')` gives at least two digits, exactly two below 100 |
| Text.Pad2RoundTrip | webnew/server.js:2545-2547 | the padded text reads back as the number |
| Text.TruncDiv | manage_log.py:410 | division truncating toward zero |
| StreamText.FormatElapsed | webnew/server.js:2529-2549 | the label starts with `+` and has at least three more characters; a missing, negative or not-earlier previous time gives `+00s` |
| StreamText.ReadParts | webnew/server.js:2545-2548 | the hour, minute and second parts read back as the seconds they stand for, a part being present only when the source pushes it |
| StreamText.ElapsedPartsReadBack | webnew/server.js:2538-2548 | the parts of a whole number of seconds read back as that number |
| StreamText.FormatElapsedReadBack | webnew/server.js:2529-2549 | the label reads back as the whole seconds elapsed, or 0 for a missing, negative or later previous time |
| StreamText.TruncateHistoryString | webnew/server.js:3038-3045 | text within 35000 characters is kept; longer text becomes a prefix of it followed by the `[truncated N chars]` marker, 35000 characters in all when the marker fits |
| StreamText.TruncatedLength | webnew/server.js:3038-3045 | below a billion characters the cut text is exactly 35000 long, ends with the marker, and the marker's number reads back as the count removed |
| StreamText.SuffixFits | webnew/server.js:3042-3043 | the marker for a count below a billion is shorter than the limit |
| StreamText.EndsWithCaughtEarlier | webnew/server.js:4750-4758 | a chunk that is a suffix of the text so far is already caught by the containment test, so that later branch is dead |
| StreamText.ExtractNewStreamSegment | webnew/server.js:4746-4766 | the new segment is a suffix of the chunk and appending it makes the text contain the chunk; empty chunk gives nothing, empty text gives the chunk, a chunk already contained gives nothing, an extension gives the extension, otherwise the chunk after its longest overlap with the end of the text |
| DailySummary.HmMatch | webnew/server.js:925 | the two groups of `/^(\d{1,2})(?::?(\d{2}))?$/` are digits |
| DailySummary.HmMatchSound | webnew/server.js:925 | a match has the pattern's shape: one or two hour digits, then optionally an optional colon and two minute digits |
| DailySummary.HmMatchComplete | webnew/server.js:925 | every text of that shape matches, with those groups |
| DailySummary.ClockIfValid | webnew/server.js:929-931 | a time is returned exactly when the hour is in 0..23 and the minute in 0..59 |
| DailySummary.Pad4 | webnew/server.js:934 | `padStart(4, '0')` of three or four digits gives two hour digits and two minute digits |
| DailySummary.ParseTimeText | webnew/server.js:922-924 | blank text parses to nothing |
| DailySummary.ParseDailySummaryTime | webnew/server.js:920-959 | any parsed time is a valid clock time; null, undefined and booleans give nothing |
| DailySummary.DigitBranchAgrees | webnew/server.js:925-941 | for three or four digits the pattern branch already matches and splits them as the padded branch would, so the second branch never adds a time |
| DailySummary.AcceptedForms | webnew/server.js:922-942 | `HH`, `HH:MM` and `HHMM` of a valid time parse to that time |
| DailySummary.AcceptedShortForms | webnew/server.js:922-942 | `H`, `H:MM` and `HMM` parse too |
| DailySummary.Accepts | webnew/server.js:925-932 | every pattern-shaped text of a valid time parses to that time |
| DailySummary.DefaultTimeParses | webnew/server.js:983 | the default `23:00` parses to 23:00 |
| DailySummary.NormalizeDailySummaryConfig | webnew/server.js:962-992 | the schedule's time is a valid clock time |
| DailySummary.NormalizeSpec | webnew/server.js:962-992 | a schedule exists exactly when the source is an object or array and `enabled` is not false; its label is `HH:MM` reading back as its hour and minute; an unusable time falls back to 23:00 |
| DailySummary.LabelReadsBack | webnew/server.js:985-990 | `pad(h):pad(m)` is five characters that read back as `h` and `m` |
| DailySummary.NoConfigMeansDefault | webnew/server.js:963-964 | no configuration at all schedules 23:00 |
| DailySummary.ObjectFields | webnew/server.js:952-956 | an object with `hour` and `minute` set is read through `Number` of each, kept exactly when the two make a valid clock time |
| DailySummary.ObjectBranch | webnew/server.js:951 | objects and arrays take the field branch |
| DailySummary.ObjectTexts | webnew/server.js:951-956 | an object whose hour and minute texts `Number` reads as integers gives those integers, when they make a valid clock time |
| DailySummary.ObjectTextTime | webnew/server.js:951-956 | an object whose hour and minute are integer text in any sign reads as those integers, kept exactly when they make a valid clock time |
| QuietHours.Normalized | webnew/server.js:3551-3560 | the normalised time has an hour in 0..23 and a minute in 0..59, and its total is hour * 60 + minute |
| QuietHours.NormalizedIsMinuteOfDay | webnew/server.js:3551-3560 | the total is the input's minute count taken modulo a day |
| QuietHours.WrapHour | webnew/server.js:3558 | `((h % 24) + 24) % 24` is the non-negative remainder of the hour |
| QuietHours.Finalize | webnew/server.js:3551-3560 | the carry loops reach the normalised time |
| QuietHours.CarryAgrees | webnew/server.js:3555-3556 | the carry keeps hour * 60 + minute and leaves the minute in 0..59 |
| QuietHours.ReadText | webnew/server.js:3568-3585 | the text branch: colon text (null unless both numbers are finite), then three or four digits, then `Number` of the text read as hours (null when not finite) |
| QuietHours.ParseQuietHourComponent | webnew/server.js:3549-3589 | the parser returns the reading the specification function gives |
| QuietHours.QuietSpecBounds | webnew/server.js:3549-3589 | any time read has an hour in 0..23, a minute in 0..59 and the matching total |
| QuietHours.TextReadingBounds | webnew/server.js:3568-3585 | the same for text |
| QuietHours.DigitsText | webnew/server.js:3573-3574 | `Number` of a non-empty digit string is its decimal value, a whole number |
| QuietHours.ColonReadingDigits | webnew/server.js:3571-3575 | `H:M` of digits reads as the normalised time of those numbers |
| QuietHours.ClockTextReadsBack | webnew/server.js:3567-3575 | a padded `HH:MM` of a valid time reads back as that time |
| QuietHours.DigitsClockReading | webnew/server.js:3567-3575 | digits around a colon read as the normalised time of those numbers |
| QuietHours.CarryAndWrap | webnew/server.js:3555-3558 | 23:90 becomes 00:30 and 25:00 becomes 01:00 |
| QuietHours.NegativeHoursWrap | webnew/server.js:3582-3585 | a negative whole number of hours as text counts back from midnight, so `-5` is 19:00 |
| QuietHours.PlainNumberText | webnew/server.js:3568-3582 | trimmed text with no colon that is not all digits goes to `Number` of the text |
| QuietHours.WholeNumberReading | webnew/server.js:3582-3585 | text that `Number` reads as the whole number `n` is `n` hours past midnight |
| Cron.RangeSetMembers | webnew/server.js:2138 | every value `addRange(a, b, step)` adds lies in `[a, b]` and is `a` plus a whole number of steps |
| Cron.RangeSetHas | webnew/server.js:2138 | every such value is added |
| Cron.RangeSetBounds | webnew/server.js:2138 | the added values lie between `a` and `b` |
| Cron.AddRange | webnew/server.js:2138 | the loop adds exactly the stepped values from `a` to `b` |
| Cron.AddToken | webnew/server.js:2141-2146 | one token adds exactly the values it selects: `*`, `*/n`, `a-b[/n]` or a clamped number |
| Cron.ParsePart | webnew/server.js:2136-2149 | the field's set is the union of what its comma-separated tokens select (an empty field reads as `*`) |
| Cron.TokenWithinBounds | webnew/server.js:2141-2146 | each token selects only values between `min` and `max` |
| Cron.PartWithinBounds | webnew/server.js:2136-2149 | a field selects only values between `min` and `max` |
| Cron.StarSelectsAll | webnew/server.js:2140-2142 | an empty field selects every value from `min` to `max` |
| Cron.EmptyFieldIsStar | webnew/server.js:2140 | an empty field is read as `*` |
| Cron.EmptyItemSelectsZero | webnew/server.js:2145 | an empty item (as in `5,`) is `Number("") == 0`, clamped into range and selected |
| Cron.AddNumber | webnew/server.js:2145 | a number token adds exactly the values `NumberValues` gives: the clamp of a finite value, nothing for NaN or the infinities |
| Cron.ClampedWhole | webnew/server.js:2145 | for a whole number, the values a number token selects are its clamp into `[min, max]` |
| Cron.ClampedWithin | webnew/server.js:2145 | a number token selects only values between `min` and `max`, whatever its sign, exponent or fraction |
| JsValues.StringNumber | webnew/server.js:2145 | no contract of its own: `Number` of text, exact; DigitsNumber, SignedDigits, PointForm and ExponentForm state it |
| JsValues.NumberOf | webnew/server.js:952-954 | no contract of its own: `Number(v)` when it is a whole number, a lone array element being read through its own string form; NumberOfIntText, DigitsNumber and NestedArrayNumber state it |
| JsValues.NestedArrayNumber | webnew/server.js:952-954 | a lone array element that is itself an array reads as that array does, so `[[5]]` is 5 and `[[]]` and `[[null]]` are 0 |
| JsValues.IntegerOf | webnew/server.js:955 | no contract of its own: the whole value of a decimal; IntegerCompare and UnscaledShifted state it |
| JsValues.DigitsNumber | webnew/server.js:2145 | `Number` of trimmed digits (or of blank text) is their decimal value |
| JsValues.NumberOfIntText | webnew/server.js:952-955 | `Number(String(n))` is `n` for every integer, sign included |
| JsValues.PointForm | webnew/server.js:2145 | `5.0` is read as 50 times ten to the minus one, the whole number 5 |
| JsValues.ExponentForm | webnew/server.js:2145 | `5e1` is read as 5 times ten, the whole number 50 |
| JsValues.SignedDigits | webnew/server.js:952-955 | a minus sign before digits reads as the negated decimal value of the digits |
| JsValues.NegativeText | webnew/server.js:952-955 | `Number` of `-` and the decimal form of `k` is `-k` |
| JsValues.NonNegativeText | webnew/server.js:952-955 | `Number` of the decimal form of `k` is `k` |
| JsValues.IntegerCompare | webnew/server.js:2145 | a whole decimal compares with an integer as its value does |
| JsValues.ExponentMark | webnew/server.js:2145 | an index within the text that holds `e` or `E` unless it is the length |
| JsValues.ExponentMarkFirst | webnew/server.js:2145 | no `e` or `E` comes before the mark, so it is the first one |
| JsValues.UnscaledShifted | webnew/server.js:2145 | dividing out a power of ten is undone by multiplying it back |
| JsValues.ShiftedMonotone | webnew/server.js:2145 | multiplying by a power of ten keeps the order of two integers |
| ContextActions.AliasKey | webnew/server.js:1688 | `replace(/[^a-z0-9]+/g, '')` keeps only lower-case letters and digits, and leaves a text of nothing else as it is |
| ContextActions.AliasKeyConcat | webnew/server.js:1688 | the key of a concatenation is the concatenation of the keys, and a single character keeps itself exactly when it is a lower-case letter or digit: every such character is kept, in order, and nothing else |
| ContextActions.RemoveSpaces | webnew/server.js:1690 | `replace(/\s+/g, '')` leaves no white space |
| ContextActions.Resolve | webnew/server.js:1687-1692 | a resolved name is always an allowed action |
| ContextActions.NormalizeContextEventAction | webnew/server.js:1684-1693 | the result is always an allowed action, and blank input gives null |
| ContextActions.CollapseRemoves | webnew/server.js:1690 | replacing runs of `:` by `.` (and `-` by `_`) leaves none of the replaced character |
| ContextActions.CollapseNoDouble | webnew/server.js:1690 | collapsing runs of a character leaves it never doubled, and keeps undoubled characters undoubled |
| ContextActions.CleanedShape | webnew/server.js:1690 | the spelling clean-up leaves no `:`, `-` or white space, and no doubled `_` or `.` |
| ContextActions.TrimEndLower | webnew/server.js:1686 | trimming the end and lower-casing commute |
| ContextActions.CaseInsensitive | webnew/server.js:1686 | the action name is read case-insensitively |
| ContextActions.AliasTargetsAllowed | webnew/server.js:1397-1448 | every alias leads to an allowed action |
| ContextActions.DottedAliasesUnused | webnew/server.js:1413-1448 | lookup keys hold only letters and digits, so the dotted alias entries are never consulted |
| ContextActions.CollapseSingles | webnew/server.js:1690 | collapsing runs of a character that never doubles changes nothing |
| ContextActions.CleanedKeepsCanonical | webnew/server.js:1690 | the clean-up leaves a canonical name alone |
| ContextActions.AllowedActionFixed | webnew/server.js:1684-1693 | an allowed action in canonical spelling, not aliased to another action, normalises to itself |
| ToolHistory.MapToolStatus | webnew/server.js:4070-4078 | empty status gives undefined; otherwise each status is reported exactly when the lower-cased text is one of its words |
| ToolHistory.StatusNameRoundTrip | webnew/server.js:4070-4078 | each reported status name maps back to itself |
| ToolHistory.MapToolStatusIgnoresCase | webnew/server.js:4072 | the status is read case-insensitively |
| ToolHistory.FindLastToolHistoryIndex | webnew/server.js:4157-4167 | -1 or the index of a tool card for the call id, with no such card after it |
| PendingNotify.Payload | webnew/server.js:625-631 | the request's fields with their defaults: a non-empty single source, intent and user |
| PendingNotify.LastN | webnew/server.js:652-653 | `slice(-n)`: the last `n` elements, or all of them when there are fewer |
| PendingNotify.NotifyQueue.constructor | webnew/server.js:622 | nothing is parked at first |
| PendingNotify.NotifyQueue.SetPendingNotifyRun | webnew/server.js:622-656 | the parked run becomes the merge of the old one with the request; a missing request changes nothing |
| PendingNotify.MergeSourcesValid | webnew/server.js:641-655 | merging a source keeps the sources one non-empty name or a list of two to four distinct non-empty names |
| PendingNotify.LastNDistinct | webnew/server.js:650-653 | the last `n` of a list without repeats plus a new name have no repeats |
| PendingNotify.LastNFrom | webnew/server.js:650-653 | each kept name is the new one or an old one |
| PendingNotify.MergedValid | webnew/server.js:622-656 | every merge keeps the parked run valid |
| PendingNotify.LatestSourceRecorded | webnew/server.js:641-655 | the latest request's source is always among the parked sources |
| PendingNotify.MergeKeepsEarliestAndLatest | webnew/server.js:638-640 | the merged run keeps the earliest request time, the later user and the first intent, and lets the later context's keys win over the earlier ones |
| PendingNotify.FirstRequestParked | webnew/server.js:625-636 | the first request is parked with `scheduler`, `auto` and `local` as defaults and `now` as its time when it has none |
| PendingNotify.SameSourceStaysSingle | webnew/server.js:642-646 | a repeated single source stays single |
| HiddenDecision.TopVisible | webnew/server.js:3408-3414 | the topmost entry that does not suppress the busy state, or -1 when every entry suppresses it |
| HiddenDecision.HiddenDecisions.constructor | webnew/server.js:3378 | no decision is open, no busy signal was sent and no queue was drained |
| HiddenDecision.HiddenDecisions.Begin | webnew/server.js:3378-3385 | the depth grows by one, the entry is pushed, the flag is set, and a busy signal with the reason is sent unless suppressed |
| HiddenDecision.HiddenDecisions.End | webnew/server.js:3387-3424 | the state steps back (or resets when nothing was open); the busy signal is that of the top visible entry or off; the queues are drained exactly when the nesting closes |
| HiddenDecision.StepsKeepConsistent | webnew/server.js:3378-3424 | depth equals the stack size and the flag is set exactly while some decision is open |
| HiddenDecision.EndUndoesBegin | webnew/server.js:3378-3424 | an end right after a begin restores the state, and an end with nothing open resets everything |
| HiddenDecision.EndSignalIsTopVisible | webnew/server.js:3406-3422 | after an inner end the busy reason shown is that of the topmost remaining entry that does not suppress it; with none the busy state is off |
| HiddenDecision.SuppressedEntryHidden | webnew/server.js:3381-3384 | a suppressed decision on a stack of suppressed ones leaves no busy reason to show |
| PortCandidates.Position | webnew/server.js:59 | `indexOf`: the first position of the value, or the length exactly when it is absent |
| PortCandidates.AddCandidate | webnew/server.js:404-408 | a positive finite port not yet listed is appended; anything else leaves the list as it was; the list stays distinct and positive |
| PortCandidates.PositionInPrefix | webnew/server.js:404-408 | appending keeps the position of every listed port |
| PortCandidates.LeadingCandidates | webnew/server.js:409-416 | the requested port first, then 443 and the fallback in the order the fallback calls for |
| PortCandidates.DefaultOrder | webnew/server.js:410-413 | without a custom fallback, 443 comes before 3000 |
| PortCandidates.CustomOrder | webnew/server.js:413-416 | with a custom fallback, the fallback comes before 443 |
| PortCandidates.BuildPortCandidates | webnew/server.js:402-422 | distinct positive ports from the requested port, the fallback, 443, 3000, 8443 and 8080; the requested port first when valid; all four fixed ports always present; the fallback before 443 when custom, otherwise 443 before 3000 |
| PortCandidates.TrailingCandidates | webnew/server.js:417-419 | 3000, 8443 and 8080 are added after the leading ports |
| JsonBlock.SkipFrom | webnew/server.js:1502-1509 | the first position from `i` that is not white space or prefix punctuation |
| JsonBlock.FindJsonObjectStart | webnew/server.js:1499-1512 | -1, or the position of a `{` reached from the start over white space and prefix punctuation only; -1 from a valid start means the first other character is not `{` |
| JsonBlock.ExtractBalancedJsonBlock | webnew/server.js:1514-1547 | null when the start is not a `{`; otherwise the text up to the first brace outside strings that brings the depth back to zero, or null when no such brace exists |
| JsonBlock.StepDepth | webnew/server.js:1520-1544 | braces inside strings leave the depth alone; outside, `{` adds one and `}` takes one away |
| JsonBlock.BlockDepths | webnew/server.js:1514-1547 | in the extracted block every proper prefix has positive depth, and the whole block has depth zero with its last brace outside any string |
| JsonBlock.PrefixDepthPositive | webnew/server.js:1539-1543 | before the first closing point the depth stays at least one |
| CommandKeys.SplitCommandLine | webnew/server.js:3841-3859 | the tokenizer loop computes the scan over the command line and never emits an empty token |
| CommandKeys.ScanNoEmpty | webnew/server.js:3854-3857 | a token is pushed only when it is non-empty |
| CommandKeys.ScanJoin | webnew/server.js:3846-3857 | plain words joined by spaces scan as those words |
| CommandKeys.PlainWordsRoundTrip | webnew/server.js:3841-3859 | splitting space-joined plain words gives the words back |
| CommandKeys.QuotedRunIsOneToken | webnew/server.js:3848-3853 | a quoted run with no quote or backslash inside is one token, spaces included, quotes dropped |
| CommandKeys.EscapeInsideQuotes | webnew/server.js:3850 | a backslash inside quotes keeps the next character |
| CommandKeys.WordRunEnd | webnew/server.js:3868 | the end of the run of word characters from a position |
| CommandKeys.Skipped | webnew/server.js:3865-3872 | the number of leading tokens skipped is at most the token count |
| CommandKeys.SkippedStopsAtCommandWord | webnew/server.js:3865-3872 | the skip stops at a token that is neither an assignment, `sudo` nor `env` |
| CommandKeys.LookupScript | webnew/server.js:3891-3893 | a found script name comes from the table entry for that basename |
| CommandKeys.SkipLeading | webnew/server.js:3865-3872 | the skipping loop stops where the specification function `Skipped` does |
| CommandKeys.SkippedAfterAssignment | webnew/server.js:3868 | an assignment is skipped alone |
| CommandKeys.SkippedAfterOptions | webnew/server.js:3869-3870 | `sudo` skips its flags and `env` its flags and assignments |
| CommandKeys.SkipSudoFlags | webnew/server.js:3869 | the inner loop skips exactly the run of flags |
| CommandKeys.SkipEnvOptions | webnew/server.js:3870 | the inner loop skips exactly the run of flags and assignments |
| CommandKeys.FindScript | webnew/server.js:3882-3895 | the flag walk finds the script `ScriptArg` names, stopping at `-m`, `-c`, `--`, an empty token or the first non-flag |
| CommandKeys.DeriveCommandKeyFromTokens | webnew/server.js:3861-3904 | the classifier returns the command key of the tokens |
| CommandKeys.AssignmentSkipped | webnew/server.js:3868 | a leading assignment does not change the key |
| CommandKeys.FlagRunAppend | webnew/server.js:3869 | the flag run of flags followed by a non-flag is exactly the flags |
| CommandKeys.EnvRunAppend | webnew/server.js:3870 | the same for `env` options |
| CommandKeys.OptionsSkipped | webnew/server.js:3869-3870 | the key after `sudo` or `env` and what they skip is the key of the rest |
| CommandKeys.SudoSkipped | webnew/server.js:3869 | `sudo` and its flags do not change the key |
| CommandKeys.EnvSkipped | webnew/server.js:3870 | `env` and its options do not change the key |
| CommandKeys.SkippedWordsNeverHead | webnew/server.js:3865-3872 | `sudo` and `env` never become the key's command word |
| CommandKeys.ScriptTablesAgree | webnew/server.js:3891-3893 | the server's script table and the worker's (webnew/background-gemini.js lines 276-329) find the same script, except that only the server knows notify_tool.py |
| CommandKeys.ClassifiersDifferOnlyOnNotifyTool | webnew/server.js:3861-3904 | the server and worker classifiers agree except that the server says `python:notify_tool` where the worker says `python` |
| CommandKeys.RunnerKeys | webnew/server.js:3874-3899 | `npm run x`, `npx x` and `yarn x` get runner keys; any other plain command word gets `shell:` and the word |
| Permission.TitleWord | webnew/background-gemini.js:344 | the matched title prefix is `shell` (5) or `terminal` (8) in any case, or nothing |
| Permission.TitleCommandIsMatch | webnew/background-gemini.js:344-345 | the title command exists exactly when the title splits as prefix, separators and a non-empty rest with no line terminator, and it is the rest after the longest separator run |
| Permission.CutAtOperator | webnew/background-gemini.js:350-351 | the tokens are cut before the first `&&`, `\|\|`, `;` or `\|`, and kept whole when there is none |
| Permission.StripQuotes | webnew/background-gemini.js:354 | at most one quote character is dropped from each end |
| Permission.FirstWord | webnew/background-gemini.js:362 | the first word is the leading run of non-space characters |
| Permission.FallbackKey | webnew/background-gemini.js:362-363 | the fallback key is never empty (`tool` when the title has no word) |
| Permission.DeriveCommandKey | webnew/background-gemini.js:331-366 | the key is never empty, and a `python3 … manage_log.py` mention in title or path gives `python3:manage_log` |
| Permission.Python3ManageLogKey | webnew/background-gemini.js:337-339 | any occurrence of `python3`, a blank and `manage_log.py` later on the same line gives `python3:manage_log` |
| Permission.ShellKeyFromClassifier | webnew/background-gemini.js:348-360 | with no script pattern matched and no shell wrapper, the key is the token classifier's key of the command string |
| Permission.FindKind | webnew/background-gemini.js:690-691 | the first option of the wanted kind, or none when no option has it |
| Permission.FindId | webnew/background-gemini.js:690-691 | an option with the wanted id, or none when no option has it |
| Permission.Decide | webnew/background-gemini.js:687-718 | a selected outcome always names a non-empty option id |
| Permission.NoToolCallDenied | webnew/background-gemini.js:692-699 | a request without a tool call is answered with the deny option (kind `deny`, else id `cancel`) or rejected |
| Permission.DenyNamesDenyOption | webnew/background-gemini.js:691-714 | the deny answer names an offered option of kind `deny` or id `cancel` |
| Permission.AllowPicksAllowOnce | webnew/background-gemini.js:690-712 | the allow answer selects the first `allow_once` option when there is one, otherwise `proceed_once` or an offered id |
| Permission.OnlyHelperScriptsAllowed | webnew/background-gemini.js:700-717 | a tool call is allowed only with a python key and a mention of manage_log.py, manage_context.py or notify_tool.py; anything else gets the no-tool-call answer |
| Permission.AllowedIffAllowOutcome | webnew/background-gemini.js:710-717 | when allow and deny answers differ, the allow answer is given exactly for allowed tool calls |
| Reconcile.ShallowEqualCheck | webnew/lib/reconcile.ts:1-11 | the loop answers the shallow-equality test: the same reference, or two truthy values with as many own keys and every key of the first strictly equal in the second |
| Reconcile.ShallowEqualMeansSameFields | webnew/lib/reconcile.ts:1-11 | for objects whose fields are all defined, shallow equality holds exactly when they are the same object or have the same fields |
| Reconcile.ShallowEqualNotSymmetric | webnew/lib/reconcile.ts:7-9 | an `undefined` field makes the test one-sided: `{x: undefined}` equals `{y: 1}` but not the other way round |
| Reconcile.KeylessShallowEqual | webnew/lib/reconcile.ts:3-10 | two truthy values with no own keys are shallow-equal |
| Reconcile.LastWith | webnew/lib/reconcile.ts:15 | the last index with the wanted key, or -1 when none has it |
| Reconcile.KeyedMapIsLast | webnew/lib/reconcile.ts:14-15 | the id map holds a key exactly when some element has it, and maps it to the last such element |
| Reconcile.KeyedMapKeyed | webnew/lib/reconcile.ts:15 | the element stored under a key has that key |
| Reconcile.BuildKeyedMap | webnew/lib/reconcile.ts:14-15 | the loop builds the id map |
| Reconcile.ReconcileOne | webnew/lib/reconcile.ts:18-20 | the previous element with the same id is reused when shallow-equal, otherwise a new object spreads `next` over it |
| Reconcile.ReconcileArrayById | webnew/lib/reconcile.ts:13-23 | one output per input element, each reconciled with the previous element of its id |
| Reconcile.SameReferencesIffReusedInPlace | webnew/lib/reconcile.ts:58-62 | the "same references" test on the result holds exactly when every element was reused from the same position |
| Reconcile.SameListReusedInPlace | webnew/lib/reconcile.ts:13-23 | reconciling a list with distinct ids against itself keeps every reference in place |
| Reconcile.DuplicateIdNotReusedInPlace | webnew/lib/reconcile.ts:15 | with a repeated id the earlier element is not reused, because the map keeps the later one |
| Reconcile.AsObjsRefs | webnew/lib/reconcile.ts:31 | a list of object references reads back as those objects |
| Reconcile.ReconcileDashboard | webnew/lib/reconcile.ts:25-35 | a falsy `prev` gives `next`; otherwise `prev`'s fields are kept, `studyStats` is reused when shallow-equal, `todayGoals` is reconciled by id and `recentSessions` comes from `next` |
| Reconcile.SameReferences | webnew/lib/reconcile.ts:62 | equal lengths and the same reference at every position |
| Reconcile.ReconcileSession | webnew/lib/reconcile.ts:47-67 | a session with no previous match is taken as is; an unchanged one keeps the previous reference; otherwise a new session merges the times and the reconciled logs |
| Reconcile.SessionKey | webnew/lib/reconcile.ts:44-47 | no contract of its own: `Number(s.session_id)`, the key of the session map; Reconcile.ReconcileSessions states it |
| Reconcile.ReconcileSessions | webnew/lib/reconcile.ts:41-68 | one output per next session, each reconciled with the previous session of its number |
| Reconcile.ReconcileLogData | webnew/lib/reconcile.ts:37-71 | a falsy `prev` gives `next`; otherwise `prev`'s fields are kept, `daily_summary` is reused when shallow-equal and the sessions are reconciled one by one |
| RescueHosts.ParseBoolean | webnew/rescue-chat-app/rescue-server.js:33-40 | booleans pass through, other non-strings give null; a string gives true exactly for 1/true/yes/y/on and false exactly for 0/false/no/n/off after trimming and lower-casing |
| RescueHosts.ParseBooleanRoundTrip | webnew/rescue-chat-app/rescue-server.js:33-40 | `true` and `false` read back as themselves |
| RescueHosts.ParseBooleanNormalized | webnew/rescue-chat-app/rescue-server.js:36 | surrounding blanks and letter case do not change the answer |
| RescueHosts.NormalizeSwitchStable | webnew/rescue-chat-app/rescue-server.js:36 | trimming and lower-casing twice is the same as once |
| RescueHosts.StripBrackets | webnew/rescue-chat-app/rescue-server.js:47 | removing a leading `[` and a trailing `]` never lengthens the name |
| RescueHosts.LoopbackExactly | webnew/rescue-chat-app/rescue-server.js:42-52 | a host is loopback exactly when, trimmed and lower-cased, it is `localhost`, `::1` with or without either bracket, `127.0.0.1` or `0.0.0.0` |
| RescueHosts.StripBracketsLoopback | webnew/rescue-chat-app/rescue-server.js:47-48 | the bracket-stripped name is `::1` exactly for `::1`, `[::1]`, `[::1` and `::1]` |
| RescueHosts.Octets | webnew/rescue-chat-app/rescue-server.js:58-61 | a valid dotted quad reads as four numbers, each at most 255 |
| RescueHosts.PrivateIffInBlock | webnew/rescue-chat-app/rescue-server.js:54-70 | a host is private exactly when it is a valid dotted quad whose 32-bit address lies in 10/8, 127/8, 0/8, 169.254/16, 172.16/12 or 192.168/16 |
| RescueHosts.BlocksByOctets | webnew/rescue-chat-app/rescue-server.js:62-68 | each address block is recognised from the first two octets as the source's tests do |
| RescueHosts.AddressDivisions | webnew/rescue-chat-app/rescue-server.js:62 | the leading octets of an address are read back by division |
| RescuePaths.CutBefore | webnew/rescue-chat-app/rescue-server.js:15-22 | the text before the first `#` (or `?`) and all of it when there is none |
| RescuePaths.CollapseSlashes | webnew/rescue-chat-app/rescue-server.js:26 | runs of slashes become one slash: no `//` is left and nothing but slashes is removed |
| RescuePaths.TrimTrailingSlashes | webnew/rescue-chat-app/rescue-server.js:27-29 | a prefix of the path with only slashes removed, ending in no slash unless it is `/` |
| RescuePaths.NormalizePath | webnew/rescue-chat-app/rescue-server.js:11-31 | the method with its trailing-slash loop computes the normal form |
| RescuePaths.NormalizedPathCanonical | webnew/rescue-chat-app/rescue-server.js:11-31 | blank input gives the empty path; any other result starts with `/`, has no `//`, `?` or `#`, no trailing `/` unless it is `/`, and no upper-case letter |
| RescuePaths.PathBodyShape | webnew/rescue-chat-app/rescue-server.js:15-29 | the path before lower-casing already has the canonical shape |
| RescuePaths.CollapseKeeps | webnew/rescue-chat-app/rescue-server.js:26 | a path with no `//` is left as it is |
| RescuePaths.NormalizeCanonical | webnew/rescue-chat-app/rescue-server.js:11-31 | a canonical path is its own normal form |
| RescuePaths.NormalizeIdempotent | webnew/rescue-chat-app/rescue-server.js:11-31 | normalising twice gives the same path as normalising once, when the first result does not end in a blank |
| RescuePaths.RenormalizeCanonical | webnew/rescue-chat-app/rescue-server.js:11-31 | normalising a normal form again only drops a tail of blanks and slashes, keeping everything up to the last other character |
| RescuePaths.RenormalizeUnder | webnew/rescue-chat-app/rescue-server.js:11-31 | a normal form at or below a prefix ending in neither a blank nor a slash stays at or below it when normalised again |
| RescuePaths.TrimCanonical | webnew/rescue-chat-app/rescue-server.js:13 | `trim()` of a normal form keeps everything up to its last non-blank character |
| RescuePaths.PathBodyCanonical | webnew/rescue-chat-app/rescue-server.js:13-29 | for a normal form, the path before lower-casing is its trimmed form without trailing slashes |
| RescueProxy.NormalizeAll | webnew/rescue-chat-app/rescue-server.js:145-148 | each entry mapped to its normal form, position by position |
| RescueProxy.Dedupe | webnew/rescue-chat-app/rescue-server.js:149 | `[...new Set(...)]` keeps every value once and no others |
| RescueProxy.SettingsPrefixCanonical | webnew/rescue-chat-app/rescue-server.js:147-148 | `/api/settings` is already in normal form |
| RescueProxy.LocalApiPrefixesMembers | webnew/rescue-chat-app/rescue-server.js:141-151 | a prefix is in the list exactly when it is `/api/settings` or the non-blank normal form of an entry of the comma-separated setting |
| RescueProxy.LocalApiPrefixesShape | webnew/rescue-chat-app/rescue-server.js:141-151 | the list always holds `/api/settings`, no duplicate and no empty entry |
| RescueProxy.LocalApiPrefixesCanonical | webnew/rescue-chat-app/rescue-server.js:141-151 | every prefix in the list is in normal form |
| RescueProxy.IsLocalApiPath | webnew/rescue-chat-app/rescue-server.js:210-225 | the loop answers whether some prefix matches the normalised path: a `/*` prefix by its base, any other by itself, as the path or followed by `/` |
| RescueProxy.MatchPrefix | webnew/rescue-chat-app/rescue-server.js:214-222 | one prefix matches as the loop body tests it |
| RescueProxy.SettingsSiblingNotMatched | webnew/rescue-chat-app/rescue-server.js:221-222 | `/api/settingsx` is not under `/api/settings`, `/api/settings/theme` is |
| RescueProxy.WildcardSameAsBase | webnew/rescue-chat-app/rescue-server.js:215-222 | a `base/*` prefix matches exactly the paths `base` matches |
| RescueProxy.ShouldProxyToBackend | webnew/rescue-chat-app/rescue-server.js:227-233 | a request is forwarded exactly when its normal form is `/api` or under `/api/` and is not a local API path |
| RescueProxy.SettingsNeverProxied | webnew/rescue-chat-app/rescue-server.js:227-233 | whatever the setting says, every path whose normal form is `/api/settings` or below it is answered locally |
| RescueProxy.SettingsRenormalized | webnew/rescue-chat-app/rescue-server.js:210-211 | isLocalApiPath's second normalisation keeps such a path at or below `/api/settings`, even when it drops a blank left before a `?` or `#` |
| RescueProxy.ResolveProxyConfig | webnew/rescue-chat-app/rescue-server.js:235-258 | the request is secure exactly for `https:`; a plain request leaves rejectUnauthorized unset, a secure one sets it to false exactly when self-signed certificates are allowed |
| RescueProxy.ProxySchemes | webnew/rescue-chat-app/rescue-server.js:236-245 | `ws:` travels as `http:` and `wss:` as `https:` in any case; the port defaults to 443 for secure targets and 80 otherwise |
| RescueProxy.ForwardedForAppends | webnew/rescue-chat-app/rescue-server.js:314-324 | with no prior addresses the header becomes the new one; otherwise the new address follows the prior ones after `, ` |
| RescueProxy.AppendForwardedFor | webnew/rescue-chat-app/rescue-server.js:310-325 | a missing or blank address leaves the headers unchanged; otherwise only `x-forwarded-for` changes, to the prior addresses followed by the new one |
| Settings.ReadStoreDefaults | webnew/rescue-chat-app/app/api/settings/route.ts:8-21 | a missing, empty or invalid settings file reads as `{}`, and after reading the file exists |
| Settings.Member | webnew/rescue-chat-app/app/api/settings/route.ts:39 | no contract of its own: `acc[p]` on an object or array, undefined for a missing property; Settings.PastNonObject, MissingSegment and GetAfterSet state it |
| Settings.Assign | webnew/rescue-chat-app/app/api/settings/route.ts:67-72 | assigning a property of an object replaces that property only, and the result is still an object or array |
| Settings.PastNonObject | webnew/rescue-chat-app/app/api/settings/route.ts:39 | getByPath yields undefined once a non-object is traversed |
| Settings.MissingSegment | webnew/rescue-chat-app/app/api/settings/route.ts:39 | a missing segment before the last makes the whole path undefined |
| Settings.SetPath | webnew/rescue-chat-app/app/api/settings/route.ts:62-73 | the dot-path walk keeps the store an object or array |
| Settings.GetAfterSet | webnew/rescue-chat-app/app/api/settings/route.ts:38-70 | after a set along objects, getByPath with the same key returns the stored value |
| Settings.SetLeavesSiblings | webnew/rescue-chat-app/app/api/settings/route.ts:62-70 | a set leaves every path that branches off the set path unchanged |
| Settings.UndottedKey | webnew/rescue-chat-app/app/api/settings/route.ts:71-73 | a key without a dot sets `store[key]` directly |
| Settings.RequestedKeysShape | webnew/rescue-chat-app/app/api/settings/route.ts:33-34 | with no `keys` parameter the whole store is wanted; the requested keys are non-empty and hold no comma |
| Settings.TrimKeepsOut | webnew/rescue-chat-app/app/api/settings/route.ts:34 | trimming a key adds no character to it |
| Settings.Collect | webnew/rescue-chat-app/app/api/settings/route.ts:41-44 | the loop reports exactly the requested keys whose path is defined, each with its value |
| Settings.WholeStore | webnew/rescue-chat-app/app/api/settings/route.ts:46 | no contract of its own: `Object.assign({}, store)`; Settings.SettingsFile.Get states it |
| Settings.SettingsFile.constructor | webnew/rescue-chat-app/app/api/settings/route.ts:5-6 | the route starts from the file as it is on disk |
| Settings.SettingsFile.Get | webnew/rescue-chat-app/app/api/settings/route.ts:30-52 | GET creates a missing file and answers the whole store without `keys`, otherwise each requested key whose path is defined |
| Settings.SettingsFile.Post | webnew/rescue-chat-app/app/api/settings/route.ts:54-79 | a body that is not JSON fails and a missing key answers 400, both writing nothing; a string key over an object store saves the dot-path set; anything else fails |
| Upload.AfterLastSlash | webnew/app/api/upload/route.ts:58 | the part of the name after its last `/`, all of it when there is none |
| Upload.BaseName | webnew/app/api/upload/route.ts:58 | `path.basename` on POSIX: the result holds no `/`, and a name without `/` is kept |
| Upload.BaseNameDropsDirectory | webnew/app/api/upload/route.ts:58 | a directory part in front of the file name is dropped |
| Upload.SkipDisallowed | webnew/app/api/upload/route.ts:59 | the end of a run of characters outside `[a-zA-Z0-9._-]` |
| Upload.ReplaceRuns | webnew/app/api/upload/route.ts:59 | after the rewrite only allowed characters remain and the name is no longer |
| Upload.ReplaceRunsKeeps | webnew/app/api/upload/route.ts:59 | a name made only of allowed characters is not rewritten |
| Upload.ReplaceRunsCollapses | webnew/app/api/upload/route.ts:59 | a whole run of other characters becomes a single `_` |
| Upload.CleanedShape | webnew/app/api/upload/route.ts:58-59 | the cleaned name holds only allowed characters and neither starts nor ends with `_` |
| Upload.FallbackShape | webnew/app/api/upload/route.ts:60 | `file_<index>` is made of allowed characters |
| Upload.Usable | webnew/app/api/upload/route.ts:60 | the name used is non-empty, allowed and never `.` or `..` |
| Upload.Candidate | webnew/app/api/upload/route.ts:60-61 | the candidate has between 1 and 255 characters |
| Upload.CandidatePrefix | webnew/app/api/upload/route.ts:61 | a long name is cut to its first 255 characters, a short one is kept |
| Upload.CandidateShape | webnew/app/api/upload/route.ts:58-61 | the candidate is a safe name: the cleaned name when usable and short, otherwise a prefix of `file_<index>` |
| Upload.SuffixedShape | webnew/app/api/upload/route.ts:65-67 | a suffixed name keeps the candidate's first character, ends in a digit, stays allowed, and fits in 255 characters for any counter of at most 253 digits |
| Upload.SuffixedInjective | webnew/app/api/upload/route.ts:65-67 | different counters give different names |
| Upload.UploadRequest.constructor | webnew/app/api/upload/route.ts:56 | a request starts with no name used |
| Upload.UploadRequest.SanitizeFileName | webnew/app/api/upload/route.ts:57-71 | the name returned was not used before and is claimed; it is the candidate when free, otherwise the first free suffixed name |
| Upload.FirstFree | webnew/app/api/upload/route.ts:62-68 | the uniqueness loop ends on the candidate or on the suffixed name with the smallest free counter |
| Upload.TriedBound | webnew/app/api/upload/route.ts:64-68 | the loop tries no more names than are already used, so it ends |
| Upload.Candidates | webnew/app/api/upload/route.ts:73-74 | each file's candidate, by position |
| Upload.NameNext | webnew/app/api/upload/route.ts:73-74 | one round names the next file with a safe name that no earlier file has, its candidate exactly when that is free |
| Upload.SanitizeAll | webnew/app/api/upload/route.ts:56-92 | the stored names are safe and pairwise distinct, and each is its candidate exactly when no earlier file took that candidate |
| Upload.Post | webnew/app/api/upload/route.ts:40-99 | an empty upload is refused with "No files were uploaded." before the directory is made; otherwise every file gets a distinct safe name |
| Utils.HexToRgb | webnew/lib/utils.ts:9-18 | a colour parses exactly when it is six hex digits with an optional leading `#`, and each channel is a byte |
| Utils.HexRoundTrip | webnew/lib/utils.ts:9-18 | any byte triple written as lower-case hex parses back to itself |
| Utils.HexCanonical | webnew/lib/utils.ts:9-18 | writing a parsed colour back gives `#` and its digits in lower case |
| Utils.BaseColor | webnew/lib/utils.ts:27 | no subject or an empty one gives sky-500; a subject with a non-empty colour of the user's own gets that colour |
| Utils.GetSubjectStyle | webnew/lib/utils.ts:26-49 | a colour that is not hex gives the fixed fallback style; otherwise the style shows the colour with a 1px solid border |
| Utils.StyleColorIsHex | webnew/lib/utils.ts:26-49 | the badge colour is always a hex colour, and a tinted badge's background and border are its channels at 0.035 and 0.4 |
| Utils.DefaultSubjectTinted | webnew/lib/utils.ts:27 | a subject with no colour of its own or built in is tinted sky-500 |
| Utils.UserColorWins | webnew/lib/utils.ts:27-37 | the user's colour wins over the built-in one; a user colour that is not hex gives the fallback style |
| Utils.BuiltInColor | webnew/lib/utils.ts:20-27 | without a user colour, a built-in subject keeps its built-in colour |
| Utils.NormalizeTags | webnew/lib/utils.ts:52-66 | no empty tag is returned; a value that is neither array nor string, or a blank string, gives no tags |
| Utils.NormalizeTagsIdempotent | webnew/lib/utils.ts:52-66 | normalising the result again, as an array, gives it back |
| Utils.CommaListRoundTrip | webnew/lib/utils.ts:56-63 | tag names joined with commas read back as the same names when the text is not a JSON array |
| Templates.WithSlash | webnew/components/template-manager.tsx:22 | the command with a leading `/`, added only when missing |
| Templates.ValidateCmd | webnew/components/template-manager.tsx:20-28 | no command or an empty one passes; a format error means the slashed command is not `/` followed by letters, digits and hyphens |
| Templates.ValidateCmdAccepts | webnew/components/template-manager.tsx:20-28 | a non-empty command passes exactly when its slashed form is well-formed, not `/web`, `/clear` or `/debug`, and not another template's command |
| Templates.ValidateCmdSlashOptional | webnew/components/template-manager.tsx:22 | `x` and `/x` are judged alike |
| Templates.OwnCmdKept | webnew/components/template-manager.tsx:25 | a template keeping its own valid command passes when no other template has it |
| Templates.FindById | webnew/components/template-manager.tsx:32 | the template being edited, or none when no template has the id |
| Templates.ReplaceById | webnew/components/template-manager.tsx:61 | templates with the edited id get the new fields, all others are kept in place |
| Templates.RemoveById | webnew/components/template-manager.tsx:77 | every template with the id goes, every other one stays |
| Templates.Capped | webnew/components/template-manager.tsx:70 | `slice(0, 200)` keeps a prefix of the list |
| Templates.Save | webnew/components/template-manager.tsx:53-73 | saving fails exactly when the command is refused or the trimmed title or content is empty |
| Templates.SaveNewPrepends | webnew/components/template-manager.tsx:63-70 | a new template goes first with the trimmed title and slashed command, the others follow in order, and at most 200 are kept |
| Templates.SaveEditReplaces | webnew/components/template-manager.tsx:60-62 | an edit changes only the templates with the edited id, each to the trimmed title, the content and the slashed command |
| Templates.DeleteRemoves | webnew/components/template-manager.tsx:75-79 | deleting removes exactly the templates with the edited id |
| Templates.Delete | webnew/components/template-manager.tsx:75-79 | no contract of its own: handleDelete; Templates.DeleteRemoves states it |
| Templates.SaveKeepsCmdsUnique | webnew/components/template-manager.tsx:20-73 | a successful save keeps commands unique across templates |
| Templates.ReplaceKeepsCmdsUnique | webnew/components/template-manager.tsx:61 | replacing with an unclaimed command keeps commands unique |
| Templates.PrependKeepsCmdsUnique | webnew/components/template-manager.tsx:70 | prepending a template with an unclaimed command keeps commands unique |
| Icons.U16RoundTrip | webnew/scripts/generate-icons.mjs:65-83 | a 16-bit value written little-endian reads back as itself |
| Icons.U32RoundTrip | webnew/scripts/generate-icons.mjs:84-85 | a 32-bit value written little-endian reads back as itself |
| Icons.SizeByte | webnew/scripts/generate-icons.mjs:78-79 | a size below 256 is stored as itself and 256 as 0 |
| Icons.Concat | webnew/scripts/generate-icons.mjs:91 | the images laid end to end are as long as their lengths added up |
| Icons.PrefixSums | webnew/scripts/generate-icons.mjs:88 | the running offset grows by each image's length and never passes the total |
| Icons.Header | webnew/scripts/generate-icons.mjs:64-67 | the header is 6 bytes |
| Icons.Entry | webnew/scripts/generate-icons.mjs:77-85 | a directory entry is 16 bytes |
| Icons.DirectoryUpTo | webnew/scripts/generate-icons.mjs:70-86 | the directory holds 16 bytes per image |
| Icons.WriteU16 | webnew/scripts/generate-icons.mjs:65-67 | writing two bytes at a position changes exactly those bytes, little-endian |
| Icons.WriteU32 | webnew/scripts/generate-icons.mjs:84-85 | writing four bytes at a position changes exactly those bytes, little-endian |
| Icons.WriteIco | webnew/scripts/generate-icons.mjs:62-93 | the buffer-filling loop produces the ICO layout: header, directory, then the images |
| Icons.PlaceEntry | webnew/scripts/generate-icons.mjs:86 | an entry copied into the directory extends the filled part by those 16 bytes |
| Icons.FillEntry | webnew/scripts/generate-icons.mjs:77-85 | a fresh entry buffer holds the entry's fields |
| Icons.OffsetsChain | webnew/scripts/generate-icons.mjs:71-88 | the first image starts after the header and directory, each next one right after the previous |
| Icons.IcoHeader | webnew/scripts/generate-icons.mjs:63-91 | the file reads back reserved 0, type 1 and the image count, and is as long as header, directory and images together |
| Icons.IcoEntry | webnew/scripts/generate-icons.mjs:74-89 | each entry reads back the size (0 for 256), one plane, 32 bits per pixel, the image's length and its offset, and the image's bytes are at that offset |
| Icons.TokensRender | webnew/scripts/generate-icons.mjs:35 | splitting the open tag into matches and plain text loses nothing |
| Icons.KeepFirstDefaultSpec | webnew/scripts/generate-icons.mjs:34-42 | the callback keeps the first ` xmlns="…"` match, drops the later ones and keeps every other piece |
| Icons.KeepFirstDefaultNoop | webnew/scripts/generate-icons.mjs:34-42 | a tag with at most one such match is kept whole |
| Icons.CleanOpenTagNoop | webnew/scripts/generate-icons.mjs:35-42 | rewriting an open tag with at most one default namespace changes nothing |
| Icons.CleanOpenTag | webnew/scripts/generate-icons.mjs:33-42 | no contract of its own: the `replace` with its callback on the open tag; Icons.CleanOpenTagNoop, KeepFirstDefaultSpec and SanitizeSvgSpec state it |
| Icons.NoBlankNoMatch | webnew/scripts/generate-icons.mjs:35 | text without blanks holds no match |
| Icons.OpenTagBounds | webnew/scripts/generate-icons.mjs:28-31 | the open tag starts at the first `<svg` and ends at the next `>` |
| Icons.SanitizeSvg | webnew/scripts/generate-icons.mjs:26-46 | a text without a complete open tag is returned unchanged |
| Icons.SanitizeSvgSpec | webnew/scripts/generate-icons.mjs:26-46 | only the open tag changes; it keeps its first default namespace attribute and every other piece |
| Icons.SanitizeSvgNoop | webnew/scripts/generate-icons.mjs:26-46 | a file whose open tag has at most one default namespace attribute is left unchanged |
| Icons.AsWrittenDropsPrefix | webnew/scripts/generate-icons.mjs:31-43 | as written, `a<svg>` comes out as `<svg>`, while the corrected function keeps it |
| Icons.AsWrittenFromTag | webnew/scripts/generate-icons.mjs:31-43 | as written, a clean file comes back without what precedes the open tag |
| Icons.SanitizeSvgAsWritten | webnew/scripts/generate-icons.mjs:31-43 | no contract of its own: sanitizeSvg as written, dropping the text before the open tag; Icons.AsWrittenDropsPrefix and AsWrittenFromTag state it |
| Icons.CorrectedKeepsAll | webnew/scripts/generate-icons.mjs:26-46 | the corrected function returns a clean file whole |
| MessageList.KeepLast | webnew/components/chat/MessageList.tsx:29-41 | the de-duplicated list is no longer than the input |
| MessageList.Reverse | webnew/components/chat/MessageList.tsx:41 | `reverse()` puts the element from the far end at each position |
| MessageList.ReverseReverse | webnew/components/chat/MessageList.tsx:31-41 | reversing twice gives the list back |
| MessageList.HasDuplicate | webnew/components/chat/MessageList.tsx:15-25 | the first loop reports a duplicate exactly when some non-empty string id occurs twice |
| MessageList.DedupeMessages | webnew/components/chat/MessageList.tsx:12-42 | the very same list when no id repeats; otherwise the keep-last list |
| MessageList.KeepLastBackward | webnew/components/chat/MessageList.tsx:29-41 | the backward walk, skipping ids already seen and reversing, gives the keep-last list |
| MessageList.BackStep | webnew/components/chat/MessageList.tsx:31-39 | one step of the walk keeps the message exactly when its id does not occur later |
| MessageList.KeepLastDistinct | webnew/components/chat/MessageList.tsx:27 | with distinct ids the keep-last list is the input |
| MessageList.KeepLastSpec | webnew/components/chat/MessageList.tsx:29-41 | the result has distinct ids and the same ids as the input, keeps every message without an id, and holds only input messages |
| MessageList.KeepLastIsLast | webnew/components/chat/MessageList.tsx:31-39 | the last message with an id is the one kept |
| UseChat.NormalizeToolStatus | webnew/hooks/useChat.ts:103-111 | a missing or empty status gives nothing, and `in_progress` is never returned as itself |
| UseChat.NormalizeCaseInsensitive | webnew/hooks/useChat.ts:105 | letter case does not matter |
| UseChat.NormalizeStatusName | webnew/hooks/useChat.ts:103-111 | each status name maps to itself, except `in_progress`, which maps to `running` |
| UseChat.NormalizeWords | webnew/hooks/useChat.ts:106-109 | finished, pending, running and error are given exactly for their word lists |
| UseChat.FinalizeStatuses | webnew/hooks/useChat.ts:206-212 | every tool message that is running, in progress or without a status becomes finished; every other message is kept |
| UseChat.FinalizeCloses | webnew/hooks/useChat.ts:206-212 | after the pass no tool message is open, ids are unchanged, and a second pass changes nothing |
| UseChat.LastById | webnew/hooks/useChat.ts:691-696 | the map holds exactly the batch ids, each mapped to a message with that id |
| UseChat.DedupeBatch | webnew/hooks/useChat.ts:691-697 | the loop and the lookup give the de-duplicated batch |
| UseChat.DedupeStep | webnew/hooks/useChat.ts:693-696 | one step records a new id in first-seen order and replaces the stored message with the later one |
| UseChat.UniqueBatchSpec | webnew/hooks/useChat.ts:691-697 | the de-duplicated batch has each batch id exactly once and holds the last message of each id |
| UseChat.UniqueBatchIds | webnew/hooks/useChat.ts:694-697 | its ids are in order of first appearance |
| UseChat.LastInUnique | webnew/hooks/useChat.ts:695-697 | the last message with an id is the one kept |
| UseChat.LookupIds | webnew/hooks/useChat.ts:697 | looking the ids up gives messages with those ids, in that order |
| UseChat.LastByIdIsLast | webnew/hooks/useChat.ts:695 | the map holds the last message with each id |
| UseChat.FindIndex | webnew/hooks/useChat.ts:743 | the first position with the id, or -1 exactly when no message has it |
| UseChat.Apply | webnew/hooks/useChat.ts:743-746 | merging one message keeps the list's ids in place |
| UseChat.Updated | webnew/hooks/useChat.ts:742-751 | merging the batch keeps the list's ids in place |
| UseChat.NewOnes | webnew/hooks/useChat.ts:747-749 | the messages to insert are exactly the batch messages whose id is not shown |
| UseChat.MergeBatch | webnew/hooks/useChat.ts:741-765 | the loop updates shown messages in place and puts the new ones before the list for an older or initial page, after it otherwise |
| UseChat.MergeIds | webnew/hooks/useChat.ts:741-765 | the merged list holds exactly the ids of the list and the batch, none twice when neither had duplicates |
| UseChat.AddedIdsFresh | webnew/hooks/useChat.ts:747-749 | no inserted message has an id the list already shows |
| UseChat.BatchIdsCovered | webnew/hooks/useChat.ts:741-751 | every batch id ends up shown |
| UseChat.AddedIdsFromBatch | webnew/hooks/useChat.ts:747-749 | inserted ids come from the batch |
| UseChat.NewOnesDistinct | webnew/hooks/useChat.ts:747-749 | a batch without duplicates inserts no id twice |
| UseChat.MergeCarriesBatch | webnew/hooks/useChat.ts:741-751 | every message of a duplicate-free batch is in the merged list |
| UseChat.ApplyKeepsOthers | webnew/hooks/useChat.ts:743-746 | merging one message keeps every message with another id |
| UseChat.HistoryFinished | webnew/hooks/useChat.ts:767-771 | once the history is exhausted it stays so |
| UseChat.HistoryFinishedRule | webnew/hooks/useChat.ts:767-771 | a short older (under 20) or initial (under 30) page, or one under its given limit, ends the history; a newer page or a full page does not |
| Analytics.WeekOrder | webnew/components/analytics.tsx:122-124 | the seven weekday labels, each once, Monday first for `monday` and Sunday first otherwise |
| Analytics.ByDay | webnew/components/analytics.tsx:125 | the map holds exactly the labels of the data, each mapped to a bar with that label |
| Analytics.RotateOrder | webnew/components/analytics.tsx:121-127 | seven bars whose labels follow the week order |
| Analytics.ByDayKeepsLast | webnew/components/analytics.tsx:125 | `Object.fromEntries` keeps the last bar of each label |
| Analytics.RotateOrderPicks | webnew/components/analytics.tsx:125-126 | each position carries the last bar with its label, or a zero bar when there is none |
| Analytics.MondayIsRotatedSunday | webnew/components/analytics.tsx:121-127 | the Monday-first chart is the Sunday-first chart with Sunday moved to the end |
| Analytics.MaxTime | webnew/components/analytics.tsx:129 | the largest bar's time, reached by some bar, and 0 when there are no bars |
| Analytics.FormatTimeShape | webnew/components/analytics.tsx:131-136 | `Nm` below an hour; `Hh Mm` with minutes past the hour, `Hh` without |
| Analytics.FormatTime | webnew/components/analytics.tsx:131-136 | no contract of its own: formatTime on whole minutes; Analytics.FormatTimeShape states it |
| Analytics.ReadDigitRun | webnew/components/analytics.tsx:131-136 | reading a label accumulates a run of digits into its value |
| Analytics.ReadHours | webnew/components/analytics.tsx:133-135 | an hours part reads back as 60 minutes per hour |
| Analytics.ReadMins | webnew/components/analytics.tsx:132-135 | a minutes part reads back as its minutes |
| Analytics.ReadHoursMinutes | webnew/components/analytics.tsx:133-135 | `Hh Mm` reads back as `H * 60 + M` |
| Analytics.ReadLabel | webnew/components/analytics.tsx:131-136 | a label of either shape reads back as its minutes |
| Analytics.FormatTimeReadBack | webnew/components/analytics.tsx:131-136 | any non-negative number of minutes reads back from its label |
| StudyRecords.FirstSpace | webnew/components/study-records.tsx:386 | the first blank, or -1 when there is none |
| StudyRecords.Pieces | webnew/components/study-records.tsx:386 | splitting at blank runs gives at least one piece and no piece with a blank |
| StudyRecords.Tokens | webnew/components/study-records.tsx:386 | the words of the input: non-empty and blank-free |
| StudyRecords.StripPunct | webnew/components/study-records.tsx:387 | removes exactly the run of closing punctuation at the end |
| StudyRecords.NonTagTokens | webnew/components/study-records.tsx:393 | the words that start with neither `#` nor `＃` |
| StudyRecords.TagBodies | webnew/components/study-records.tsx:389-392 | the tag words with their mark dropped and closing punctuation stripped |
| StudyRecords.ExtractTagsTags | webnew/components/study-records.tsx:385-395 | the tags are exactly the non-empty stripped rests of the tag words; none holds a blank or ends in closing punctuation |
| StudyRecords.ExtractTagsQuery | webnew/components/study-records.tsx:393 | the query splits back into exactly the words that are not tags |
| StudyRecords.JoinTokens | webnew/components/study-records.tsx:386-393 | words joined with spaces split back into the same words |
| StudyRecords.JoinPieces | webnew/components/study-records.tsx:386 | splitting a space-joined list gives its pieces back |
| StudyRecords.FirstSpaceAt | webnew/components/study-records.tsx:386 | the first blank after a blank-free head is right after it |
| StudyRecords.FormatDuration | webnew/components/study-records.tsx:635-640 | NaN is `0分`, and every label ends in `分` |
| StudyRecords.FormatDurationShape | webnew/components/study-records.tsx:637-639 | below an hour only the minutes; otherwise hours `時間` and the minutes past the hour `分` |
| StudyRecords.ReadDurationDigits | webnew/components/study-records.tsx:635-640 | reading a label accumulates a run of digits into its value |
| StudyRecords.ReadDurationMinutes | webnew/components/study-records.tsx:639 | `M分` reads back as M |
| StudyRecords.ReadDurationHours | webnew/components/study-records.tsx:639 | `H時間M分` reads back as `H * 60 + M` |
| StudyRecords.ReadDurationLabel | webnew/components/study-records.tsx:637-639 | a label of either shape reads back as its minutes |
| StudyRecords.FormatDurationReadBack | webnew/components/study-records.tsx:635-640 | any non-negative number of minutes reads back from its label |
| StudyRecords.NormalizeRange | webnew/components/study-records.tsx:254-269 | no range or no start gives none; a range with a start keeps at least one end |
| StudyRecords.NormalizeRangeCovers | webnew/components/study-records.tsx:254-269 | the normalised range covers exactly the days the picked range stands for, the sentinels meaning open ends |
| StudyRecords.NormalizeRangeCases | webnew/components/study-records.tsx:256-266 | a start alone becomes a one-day range, a start at 1900-01-01 drops the start, an end at 9999-12-31 drops the end, anything else is kept |
| NotifyTool.TextOr | notify_tool.py:77-84 | `str(v).strip() or default`: never empty, the stripped text when it has any, the default otherwise |
| NotifyTool.Origin | notify_tool.py:77 | the origin is never empty |
| NotifyTool.ValidatePayload | notify_tool.py:76-93 | the payload passes exactly when the notification is an object with a title or a body and the context is missing or an object; then the user id is non-empty and the context names an origin |
| NotifyTool.ValidatePayloadErrors | notify_tool.py:78-91 | the three errors, in the order they are checked |
| NotifyTool.ValidatePayloadSuccess | notify_tool.py:84-93 | the notification passes through; the user id is the stripped `userId`, else the stripped `user_id`, else `local` |
| NotifyTool.UserIdRule | notify_tool.py:84 | the user id falls back from `userId` to `user_id` to `local` |
| NotifyTool.DefaultsStripped | notify_tool.py:13-14 | the defaults carry no surrounding blanks |
| NotifyTool.ValidatePayloadContext | notify_tool.py:85-92 | a missing context becomes one holding the origin; a given one keeps every entry and gains the origin only when it has none |
| NotifyTool.OriginDefault | notify_tool.py:77 | the origin is the stripped field, or `ai_autonomous` when it is missing, falsy or blank |
| NotifyTool.RstripSlash | notify_tool.py:26-54 | a prefix of the text with its trailing slashes removed |
| NotifyTool.ExplicitEndpoints | notify_tool.py:25-28 | exactly the non-empty cleaned pieces, none ending in `/` |
| NotifyTool.RstripAll | notify_tool.py:53-54 | each candidate with its trailing slashes removed |
| NotifyTool.IterCandidateEndpoints | notify_tool.py:22-57 | the generator yields the candidate endpoints |
| NotifyTool.YieldExplicit | notify_tool.py:25-28 | the loop over the explicit list yields its cleaned non-empty pieces |
| NotifyTool.ExplicitStep | notify_tool.py:25-28 | one piece adds its cleaned form when it is not empty |
| NotifyTool.YieldUnseen | notify_tool.py:52-57 | the loop yields each cleaned candidate once, in order of first appearance |
| NotifyTool.UnseenStep | notify_tool.py:53-57 | one candidate is yielded exactly when it was not seen before |
| NotifyTool.ExplicitOnly | notify_tool.py:23-29 | an explicit list is used alone: its non-empty pieces without trailing slash, holding no comma |
| NotifyTool.CleanKeepsOut | notify_tool.py:26 | cleaning a piece adds no character |
| NotifyTool.BuildKeeps | notify_tool.py:35-54 | a built address ends in a digit, so stripping slashes keeps it |
| NotifyTool.DefaultEndpoints | notify_tool.py:31-57 | a numeric port gives one address with the given or implied scheme; otherwise https and http on 443, then on 3000 |
| NotifyTool.CandidatesSettled | notify_tool.py:38-50 | the default candidates differ and carry no trailing slash |
| NotifyTool.FourDistinct | notify_tool.py:45-50 | the four default addresses differ |
| NotifyTool.DefaultsDistinct | notify_tool.py:52-57 | without an explicit list no address is yielded twice |
| QuietHours.NormalizedValid | webnew/server.js:3551-3560 | a time already on the clock is left as it is |
| RescueProxy.DefaultsNormalized | webnew/rescue-chat-app/rescue-server.js:141-151 | the default prefix list normalises to `/api/settings` alone |
| RescueProxy.NormalizeAllMembers | webnew/rescue-chat-app/rescue-server.js:143-146 | a path is among the normalised entries exactly when it is the normal form of some entry |
| RescueProxy.Headers.constructor | webnew/rescue-chat-app/rescue-server.js:310-325 | the headers start with the given entries |
| Templates.CappedPrepend | webnew/components/template-manager.tsx:70 | prepending and capping at 200 puts the new template first, followed by as many of the old ones, in order, as fit |
| Utils.HexDigitRoundTrip | webnew/lib/utils.ts:9-18 | reading a hex digit back gives its value |
| Utils.DefaultColorIsHex | webnew/lib/utils.ts:27-36 | the default colour and the fallback style colour are valid hex colours |

## Left out

- SQLite itself, the file system and the clock. The table is a sequence of rows in id order. File copies and journal writes succeed or fail through an `IoOutcome` parameter; file deletions always succeed. `get_now()`, `date.today()` and the backup file-name stamp are the parameters `now`, `today` and `stamp`. The store file's modification time after a write is the parameter `wtime`, the file system's clock, which is finer than the whole seconds of the rows.
- Snapshot file-name collisions within one microsecond: names are taken to be distinct.
- The command-line front end of `manage_log.py` (argument parsing and JSON printing), and the actions outside the session, snapshot and read-side logic.
- Unicode: `lower()` and `toLowerCase()` fold ASCII letters only. The model's `isdigit` accepts ASCII digits only; Python's also accepts other Unicode digits, such as `٣` and `²`. `_norm` (NFKC normalisation and case folding) in `_first_match_index` and search is the parameter `norm`.
- Floating point, NaN and the infinities. A JavaScript number value is an integer here. `Number` of text (`JsValues.StringNumber`) follows the string numeric grammar of section 7.1.4.1.1 of ECMA-262 (trimming, signs, points, exponents, `0x`, `0o` and `0b`) and reads the value exactly, with NaN and the infinities as None. It does not round to a 64-bit float, so numerals beyond 2^53, above about 1.8e308 (Infinity in JavaScript) or below about 5e-324 (0 in JavaScript) read differently. This leaves out the fractional branch of `parseDailySummaryTime` for number values, the quiet-hours bounds whose text reads as a fraction (`OutsideIntegerBranch`), the `rgba` opacity strings of `getSubjectStyle` beyond their fixed text, and the non-integer durations of `formatTime` and `formatDuration`.
- The text Python's `str()` gives a list or a dict, which is the parameter `containerText`. `JSON.parse` is the parameter `parseJson`.
- `setdefault` in `validate_payload` mutates the payload in place; the model returns the updated context map instead.
- `shallowEqual` applied to strings and arrays: the reconcilers only compare objects, numbers and booleans here.
- Prototype-inherited keys in the `subjectColors` and `SUBJECT_COLOR_MAP` lookups of `getSubjectStyle`.
- JavaScript's array-index bound of 2^32 - 2 in the settings store.
- The cron scheduler beyond `parsePart`: the minute tick and the day-of-month, month and day-of-week matching of `compileCronExpr`.
- `isPrivateHostname` and `shouldAllowSelfSignedCertificates` read the environment and log. Their answer is the parameter `allowSelfSigned` of `ResolveProxyConfig`.
- `LOCAL_API_PREFIXES` is computed once at start-up from the environment. `IsLocalApiPath` takes the computed list as a parameter, and `LocalApiPrefixes` computes it from the two environment values.
- The settings POST walk is modelled on values, as a function from the old store to the new one. Reading and writing the JSON file are the class's fields.
- The upload route's file writing, stream errors and abort clean-up. `dirCreated` records only whether the directory was created before the empty-upload refusal.
- The network, process and timer I/O of `webnew/background-gemini.js`. Only the permission decision is modelled.
- UseChat: does not model the `oldestTs`/`newestTs` bookkeeping, `loadedIds`, or the conversion of raw history rows into messages. The `{...list[idx], ...m}` merge is a replacement, because a converted message carries every field the model keeps.
- Templates.Save: does not model the new template's id (clock plus random number), which is a parameter.
- Rendering, React state and hooks other than the computations named in the table.
- Cron.AddToken: a number token that reads as a fraction strictly between `min` and `max` adds that fraction to the source's set; the model's set holds integers and leaves it out. No integer clock field equals a fraction, so no match changes.
- Cron.ParsePart: the same fractions are left out of the field's set.
- Reconcile.SessionKey: a session id whose `Number` is a fraction or an infinity shares the key of NaN here, while a JavaScript `Map` keeps those keys apart.
- Tags.IsTagChar: Python's `\w` also matches word characters beyond U+FFFF, such as U+20000 and the mathematical letters from U+1D400. The model counts no character beyond U+FFFF as a tag character, so such a character ends a tag here where Python continues it. Python's Unicode word-character table is not part of this model.
- Tags.TagRun: stops at a word character beyond U+FFFF, as Tags.IsTagChar says.
- Tags.HashtagsFrom: a name holding a word character beyond U+FFFF is cut short there, as Tags.IsTagChar says.
- Tags.HashtagsAreNames: holds for the tag characters of Tags.IsTagChar, so it says nothing of names with word characters beyond U+FFFF.
- Tags.TagRunPrefix: likewise limited to the tag characters of Tags.IsTagChar.
- Tags.HashtagsSplitFrom: likewise limited to the tag characters of Tags.IsTagChar.
- Tags.HashtagOfName: likewise limited to the tag characters of Tags.IsTagChar.
- StreamText.TruncateHistoryString: JavaScript's `length` and `slice` count UTF-16 code units, while the model counts characters. Text with characters beyond U+FFFF is cut at a different place, with a different removed count (each such character is two units in the source and one here). A lone surrogate cannot be represented.
- StreamText.TruncatedLength: its 35000 is characters, which equals UTF-16 code units only for text without characters beyond U+FFFF.
- StreamText.ExtractNewStreamSegment: an overlap that splits a surrogate pair in JavaScript cannot occur in the model.
- SnapshotPools.Latest: a pool's order is the order its files were made in, with each new backup last. The source lists the directory with `os.listdir`, whose order is arbitrary. So among files with equal mtimes (for example two snapshots of an unchanged store, taken by two failed `break` calls), the newest file the model picks need not be the one the source picks.
- SnapshotPools.Oldest: the same holds for the oldest file that pruning deletes.
- Settings.Member: reading `length` from an array gives undefined here; JavaScript gives the array's length.
- Settings.SettingsFile.Post: writing the file as JSON turns array holes into `null` and drops properties whose value is undefined; the model keeps both as they are. A key that is an array, which JavaScript saves under its string form, answers ServerError here.
- Settings.WholeStore: `Object.assign` copies the indices and elements of a store that is an array or a string; the model answers `{}` for every store that is not an object.
- Reconcile.ReconcileDashboard: a truthy `prev` with a null or undefined `next` throws a TypeError in the source; the model returns a value.
- Reconcile.ReconcileLogData: the same null `next` case throws in the source and returns a value here.
- StudyLog.LatestStartWhere: `ORDER BY start_time DESC LIMIT 1` (manage_log.py lines 316 and 626) names no tie-break, and SQLite leaves the order of rows with equal `start_time` unspecified. The model takes the lowest id among them; the source may return any of them. So with two START rows in the same second, resume_session may copy the subject and content of either.
- StudyLogProperties.LatestUnique: the row it shows unique is the model's lowest-id choice, not a row SQLite promises.
- StudyLogStore.ScanLatestStart: returns the same lowest-id choice among rows of equal start.
- SnapshotPools.Pruned: every `os.remove` is taken to succeed. In the source a failing removal is caught (manage_log.py lines 250-281), so pruning stops early and the pool stays over its cap.
- StoreState.Undo: the db_backups directory is taken to exist. Before any backup it does not, `os.listdir` raises FileNotFoundError (manage_log.py lines 295-301) and handle_execute answers with an error status; the model answers not found, as it does for an existing empty directory. The `os.remove` of the consumed snapshot is taken to succeed; in the source a failing removal leaves the restore done and ends the command with an error status.
- StoreState.RedoOp: the same for the db_redo_backups directory, which does not exist before the first undo, and for the removal of the consumed redo snapshot.
- StoreProperties.UndoRedoOnEmptyPool: an empty pool stands for an existing empty directory; a missing directory, which the source reports as an error, is not told apart from it.

## Findings

| source | as written | input that shows it | evidently intended | confidence | as-written member | corrected member |
|---|---|---|---|---|---|---|
| webnew/scripts/generate-icons.mjs:26-46 | the result is the cleaned opening tag followed by the rest, so any text before `<svg`, such as an XML declaration, is lost | `a<svg>` gives `<svg>` | only the opening tag changes; the text before it is kept | not executed | Icons.AsWrittenDropsPrefix | Icons.SanitizeSvgNoop |

=== FILE: analytics.dfy ===
/** The weekly chart helpers of webnew/components/analytics.tsx: the bars put
    in display order for the configured first day of the week, the tallest
    bar, and the minutes label of the study totals. */
module Analytics {
  import opened Text

  /** One bar of the weekly chart: a weekday label and the minutes studied. */
  datatype WeeklyData = WeeklyData(day: string, time: int)

  // ------------------------------------------------------------ rotateOrder

  const MondayFirst: seq<string> := ["月", "火", "水", "木", "金", "土", "日"]
  const SundayFirst: seq<string> := ["日", "月", "火", "水", "木", "金", "土"]

  /** The seven labels in display order: Monday first for `monday`, Sunday
      first for anything else. */
  function WeekOrder(start: string): (r: seq<string>)
    ensures |r| == 7 && Distinct(r)
  {
    if start == "monday" then MondayFirst else SundayFirst
  }

  function Days(data: seq<WeeklyData>): (r: seq<string>)
    ensures |r| == |data| && forall i :: 0 <= i < |data| ==> r[i] == data[i].day
  {
    if data == [] then [] else [data[0].day] + Days(data[1..])
  }

  /** `Object.fromEntries(data.map(d => [String(d.day), d]))`: a later bar
      with the same label replaces an earlier one. */
  function ByDay(data: seq<WeeklyData>): (r: map<string, WeeklyData>)
    ensures forall k :: k in r <==> k in Days(data)
    ensures forall k :: k in r ==> r[k].day == k
  {
    if data == [] then map[]
    else ByDay(data[..|data| - 1])[data[|data| - 1].day := data[|data| - 1]]
  }

  /** rotateOrder: for each label of the week, the bar with that label, or
      an empty bar when the data has none. */
  function RotateOrder(data: seq<WeeklyData>, start: string): (r: seq<WeeklyData>)
    ensures |r| == 7
    ensures forall i :: 0 <= i < 7 ==> r[i].day == WeekOrder(start)[i]
  {
    var byDay := ByDay(data);
    var order := WeekOrder(start);
    seq(7, i requires 0 <= i < 7 => if order[i] in byDay then byDay[order[i]] else WeeklyData(order[i], 0))
  }

  /** No later bar has the label of the `i`th. */
  predicate IsLastOfDay(data: seq<WeeklyData>, i: nat)
    requires i < |data|
  {
    forall j :: i < j < |data| ==> data[j].day != data[i].day
  }

  /** The map keeps the last bar of each label. */
  lemma {:induction false} ByDayKeepsLast(data: seq<WeeklyData>, i: nat)
    requires i < |data| && IsLastOfDay(data, i)
    ensures ByDay(data)[data[i].day] == data[i]
  {
    if i < |data| - 1 {
      ByDayKeepsLast(data[..|data| - 1], i);
    }
  }

  /** Each position carries the last bar with its label, or a zero bar when
      there is none. */
  lemma RotateOrderPicks(data: seq<WeeklyData>, start: string, i: nat)
    requires i < 7
    ensures var name := WeekOrder(start)[i];
      && (name !in Days(data) ==> RotateOrder(data, start)[i] == WeeklyData(name, 0))
      && (forall j :: 0 <= j < |data| && data[j].day == name && IsLastOfDay(data, j) ==>
            RotateOrder(data, start)[i] == data[j])
  {
    forall j | 0 <= j < |data| && data[j].day == WeekOrder(start)[i] && IsLastOfDay(data, j)
      ensures RotateOrder(data, start)[i] == data[j]
    {
      ByDayKeepsLast(data, j);
    }
  }

  /** The Monday-first chart is the Sunday-first chart with Sunday moved
      to the end. */
  lemma MondayIsRotatedSunday(data: seq<WeeklyData>)
    ensures RotateOrder(data, "monday") == RotateOrder(data, "sunday")[1..] + [RotateOrder(data, "sunday")[0]]
  {
    var m := RotateOrder(data, "monday");
    var s := RotateOrder(data, "sunday");
    assert forall i :: 0 <= i < 6 ==> MondayFirst[i] == SundayFirst[i + 1];
    assert MondayFirst[6] == SundayFirst[0];
    assert forall i :: 0 <= i < 6 ==> m[i] == s[i + 1];
  }

  // ------------------------------------------------------------ maxTime

  /** maxTime: the largest bar, and 0 when there are no bars. */
  function MaxTime(data: seq<WeeklyData>): (r: int)
    ensures data == [] ==> r == 0
    ensures data != [] ==> exists i :: 0 <= i < |data| && data[i].time == r
    ensures forall i :: 0 <= i < |data| ==> data[i].time <= r
  {
    if data == [] then 0
    else if |data| == 1 then data[0].time
    else
      var rest := MaxTime(data[1..]);
      assert data[1..][0] == data[1];
      if data[0].time >= rest then data[0].time else rest
  }

  // ------------------------------------------------------------ formatTime

  /** formatTime: `Nm` below an hour; otherwise `Hh`, followed by ` Mm` when
      the minutes past the hour are not zero (the template ends in a space
      that `trim()` removes). */
  function FormatTime(minutes: int): string {
    if minutes < 60 then IntToString(minutes) + "m"
    else
      var h := minutes / 60;
      var m := minutes % 60;
      JsTrim(NatToString(h) + "h " + (if m > 0 then NatToString(m) + "m" else ""))
  }

  /** The label in its two shapes. */
  lemma FormatTimeShape(minutes: int)
    ensures minutes < 60 ==> FormatTime(minutes) == IntToString(minutes) + "m"
    ensures minutes >= 60 && minutes % 60 > 0 ==>
      FormatTime(minutes) == NatToString(minutes / 60) + "h " + NatToString(minutes % 60) + "m"
    ensures minutes >= 60 && minutes % 60 == 0 ==> FormatTime(minutes) == NatToString(minutes / 60) + "h"
  {
    if minutes >= 60 {
      var hours := NatToString(minutes / 60);
      if minutes % 60 > 0 {
        TrimHoursAndMinutes(hours, NatToString(minutes % 60));
      } else {
        TrimHours(hours);
        assert hours + "h " + "" == hours + "h ";
      }
    }
  }

  lemma TrimHoursAndMinutes(hours: string, mins: string)
    requires hours != [] && AllDigits(hours)
    ensures JsTrim(hours + "h " + (mins + "m")) == hours + "h " + mins + "m"
  {
    var s := hours + "h " + (mins + "m");
    assert IsAsciiDigit(hours[0]);
    assert s[0] == hours[0] && s[|s| - 1] == 'm';
    JsTrimKeeps(s);
    assert s == hours + "h " + mins + "m";
  }

  lemma TrimHours(hours: string)
    requires hours != [] && AllDigits(hours)
    ensures JsTrim(hours + "h ") == hours + "h"
  {
    var s := hours + "h ";
    assert IsAsciiDigit(hours[0]);
    assert s[0] == hours[0];
    assert TrimStart(s, IsJsSpace) == s;
    assert s[..|s| - 1] == hours + "h";
    assert IsJsSpace(s[|s| - 1]);
    assert TrimEnd(s, IsJsSpace) == TrimEnd(hours + "h", IsJsSpace);
    assert !IsJsSpace('h');
  }

  /** Reads a label back: digit runs accumulate, `h` closes a run of hours
      and `m` a run of minutes. */
  function ReadMinutes(t: string, acc: nat): nat {
    if t == [] then 0
    else if IsAsciiDigit(t[0]) then ReadMinutes(t[1..], acc * 10 + DigitValue(t[0]))
    else if t[0] == 'h' then acc * 60 + ReadMinutes(t[1..], 0)
    else if t[0] == 'm' then acc + ReadMinutes(t[1..], 0)
    else ReadMinutes(t[1..], 0)
  }

  lemma {:induction false} ReadDigitRun(ds: string, rest: string)
    requires AllDigits(ds)
    ensures ReadMinutes(ds + rest, 0) == ReadMinutes(rest, DecimalValue(ds))
    decreases |ds|
  {
    if ds == [] {
      assert ds + rest == rest;
    } else {
      var front := ds[..|ds| - 1];
      var d := ds[|ds| - 1];
      assert ds + rest == front + ([d] + rest);
      ReadDigitRun(front, [d] + rest);
      assert ([d] + rest)[1..] == rest;
    }
  }

  lemma ReadHours(h: nat, rest: string)
    ensures ReadMinutes(NatToString(h) + ['h'] + rest, 0) == h * 60 + ReadMinutes(rest, 0)
  {
    assert NatToString(h) + ['h'] + rest == NatToString(h) + (['h'] + rest);
    ReadDigitRun(NatToString(h), ['h'] + rest);
    NatToStringRoundTrip(h);
    assert (['h'] + rest)[1..] == rest;
  }

  lemma ReadMins(m: nat)
    ensures ReadMinutes(NatToString(m) + "m", 0) == m
  {
    ReadDigitRun(NatToString(m), "m");
    NatToStringRoundTrip(m);
    assert "m"[1..] == "";
  }

  lemma ReadHoursMinutes(h: nat, m: nat)
    ensures ReadMinutes(NatToString(h) + "h " + NatToString(m) + "m", 0) == h * 60 + m
  {
    var hs, ms := NatToString(h), NatToString(m);
    var tail := " " + ms + "m";
    assert ReadMinutes(tail, 0) == m by {
      ReadMins(m);
      assert tail[1..] == ms + "m";
    }
    assert hs + "h " + ms + "m" == hs + ['h'] + tail;
    ReadHours(h, tail);
  }

  /** A label of either shape reads back as its minutes. */
  lemma ReadLabel(t: string, minutes: nat)
    requires minutes < 60 ==> t == IntToString(minutes) + "m"
    requires minutes >= 60 && minutes % 60 > 0 ==>
      t == NatToString(minutes / 60) + "h " + NatToString(minutes % 60) + "m"
    requires minutes >= 60 && minutes % 60 == 0 ==> t == NatToString(minutes / 60) + "h"
    ensures ReadMinutes(t, 0) == minutes
  {
    var h, m := minutes / 60, minutes % 60;
    assert minutes == h * 60 + m;
    if minutes < 60 {
      ReadMins(minutes);
    } else if m > 0 {
      ReadHoursMinutes(h, m);
    } else {
      ReadHours(h, "");
      assert NatToString(h) + "h" == NatToString(h) + ['h'] + "";
    }
  }

  /** A non-negative number of minutes reads back from its label. */
  lemma FormatTimeReadBack(minutes: nat)
    ensures ReadMinutes(FormatTime(minutes), 0) == minutes
  {
    FormatTimeShape(minutes);
    ReadLabel(FormatTime(minutes), minutes);
  }
}

=== FILE: command_keys.dfy ===
/** The shell tokenizer and the command-key classifier used to decide tool
    permissions: splitCommandLine and deriveCommandKeyFromTokens, present in
    both webnew/server.js and webnew/background-gemini.js. The tokenizers are
    the same; the classifiers differ only in the scripts they name, which is
    a parameter here. */
module CommandKeys {
  import opened Wrappers
  import opened Text

  // ------------------------------------------------------------ splitCommandLine

  predicate IsQuoteChar(c: char) { c == '\'' || c == '"' }

  /** The tokenizer as a left-to-right reading of the rest of the input, with
      the open quote, the token being built and the finished tokens. */
  function Scan(s: string, quote: Option<char>, cur: string, out: seq<string>): seq<string>
    decreases |s|
  {
    if s == [] then (if cur != "" then out + [cur] else out)
    else
      var ch := s[0];
      if quote.Some? then
        if ch == quote.value then Scan(s[1..], None, cur, out)
        else if ch == '\\' && |s| >= 2 then Scan(s[2..], quote, cur + [s[1]], out)
        else Scan(s[1..], quote, cur + [ch], out)
      else if IsQuoteChar(ch) then Scan(s[1..], Some(ch), cur, out)
      else if IsJsSpace(ch) then
        if cur != "" then Scan(s[1..], None, "", out + [cur]) else Scan(s[1..], None, cur, out)
      else Scan(s[1..], None, cur + [ch], out)
  }

  /** splitCommandLine. */
  method SplitCommandLine(cmd: string) returns (out: seq<string>)
    ensures out == Scan(cmd, None, "", [])
    ensures forall k :: 0 <= k < |out| ==> out[k] != ""
  {
    out := [];
    var cur := "";
    var quote: Option<char> := None;
    var i := 0;
    while i < |cmd|
      invariant 0 <= i <= |cmd|
      invariant Scan(cmd[i..], quote, cur, out) == Scan(cmd, None, "", [])
      decreases |cmd| - i
    {
      var ch := cmd[i];
      if quote.Some? {
        if ch == quote.value {
          quote := None;
          i := i + 1;
          continue;
        }
        if ch == '\\' && i + 1 < |cmd| {
          assert cmd[i..][2..] == cmd[i + 2..];
          cur := cur + [cmd[i + 1]];
          i := i + 2;
          continue;
        }
        cur := cur + [ch];
        i := i + 1;
        continue;
      }
      if IsQuoteChar(ch) {
        quote := Some(ch);
        i := i + 1;
        continue;
      }
      if IsJsSpace(ch) {
        if cur != "" {
          out := out + [cur];
          cur := "";
        }
        i := i + 1;
        continue;
      }
      cur := cur + [ch];
      i := i + 1;
    }
    if cur != "" {
      out := out + [cur];
    }
    ScanNoEmpty(cmd, None, "", []);
  }

  /** The tokenizer never yields an empty token. */
  predicate NoEmptyToken(ts: seq<string>) {
    forall k :: 0 <= k < |ts| ==> ts[k] != ""
  }

  lemma {:induction false} ScanNoEmpty(s: string, quote: Option<char>, cur: string, out: seq<string>)
    requires NoEmptyToken(out)
    ensures NoEmptyToken(Scan(s, quote, cur, out))
    decreases |s|
  {
    if s == [] {
      if cur != "" {
        assert (out + [cur])[|out|] == cur;
        assert forall k :: 0 <= k < |out| ==> (out + [cur])[k] == out[k];
      }
    } else {
      var ch := s[0];
      if quote.Some? {
        if ch == quote.value {
          assert Scan(s, quote, cur, out) == Scan(s[1..], None, cur, out);
          ScanNoEmpty(s[1..], None, cur, out);
        } else if ch == '\\' && |s| >= 2 {
          assert Scan(s, quote, cur, out) == Scan(s[2..], quote, cur + [s[1]], out);
          ScanNoEmpty(s[2..], quote, cur + [s[1]], out);
        } else {
          assert Scan(s, quote, cur, out) == Scan(s[1..], quote, cur + [ch], out);
          ScanNoEmpty(s[1..], quote, cur + [ch], out);
        }
      } else if IsQuoteChar(ch) {
        assert Scan(s, quote, cur, out) == Scan(s[1..], Some(ch), cur, out);
        ScanNoEmpty(s[1..], Some(ch), cur, out);
      } else if IsJsSpace(ch) {
        if cur != "" {
          assert forall k :: 0 <= k < |out| ==> (out + [cur])[k] == out[k];
          assert (out + [cur])[|out|] == cur;
          assert Scan(s, quote, cur, out) == Scan(s[1..], None, "", out + [cur]);
          ScanNoEmpty(s[1..], None, "", out + [cur]);
        } else {
          assert Scan(s, quote, cur, out) == Scan(s[1..], None, cur, out);
          ScanNoEmpty(s[1..], None, cur, out);
        }
      } else {
        assert Scan(s, quote, cur, out) == Scan(s[1..], None, cur + [ch], out);
        ScanNoEmpty(s[1..], None, cur + [ch], out);
      }
    }
  }

  /** A word with no blank and no quote character. */
  predicate PlainWord(w: string) {
    w != [] && forall k :: 0 <= k < |w| ==> !IsJsSpace(w[k]) && !IsQuoteChar(w[k])
  }

  lemma {:induction false} ScanPlain(w: string, rest: string, cur: string, out: seq<string>)
    requires forall k :: 0 <= k < |w| ==> !IsJsSpace(w[k]) && !IsQuoteChar(w[k])
    ensures Scan(w + rest, None, cur, out) == Scan(rest, None, cur + w, out)
    decreases |w|
  {
    if w == [] {
      assert w + rest == rest && cur + w == cur;
    } else {
      assert (w + rest)[0] == w[0];
      assert (w + rest)[1..] == w[1..] + rest;
      assert !IsJsSpace(w[0]) && !IsQuoteChar(w[0]);
      var c2 := cur + [w[0]];
      assert Scan(w + rest, None, cur, out) == Scan(w[1..] + rest, None, c2, out);
      assert forall k :: 0 <= k < |w[1..]| ==> w[1..][k] == w[k + 1];
      ScanPlain(w[1..], rest, c2, out);
      assert c2 + w[1..] == cur + w;
    }
  }

  lemma {:induction false} ScanJoin(words: seq<string>, out: seq<string>)
    requires words != [] && forall k :: 0 <= k < |words| ==> PlainWord(words[k])
    ensures Scan(Join(words, " "), None, "", out) == out + words
    decreases |words|
  {
    var w := words[0];
    if |words| == 1 {
      ScanPlain(w, "", "", out);
      assert w + "" == w && "" + w == w;
    } else {
      var rest := words[1..];
      var j := Join(rest, " ");
      assert Join(words, " ") == w + (" " + j);
      ScanPlain(w, " " + j, "", out);
      assert "" + w == w;
      assert (" " + j)[1..] == j;
      ScanJoin(rest, out + [w]);
      assert out + [w] + rest == out + words;
    }
  }

  /** Plain words joined by single spaces split back into the same words. */
  lemma PlainWordsRoundTrip(words: seq<string>)
    requires forall k :: 0 <= k < |words| ==> PlainWord(words[k])
    ensures Scan(Join(words, " "), None, "", []) == words
  {
    if words != [] {
      ScanJoin(words, []);
    }
  }

  lemma {:induction false} ScanQuoted(w: string, q: char, rest: string, cur: string, out: seq<string>)
    requires q !in w && '\\' !in w
    ensures Scan(w + [q] + rest, Some(q), cur, out) == Scan(rest, None, cur + w, out)
    decreases |w|
  {
    if w == [] {
      assert (w + [q] + rest)[1..] == rest;
      assert cur + w == cur;
    } else {
      assert (w + [q] + rest)[1..] == w[1..] + [q] + rest;
      ScanQuoted(w[1..], q, rest, cur + [w[0]], out);
      assert cur + [w[0]] + w[1..] == cur + w;
    }
  }

  /** A quoted run is one token without its quotes, blanks included, and a
      backslash inside quotes keeps the next character. */
  lemma QuotedRunIsOneToken(w: string, q: char)
    requires IsQuoteChar(q) && q !in w && '\\' !in w && w != []
    ensures Scan([q] + w + [q], None, "", []) == [w]
  {
    assert ([q] + w + [q])[1..] == w + [q] + "";
    ScanQuoted(w, q, "", "", []);
    assert "" + w == w;
  }

  lemma EscapeInsideQuotes(q: char, c: char)
    requires IsQuoteChar(q) && c != '\\'
    ensures Scan([q, '\\', c, q], None, "", []) == [[c]]
  {
    var s := [q, '\\', c, q];
    assert s[1..] == ['\\', c, q];
    assert ['\\', c, q][2..] == [q];
    assert [q][1..] == [];
    assert Scan(s, None, "", []) == Scan(['\\', c, q], Some(q), "", []);
    assert Scan(['\\', c, q], Some(q), "", []) == Scan([q], Some(q), "" + [c], []);
    assert Scan([q], Some(q), [c], []) == Scan([], None, [c], []);
    assert "" + [c] == [c];
  }

  // ------------------------------------------------------------ deriveCommandKeyFromTokens

  predicate IsWordChar(c: char) { IsAsciiAlnum(c) || c == '_' }

  /** The end of the run of word characters starting at `k`. */
  function WordRunEnd(t: string, k: nat): (r: nat)
    requires k <= |t|
    ensures k <= r <= |t| && (r < |t| ==> !IsWordChar(t[r]))
    decreases |t| - k
  {
    if k == |t| || !IsWordChar(t[k]) then k else WordRunEnd(t, k + 1)
  }

  /** `/^[A-Za-z_][A-Za-z0-9_]*=/`: a `NAME=value` assignment. */
  predicate IsAssignment(t: string) {
    t != [] && (IsAsciiLetter(t[0]) || t[0] == '_')
    && var k := WordRunEnd(t, 1); k < |t| && t[k] == '='
  }

  /** `/^-/`. */
  predicate IsFlag(t: string) { t != [] && t[0] == '-' }

  /** `tokens[k]`, with `undefined` read as "". */
  function At(tokens: seq<string>, k: nat): string {
    if k < |tokens| then tokens[k] else ""
  }

  /** The number of leading flags. */
  function FlagRun(ts: seq<string>): (r: nat)
    ensures r <= |ts|
  {
    if ts != [] && IsFlag(ts[0]) then 1 + FlagRun(ts[1..]) else 0
  }

  /** The number of leading flags and assignments. */
  function EnvRun(ts: seq<string>): (r: nat)
    ensures r <= |ts|
  {
    if ts != [] && (IsFlag(ts[0]) || IsAssignment(ts[0])) then 1 + EnvRun(ts[1..]) else 0
  }

  /** What the leading loop does with a token. */
  datatype Lead = Assignment | Sudo | Env | CommandWord

  function LeadOf(t: string): Lead {
    if IsAssignment(t) then Assignment
    else if t == "sudo" then Sudo
    else if t == "env" then Env
    else CommandWord
  }

  /** How many tokens come before the command word: assignments, `sudo`
      with its flags and `env` with its flags and assignments. */
  function Skipped(ts: seq<string>): (r: nat)
    ensures r <= |ts|
    decreases |ts|
  {
    if ts == [] then 0
    else match LeadOf(ts[0])
      case Assignment => 1 + Skipped(ts[1..])
      case Sudo => var n := 1 + FlagRun(ts[1..]); n + Skipped(ts[n..])
      case Env => var n := 1 + EnvRun(ts[1..]); n + Skipped(ts[n..])
      case CommandWord => 0
  }

  /** The leading loop stops only at a command word. */
  lemma {:induction false} SkippedStopsAtCommandWord(ts: seq<string>)
    ensures var r := Skipped(ts); r < |ts| ==> LeadOf(ts[r]) == CommandWord
    decreases |ts|
  {
    if ts != [] {
      match LeadOf(ts[0])
      case Assignment =>
        SkippedStopsAtCommandWord(ts[1..]);
        if Skipped(ts) < |ts| {
          assert ts[1..][Skipped(ts[1..])] == ts[Skipped(ts)];
        }
      case Sudo =>
        var n := 1 + FlagRun(ts[1..]);
        SkippedStopsAtCommandWord(ts[n..]);
        if Skipped(ts) < |ts| {
          assert ts[n..][Skipped(ts[n..])] == ts[Skipped(ts)];
        }
      case Env =>
        var n := 1 + EnvRun(ts[1..]);
        SkippedStopsAtCommandWord(ts[n..]);
        if Skipped(ts) < |ts| {
          assert ts[n..][Skipped(ts[n..])] == ts[Skipped(ts)];
        }
      case CommandWord =>
    }
  }

  /** The last piece of `String(p).split(/\\\\|\//)`: separators are `/` and a
      pair of backslashes, matched left to right. */
  function LastPiece(s: string, cur: string): string
    decreases |s|
  {
    if s == [] then cur
    else if |s| >= 2 && s[0] == '\\' && s[1] == '\\' then LastPiece(s[2..], "")
    else if s[0] == '/' then LastPiece(s[1..], "")
    else LastPiece(s[1..], cur + [s[0]])
  }

  function Basename(p: string): string { LastPiece(p, "") }

  /** The script names a classifier recognises, with the key suffix of each. */
  type ScriptTable = seq<(string, string)>

  const ServerScripts: ScriptTable :=
    [("manage_log.py", "manage_log"), ("manage_context.py", "manage_context"), ("notify_tool.py", "notify_tool")]
  const WorkerScripts: ScriptTable :=
    [("manage_log.py", "manage_log"), ("manage_context.py", "manage_context")]

  function LookupScript(b: string, scripts: ScriptTable): (r: Option<string>)
    ensures r.Some? ==> exists k :: 0 <= k < |scripts| && scripts[k] == (b, r.value)
  {
    if scripts == [] then None
    else if scripts[0].0 == b then Some(scripts[0].1)
    else
      var r := LookupScript(b, scripts[1..]);
      if r.Some? then assert scripts[1..][0] == scripts[1]; r else r
  }

  /** The script a python command runs: the first argument that is not a
      flag, unless `-m`, `-c`, `--` or an empty token comes first. */
  function ScriptArg(args: seq<string>, scripts: ScriptTable): Option<string> {
    if args == [] || args[0] == "" then None
    else if IsFlag(args[0]) then
      if args[0] == "-m" || args[0] == "-c" || args[0] == "--" then None
      else ScriptArg(args[1..], scripts)
    else LookupScript(Basename(args[0]), scripts)
  }

  /** The key of a command whose first token is the command word. */
  function KeyOf(cmd: seq<string>, scripts: ScriptTable): string {
    var head := At(cmd, 0);
    if head == "" then ""
    else if head == "npm" && At(cmd, 1) == "run" && At(cmd, 2) != "" then "npm:run:" + At(cmd, 2)
    else if head == "npx" && At(cmd, 1) != "" then "npx:" + At(cmd, 1)
    else if (head == "pnpm" || head == "yarn") && At(cmd, 1) != "" then head + ":" + At(cmd, 1)
    else if head == "python" || head == "python3" then
      match ScriptArg(cmd[1..], scripts)
      case Some(name) => head + ":" + name
      case None => head
    else if head == "node" then head
    else "shell:" + head
  }

  /** The command the classifier reads: the tokens from the command word on. */
  function CommandOf(tokens: seq<string>): seq<string> {
    tokens[Skipped(tokens)..]
  }

  /** deriveCommandKeyFromTokens as a reference definition; an empty list
      has no command word and so the empty key. */
  function CommandKey(tokens: seq<string>, scripts: ScriptTable): string {
    KeyOf(CommandOf(tokens), scripts)
  }

  /** The leading loop of deriveCommandKeyFromTokens: the index of the
      command word. */
  method SkipLeading(tokens: seq<string>) returns (i: nat)
    ensures i == Skipped(tokens)
  {
    i := 0;
    while i < |tokens|
      invariant 0 <= i <= |tokens|
      invariant i + Skipped(tokens[i..]) == Skipped(tokens)
      decreases |tokens| - i
    {
      var lead := LeadOf(tokens[i]);
      if lead == CommandWord {
        break;
      } else if lead == Assignment {
        SkippedAfterAssignment(tokens, i);
        i := i + 1;
      } else if lead == Sudo {
        var at := i;
        i := SkipSudoFlags(tokens, i + 1);
        SkippedAfterOptions(tokens, at, i);
      } else {
        var at := i;
        i := SkipEnvOptions(tokens, i + 1);
        SkippedAfterOptions(tokens, at, i);
      }
    }
  }

  lemma SkippedAfterAssignment(tokens: seq<string>, at: nat)
    requires at < |tokens| && LeadOf(tokens[at]) == Assignment
    ensures Skipped(tokens[at..]) == 1 + Skipped(tokens[at + 1..])
  {
    assert tokens[at..][1..] == tokens[at + 1..];
  }

  lemma SkippedAfterOptions(tokens: seq<string>, at: nat, e: nat)
    requires at < |tokens|
    requires LeadOf(tokens[at]) == Sudo ==> e == at + 1 + FlagRun(tokens[at + 1..])
    requires LeadOf(tokens[at]) == Env ==> e == at + 1 + EnvRun(tokens[at + 1..])
    requires LeadOf(tokens[at]) == Sudo || LeadOf(tokens[at]) == Env
    ensures e <= |tokens| && at + Skipped(tokens[at..]) == e + Skipped(tokens[e..])
  {
    var rest := tokens[at..];
    assert rest[1..] == tokens[at + 1..];
    assert rest[e - at..] == tokens[e..];
  }

  /** The inner loop after `sudo`: its flags. */
  method SkipSudoFlags(tokens: seq<string>, from: nat) returns (i: nat)
    requires from <= |tokens|
    ensures i == from + FlagRun(tokens[from..])
  {
    i := from;
    while i < |tokens| && IsFlag(tokens[i])
      invariant from <= i <= |tokens|
      invariant i + FlagRun(tokens[i..]) == from + FlagRun(tokens[from..])
      decreases |tokens| - i
    {
      assert tokens[i..][1..] == tokens[i + 1..];
      i := i + 1;
    }
  }

  /** The inner loop after `env`: its flags and assignments. */
  method SkipEnvOptions(tokens: seq<string>, from: nat) returns (i: nat)
    requires from <= |tokens|
    ensures i == from + EnvRun(tokens[from..])
  {
    i := from;
    while i < |tokens| && (IsFlag(tokens[i]) || IsAssignment(tokens[i]))
      invariant from <= i <= |tokens|
      invariant i + EnvRun(tokens[i..]) == from + EnvRun(tokens[from..])
      decreases |tokens| - i
    {
      assert tokens[i..][1..] == tokens[i + 1..];
      i := i + 1;
    }
  }

  /** The walk over a python command's flags to the script it runs. */
  method FindScript(tokens: seq<string>, start: nat, scripts: ScriptTable) returns (found: Option<string>)
    requires start <= |tokens|
    ensures found == ScriptArg(tokens[start..], scripts)
  {
    var j := start;
    while j < |tokens|
      invariant start <= j <= |tokens|
      invariant ScriptArg(tokens[j..], scripts) == ScriptArg(tokens[start..], scripts)
      decreases |tokens| - j
    {
      var t := tokens[j];
      if t == "" {
        break;
      }
      if IsFlag(t) {
        if t == "-m" || t == "-c" || t == "--" {
          break;
        }
        assert tokens[j..][1..] == tokens[j + 1..];
        j := j + 1;
        continue;
      }
      return LookupScript(Basename(t), scripts);
    }
    return None;
  }

  /** deriveCommandKeyFromTokens. */
  method DeriveCommandKeyFromTokens(tokens: seq<string>, scripts: ScriptTable) returns (key: string)
    ensures key == CommandKey(tokens, scripts)
  {
    if |tokens| == 0 {
      return "";
    }
    var i := SkipLeading(tokens);
    ghost var cmd := tokens[i..];
    assert forall d: nat :: At(tokens, i + d) == At(cmd, d);
    var head := At(tokens, i);
    if head == "" {
      return "";
    }
    if head == "npm" && At(tokens, i + 1) == "run" && At(tokens, i + 2) != "" {
      return "npm:run:" + At(tokens, i + 2);
    }
    if head == "npx" && At(tokens, i + 1) != "" {
      return "npx:" + At(tokens, i + 1);
    }
    if (head == "pnpm" || head == "yarn") && At(tokens, i + 1) != "" {
      return head + ":" + At(tokens, i + 1);
    }
    if head == "python" || head == "python3" || head == "node" {
      if head == "python" || head == "python3" {
        var found := FindScript(tokens, i + 1, scripts);
        assert cmd[1..] == tokens[i + 1..];
        if found.Some? {
          return head + ":" + found.value;
        }
      }
      return head;
    }
    return "shell:" + head;
  }

  // ------------------------------------------------------------ properties

  /** A leading `NAME=value` assignment does not change the key. */
  lemma AssignmentSkipped(t: string, r: seq<string>, scripts: ScriptTable)
    requires IsAssignment(t)
    ensures CommandKey([t] + r, scripts) == CommandKey(r, scripts)
  {
    var ts := [t] + r;
    assert ts[0] == t && ts[1..] == r;
    assert CommandOf(ts) == CommandOf(r);
  }

  lemma {:induction false} FlagRunAppend(flags: seq<string>, r: seq<string>)
    requires forall k :: 0 <= k < |flags| ==> IsFlag(flags[k])
    requires r == [] || !IsFlag(r[0])
    ensures FlagRun(flags + r) == |flags|
    decreases |flags|
  {
    if flags != [] {
      assert (flags + r)[0] == flags[0];
      assert (flags + r)[1..] == flags[1..] + r;
      FlagRunAppend(flags[1..], r);
    } else {
      assert flags + r == r;
    }
  }

  lemma {:induction false} EnvRunAppend(args: seq<string>, r: seq<string>)
    requires forall k :: 0 <= k < |args| ==> IsFlag(args[k]) || IsAssignment(args[k])
    requires r == [] || (!IsFlag(r[0]) && !IsAssignment(r[0]))
    ensures EnvRun(args + r) == |args|
    decreases |args|
  {
    if args != [] {
      assert (args + r)[0] == args[0];
      assert (args + r)[1..] == args[1..] + r;
      EnvRunAppend(args[1..], r);
    } else {
      assert args + r == r;
    }
  }

  /** Tokens `[w] + opts + r` where `opts` is the run the leading loop
      skips after `w`: the key is that of `r`. */
  lemma OptionsSkipped(ts: seq<string>, n: nat, r: seq<string>, scripts: ScriptTable)
    requires 1 <= n <= |ts| && ts[n..] == r
    requires LeadOf(ts[0]) == Sudo ==> n == 1 + FlagRun(ts[1..])
    requires LeadOf(ts[0]) == Env ==> n == 1 + EnvRun(ts[1..])
    requires LeadOf(ts[0]) == Sudo || LeadOf(ts[0]) == Env
    ensures CommandKey(ts, scripts) == CommandKey(r, scripts)
  {
    assert Skipped(ts) == n + Skipped(ts[n..]);
    assert CommandOf(ts) == CommandOf(r);
  }

  /** `sudo` and the flags after it do not change the key. */
  lemma SudoSkipped(flags: seq<string>, r: seq<string>, scripts: ScriptTable)
    requires forall k :: 0 <= k < |flags| ==> IsFlag(flags[k])
    requires r == [] || !IsFlag(r[0])
    ensures CommandKey(["sudo"] + flags + r, scripts) == CommandKey(r, scripts)
  {
    var ts := ["sudo"] + flags + r;
    assert WordRunEnd("sudo", 1) == 4;
    assert ts[0] == "sudo" && LeadOf(ts[0]) == Sudo;
    assert ts[1..] == flags + r;
    FlagRunAppend(flags, r);
    assert ts[1 + |flags|..] == r;
    OptionsSkipped(ts, 1 + |flags|, r, scripts);
  }

  /** `env` and the flags and assignments after it do not change the key. */
  lemma EnvSkipped(args: seq<string>, r: seq<string>, scripts: ScriptTable)
    requires forall k :: 0 <= k < |args| ==> IsFlag(args[k]) || IsAssignment(args[k])
    requires r == [] || (!IsFlag(r[0]) && !IsAssignment(r[0]))
    ensures CommandKey(["env"] + args + r, scripts) == CommandKey(r, scripts)
  {
    var ts := ["env"] + args + r;
    assert WordRunEnd("env", 1) == 3;
    assert ts[0] == "env" && LeadOf(ts[0]) == Env;
    assert ts[1..] == args + r;
    EnvRunAppend(args, r);
    assert ts[1 + |args|..] == r;
    OptionsSkipped(ts, 1 + |args|, r, scripts);
  }

  /** The key is never taken from a word that is skipped. */
  lemma SkippedWordsNeverHead(tokens: seq<string>, scripts: ScriptTable)
    ensures CommandKey(tokens, scripts) != "shell:sudo" && CommandKey(tokens, scripts) != "shell:env"
  {
    if tokens != [] {
      var cmd := tokens[Skipped(tokens)..];
      var head := At(cmd, 0);
      var key := CommandKey(tokens, scripts);
      SkippedStopsAtCommandWord(tokens);
      if head == "" {
      } else if head == "npm" || head == "npx" || head == "pnpm" || head == "yarn" {
        assert key == "npm:run:" + At(cmd, 2) || key == "npx:" + At(cmd, 1)
          || key == head + ":" + At(cmd, 1) || key == "shell:" + head;
        assert key[0] == 'n' || key[0] == 'p' || key[0] == 'y' || key[6..] == head;
      } else if head == "python" || head == "python3" || head == "node" {
        assert key[0] == head[0];
      } else {
        assert head == tokens[Skipped(tokens)];
        assert key == "shell:" + head;
        assert key[6..] == head;
      }
    }
  }

  lemma {:induction false} ScriptTablesAgree(args: seq<string>)
    ensures var s := ScriptArg(args, ServerScripts);
      var w := ScriptArg(args, WorkerScripts);
      s == w || (s == Some("notify_tool") && w == None)
    decreases |args|
  {
    if args != [] && args[0] != "" && IsFlag(args[0]) && !(args[0] == "-m" || args[0] == "-c" || args[0] == "--") {
      ScriptTablesAgree(args[1..]);
    }
  }

  /** The two classifiers differ only on python commands that run
      notify_tool.py, which only the server names. */
  lemma ClassifiersDifferOnlyOnNotifyTool(tokens: seq<string>)
    ensures var s := CommandKey(tokens, ServerScripts);
      var w := CommandKey(tokens, WorkerScripts);
      s == w || ((w == "python" || w == "python3") && s == w + ":notify_tool")
  {
    if tokens != [] {
      var cmd := tokens[Skipped(tokens)..];
      if cmd != [] {
        ScriptTablesAgree(cmd[1..]);
      }
    }
  }

  /** The package-runner forms. */
  lemma RunnerKeys(x: string, y: string, rest: seq<string>, scripts: ScriptTable)
    requires x != "" && y != ""
    ensures CommandKey(["npm", "run", x] + rest, scripts) == "npm:run:" + x
    ensures CommandKey(["npx", x] + rest, scripts) == "npx:" + x
    ensures CommandKey(["yarn", x] + rest, scripts) == "yarn:" + x
    ensures (y != "npm" && y != "npx" && y != "pnpm" && y != "yarn" && y != "python" && y != "python3"
      && y != "node" && y != "sudo" && y != "env" && !IsAssignment(y)) ==>
      CommandKey([y] + rest, scripts) == "shell:" + y
  {
    assert (["npm", "run", x] + rest)[0] == "npm";
    assert (["npx", x] + rest)[0] == "npx";
    assert (["yarn", x] + rest)[0] == "yarn";
    assert ([y] + rest)[0] == y;
  }
}

=== FILE: context_actions.dfy ===
/** normalizeContextEventAction of webnew/server.js: an action name written
    by the assistant is mapped to one of the context-event actions the server
    carries out, through an alias table or a spelling clean-up, or rejected. */
module ContextActions {
  import opened Wrappers
  import opened Text

  /** CONTEXT_EVENT_ALLOWED_ACTIONS. */
  const AllowedActions: set<string> := {
    "context.state_get", "context.state_set", "context.mode_get", "context.mode_list",
    "context.pending_list", "context.pending_update", "context.pending_create",
    "context.events_recent", "ai.reminder_create", "ai.reminder_update",
    "context.events_append", "summary.daily_update", "summary.session_update"
  }

  /** CONTEXT_EVENT_ACTION_ALIASES. */
  const ActionAliases: map<string, string> := map[
    "contextstateget" := "context.state_get",
    "context.state.get" := "context.state_get",
    "contextstateset" := "context.state_set",
    "context.state.set" := "context.state_set",
    "contextactivate" := "context.state_set",
    "activatecontext" := "context.state_set",
    "contextmodeget" := "context.mode_get",
    "context.mode.get" := "context.mode_get",
    "contextmodelist" := "context.mode_list",
    "context.mode.list" := "context.mode_list",
    "contextpendingupdate" := "context.pending_update",
    "context.pending.update" := "context.pending_update",
    "contextpendingresolve" := "context.pending_update",
    "context.pending.resolve" := "context.pending_update",
    "contextpendingconfirm" := "context.pending_update",
    "context.pending.confirm" := "context.pending_update",
    "contextpendingcancel" := "context.pending_update",
    "context.pending.cancel" := "context.pending_update",
    "contextpendingcreate" := "context.pending_create",
    "context.pending.create" := "context.pending_create",
    "contextpendinglist" := "context.pending_list",
    "context.pending.list" := "context.pending_list",
    "airemindercreate" := "ai.reminder_create",
    "ai.reminder.create" := "ai.reminder_create",
    "remindercreate" := "ai.reminder_create",
    "aireminderupdate" := "ai.reminder_update",
    "ai.reminder.update" := "ai.reminder_update",
    "airemindercancel" := "ai.reminder_update",
    "ai.reminder.cancel" := "ai.reminder_update",
    "remindercancel" := "ai.reminder_update",
    "contexteventsappend" := "context.events_append",
    "context.events.append" := "context.events_append",
    "contexteventsrecent" := "context.events_recent",
    "context.events.recent" := "context.events_recent"
  ]

  predicate IsKeyChar(c: char) { 'a' <= c <= 'z' || '0' <= c <= '9' }

  /** `replace(/[^a-z0-9]+/g, '')`. */
  function AliasKey(s: string): (r: string)
    ensures |r| <= |s|
    ensures forall i :: 0 <= i < |r| ==> IsKeyChar(r[i])
    ensures (forall i :: 0 <= i < |s| ==> IsKeyChar(s[i])) ==> r == s
  {
    if s == [] then []
    else (if IsKeyChar(s[0]) then [s[0]] else []) + AliasKey(s[1..])
  }

  /** The key is taken piece by piece: the key of a concatenation is the
      concatenation of the keys. With the key of a single character (itself
      when it is a lower-case letter or digit, empty otherwise), this says
      every key character of the input is kept, in order, and nothing else. */
  lemma {:induction false} AliasKeyConcat(a: string, b: string)
    ensures AliasKey(a + b) == AliasKey(a) + AliasKey(b)
    ensures |a| == 1 ==> AliasKey(a) == if IsKeyChar(a[0]) then a else []
    decreases |a|
  {
    if a != [] {
      assert (a + b)[0] == a[0] && (a + b)[1..] == a[1..] + b;
      AliasKeyConcat(a[1..], b);
      var h := if IsKeyChar(a[0]) then [a[0]] else [];
      assert AliasKey(a + b) == h + (AliasKey(a[1..]) + AliasKey(b));
      assert h + (AliasKey(a[1..]) + AliasKey(b)) == (h + AliasKey(a[1..])) + AliasKey(b);
    } else {
      assert a + b == b;
    }
  }

  /** `replace(/\s+/g, '')`. */
  function RemoveSpaces(s: string): (r: string)
    ensures forall i :: 0 <= i < |r| ==> !IsJsSpace(r[i])
  {
    if s == [] then []
    else (if IsJsSpace(s[0]) then [] else [s[0]]) + RemoveSpaces(s[1..])
  }

  /** `s` without its leading run of `c`. */
  function DropRun(s: string, c: char): (r: string)
    ensures |r| < |s| || s == [] || s[0] != c
    ensures r == [] || r[0] != c
    ensures |r| <= |s| && r == s[|s| - |r|..]
  {
    if s != [] && s[0] == c then DropRun(s[1..], c) else s
  }

  /** Every maximal run of `c` replaced by one `d`: `replace(/c+/g, d)`, and
      with `d == c` the `replace(/cc+/g, c)` steps. */
  function CollapseRuns(s: string, c: char, d: char): string
    decreases |s|
  {
    if s == [] then []
    else if s[0] == c then [d] + CollapseRuns(DropRun(s, c), c, d)
    else [s[0]] + CollapseRuns(s[1..], c, d)
  }

  /** The spelling clean-up applied when no alias matches. */
  function Cleaned(lower: string): string {
    var a := RemoveSpaces(lower);
    var b := CollapseRuns(a, ':', '.');
    var c := CollapseRuns(b, '-', '_');
    var d := CollapseRuns(c, '_', '_');
    CollapseRuns(d, '.', '.')
  }

  /** The lookup on the trimmed, lower-cased name: the alias table first, the
      clean-up otherwise, and only allowed actions are returned. */
  function Resolve(lower: string): (r: Option<string>)
    ensures r.Some? ==> r.value in AllowedActions
  {
    if lower == "" then None
    else
      var key := AliasKey(lower);
      var candidate := if key in ActionAliases then ActionAliases[key] else Cleaned(lower);
      if candidate in AllowedActions then Some(candidate) else None
  }

  /** normalizeContextEventAction on a string argument. */
  function NormalizeContextEventAction(raw: string): (r: Option<string>)
    ensures r.Some? ==> r.value in AllowedActions
    ensures JsTrim(raw) == "" ==> r == None
  {
    if raw == "" then None else Resolve(Lower(JsTrim(raw)))
  }

  // ------------------------------------------------------------ the clean-up

  predicate NoDouble(s: string, c: char) {
    forall i :: 0 <= i < |s| - 1 ==> !(s[i] == c && s[i + 1] == c)
  }

  lemma {:induction false} CollapseFirst(s: string, c: char, d: char)
    requires s != []
    ensures CollapseRuns(s, c, d) != [] && CollapseRuns(s, c, d)[0] == (if s[0] == c then d else s[0])
  {
  }

  /** A character other than `d` that is absent stays absent. */
  lemma {:induction false} CollapseKeepsAbsent(s: string, c: char, d: char, x: char)
    requires x != d && x !in s
    ensures x !in CollapseRuns(s, c, d)
    decreases |s|
  {
    if s != [] {
      if s[0] == c {
        assert x !in DropRun(s, c) by { assert forall y :: y in DropRun(s, c) ==> y in s; }
        CollapseKeepsAbsent(DropRun(s, c), c, d, x);
      } else {
        CollapseKeepsAbsent(s[1..], c, d, x);
      }
    }
  }

  /** A collapsed character no longer occurs when it is replaced by another. */
  lemma {:induction false} CollapseRemoves(s: string, c: char, d: char)
    requires c != d
    ensures c !in CollapseRuns(s, c, d)
    decreases |s|
  {
    if s != [] {
      if s[0] == c {
        CollapseRemoves(DropRun(s, c), c, d);
      } else {
        CollapseRemoves(s[1..], c, d);
      }
    }
  }

  /** After collapsing, no two `d` are adjacent when `c == d`, and a different
      character `e` that never doubled does not double either. */
  lemma {:induction false} CollapseNoDouble(s: string, c: char, e: char)
    requires e == c || NoDouble(s, e)
    ensures NoDouble(CollapseRuns(s, c, c), e)
    decreases |s|
  {
    if s != [] {
      var r := CollapseRuns(s, c, c);
      if s[0] == c {
        var t := DropRun(s, c);
        assert e == c || NoDouble(t, e) by {
          if e != c {
            forall i | 0 <= i < |t| - 1 ensures !(t[i] == e && t[i + 1] == e) {
              assert t[i] == s[|s| - |t| + i] && t[i + 1] == s[|s| - |t| + i + 1];
            }
          }
        }
        CollapseNoDouble(t, c, e);
        if t != [] {
          CollapseFirst(t, c, c);
        }
      } else {
        var t := s[1..];
        assert e == c || NoDouble(t, e) by {
          if e != c {
            forall i | 0 <= i < |t| - 1 ensures !(t[i] == e && t[i + 1] == e) {
              assert t[i] == s[i + 1] && t[i + 1] == s[i + 2];
            }
          }
        }
        CollapseNoDouble(t, c, e);
        if t != [] {
          CollapseFirst(t, c, c);
          assert s[1] == t[0];
        }
      }
    }
  }

  /** The clean-up leaves no space, `:` or `-`, and no doubled `_` or `.`. */
  lemma CleanedShape(lower: string)
    ensures var r := Cleaned(lower);
      && ':' !in r && '-' !in r
      && NoDouble(r, '_') && NoDouble(r, '.')
      && forall i :: 0 <= i < |r| ==> !IsJsSpace(r[i])
  {
    var a := RemoveSpaces(lower);
    var b := CollapseRuns(a, ':', '.');
    var c := CollapseRuns(b, '-', '_');
    var d := CollapseRuns(c, '_', '_');
    var r := CollapseRuns(d, '.', '.');
    CollapseRemoves(a, ':', '.');
    CollapseKeepsAbsent(b, '-', '_', ':');
    CollapseKeepsAbsent(c, '_', '_', ':');
    CollapseKeepsAbsent(d, '.', '.', ':');
    CollapseRemoves(b, '-', '_');
    CollapseKeepsAbsent(c, '_', '_', '-');
    CollapseKeepsAbsent(d, '.', '.', '-');
    CollapseNoDouble(c, '_', '_');
    CollapseNoDouble(d, '.', '_');
    CollapseNoDouble(d, '.', '.');
    SpacesStayOut(a, ':', '.');
    SpacesStayOut(b, '-', '_');
    SpacesStayOut(c, '_', '_');
    SpacesStayOut(d, '.', '.');
  }

  lemma {:induction false} SpacesStayOut(s: string, c: char, d: char)
    requires !IsJsSpace(d) && forall i :: 0 <= i < |s| ==> !IsJsSpace(s[i])
    ensures forall i :: 0 <= i < |CollapseRuns(s, c, d)| ==> !IsJsSpace(CollapseRuns(s, c, d)[i])
    decreases |s|
  {
    if s != [] {
      var r := CollapseRuns(s, c, d);
      if s[0] == c {
        var t := DropRun(s, c);
        forall i | 0 <= i < |t| ensures !IsJsSpace(t[i]) {
          assert t[i] == s[|s| - |t| + i];
        }
        SpacesStayOut(t, c, d);
        var rest := CollapseRuns(t, c, d);
        assert r == [d] + rest;
        forall i | 0 <= i < |r| ensures !IsJsSpace(r[i]) {
          if i > 0 { assert r[i] == rest[i - 1]; } else { assert r[0] == d; }
        }
      } else {
        SpacesStayOut(s[1..], c, d);
        var rest := CollapseRuns(s[1..], c, d);
        assert r == [s[0]] + rest;
        forall i | 0 <= i < |r| ensures !IsJsSpace(r[i]) {
          if i > 0 { assert r[i] == rest[i - 1]; } else { assert r[0] == s[0]; }
        }
      }
    }
  }

  // ------------------------------------------------------------ case and aliases

  /** Lower-casing neither makes nor unmakes a blank. */
  lemma LowerCharSpace(c: char)
    ensures IsJsSpace(LowerChar(c)) == IsJsSpace(c)
  {
  }

  lemma {:induction false} TrimStartLower(s: string)
    ensures TrimStart(Lower(s), IsJsSpace) == Lower(TrimStart(s, IsJsSpace))
    decreases |s|
  {
    if s != [] {
      var l := Lower(s);
      assert l[1..] == Lower(s[1..]);
      LowerCharSpace(s[0]);
      if IsJsSpace(s[0]) {
        assert TrimStart(l, IsJsSpace) == TrimStart(l[1..], IsJsSpace);
        TrimStartLower(s[1..]);
      } else {
        assert TrimStart(l, IsJsSpace) == l;
      }
    }
  }

  lemma {:induction false} TrimEndLower(s: string)
    ensures TrimEnd(Lower(s), IsJsSpace) == Lower(TrimEnd(s, IsJsSpace))
    decreases |s|
  {
    if s != [] {
      var l := Lower(s);
      var n := |s|;
      assert l[..n - 1] == Lower(s[..n - 1]);
      LowerCharSpace(s[n - 1]);
      if IsJsSpace(s[n - 1]) {
        assert TrimEnd(l, IsJsSpace) == TrimEnd(l[..n - 1], IsJsSpace);
        assert TrimEnd(s, IsJsSpace) == TrimEnd(s[..n - 1], IsJsSpace);
        TrimEndLower(s[..n - 1]);
      } else {
        assert TrimEnd(l, IsJsSpace) == l;
      }
    }
  }

  /** The action name is read case-insensitively. */
  lemma CaseInsensitive(raw: string)
    ensures NormalizeContextEventAction(Lower(raw)) == NormalizeContextEventAction(raw)
  {
    TrimLower(raw);
    assert Lower(raw) == "" <==> raw == "";
  }

  lemma TrimLower(raw: string)
    ensures Lower(JsTrim(Lower(raw))) == Lower(JsTrim(raw))
  {
    TrimStartLower(raw);
    TrimEndLower(TrimStart(raw, IsJsSpace));
    LowerTwice(JsTrim(raw));
  }

  /** Every alias leads to an allowed action. */
  lemma AliasTargetsAllowed()
    ensures forall k :: k in ActionAliases ==> ActionAliases[k] in AllowedActions
  {
  }

  /** Lookups use keys made of letters and digits only, so the dotted alias
      entries are never consulted. */
  lemma DottedAliasesUnused(raw: string, k: string)
    requires '.' in k
    ensures AliasKey(Lower(JsTrim(raw))) != k
  {
  }

  // ------------------------------------------------------------ fixed points

  /** A name already in canonical spelling: lower-case letters, digits, `.`
      and `_`, with no doubled `.` or `_`. */
  predicate Canonical(a: string) {
    && a != []
    && (forall i :: 0 <= i < |a| ==> IsKeyChar(a[i]) || a[i] == '.' || a[i] == '_')
    && NoDouble(a, '_') && NoDouble(a, '.')
  }

  lemma {:induction false} RemoveSpacesKeeps(s: string)
    requires forall i :: 0 <= i < |s| ==> !IsJsSpace(s[i])
    ensures RemoveSpaces(s) == s
    decreases |s|
  {
    if s != [] {
      RemoveSpacesKeeps(s[1..]);
    }
  }

  lemma {:induction false} CollapseAbsent(s: string, c: char, d: char)
    requires c !in s
    ensures CollapseRuns(s, c, d) == s
    decreases |s|
  {
    if s != [] {
      CollapseAbsent(s[1..], c, d);
    }
  }

  lemma {:induction false} CollapseSingles(s: string, c: char)
    requires NoDouble(s, c)
    ensures CollapseRuns(s, c, c) == s
    decreases |s|
  {
    if s != [] {
      assert NoDouble(s[1..], c) by {
        forall i | 0 <= i < |s[1..]| - 1 ensures !(s[1..][i] == c && s[1..][i + 1] == c) {
          assert s[1..][i] == s[i + 1] && s[1..][i + 1] == s[i + 2];
        }
      }
      if s[0] == c {
        assert |s| == 1 || s[1] != c;
        assert DropRun(s, c) == s[1..] by {
          assert DropRun(s, c) == DropRun(s[1..], c);
        }
      }
      CollapseSingles(s[1..], c);
    }
  }

  /** The clean-up leaves a canonical name as it is. */
  lemma CleanedKeepsCanonical(a: string)
    requires Canonical(a)
    ensures Cleaned(a) == a
  {
    RemoveSpacesKeeps(a);
    CollapseAbsent(a, ':', '.');
    CollapseAbsent(a, '-', '_');
    CollapseSingles(a, '_');
    CollapseSingles(a, '.');
  }

  /** An allowed action written canonically normalises to itself, unless its
      letters-and-digits key is an alias of a different action. */
  lemma AllowedActionFixed(a: string)
    requires Canonical(a) && a in AllowedActions
    requires AliasKey(a) in ActionAliases ==> ActionAliases[AliasKey(a)] == a
    ensures NormalizeContextEventAction(a) == Some(a)
  {
    CanonicalTrimLower(a);
    ResolveCanonical(a);
  }

  lemma ResolveCanonical(a: string)
    requires Canonical(a) && a in AllowedActions
    requires AliasKey(a) in ActionAliases ==> ActionAliases[AliasKey(a)] == a
    ensures Resolve(a) == Some(a)
  {
    CleanedKeepsCanonical(a);
  }

  /** Trimming and lower-casing leave a canonical name alone. */
  lemma CanonicalTrimLower(a: string)
    requires Canonical(a)
    ensures Lower(JsTrim(a)) == a
  {
    NameCharNotSpace(a[0]);
    NameCharNotSpace(a[|a| - 1]);
    JsTrimKeeps(a);
    LowerKeeps(a);
  }

  lemma NameCharNotSpace(c: char)
    requires IsKeyChar(c) || c == '.' || c == '_'
    ensures !IsJsSpace(c)
  {
  }
}

=== FILE: cron.dfy ===
/** The field parser `parsePart` inside compileCronExpr of webnew/server.js:
    a comma-separated cron field (a star, a star with a step, `a-b`, `a-b/n` or a number)
    becomes the set of values it selects between `lo` and `hi`. */
module Cron {
  import opened Wrappers
  import opened Text
  import opened JsValues

  function Min(a: int, b: int): int { if a <= b then a else b }
  function Max(a: int, b: int): int { if a >= b then a else b }

  /** Every `step`-th value from `a` up to `b`. */
  function RangeSet(a: int, b: int, step: int): set<int>
    requires step >= 1
    decreases b - a
  {
    if a > b then {} else {a} + RangeSet(a + step, b, step)
  }

  /** A range holds only values between its ends that are a whole number of
      steps from its start ... */
  lemma {:induction false} RangeSetMembers(a: int, b: int, step: int, x: int)
    requires step >= 1 && x in RangeSet(a, b, step)
    ensures a <= x <= b && exists i: nat :: x == a + i * step
    decreases b - a
  {
    if x == a {
      assert x == a + 0 * step;
    } else {
      RangeSetMembers(a + step, b, step, x);
      var i: nat :| x == a + step + i * step;
      assert (i + 1) * step == i * step + step;
      assert x == a + (i + 1) * step;
    }
  }

  /** ... and it holds every such value. */
  lemma {:induction false} RangeSetHas(a: int, b: int, step: int, i: nat)
    requires step >= 1 && a + i * step <= b
    ensures a + i * step in RangeSet(a, b, step)
    decreases i
  {
    if i > 0 {
      assert (i - 1) * step + step == i * step;
      RangeSetHas(a + step, b, step, i - 1);
    }
  }

  lemma {:induction false} RangeSetBounds(a: int, b: int, step: int)
    requires step >= 1
    ensures forall x :: x in RangeSet(a, b, step) ==> a <= x <= b
    decreases b - a
  {
    if a <= b {
      RangeSetBounds(a + step, b, step);
    }
  }

  /** A star followed by `/n`: the step, when the token has that form. */
  function StepToken(s: string): Option<nat> {
    if |s| >= 3 && s[..2] == "*/" && AllDigits(s[2..]) then Some(DecimalValue(s[2..])) else None
  }

  /** `a-b` or `a-b/n`: the two bounds and the step (1 when absent). */
  function RangeToken(s: string): Option<(nat, nat, nat)> {
    var i := IndexOfChar(s, '-');
    if i <= 0 || !AllDigits(s[..i]) then None
    else
      var rest := s[i + 1..];
      var j := IndexOfChar(rest, '/');
      if j == -1 then
        if rest != "" && AllDigits(rest) then Some((DecimalValue(s[..i]), DecimalValue(rest), 1)) else None
      else if j > 0 && AllDigits(rest[..j]) && rest[j + 1..] != "" && AllDigits(rest[j + 1..]) then
        Some((DecimalValue(s[..i]), DecimalValue(rest[..j]), DecimalValue(rest[j + 1..])))
      else None
  }

  function Clamp(n: int, lo: int, hi: int): int { Max(lo, Min(hi, n)) }

  /** `Math.max(lo, Math.min(hi, n))` for a finite number `n`, as the
      integers it yields: a bound when `n` reaches past it, `n` itself when
      it is whole, and none for a fraction strictly between the bounds. */
  function ClampedValues(d: Decimal, lo: int, hi: int): set<int> {
    if AtLeast(d, hi) then {Max(lo, hi)}
    else if AtMost(d, lo) then {lo}
    else match IntegerOf(d)
      case Some(n) => {n}
      case None => {}
  }

  /** On a whole number the clamp is the integer clamp. */
  lemma ClampedWhole(d: Decimal, lo: int, hi: int, n: int)
    requires IntegerOf(d) == Some(n)
    ensures ClampedValues(d, lo, hi) == {Clamp(n, lo, hi)}
  {
    IntegerCompare(d, n, hi);
    IntegerCompare(d, n, lo);
  }

  /** A number token selects only values between the bounds. */
  lemma ClampedWithin(d: Decimal, lo: int, hi: int)
    requires lo <= hi
    ensures forall v :: v in ClampedValues(d, lo, hi) ==> lo <= v <= hi
  {
    if IntegerOf(d).Some? {
      ClampedWhole(d, lo, hi, IntegerOf(d).value);
    }
  }

  /** The values one trimmed token selects. A token that is neither a
      pattern nor a number (after `Number`) selects nothing. */
  function TokenValues(s: string, lo: int, hi: int): set<int> {
    if s == "*" then RangeSet(lo, hi, 1)
    else if StepToken(s).Some? then RangeSet(lo, hi, Max(1, Min(hi, StepToken(s).value)))
    else if RangeToken(s).Some? then
      var (n1, n2, n3) := RangeToken(s).value;
      var a := Clamp(n1, lo, hi);
      var b := Clamp(n2, lo, hi);
      RangeSet(Min(a, b), Max(a, b), Max(1, n3))
    else NumberValues(s, lo, hi)
  }

  /** The last case: `Number(s)`, clamped when it is finite. */
  function NumberValues(s: string, lo: int, hi: int): set<int> {
    match StringNumber(s)
    case Some(d) => ClampedValues(d, lo, hi)
    case None => {}
  }

  /** The union over the tokens. */
  function PartSpec(tokens: seq<string>, lo: int, hi: int): set<int> {
    if tokens == [] then {}
    else PartSpec(tokens[..|tokens| - 1], lo, hi) + TokenValues(JsTrim(tokens[|tokens| - 1]), lo, hi)
  }

  /** The field's tokens: `String(part || '*').split(',')`. */
  function FieldTokens(part: string): seq<string> {
    Split(if part == "" then "*" else part, ',')
  }

  /** `addRange`: the for-loop adding every `step`-th value. */
  method AddRange(values: set<int>, a: int, b: int, step: int) returns (r: set<int>)
    requires step >= 1
    ensures r == values + RangeSet(a, b, step)
  {
    r := values;
    var v := a;
    while v <= b
      invariant r + RangeSet(v, b, step) == values + RangeSet(a, b, step)
      decreases b - v
    {
      r := r + {v};
      v := v + step;
    }
  }

  /** One pass of the token loop: the values of one trimmed token. */
  method AddToken(values: set<int>, s: string, lo: int, hi: int) returns (r: set<int>)
    ensures r == values + TokenValues(s, lo, hi)
  {
    if s == "*" {
      r := AddRange(values, lo, hi, 1);
    } else if StepToken(s).Some? {
      r := AddRange(values, lo, hi, Max(1, Min(hi, StepToken(s).value)));
    } else if RangeToken(s).Some? {
      var (n1, n2, n3) := RangeToken(s).value;
      var a := Clamp(n1, lo, hi);
      var b := Clamp(n2, lo, hi);
      r := AddRange(values, Min(a, b), Max(a, b), Max(1, n3));
    } else {
      r := AddNumber(values, s, lo, hi);
    }
  }

  /** The number case: `Number(s)`, added clamped when it is finite. */
  method AddNumber(values: set<int>, s: string, lo: int, hi: int) returns (r: set<int>)
    ensures r == values + NumberValues(s, lo, hi)
  {
    var n := StringNumber(s);
    if n.Some? {
      r := values + ClampedValues(n.value, lo, hi);
    } else {
      r := values;
    }
  }

  /** parsePart. */
  method ParsePart(part: string, lo: int, hi: int) returns (values: set<int>)
    ensures values == PartSpec(FieldTokens(part), lo, hi)
  {
    var tokens := FieldTokens(part);
    values := {};
    for k := 0 to |tokens|
      invariant values == PartSpec(tokens[..k], lo, hi)
    {
      assert tokens[..k + 1][..k] == tokens[..k];
      values := AddToken(values, JsTrim(tokens[k]), lo, hi);
    }
    assert tokens[..|tokens|] == tokens;
  }

  lemma TokenWithinBounds(s: string, lo: int, hi: int)
    requires lo <= hi
    ensures forall v :: v in TokenValues(s, lo, hi) ==> lo <= v <= hi
  {
    if s == "*" {
      RangeSetBounds(lo, hi, 1);
    } else if StepToken(s).Some? {
      RangeSetBounds(lo, hi, Max(1, Min(hi, StepToken(s).value)));
    } else if RangeToken(s).Some? {
      var (n1, n2, n3) := RangeToken(s).value;
      var a := Clamp(n1, lo, hi);
      var b := Clamp(n2, lo, hi);
      RangeSetBounds(Min(a, b), Max(a, b), Max(1, n3));
    } else if StringNumber(s).Some? {
      ClampedWithin(StringNumber(s).value, lo, hi);
    }
  }

  /** Every selected value lies between the field's bounds. */
  lemma {:induction false} PartWithinBounds(tokens: seq<string>, lo: int, hi: int)
    requires lo <= hi
    ensures forall v :: v in PartSpec(tokens, lo, hi) ==> lo <= v <= hi
  {
    if tokens != [] {
      PartWithinBounds(tokens[..|tokens| - 1], lo, hi);
      TokenWithinBounds(JsTrim(tokens[|tokens| - 1]), lo, hi);
    }
  }

  /** `*` selects every value, and an empty field means `*`. */
  lemma StarSelectsAll(lo: int, hi: int)
    ensures forall v :: v in PartSpec(FieldTokens(""), lo, hi) <==> lo <= v <= hi
  {
    EmptyFieldIsStar(lo, hi);
    forall v
      ensures v in RangeSet(lo, hi, 1) <==> lo <= v <= hi
    {
      UnitRange(lo, hi, v);
    }
  }

  lemma EmptyFieldIsStar(lo: int, hi: int)
    ensures PartSpec(FieldTokens(""), lo, hi) == RangeSet(lo, hi, 1)
  {
    assert Split("*", ',') == ["*"];
    assert ["*"][..0] == [];
    assert JsTrim("*") == "*";
  }

  lemma UnitRange(lo: int, hi: int, v: int)
    ensures v in RangeSet(lo, hi, 1) <==> lo <= v <= hi
  {
    if v in RangeSet(lo, hi, 1) {
      RangeSetMembers(lo, hi, 1, v);
    }
    if lo <= v <= hi {
      var i: nat := v - lo;
      RangeSetHas(lo, hi, 1, i);
      assert lo + i * 1 == v;
    }
  }

  /** An empty item between commas reads as `Number('') == 0`, so a field
      such as `5,` also selects the clamped 0. */
  lemma EmptyItemSelectsZero(lo: int, hi: int)
    ensures PartSpec([""], lo, hi) == {Clamp(0, lo, hi)}
  {
    assert [""][..0] == [];
    assert JsTrim("") == "";
    ClampedWhole(Decimal(0, 0), lo, hi, 0);
  }
}

=== FILE: daily_summary.dfy ===
/** The daily-summary schedule of webnew/server.js: parseDailySummaryTime
    reads a time of day from a config value, and
    normalizeDailySummaryConfig picks the configured time (or 23:00) and
    renders its `HH:MM` display label. */
module DailySummary {
  import opened Wrappers
  import opened Text
  import opened JsValues

  datatype ClockTime = ClockTime(hour: nat, minute: nat)

  predicate ValidClock(h: int, m: int) { 0 <= h < 24 && 0 <= m < 60 }

  /** The language of `^(\d{1,2})(?::?(\d{2}))?$` with its two groups: one or
      two hour digits, then optionally an optional colon and exactly two
      minute digits (`mm == ""` when the group did not take part). */
  predicate HmShape(t: string, hd: string, sep: string, mm: string) {
    && t == hd + sep + mm
    && 1 <= |hd| <= 2 && AllDigits(hd)
    && (sep == "" || sep == ":")
    && (mm == "" || (|mm| == 2 && AllDigits(mm)))
    && (mm == "" ==> sep == "")
  }

  /** The regular-expression match, decided by the length of the text. */
  function HmMatch(t: string): (r: Option<(string, string)>)
    ensures r.Some? ==> AllDigits(r.value.0) && AllDigits(r.value.1)
  {
    if 1 <= |t| <= 2 && AllDigits(t) then Some((t, ""))
    else if |t| == 3 && AllDigits(t) then Some((t[..1], t[1..]))
    else if |t| == 4 && AllDigits(t) then Some((t[..2], t[2..]))
    else if |t| == 4 && t[1] == ':' && AllDigits(t[..1]) && AllDigits(t[2..]) then Some((t[..1], t[2..]))
    else if |t| == 5 && t[2] == ':' && AllDigits(t[..2]) && AllDigits(t[3..]) then Some((t[..2], t[3..]))
    else None
  }

  /** Every match the function reports has the shape of the pattern. */
  lemma HmMatchSound(t: string)
    requires HmMatch(t).Some?
    ensures var (hd, mm) := HmMatch(t).value;
      exists sep :: HmShape(t, hd, sep, mm)
  {
    var (hd, mm) := HmMatch(t).value;
    if 1 <= |t| <= 2 && AllDigits(t) {
      assert HmShape(t, hd, "", mm);
    } else if |t| == 3 && AllDigits(t) {
      assert t == t[..1] + "" + t[1..];
      assert HmShape(t, hd, "", mm);
    } else if |t| == 4 && AllDigits(t) {
      assert t == t[..2] + "" + t[2..];
      assert HmShape(t, hd, "", mm);
    } else if |t| == 4 {
      assert t == t[..1] + ":" + t[2..];
      assert HmShape(t, hd, ":", mm);
    } else {
      assert t == t[..2] + ":" + t[3..];
      assert HmShape(t, hd, ":", mm);
    }
  }

  /** Every text of the pattern's shape is matched, with the same groups. */
  lemma HmMatchComplete(t: string, hd: string, sep: string, mm: string)
    requires HmShape(t, hd, sep, mm)
    ensures HmMatch(t) == Some((hd, mm))
  {
    if mm == "" {
      assert t == hd;
    } else if sep == "" {
      assert t[..|hd|] == hd && t[|hd|..] == mm;
      assert forall i :: 0 <= i < |t| ==> IsAsciiDigit(t[i]) by {
        forall i | 0 <= i < |t| ensures IsAsciiDigit(t[i]) {
          if i < |hd| { assert t[i] == hd[i]; } else { assert t[i] == mm[i - |hd|]; }
        }
      }
    } else {
      assert t[..|hd|] == hd && t[|hd| + 1..] == mm && t[|hd|] == ':';
      assert !AllDigits(t) by { assert !IsAsciiDigit(t[|hd|]); }
    }
  }

  function ClockIfValid(h: int, m: int): (r: Option<ClockTime>)
    ensures r.Some? <==> ValidClock(h, m)
    ensures r.Some? ==> r.value == ClockTime(h, m)
  {
    if ValidClock(h, m) then Some(ClockTime(h, m)) else None
  }

  /** `trimmed.padStart(4, '0')` for three or four characters. */
  function Pad4(t: string): (r: string)
    requires 3 <= |t| <= 4
    ensures |r| == 4
    ensures AllDigits(t) ==> AllDigits(r[..2]) && AllDigits(r[2..])
  {
    if |t| == 3 then "0" + t else t
  }

  /** The string branch. */
  function ParseTimeText(s: string): (r: Option<ClockTime>)
    ensures JsTrim(s) == "" ==> r == None
  {
    var t := JsTrim(s);
    if t == "" then None
    else
      var first :=
        match HmMatch(t)
        case Some((hd, mm)) => ClockIfValid(DecimalValue(hd), if mm == "" then 0 else DecimalValue(mm))
        case None => None;
      if first.Some? then first
      else if 3 <= |t| <= 4 && AllDigits(t) then
        var p := Pad4(t);
        ClockIfValid(DecimalValue(p[..2]), DecimalValue(p[2..]))
      else None
  }

  /** parseDailySummaryTime. A number is an integer here (its fraction would
      give the minutes; floating point is not modelled), so its minute is 0.
      Objects and arrays read `hour ?? h ?? hours` and
      `minute ?? min ?? minutes ?? m ?? 0` through `Number`, and only a whole
      finite number passes `Number.isInteger`. */
  function ParseDailySummaryTime(v: JsValue): (r: Option<ClockTime>)
    ensures r.Some? ==> ValidClock(r.value.hour, r.value.minute)
    ensures Nullish(v) || v.Bool? ==> r == None
  {
    match v
    case Undefined => None
    case Null => None
    case Bool(_) => None
    case Str(s) => ParseTimeText(s)
    case Num(n) => ClockIfValid(n, 0)
    case _ => ObjectTime(v)
  }

  /** The object branch. */
  function ObjectTime(v: JsValue): Option<ClockTime> {
    var hour := NumberOf(HourField(v));
    var minute := NumberOf(MinuteField(v));
    if hour.Some? && minute.Some? then ClockIfValid(hour.value, minute.value) else None
  }

  /** `value.hour ?? value.h ?? value.hours`. */
  function HourField(v: JsValue): JsValue {
    Coalesce(Get(v, "hour"), Coalesce(Get(v, "h"), Get(v, "hours")))
  }

  /** `value.minute ?? value.min ?? value.minutes ?? value.m ?? 0`. */
  function MinuteField(v: JsValue): JsValue {
    Coalesce(Get(v, "minute"), Coalesce(Get(v, "min"), Coalesce(Get(v, "minutes"), Coalesce(Get(v, "m"), Num(0)))))
  }

  /** An object's hour and minute given as any integer text, in the form
      `String` writes it, are read through `Number` as those integers. */
  lemma ObjectTextTime(h: int, m: int)
    ensures ParseDailySummaryTime(Obj(map["hour" := Str(IntToString(h)), "minute" := Str(IntToString(m))]))
            == ClockIfValid(h, m)
  {
    NumberOfIntText(h);
    NumberOfIntText(m);
    ObjectTexts(IntToString(h), IntToString(m), h, m);
  }

  /** Hour and minute texts that `Number` reads as integers. */
  lemma ObjectTexts(hs: string, ms: string, h: int, m: int)
    requires TextInteger(hs) == Some(h) && TextInteger(ms) == Some(m)
    ensures ParseDailySummaryTime(Obj(map["hour" := Str(hs), "minute" := Str(ms)])) == ClockIfValid(h, m)
  {
    TextNumberOf(hs, h);
    TextNumberOf(ms, m);
    ObjectFields(Str(hs), Str(ms));
    ObjectBranch(Obj(map["hour" := Str(hs), "minute" := Str(ms)]));
  }

  /** An object or array takes the field branch. */
  lemma ObjectBranch(v: JsValue)
    requires v.Obj? || v.Arr?
    ensures ParseDailySummaryTime(v) == ObjectTime(v)
  {
  }

  /** An object with `hour` and `minute` set reads them through `Number`. */
  lemma ObjectFields(a: JsValue, b: JsValue)
    requires !Nullish(a) && !Nullish(b) && NumberOf(a).Some? && NumberOf(b).Some?
    ensures ObjectTime(Obj(map["hour" := a, "minute" := b])) == ClockIfValid(NumberOf(a).value, NumberOf(b).value)
  {
    FieldsOf(a, b);
  }

  lemma FieldsOf(a: JsValue, b: JsValue)
    requires !Nullish(a) && !Nullish(b)
    ensures HourField(Obj(map["hour" := a, "minute" := b])) == a
    ensures MinuteField(Obj(map["hour" := a, "minute" := b])) == b
  {
    var v := Obj(map["hour" := a, "minute" := b]);
    assert Get(v, "hour") == a;
    assert Get(v, "minute") == b;
  }

  /** The digits-only branch never decides anything the pattern branch has
      not already decided: a 3- or 4-digit text matches the pattern with the
      same split into hour and minute. */
  lemma DigitBranchAgrees(t: string)
    requires 3 <= |t| <= 4 && AllDigits(t)
    ensures HmMatch(t).Some?
    ensures var p := Pad4(t);
      HmMatch(t).value.0 != "" && DecimalValue(HmMatch(t).value.0) == DecimalValue(p[..2])
      && HmMatch(t).value.1 == p[2..]
  {
    var p := Pad4(t);
    if |t| == 3 {
      assert p[..2] == "0" + t[..1] && p[2..] == t[1..];
      assert DecimalValue(p[..2]) == DecimalValue(t[..1]) by {
        assert (p[..2])[..1] == "0";
      }
    }
  }

  function Digit1(h: nat): string
    requires h < 10
  {
    [DigitChar(h)]
  }

  /** The accepted spellings of a valid time with a two-digit hour: "HH",
      "HH:MM" and "HHMM". */
  lemma AcceptedForms(h: nat, m: nat)
    requires ValidClock(h, m)
    ensures ParseTimeText(Pad2(h)) == Some(ClockTime(h, 0))
    ensures ParseTimeText(Pad2(h) + ":" + Pad2(m)) == Some(ClockTime(h, m))
    ensures ParseTimeText(Pad2(h) + Pad2(m)) == Some(ClockTime(h, m))
  {
    Pad2RoundTrip(h);
    Pad2RoundTrip(m);
    var hd, mm := Pad2(h), Pad2(m);
    assert hd + "" + "" == hd;
    assert hd + "" + mm == hd + mm;
    Accepts(hd, "", "", h, 0);
    Accepts(hd, ":", mm, h, m);
    Accepts(hd, "", mm, h, m);
  }

  /** The single-digit hour spellings for hours below 10: "H", "H:MM" and
      "HMM". */
  lemma AcceptedShortForms(h: nat, m: nat)
    requires ValidClock(h, m) && h < 10
    ensures ParseTimeText(Digit1(h)) == Some(ClockTime(h, 0))
    ensures ParseTimeText(Digit1(h) + ":" + Pad2(m)) == Some(ClockTime(h, m))
    ensures ParseTimeText(Digit1(h) + Pad2(m)) == Some(ClockTime(h, m))
  {
    Pad2RoundTrip(m);
    var hd, mm := Digit1(h), Pad2(m);
    assert DecimalValue(hd) == h by { assert hd[..0] == []; }
    assert hd + "" + "" == hd;
    assert hd + "" + mm == hd + mm;
    Accepts(hd, "", "", h, 0);
    Accepts(hd, ":", mm, h, m);
    Accepts(hd, "", mm, h, m);
  }

  lemma Accepts(hd: string, sep: string, mm: string, h: nat, m: nat)
    requires 1 <= |hd| <= 2 && AllDigits(hd) && DecimalValue(hd) == h
    requires (sep == "" || sep == ":") && (mm == "" ==> sep == "" && m == 0)
    requires mm != "" ==> |mm| == 2 && AllDigits(mm) && DecimalValue(mm) == m
    requires ValidClock(h, m)
    ensures ParseTimeText(hd + sep + mm) == Some(ClockTime(h, m))
  {
    var t := hd + sep + mm;
    assert HmShape(t, hd, sep, mm);
    HmMatchComplete(t, hd, sep, mm);
    assert t[0] == hd[0] && IsAsciiDigit(t[0]);
    assert IsAsciiDigit(t[|t| - 1]) by {
      if mm != "" { assert t[|t| - 1] == mm[1]; } else { assert t[|t| - 1] == hd[|hd| - 1]; }
    }
    JsTrimKeeps(t);
  }

  // ------------------------------------------------------------ normalizeDailySummaryConfig

  datatype DailySchedule = DailySchedule(hour: nat, minute: nat, display: string)

  const DefaultTime := "23:00"

  lemma DefaultTimeParses()
    ensures ParseTimeText(DefaultTime) == Some(ClockTime(23, 0))
  {
    assert DecimalValue("23") == 23 by { assert "23"[..1] == "2"; assert "2"[..0] == []; }
    assert DecimalValue("00") == 0 by { assert "00"[..1] == "0"; assert "0"[..0] == []; }
    assert DefaultTime == "23" + ":" + "00";
    Accepts("23", ":", "00", 23, 0);
  }

  /** The config value normalizeDailySummaryConfig works on: nothing becomes
      `{}`, an array its first element, a string or number `{time: value}`. */
  function ConfigSource(config: JsValue): JsValue {
    var s0 := if Nullish(config) then Obj(map[]) else config;
    var s1 := if s0.Arr? then (if s0.items != [] then s0.items[0] else Obj(map[])) else s0;
    if s1.Str? || s1.Num? then Obj(map["time" := s1]) else s1
  }

  /** The time value the config names: `time ?? at ?? when`, else the first
      of `times`, else an `{hour, minute}` made from the hour fields. */
  function ConfigCandidate(source: JsValue): JsValue {
    var c0 := Coalesce(Get(source, "time"), Coalesce(Get(source, "at"), Coalesce(Get(source, "when"), Null)));
    var times := Get(source, "times");
    var c1 := if !Truthy(c0) && times.Arr? && times.items != [] then times.items[0] else c0;
    if !Truthy(c1) && (!Get(source, "hour").Undefined? || !Get(source, "hours").Undefined?) then
      Obj(map[
        "hour" := Coalesce(Get(source, "hour"), Get(source, "hours")),
        "minute" := Coalesce(Get(source, "minute"), Coalesce(Get(source, "min"), Coalesce(Get(source, "minutes"), Coalesce(Get(source, "m"), Num(0)))))])
    else c1
  }

  /** normalizeDailySummaryConfig: None when the config is not an object (after
      the conversions) or says `enabled: false`; otherwise the named time, or
      23:00 when it does not parse. */
  function NormalizeDailySummaryConfig(config: JsValue): (r: Option<DailySchedule>)
    ensures r.Some? ==> ValidClock(r.value.hour, r.value.minute)
  {
    var source := ConfigSource(config);
    if !Truthy(source) || !(source.Obj? || source.Arr?) then None
    else if Get(source, "enabled") == Bool(false) then None
    else
      var parsed := match ParseDailySummaryTime(ConfigCandidate(source))
        case Some(t) => Some(t)
        case None => ParseTimeText(DefaultTime);
      match parsed
      case Some(t) => Some(DailySchedule(t.hour, t.minute, Pad2(t.hour) + ":" + Pad2(t.minute)))
      case None => None
  }

  /** A schedule is produced exactly when the config is an object that is
      not switched off; its label is `HH:MM` and reads back as its time; an
      unusable time falls back to 23:00. */
  lemma NormalizeSpec(config: JsValue)
    ensures var source := ConfigSource(config);
      var r := NormalizeDailySummaryConfig(config);
      && (r.Some? <==> (source.Obj? || source.Arr?) && Get(source, "enabled") != Bool(false))
      && (r.Some? ==>
            && |r.value.display| == 5 && r.value.display[2] == ':'
            && AllDigits(r.value.display[..2]) && AllDigits(r.value.display[3..])
            && DecimalValue(r.value.display[..2]) == r.value.hour
            && DecimalValue(r.value.display[3..]) == r.value.minute
            && (ParseDailySummaryTime(ConfigCandidate(source)).None? ==> r.value.hour == 23 && r.value.minute == 0))
  {
    DefaultTimeParses();
    var r := NormalizeDailySummaryConfig(config);
    if r.Some? {
      LabelReadsBack(r.value.hour, r.value.minute);
    }
  }

  /** An `HH:MM` label of a valid time reads back as that time. */
  lemma LabelReadsBack(h: nat, m: nat)
    requires ValidClock(h, m)
    ensures var l := Pad2(h) + ":" + Pad2(m);
      && |l| == 5 && l[2] == ':'
      && AllDigits(l[..2]) && AllDigits(l[3..])
      && DecimalValue(l[..2]) == h && DecimalValue(l[3..]) == m
  {
    var l := Pad2(h) + ":" + Pad2(m);
    assert l[..2] == Pad2(h) && l[3..] == Pad2(m);
    Pad2RoundTrip(h);
    Pad2RoundTrip(m);
  }

  /** With no config at all the schedule is 23:00. */
  lemma NoConfigMeansDefault()
    ensures NormalizeDailySummaryConfig(Undefined).Some?
    ensures NormalizeDailySummaryConfig(Undefined).value.hour == 23
    ensures NormalizeDailySummaryConfig(Undefined).value.minute == 0
  {
    DefaultTimeParses();
    assert ConfigCandidate(Obj(map[])) == Null;
  }
}

=== FILE: day_view.dfy ===
/** The read side of manage_log.py over one day's rows: grouping into sessions
    (get_logs_json_for_date), the day's totals and subjects, and the study
    streak of get_dashboard_data. The rows of a day arrive as SQLite returns
    them, ordered by start time. */
module DayView {
  import opened Wrappers
  import opened Text
  import opened Ordering
  import opened StudyLog

  /** `strftime("%H:%M")` of a local time in seconds. */
  function ClockText(t: int): (r: string)
    ensures |r| == 5
  {
    var d := t % 86400;
    Pad2(d / 3600) + ":" + Pad2(d % 3600 / 60)
  }

  /** The clock text reads back as the hour and minute of the day. */
  lemma ClockTextReadsBack(t: int)
    ensures var r := ClockText(t);
      && r[2] == ':' && AllDigits(r[..2]) && AllDigits(r[3..])
      && DecimalValue(r[..2]) * 60 + DecimalValue(r[3..]) == t % 86400 / 60
  {
    var d := t % 86400;
    var r := ClockText(t);
    assert r[..2] == Pad2(d / 3600);
    assert r[3..] == Pad2(d % 3600 / 60);
    Pad2RoundTrip(d / 3600);
    Pad2RoundTrip(d % 3600 / 60);
    HourMinute(d);
  }

  lemma HourMinute(d: int)
    requires d >= 0
    ensures d / 3600 * 60 + d % 3600 / 60 == d / 60
  {
    var h := d / 3600;
    var m := d % 3600 / 60;
    var sec := d % 3600 % 60;
    assert d == 60 * (60 * h + m) + sec;
    assert 0 <= sec < 60;
  }

  /** One element of a session's `details`. Times stay in seconds; the view
      shows `start` through ClockText and `end` with a leading space (or as
      the empty string when the row is open). `memo` and `impression` are
      None when the key is absent (the row's value was NULL or empty). */
  datatype Detail = Detail(
    id: nat, event: EventType, content: Option<string>,
    start: int, end: Option<int>, duration: int,
    memo: Option<string>, impression: Option<string>)

  /** One session of the day view; `startAt` and `endAt` are the times behind
      session_start_time and session_end_time, None while still unset. */
  datatype Session = Session(
    sessionId: nat, subject: Option<string>, summary: Option<string>,
    startAt: Option<int>, endAt: Option<int>, total: int, details: seq<Detail>)

  /** The row's duration as the grouping computes it: an open row counts 0. */
  function RowMinutes(e: Entry): int {
    Minutes(e.start, e.end.GetOr(e.start))
  }

  function DetailOf(e: Entry): Detail {
    Detail(e.id, e.event, e.content, e.start, e.end, RowMinutes(e),
           if Truthy(e.memo) then e.memo else None,
           if Truthy(e.impression) then e.impression else None)
  }

  /** The time behind a row's contribution to session_end_time: its end, or its
      start while it is open. */
  function EndAt(e: Entry): int {
    e.end.GetOr(e.start)
  }

  predicate Counted(e: Entry) { e.event == Start || e.event == Resume }

  /** Minutes of the START and RESUME rows of a run. */
  function StudyMinutes(run: seq<Entry>): int {
    if run == [] then 0
    else StudyMinutes(run[..|run| - 1]) + (if Counted(run[|run| - 1]) then RowMinutes(run[|run| - 1]) else 0)
  }

  function Details(run: seq<Entry>): (r: seq<Detail>)
    ensures |r| == |run|
    ensures forall i :: 0 <= i < |run| ==> r[i] == DetailOf(run[i])
  {
    if run == [] then [] else Details(run[..|run| - 1]) + [DetailOf(run[|run| - 1])]
  }

  /** A run of rows that makes one session; never empty. */
  type Run = r: seq<Entry> | r != [] witness [Entry(1, Start, None, None, 0, None, None, None, None, None)]

  /** The session a run of rows makes: it is named after its first row (the
      START), starts at it, ends at the last row, and totals its START and
      RESUME minutes. */
  function SessionOf(run: Run): Session {
    Session(run[0].id, run[0].subject, run[0].summary, Some(run[0].start),
            Some(EndAt(run[|run| - 1])), StudyMinutes(run), Details(run))
  }

  /** The rows cut into runs, each beginning at a START row; rows before the
      first START belong to no run. */
  function Runs(logs: seq<Entry>): seq<Run> {
    if logs == [] then []
    else
      var rs := Runs(logs[..|logs| - 1]);
      var e := logs[|logs| - 1];
      if IsStart(e) then rs + [[e]]
      else if rs == [] then []
      else rs[..|rs| - 1] + [rs[|rs| - 1] + [e]]
  }

  function SessionsOf(runs: seq<Run>): (r: seq<Session>)
    ensures |r| == |runs|
    ensures forall i :: 0 <= i < |runs| ==> r[i] == SessionOf(runs[i])
  {
    if runs == [] then [] else SessionsOf(runs[..|runs| - 1]) + [SessionOf(runs[|runs| - 1])]
  }

  /** The per-row step of the grouping loop on the session being built. */
  function AddRow(s: Session, e: Entry): Session {
    s.(total := s.total + (if Counted(e) then RowMinutes(e) else 0),
       details := s.details + [DetailOf(e)],
       startAt := if s.startAt.None? then Some(e.start) else s.startAt,
       endAt := Some(EndAt(e)))
  }

  lemma AddRowExtends(run: Run, e: Entry)
    ensures AddRow(SessionOf(run), e) == SessionOf(run + [e])
  {
    var r := run + [e];
    assert r[..|r| - 1] == run;
    assert r[0] == run[0];
  }

  lemma FirstRow(e: Entry)
    ensures AddRow(Session(e.id, e.subject, e.summary, None, None, 0, []), e) == SessionOf([e])
  {
    assert [e][..0] == [];
    assert Details([e]) == [DetailOf(e)];
    var a := AddRow(Session(e.id, e.subject, e.summary, None, None, 0, []), e);
    var b := SessionOf([e]);
    assert StudyMinutes([e]) == StudyMinutes([]) + (if Counted(e) then RowMinutes(e) else 0);
  }

  /** Runs of a sequence one row longer. */
  lemma RunsSnoc(pre: seq<Entry>, e: Entry)
    ensures var rs := Runs(pre);
      Runs(pre + [e]) ==
        if IsStart(e) then rs + [[e]]
        else if rs == [] then []
        else rs[..|rs| - 1] + [rs[|rs| - 1] + [e]]
  {
    assert (pre + [e])[..|pre|] == pre;
  }

  lemma SessionsSnoc(rs: seq<Run>, r: Run)
    ensures SessionsOf(rs + [r]) == SessionsOf(rs) + [SessionOf(r)]
  {
  }

  /** The grouping loop of get_logs_json_for_date. */
  method GroupSessions(logs: seq<Entry>) returns (sessions: seq<Session>)
    ensures sessions == SessionsOf(Runs(logs))
  {
    sessions := [];
    var cur: Option<Session> := None;
    ghost var rs: seq<Run> := [];
    var k := 0;
    while k < |logs|
      invariant 0 <= k <= |logs|
      invariant rs == Runs(logs[..k])
      invariant Grouped(sessions, cur, rs)
    {
      var e := logs[k];
      assert logs[..k + 1] == logs[..k] + [e];
      RunsSnoc(logs[..k], e);
      if e.event == Start {
        StartStep(rs, sessions, cur, e);
        if cur.Some? {
          sessions := sessions + [cur.value];
        }
        cur := Some(AddRow(Session(e.id, e.subject, e.summary, None, None, 0, []), e));
        rs := rs + [[e]];
      } else if cur.Some? {
        ContinueStep(rs, sessions, cur.value, e);
        cur := Some(AddRow(cur.value, e));
        rs := rs[..|rs| - 1] + [rs[|rs| - 1] + [e]];
      }
      k := k + 1;
    }
    assert logs[..|logs|] == logs;
    if cur.Some? {
      sessions := sessions + [cur.value];
    }
  }

  /** The loop's state: the sessions closed so far and the one being built
      are the sessions of the runs seen so far. */
  ghost predicate Grouped(sessions: seq<Session>, cur: Option<Session>, rs: seq<Run>) {
    && (cur.None? <==> rs == [])
    && (cur.None? ==> sessions == [])
    && (cur.Some? ==> sessions + [cur.value] == SessionsOf(rs))
  }

  lemma StartStep(rs: seq<Run>, sessions: seq<Session>, cur: Option<Session>, e: Entry)
    requires Grouped(sessions, cur, rs)
    ensures var closed := if cur.Some? then sessions + [cur.value] else sessions;
      Grouped(closed, Some(AddRow(Session(e.id, e.subject, e.summary, None, None, 0, []), e)), rs + [[e]])
  {
    FirstRow(e);
    SessionsSnoc(rs, [e]);
  }

  lemma ContinueStep(rs: seq<Run>, sessions: seq<Session>, cur: Session, e: Entry)
    requires rs != []
    requires sessions + [cur] == SessionsOf(rs)
    ensures sessions + [AddRow(cur, e)] == SessionsOf(rs[..|rs| - 1] + [rs[|rs| - 1] + [e]])
  {
    SplitLast(rs);
    ContinueRun(rs[..|rs| - 1], rs[|rs| - 1], sessions, cur, e);
  }

  lemma ContinueRun(front: seq<Run>, last: Run, sessions: seq<Session>, cur: Session, e: Entry)
    requires sessions + [cur] == SessionsOf(front + [last])
    ensures sessions + [AddRow(cur, e)] == SessionsOf(front + [last + [e]])
  {
    SessionsSnoc(front, last);
    SnocParts(sessions, cur, SessionsOf(front), SessionOf(last));
    AddRowExtends(last, e);
    SessionsSnoc(front, last + [e]);
  }

  lemma SplitLast<T>(s: seq<T>)
    requires s != []
    ensures s == s[..|s| - 1] + [s[|s| - 1]]
  {
  }

  lemma SnocParts<T>(a: seq<T>, x: T, b: seq<T>, y: T)
    requires a + [x] == b + [y]
    ensures a == b && x == y
  {
    assert a == (a + [x])[..|a|];
    assert b == (b + [y])[..|b|];
    assert x == (a + [x])[|a|];
  }

  // ------------------------------------------------------------ run properties

  function Flatten<T>(runs: seq<seq<T>>): seq<T> {
    if runs == [] then [] else Flatten(runs[..|runs| - 1]) + runs[|runs| - 1]
  }

  /** Index of the first START row, or |logs| when there is none. */
  function FirstStart(logs: seq<Entry>): (i: nat)
    ensures i <= |logs|
    ensures forall j :: 0 <= j < i ==> !IsStart(logs[j])
    ensures i < |logs| ==> IsStart(logs[i])
  {
    if logs == [] then 0
    else if IsStart(logs[0]) then 0
    else FirstStart(logs[1..]) + 1
  }

  lemma FlattenAppend<T>(runs: seq<seq<T>>, run: seq<T>)
    ensures Flatten(runs + [run]) == Flatten(runs) + run
  {
    assert (runs + [run])[..|runs|] == runs;
  }

  /** The sessions hold exactly the rows from the first START on, in order:
      rows before it are dropped, none after it is. */
  lemma {:induction false} RunsCoverFromFirstStart(logs: seq<Entry>)
    ensures Flatten(Runs(logs)) == logs[FirstStart(logs)..]
    decreases |logs|
  {
    if logs != [] {
      var pre := logs[..|logs| - 1];
      var e := logs[|logs| - 1];
      SplitLast(logs);
      RunsCoverFromFirstStart(pre);
      RunsCoverSnoc(pre, e);
    }
  }

  /** The step of RunsCoverFromFirstStart: one more row. */
  lemma RunsCoverSnoc(pre: seq<Entry>, e: Entry)
    requires Flatten(Runs(pre)) == pre[FirstStart(pre)..]
    ensures Flatten(Runs(pre + [e])) == (pre + [e])[FirstStart(pre + [e])..]
  {
    RunsSnoc(pre, e);
    FirstStartSnoc(pre, e);
    var rs := Runs(pre);
    var f := FirstStart(pre);
    if IsStart(e) {
      FlattenAppend(rs, [e]);
      SliceSnoc(pre, e, f);
    } else if rs == [] {
      assert pre[f..] == [];
    } else {
      RunsCoverContinue(rs, e);
      SliceSnoc(pre, e, f);
    }
  }

  lemma RunsCoverContinue<T>(rs: seq<seq<T>>, e: T)
    requires rs != [] && rs[|rs| - 1] != []
    ensures Flatten(rs[..|rs| - 1] + [rs[|rs| - 1] + [e]]) == Flatten(rs) + [e]
    ensures Flatten(rs) != []
  {
    var front := rs[..|rs| - 1];
    var last := rs[|rs| - 1];
    SplitLast(rs);
    ContinueLast(front, last, e);
  }

  lemma ContinueLast<T>(front: seq<seq<T>>, last: seq<T>, e: T)
    ensures Flatten(front + [last + [e]]) == Flatten(front + [last]) + [e]
    ensures |Flatten(front + [last])| >= |last|
  {
    FlattenAppend(front, last);
    FlattenAppend(front, last + [e]);
    var ff := Flatten(front);
    assert ff + (last + [e]) == (ff + last) + [e];
  }

  lemma SliceSnoc<T>(pre: seq<T>, e: T, f: nat)
    requires f <= |pre|
    ensures (pre + [e])[f..] == pre[f..] + [e]
  {
  }

  lemma FirstStartSnoc(pre: seq<Entry>, e: Entry)
    ensures FirstStart(pre + [e]) ==
      if FirstStart(pre) < |pre| then FirstStart(pre)
      else if IsStart(e) then |pre| else |pre| + 1
  {
    var logs := pre + [e];
    var f := FirstStart(logs);
    var g := FirstStart(pre);
    if g < |pre| {
      assert logs[g] == pre[g];
      assert !(f < g) && !(g < f);
    } else if IsStart(e) {
      assert logs[|pre|] == e;
      assert !(f < |pre|);
    } else {
      assert !(f < |pre|);
    }
  }

  /** Each session is one START row followed by rows that are not STARTs. */
  lemma {:induction false} RunsStartOnce(logs: seq<Entry>)
    ensures forall i :: 0 <= i < |Runs(logs)| ==>
      IsStart(Runs(logs)[i][0]) && forall j :: 0 < j < |Runs(logs)[i]| ==> !IsStart(Runs(logs)[i][j])
    decreases |logs|
  {
    if logs != [] {
      RunsStartOnce(logs[..|logs| - 1]);
    }
  }

  /** One session per START row. */
  lemma {:induction false} RunsCountStarts(logs: seq<Entry>)
    ensures |Runs(logs)| == StartCount(logs)
    decreases |logs|
  {
    if logs != [] {
      RunsCountStarts(logs[..|logs| - 1]);
    }
  }

  function StartCount(logs: seq<Entry>): nat {
    if logs == [] then 0 else StartCount(logs[..|logs| - 1]) + (if IsStart(logs[|logs| - 1]) then 1 else 0)
  }

  // ------------------------------------------------------------ day summary

  /** total_day_study_minutes: the sum of the session totals. */
  function DayTotal(sessions: seq<Session>): int {
    if sessions == [] then 0 else DayTotal(sessions[..|sessions| - 1]) + sessions[|sessions| - 1].total
  }

  /** The day total is the sum of the START/RESUME minutes of the rows from the
      first START on. */
  lemma {:induction false} DayTotalIsStudyMinutes(logs: seq<Entry>)
    ensures DayTotal(SessionsOf(Runs(logs))) == StudyMinutes(logs[FirstStart(logs)..])
  {
    RunsCoverFromFirstStart(logs);
    DayTotalFlatten(Runs(logs));
  }

  lemma StudyMinutesAppend(a: seq<Entry>, b: seq<Entry>)
    ensures StudyMinutes(a + b) == StudyMinutes(a) + StudyMinutes(b)
    decreases |b|
  {
    if b == [] {
      assert a + b == a;
    } else {
      var b' := b[..|b| - 1];
      assert (a + b)[..|a + b| - 1] == a + b';
      assert (a + b)[|a + b| - 1] == b[|b| - 1];
      StudyMinutesAppend(a, b');
    }
  }

  lemma {:induction false} DayTotalFlatten(runs: seq<Run>)
    ensures DayTotal(SessionsOf(runs)) == StudyMinutes(Flatten(runs))
    decreases |runs|
  {
    if runs != [] {
      var front := runs[..|runs| - 1];
      DayTotalFlatten(front);
      var ss := SessionsOf(runs);
      assert ss[..|ss| - 1] == SessionsOf(front);
      StudyMinutesAppend(Flatten(front), runs[|runs| - 1]);
    }
  }

  /** The distinct elements of `xs` in first-appearance order. */
  function Distinct<T(==,!new)>(xs: seq<T>): (r: seq<T>)
    ensures forall x :: x in r <==> x in xs
    ensures forall i, j :: 0 <= i < j < |r| ==> r[i] != r[j]
  {
    if xs == [] then []
    else
      var r := Distinct(xs[..|xs| - 1]);
      assert forall x :: x in xs <==> x in xs[..|xs| - 1] || x == xs[|xs| - 1];
      if xs[|xs| - 1] in r then r else r + [xs[|xs| - 1]]
  }

  function SubjectOf(s: Session): Option<string> { s.subject }

  function OptKey(s: Option<string>): seq<int> {
    match s
    case None => []
    case Some(v) => StrKey(v)
  }

  /** subjects_studied: `sorted(set(subjects))`. None is the TypeError Python
      raises when a NULL subject has to be compared with a string. An empty
      day keeps the initial empty list. */
  function SubjectsStudied(sessions: seq<Session>): Option<seq<Option<string>>> {
    var d := Distinct(Subjects(sessions));
    if |d| >= 2 && None in d then None else Some(SortAsc(d, OptKey))
  }

  function Subjects(sessions: seq<Session>): (r: seq<Option<string>>)
    ensures |r| == |sessions|
    ensures forall i :: 0 <= i < |r| ==> r[i] == sessions[i].subject
  {
    if sessions == [] then [] else Subjects(sessions[..|sessions| - 1]) + [sessions[|sessions| - 1].subject]
  }

  /** The grouping fails exactly when a NULL subject meets a non-NULL one. */
  lemma SubjectsStudiedFails(sessions: seq<Session>)
    ensures SubjectsStudied(sessions).None? <==>
      (exists i :: 0 <= i < |sessions| && sessions[i].subject.None?)
      && (exists i :: 0 <= i < |sessions| && sessions[i].subject.Some?)
  {
    var subs := Subjects(sessions);
    var d := Distinct(subs);
    if (exists i :: 0 <= i < |sessions| && sessions[i].subject.None?)
       && (exists i :: 0 <= i < |sessions| && sessions[i].subject.Some?) {
      var i :| 0 <= i < |sessions| && sessions[i].subject.None?;
      var j :| 0 <= j < |sessions| && sessions[j].subject.Some?;
      assert subs[i] in d && subs[j] in d;
      TwoMembers(d, subs[i], subs[j]);
    }
    if |d| >= 2 && None in d {
      var b := if d[0] == None then 1 else 0;
      assert d[b] != None by {
        if d[0] == None { assert d[0] != d[1]; }
      }
      assert d[b] in subs;
    }
  }

  lemma TwoMembers<T>(d: seq<T>, x: T, y: T)
    requires x in d && y in d && x != y
    ensures |d| >= 2
  {
  }

  /** The subjects are each session subject once, in ascending code-point
      order. */
  lemma SubjectsStudiedSorted(sessions: seq<Session>)
    requires SubjectsStudied(sessions).Some?
    ensures var r := SubjectsStudied(sessions).value;
      && (forall x :: x in r <==> exists i :: 0 <= i < |sessions| && sessions[i].subject == x)
      && (forall i, j :: 0 <= i < j < |r| ==> r[i] != r[j])
      && SortedAsc(r, OptKey)
  {
    var subs := Subjects(sessions);
    SortedDistinct(subs, OptKey);
    forall x | x in subs ensures exists i :: 0 <= i < |sessions| && sessions[i].subject == x {
      var i :| 0 <= i < |subs| && subs[i] == x;
    }
  }

  /** `sorted(set(xs))`: each element once, in key order. */
  lemma SortedDistinct<T(!new)>(xs: seq<T>, key: T -> seq<int>)
    ensures var r := SortAsc(Distinct(xs), key);
      && (forall x :: x in r <==> x in xs)
      && (forall i, j :: 0 <= i < j < |r| ==> r[i] != r[j])
  {
    var d := Distinct(xs);
    var r := SortAsc(d, key);
    SameElements(d, r);
    NoDuplicatesKept(d, r);
  }

  lemma SameElements<T>(a: seq<T>, b: seq<T>)
    requires multiset(a) == multiset(b)
    ensures forall x :: x in a <==> x in b
  {
    forall x ensures x in a <==> x in b {
      assert x in a <==> x in multiset(a);
      assert x in b <==> x in multiset(b);
    }
  }

  /** A permutation of a duplicate-free sequence is duplicate-free. */
  lemma NoDuplicatesKept<T>(a: seq<T>, b: seq<T>)
    requires multiset(a) == multiset(b)
    requires forall i, j :: 0 <= i < j < |a| ==> a[i] != a[j]
    ensures forall i, j :: 0 <= i < j < |b| ==> b[i] != b[j]
  {
    forall i, j | 0 <= i < j < |b| ensures b[i] != b[j] {
      if b[i] == b[j] {
        assert b == b[..j] + [b[j]] + b[j + 1..];
        assert b[i] in b[..j];
        assert multiset(b)[b[i]] >= 2;
        DistinctCount(a, b[i]);
      }
    }
  }

  lemma DistinctCount<T>(d: seq<T>, x: T)
    requires forall i, j :: 0 <= i < j < |d| ==> d[i] != d[j]
    ensures multiset(d)[x] <= 1
  {
    if d != [] {
      var d' := d[..|d| - 1];
      assert d == d' + [d[|d| - 1]];
      DistinctCount(d', x);
      if d[|d| - 1] == x {
        assert x !in d';
      }
    }
  }

  // ------------------------------------------------------------ streak

  /** The streak: 0 unless `today` has a row; otherwise 1 plus the number of
      consecutive days right before it that have rows. */
  method Streak(dates: set<int>, today: int) returns (streak: nat)
    ensures streak > 0 <==> today in dates
    ensures forall d :: today - streak < d <= today ==> d in dates
    ensures today - streak !in dates
  {
    streak := 0;
    if today in dates {
      streak := 1;
      var current := today;
      while current - 1 in dates
        invariant streak >= 1 && current == today - streak + 1
        invariant forall d :: today - streak < d <= today ==> d in dates
        decreases |set d | d in dates && d < current|
      {
        var below := set d | d in dates && d < current - 1;
        var before := set d | d in dates && d < current;
        assert before == below + {current - 1};
        streak := streak + 1;
        current := current - 1;
      }
    }
  }
}

=== FILE: hidden_decision.dfy ===
/** The nesting of hidden decision turns in webnew/server.js
    (beginHiddenDecision / endHiddenDecision): a depth counter and a stack of
    entries, each with the busy reason it shows unless it suppresses it. The
    `setNotifyBusy` broadcast is recorded as the last signal sent, and the
    queue drains run when the nesting closes are counted. */
module HiddenDecision {
  import opened Wrappers

  datatype Entry = Entry(reason: Option<string>, suppressBusy: bool)

  /** What `setNotifyBusy` was last called with. */
  datatype BusySignal = NoSignal | Busy(reason: Option<string>) | NotBusy

  datatype HiddenState = HiddenState(depth: int, stack: seq<Entry>, active: bool)

  const Initial: HiddenState := HiddenState(0, [], false)

  /** The counter, the stack and the flag agree. */
  predicate Consistent(s: HiddenState) {
    s.depth == |s.stack| && (s.active <==> s.depth > 0)
  }

  /** The index of the topmost entry that does not suppress the busy state. */
  function TopVisible(stack: seq<Entry>): (r: int)
    ensures -1 <= r < |stack|
    ensures r >= 0 ==> !stack[r].suppressBusy
    ensures forall j :: r < j < |stack| ==> stack[j].suppressBusy
  {
    if stack == [] then -1
    else if !stack[|stack| - 1].suppressBusy then |stack| - 1
    else TopVisible(stack[..|stack| - 1])
  }

  /** The busy signal the remaining stack calls for. */
  function SignalFor(stack: seq<Entry>): BusySignal {
    var i := TopVisible(stack);
    if i >= 0 then Busy(stack[i].reason) else NotBusy
  }

  /** beginHiddenDecision on the state. */
  function AfterBegin(s: HiddenState, e: Entry): HiddenState {
    HiddenState(s.depth + 1, s.stack + [e], true)
  }

  /** endHiddenDecision on the state. */
  function AfterEnd(s: HiddenState): HiddenState {
    if s.depth <= 0 then Initial
    else
      var stack := if s.stack == [] then [] else s.stack[..|s.stack| - 1];
      HiddenState(s.depth - 1, stack, s.depth - 1 != 0 && s.active)
  }

  /** The signal endHiddenDecision sends. */
  function EndSignal(s: HiddenState): BusySignal {
    if s.depth <= 1 then NotBusy else SignalFor(AfterEnd(s).stack)
  }

  /** The module-level variables of the hidden-decision machinery. */
  class HiddenDecisions {
    var depth: int
    var stack: seq<Entry>
    var active: bool
    var lastSignal: BusySignal
    var drains: nat

    function State(): HiddenState
      reads this
    {
      HiddenState(depth, stack, active)
    }

    constructor ()
      ensures State() == Initial && lastSignal == NoSignal && drains == 0
    {
      depth := 0;
      stack := [];
      active := false;
      lastSignal := NoSignal;
      drains := 0;
    }

    /** beginHiddenDecision. */
    method Begin(reason: Option<string>, suppressBusy: bool)
      modifies this
      ensures State() == AfterBegin(old(State()), Entry(reason, suppressBusy))
      ensures lastSignal == if suppressBusy then old(lastSignal) else Busy(reason)
      ensures drains == old(drains)
    {
      depth := depth + 1;
      stack := stack + [Entry(reason, suppressBusy)];
      active := true;
      if !suppressBusy {
        lastSignal := Busy(reason);
      }
    }

    /** endHiddenDecision. */
    method End()
      modifies this
      ensures State() == AfterEnd(old(State()))
      ensures lastSignal == EndSignal(old(State()))
      ensures drains == if old(depth) <= 1 then old(drains) + 1 else old(drains)
    {
      if depth <= 0 {
        depth := 0;
        stack := [];
        active := false;
        lastSignal := NotBusy;
        drains := drains + 1;
        return;
      }
      depth := depth - 1;
      if stack != [] {
        stack := stack[..|stack| - 1];
      }
      if depth == 0 {
        active := false;
        lastSignal := NotBusy;
        drains := drains + 1;
      } else {
        var i := |stack| - 1;
        var found := -1;
        while i >= 0
          invariant -1 <= i < |stack|
          invariant TopVisible(stack) == TopVisible(stack[..i + 1])
          decreases i
        {
          if !stack[i].suppressBusy {
            found := i;
            break;
          }
          assert stack[..i + 1][..i] == stack[..i];
          i := i - 1;
        }
        assert found == TopVisible(stack) by {
          if found >= 0 {
            assert stack[..found + 1][found] == stack[found];
          }
        }
        if found >= 0 {
          lastSignal := Busy(stack[found].reason);
        } else {
          lastSignal := NotBusy;
        }
      }
    }
  }

  // ------------------------------------------------------------ properties

  /** Both operations keep the counter, the stack and the flag in agreement,
      so the flag is set exactly while some decision is open. */
  lemma StepsKeepConsistent(s: HiddenState, e: Entry)
    requires Consistent(s)
    ensures Consistent(AfterBegin(s, e)) && Consistent(AfterEnd(s))
    ensures AfterBegin(s, e).active && (AfterEnd(s).active <==> s.depth > 1)
  {
  }

  /** An end undoes the matching begin, and ending with nothing open resets
      everything. */
  lemma EndUndoesBegin(s: HiddenState, e: Entry)
    requires Consistent(s)
    ensures AfterEnd(AfterBegin(s, e)) == s
    ensures s.depth == 0 ==> AfterEnd(s) == Initial
  {
    assert (s.stack + [e])[..|s.stack|] == s.stack;
  }

  /** While still nested, the busy reason shown is that of the topmost open
      entry that does not suppress it; with none, the busy state is off. */
  lemma EndSignalIsTopVisible(s: HiddenState)
    requires Consistent(s) && s.depth > 1
    ensures var rest := s.stack[..|s.stack| - 1];
      match EndSignal(s)
      case Busy(r) =>
        exists i :: 0 <= i < |rest| && rest[i].reason == r && !rest[i].suppressBusy
          && forall j :: i < j < |rest| ==> rest[j].suppressBusy
      case NotBusy => forall j :: 0 <= j < |rest| ==> rest[j].suppressBusy
      case NoSignal => false
  {
    var rest := s.stack[..|s.stack| - 1];
    assert AfterEnd(s).stack == rest;
    var i := TopVisible(rest);
    if i >= 0 {
      assert rest[i].reason == EndSignal(s).reason;
    }
  }

  /** Opening one more suppressed entry over entries that all suppress the
      busy state leaves no busy reason to show. */
  lemma SuppressedEntryHidden(s: HiddenState, reason: Option<string>)
    requires Consistent(s) && (forall j :: 0 <= j < |s.stack| ==> s.stack[j].suppressBusy)
    ensures SignalFor(AfterBegin(s, Entry(reason, true)).stack) == NotBusy
  {
  }
}

=== FILE: icons.dfy ===
/** The byte-level helpers of webnew/scripts/generate-icons.mjs: writeIco
    lays out an ICO container (a 6-byte header, one 16-byte directory entry
    per image, then the PNG images themselves), and sanitizeSvg drops
    repeated default namespace attributes from the opening `<svg` tag. */
module Icons {
  import opened Wrappers
  import opened Text

  newtype byte = x: int | 0 <= x < 256

  const TwoTo16: nat := 0x1_0000
  const TwoTo32: nat := 0x1_0000_0000

  /** `writeUInt16LE(v)`. */
  function U16LE(v: nat): (r: seq<byte>)
    requires v < TwoTo16
    ensures |r| == 2
  {
    [(v % 256) as byte, (v / 256) as byte]
  }

  /** `writeUInt32LE(v)`. */
  function U32LE(v: nat): (r: seq<byte>)
    requires v < TwoTo32
    ensures |r| == 4
  {
    [(v % 256) as byte, (v / 256 % 256) as byte, (v / 65536 % 256) as byte, (v / 16777216) as byte]
  }

  /** A little-endian 16-bit field read back. */
  function ReadU16(b: seq<byte>, at: nat): nat
    requires at + 2 <= |b|
  {
    b[at] as nat + 256 * b[at + 1] as nat
  }

  /** A little-endian 32-bit field read back. */
  function ReadU32(b: seq<byte>, at: nat): nat
    requires at + 4 <= |b|
  {
    b[at] as nat + 256 * b[at + 1] as nat + 65536 * b[at + 2] as nat + 16777216 * b[at + 3] as nat
  }

  lemma U16RoundTrip(v: nat)
    requires v < TwoTo16
    ensures ReadU16(U16LE(v), 0) == v
  {
  }

  lemma U32RoundTrip(v: nat)
    requires v < TwoTo32
    ensures ReadU32(U32LE(v), 0) == v
  {
    var q1 := v / 256;
    var q2 := q1 / 256;
    var q3 := q2 / 256;
    assert v == 256 * q1 + v % 256;
    assert q1 == 256 * q2 + q1 % 256;
    assert q2 == 256 * q3 + q2 % 256;
    assert v == 65536 * q2 + (256 * (q1 % 256) + v % 256);
    assert v / 65536 == q2;
    assert v == 16777216 * q3 + (65536 * (q2 % 256) + 256 * (q1 % 256) + v % 256);
    assert v / 16777216 == q3;
  }

  /** The width and height byte: 256 is written as 0; any other size is
      stored the way a Buffer stores a number, modulo 256. */
  function SizeByte(size: int): (r: byte)
    ensures 0 <= size < 256 ==> r as int == size
    ensures size == 256 ==> r == 0
  {
    if size == 256 then 0 else (size % 256) as byte
  }

  /** The total length of the images before the `n`th. */
  function SumLengths(pngs: seq<seq<byte>>): nat {
    if pngs == [] then 0 else SumLengths(pngs[..|pngs| - 1]) + |pngs[|pngs| - 1]|
  }

  /** `Buffer.concat(images)`. */
  function Concat(pngs: seq<seq<byte>>): (r: seq<byte>)
    ensures |r| == SumLengths(pngs)
  {
    if pngs == [] then [] else Concat(pngs[..|pngs| - 1]) + pngs[|pngs| - 1]
  }

  /** Where the `i`th image starts in the file. */
  function ImageOffset(pngs: seq<seq<byte>>, i: nat): nat
    requires i <= |pngs|
  {
    6 + 16 * |pngs| + SumLengths(pngs[..i])
  }

  /** The length of the whole file. */
  function IcoSize(pngs: seq<seq<byte>>): nat {
    6 + 16 * |pngs| + SumLengths(pngs)
  }

  /** What the writer can lay out: a count that fits the 16-bit field and
      a file short enough for every 32-bit offset and length. */
  predicate Fits(pngs: seq<seq<byte>>) {
    |pngs| < TwoTo16 && IcoSize(pngs) < TwoTo32
  }

  lemma {:induction false} PrefixSums(pngs: seq<seq<byte>>, i: nat)
    requires i < |pngs|
    ensures SumLengths(pngs[..i + 1]) == SumLengths(pngs[..i]) + |pngs[i]|
    ensures SumLengths(pngs[..i + 1]) <= SumLengths(pngs)
    decreases |pngs|
  {
    assert pngs[..i + 1][..i] == pngs[..i];
    if i + 1 < |pngs| {
      var init := pngs[..|pngs| - 1];
      PrefixSums(init, i);
      assert init[..i + 1] == pngs[..i + 1];
    } else {
      assert pngs[..i + 1] == pngs;
    }
  }

  /** The header: reserved 0, type 1 (icon), the image count. */
  function Header(count: nat): (r: seq<byte>)
    requires count < TwoTo16
    ensures |r| == 6
  {
    U16LE(0) + U16LE(1) + U16LE(count)
  }

  /** One directory entry: width, height, no palette, reserved, one colour
      plane, 32 bits per pixel, the image length and the image offset. */
  function Entry(size: int, length: nat, offset: nat): (r: seq<byte>)
    requires length < TwoTo32 && offset < TwoTo32
    ensures |r| == 16
  {
    [SizeByte(size), SizeByte(size), 0, 0] + U16LE(1) + U16LE(32) + U32LE(length) + U32LE(offset)
  }

  /** The entries of the first `n` images. */
  function DirectoryUpTo(pngs: seq<seq<byte>>, sizes: seq<int>, n: nat): (r: seq<byte>)
    requires Fits(pngs) && |sizes| == |pngs| && n <= |pngs|
    ensures |r| == 16 * n
  {
    if n == 0 then []
    else
      PrefixSums(pngs, n - 1);
      DirectoryUpTo(pngs, sizes, n - 1) + Entry(sizes[n - 1], |pngs[n - 1]|, ImageOffset(pngs, n - 1))
  }

  /** The bytes writeIco writes. */
  function IcoFile(pngs: seq<seq<byte>>, sizes: seq<int>): (r: seq<byte>)
    requires Fits(pngs) && |sizes| == |pngs|
  {
    Header(|pngs|) + DirectoryUpTo(pngs, sizes, |pngs|) + Concat(pngs)
  }

  /** Stores `v` little-endian in `buf[at..at + 2]`. */
  method WriteU16(buf: array<byte>, at: nat, v: nat)
    requires at + 2 <= buf.Length && v < TwoTo16
    modifies buf
    ensures buf[..] == old(buf[..])[..at] + U16LE(v) + old(buf[..])[at + 2..]
  {
    buf[at] := (v % 256) as byte;
    buf[at + 1] := (v / 256) as byte;
  }

  /** Stores `v` little-endian in `buf[at..at + 4]`. */
  method WriteU32(buf: array<byte>, at: nat, v: nat)
    requires at + 4 <= buf.Length && v < TwoTo32
    modifies buf
    ensures buf[..] == old(buf[..])[..at] + U32LE(v) + old(buf[..])[at + 4..]
  {
    buf[at] := (v % 256) as byte;
    buf[at + 1] := (v / 256 % 256) as byte;
    buf[at + 2] := (v / 65536 % 256) as byte;
    buf[at + 3] := (v / 16777216) as byte;
  }

  /** writeIco, without the final file write: the header and each entry are
      filled in a zeroed buffer, each entry is copied into the directory
      table, and the offset moves past each image. */
  method WriteIco(pngs: seq<seq<byte>>, sizes: seq<int>) returns (out: seq<byte>)
    requires Fits(pngs) && |sizes| == |pngs|
    ensures out == IcoFile(pngs, sizes)
  {
    var count := |pngs|;
    var header := new byte[6](_ => 0);
    WriteU16(header, 0, 0);
    WriteU16(header, 2, 1);
    WriteU16(header, 4, count);
    var headerBytes := header[..];
    assert headerBytes == Header(count);

    var dirTable := new byte[16 * count](_ => 0);
    var offset := 6 + 16 * count;
    var imageData: seq<seq<byte>> := [];
    for i := 0 to count
      invariant offset == ImageOffset(pngs, i)
      invariant imageData == pngs[..i]
      invariant dirTable[..16 * i] == DirectoryUpTo(pngs, sizes, i)
    {
      PrefixSums(pngs, i);
      var entry := FillEntry(sizes[i], |pngs[i]|, offset);
      PlaceEntry(dirTable, i, entry);
      imageData := imageData + [pngs[i]];
      offset := offset + |pngs[i]|;
    }
    assert dirTable[..] == dirTable[..16 * count];
    assert imageData == pngs;
    out := headerBytes + dirTable[..] + Concat(imageData);
  }

  /** `entry.copy(dirTable, i * 16)`. */
  method PlaceEntry(dirTable: array<byte>, i: nat, entry: array<byte>)
    requires entry.Length == 16 && 16 * (i + 1) <= dirTable.Length && entry != dirTable
    modifies dirTable
    ensures dirTable[..16 * (i + 1)] == old(dirTable[..16 * i]) + entry[..]
  {
    forall k | 0 <= k < 16 {
      dirTable[i * 16 + k] := entry[k];
    }
  }

  /** One directory entry filled in a fresh zeroed 16-byte buffer. */
  method FillEntry(size: int, length: nat, offset: nat) returns (entry: array<byte>)
    requires length < TwoTo32 && offset < TwoTo32
    ensures fresh(entry) && entry[..] == Entry(size, length, offset)
  {
    entry := new byte[16](_ => 0);
    entry[0] := SizeByte(size);
    entry[1] := SizeByte(size);
    entry[2] := 0;
    entry[3] := 0;
    ghost var head: seq<byte> := [SizeByte(size), SizeByte(size), 0, 0];
    assert entry[..4] == head;
    WriteU16(entry, 4, 1);
    assert entry[..6] == head + U16LE(1);
    WriteU16(entry, 6, 32);
    assert entry[..8] == head + U16LE(1) + U16LE(32);
    WriteU32(entry, 8, length);
    assert entry[..12] == head + U16LE(1) + U16LE(32) + U32LE(length);
    WriteU32(entry, 12, offset);
    assert entry[..] == entry[..12] + U32LE(offset);
  }

  // ------------------------------------------------------------ reading the file back

  /** The first image starts right after the directory, and each later one
      right after the image before it. */
  lemma OffsetsChain(pngs: seq<seq<byte>>, i: nat)
    requires i < |pngs|
    ensures ImageOffset(pngs, 0) == 6 + 16 * |pngs|
    ensures ImageOffset(pngs, i + 1) == ImageOffset(pngs, i) + |pngs[i]|
    ensures ImageOffset(pngs, i + 1) <= IcoSize(pngs)
  {
    assert pngs[..0] == [];
    PrefixSums(pngs, i);
  }

  /** The `i`th entry sits 16 bytes after the previous one. */
  lemma {:induction false} DirectoryEntryAt(pngs: seq<seq<byte>>, sizes: seq<int>, n: nat, i: nat)
    requires Fits(pngs) && |sizes| == |pngs| && i < n <= |pngs|
    ensures OffsetFits(pngs, i)
    ensures DirectoryUpTo(pngs, sizes, n)[16 * i..16 * i + 16]
      == Entry(sizes[i], |pngs[i]|, ImageOffset(pngs, i))
  {
    OffsetsChain(pngs, i);
    if i < n - 1 {
      DirectoryEntryAt(pngs, sizes, n - 1, i);
      var d := DirectoryUpTo(pngs, sizes, n - 1);
      assert DirectoryUpTo(pngs, sizes, n)[..16 * (n - 1)] == d;
    }
  }

  /** The `i`th image's offset and length fit their 32-bit fields. */
  predicate OffsetFits(pngs: seq<seq<byte>>, i: nat)
    requires i < |pngs|
  {
    |pngs[i]| < TwoTo32 && ImageOffset(pngs, i) < TwoTo32
  }

  /** The `i`th image sits at its prefix sum in the concatenated images. */
  lemma {:induction false} ConcatAt(pngs: seq<seq<byte>>, i: nat)
    requires i < |pngs|
    ensures SumLengths(pngs[..i]) + |pngs[i]| <= |Concat(pngs)|
    ensures Concat(pngs)[SumLengths(pngs[..i])..SumLengths(pngs[..i]) + |pngs[i]|] == pngs[i]
  {
    var init := pngs[..|pngs| - 1];
    if i == |pngs| - 1 {
      assert init == pngs[..i];
    } else {
      ConcatAt(init, i);
      assert init[..i] == pngs[..i];
      assert init[i] == pngs[i];
    }
  }

  /** The header of the written file: reserved 0, type 1, the image count;
      the file is as long as header, directory and images together. */
  lemma IcoHeader(pngs: seq<seq<byte>>, sizes: seq<int>)
    requires Fits(pngs) && |sizes| == |pngs|
    ensures var out := IcoFile(pngs, sizes);
      && |out| == 6 + 16 * |pngs| + SumLengths(pngs)
      && ReadU16(out, 0) == 0 && ReadU16(out, 2) == 1 && ReadU16(out, 4) == |pngs|
  {
  }

  /** Each directory entry of the written file reads back as the image's
      size (0 for 256), one plane, 32 bits per pixel, the image's length and
      its offset, and the image's bytes are found at that offset. */
  lemma IcoEntry(pngs: seq<seq<byte>>, sizes: seq<int>, i: nat)
    requires Fits(pngs) && |sizes| == |pngs| && i < |pngs|
    ensures var out := IcoFile(pngs, sizes);
      var at := 6 + 16 * i;
      var offset := ImageOffset(pngs, i);
      && at + 16 <= offset && offset + |pngs[i]| <= |out|
      && out[at] == SizeByte(sizes[i]) && out[at + 1] == SizeByte(sizes[i])
      && out[at + 2] == 0 && out[at + 3] == 0
      && ReadU16(out, at + 4) == 1 && ReadU16(out, at + 6) == 32
      && ReadU32(out, at + 8) == |pngs[i]| && ReadU32(out, at + 12) == offset
      && out[offset..offset + |pngs[i]|] == pngs[i]
  {
    var out := IcoFile(pngs, sizes);
    var at := 6 + 16 * i;
    var offset := ImageOffset(pngs, i);
    DirectoryEntryAt(pngs, sizes, |pngs|, i);
    var e := Entry(sizes[i], |pngs[i]|, offset);
    var dir := DirectoryUpTo(pngs, sizes, |pngs|);
    assert out[at..at + 16] == dir[16 * i..16 * i + 16];
    EntryFields(sizes[i], |pngs[i]|, offset);
    ReadWithin(out, at, e);
    ImageWithin(pngs, sizes, i);
  }

  /** The fields of one entry read back. */
  lemma EntryFields(size: int, length: nat, offset: nat)
    requires length < TwoTo32 && offset < TwoTo32
    ensures var e := Entry(size, length, offset);
      && e[0] == SizeByte(size) && e[1] == SizeByte(size) && e[2] == 0 && e[3] == 0
      && ReadU16(e, 4) == 1 && ReadU16(e, 6) == 32
      && ReadU32(e, 8) == length && ReadU32(e, 12) == offset
  {
    var e := Entry(size, length, offset);
    U32RoundTrip(length);
    U32RoundTrip(offset);
    assert e[8..12] == U32LE(length);
    assert e[12..16] == U32LE(offset);
  }

  /** Fields read inside a 16-byte window read the same in the whole. */
  lemma ReadWithin(out: seq<byte>, at: nat, e: seq<byte>)
    requires at + 16 <= |out| && out[at..at + 16] == e
    ensures out[at] == e[0] && out[at + 1] == e[1] && out[at + 2] == e[2] && out[at + 3] == e[3]
    ensures ReadU16(out, at + 4) == ReadU16(e, 4) && ReadU16(out, at + 6) == ReadU16(e, 6)
    ensures ReadU32(out, at + 8) == ReadU32(e, 8) && ReadU32(out, at + 12) == ReadU32(e, 12)
  {
    assert forall k :: 0 <= k < 16 ==> out[at + k] == e[k];
  }

  /** The `i`th image's bytes lie at its offset in the file. */
  lemma ImageWithin(pngs: seq<seq<byte>>, sizes: seq<int>, i: nat)
    requires Fits(pngs) && |sizes| == |pngs| && i < |pngs|
    ensures var out := IcoFile(pngs, sizes);
      var offset := ImageOffset(pngs, i);
      && 6 + 16 * i + 16 <= offset && offset + |pngs[i]| <= |out|
      && out[offset..offset + |pngs[i]|] == pngs[i]
  {
    var out := IcoFile(pngs, sizes);
    var offset := ImageOffset(pngs, i);
    ConcatAt(pngs, i);
    var images := Concat(pngs);
    var start := 6 + 16 * |pngs|;
    assert out[start..] == images;
    assert out[offset..offset + |pngs[i]|] == images[offset - start..offset - start + |pngs[i]|];
  }

  // ------------------------------------------------------------ sanitizeSvg

  predicate IsQuote(c: char) { c == '"' || c == '\'' }

  /** The end of the run of `\s` characters starting at `p`. */
  function SpaceRunEnd(tag: string, p: nat): (q: nat)
    requires p <= |tag|
    ensures p <= q <= |tag|
    ensures forall k :: p <= k < q ==> IsJsSpace(tag[k])
    ensures q == |tag| || !IsJsSpace(tag[q])
    decreases |tag| - p
  {
    if p == |tag| || !IsJsSpace(tag[p]) then p else SpaceRunEnd(tag, p + 1)
  }

  /** The first quote character at or after `p`, or `|tag|`. */
  function QuoteFrom(tag: string, p: nat): (r: nat)
    requires p <= |tag|
    ensures p <= r <= |tag|
    ensures forall k :: p <= k < r ==> !IsQuote(tag[k])
    ensures r == |tag| || IsQuote(tag[r])
    decreases |tag| - p
  {
    if p == |tag| || IsQuote(tag[p]) then p else QuoteFrom(tag, p + 1)
  }

  /** Where a match of `/\s+xmlns(=["'][^"']+["'])/` starting at `p` ends:
      a run of blanks, `xmlns=`, a quote, at least one non-quote character
      and the next quote. */
  function MatchEnd(tag: string, p: nat): (r: Option<nat>)
    requires p < |tag|
    ensures r.Some? ==> p < r.value <= |tag|
  {
    if !IsJsSpace(tag[p]) then None
    else
      var q := SpaceRunEnd(tag, p);
      if q + 7 <= |tag| && tag[q..q + 6] == "xmlns=" && IsQuote(tag[q + 6]) then
        var r := QuoteFrom(tag, q + 7);
        if q + 7 < r < |tag| then Some(r + 1) else None
      else None
  }

  /** The opening tag as the global replace walks it: an attribute match
      or a character passed over. */
  datatype Token = Plain(c: char) | Attr(text: string)

  /** The left-to-right scan of the global replace from position `p`. */
  function Tokens(tag: string, p: nat): seq<Token>
    requires p <= |tag|
    decreases |tag| - p
  {
    if p == |tag| then []
    else match MatchEnd(tag, p)
      case None => [Plain(tag[p])] + Tokens(tag, p + 1)
      case Some(e) => [Attr(tag[p..e])] + Tokens(tag, e)
  }

  function Render(ts: seq<Token>): string {
    if ts == [] then []
    else (match ts[0] case Plain(c) => [c] case Attr(text) => text) + Render(ts[1..])
  }

  /** A match the callback treats as the default namespace: it begins with
      exactly one space and `xmlns="`. */
  predicate IsDefaultXmlns(t: Token) {
    t.Attr? && StartsWith(t.text, " xmlns=\"")
  }

  /** The callback over the scan: the first default namespace match is kept
      (`seen` records one was), later ones become empty, other matches are
      kept. */
  function KeepFirstDefault(ts: seq<Token>, seen: bool): (r: seq<Token>)
    ensures |r| <= |ts|
  {
    if ts == [] then []
    else if IsDefaultXmlns(ts[0]) then (if seen then [] else [ts[0]]) + KeepFirstDefault(ts[1..], true)
    else [ts[0]] + KeepFirstDefault(ts[1..], seen)
  }

  function CountDefaults(ts: seq<Token>): nat {
    if ts == [] then 0 else (if IsDefaultXmlns(ts[0]) then 1 else 0) + CountDefaults(ts[1..])
  }

  /** The tokens that are not default namespace matches, in order. */
  function NonDefaults(ts: seq<Token>): seq<Token> {
    if ts == [] then []
    else (if IsDefaultXmlns(ts[0]) then [] else [ts[0]]) + NonDefaults(ts[1..])
  }

  /** The opening tag after the replace. */
  function CleanOpenTag(tag: string): string {
    Render(KeepFirstDefault(Tokens(tag, 0), false))
  }

  /** The scan covers the tag: its pieces put back together are the tag. */
  lemma {:induction false} TokensRender(tag: string, p: nat)
    requires p <= |tag|
    ensures Render(Tokens(tag, p)) == tag[p..]
    decreases |tag| - p
  {
    if p < |tag| {
      var e := StepEnd(tag, p);
      TokensRender(tag, e);
      TokensStep(tag, p);
      assert tag[p..] == tag[p..e] + tag[e..];
    }
  }

  /** Where the scan resumes after the piece at `p`. */
  function StepEnd(tag: string, p: nat): (e: nat)
    requires p < |tag|
    ensures p < e <= |tag|
  {
    match MatchEnd(tag, p)
    case None => p + 1
    case Some(e) => e
  }

  /** The piece at `p` renders as the text it was cut from. */
  lemma TokensStep(tag: string, p: nat)
    requires p < |tag|
    ensures Render(Tokens(tag, p)) == tag[p..StepEnd(tag, p)] + Render(Tokens(tag, StepEnd(tag, p)))
  {
    var rest := Tokens(tag, StepEnd(tag, p));
    match MatchEnd(tag, p)
    case None =>
      assert Tokens(tag, p) == [Plain(tag[p])] + rest;
      assert tag[p..p + 1] == [tag[p]];
    case Some(e) =>
      assert Tokens(tag, p) == [Attr(tag[p..e])] + rest;
  }

  /** At most one default namespace match survives, it is the first one,
      and every other piece of the tag is kept in order. */
  lemma {:induction false} KeepFirstDefaultSpec(ts: seq<Token>, seen: bool)
    ensures CountDefaults(KeepFirstDefault(ts, seen)) == if seen || CountDefaults(ts) == 0 then 0 else 1
    ensures NonDefaults(KeepFirstDefault(ts, seen)) == NonDefaults(ts)
  {
    if ts != [] {
      var seen' := IsDefaultXmlns(ts[0]) || seen;
      KeepFirstDefaultSpec(ts[1..], seen');
      var rest := KeepFirstDefault(ts[1..], seen');
      assert CountDefaults(ts) == (if IsDefaultXmlns(ts[0]) then 1 else 0) + CountDefaults(ts[1..]);
      if IsDefaultXmlns(ts[0]) && seen {
        assert KeepFirstDefault(ts, seen) == rest;
      } else {
        var r := [ts[0]] + rest;
        assert KeepFirstDefault(ts, seen) == r;
        assert r[0] == ts[0] && r[1..] == rest;
      }
    }
  }

  /** A tag with at most one default namespace match is left as it is. */
  lemma {:induction false} KeepFirstDefaultNoop(ts: seq<Token>, seen: bool)
    requires CountDefaults(ts) == 0 || (!seen && CountDefaults(ts) == 1)
    ensures KeepFirstDefault(ts, seen) == ts
  {
    if ts != [] {
      KeepFirstDefaultNoop(ts[1..], IsDefaultXmlns(ts[0]) || seen);
      assert ts == [ts[0]] + ts[1..];
    }
  }

  lemma CleanOpenTagNoop(tag: string)
    requires CountDefaults(Tokens(tag, 0)) <= 1
    ensures CleanOpenTag(tag) == tag
  {
    KeepFirstDefaultNoop(Tokens(tag, 0), false);
    TokensRender(tag, 0);
  }

  /** Without a blank there is no attribute to match. */
  lemma {:induction false} NoBlankNoMatch(tag: string, p: nat)
    requires p <= |tag| && forall k :: p <= k < |tag| ==> !IsJsSpace(tag[k])
    ensures CountDefaults(Tokens(tag, p)) == 0
    decreases |tag| - p
  {
    if p < |tag| {
      NoBlankNoMatch(tag, p + 1);
    }
  }

  /** Where the opening `<svg…>` tag starts and ends (one past its `>`). */
  function OpenTagBounds(svg: string): (r: Option<(nat, nat)>)
    ensures r.Some? ==> r.value.0 < r.value.1 <= |svg| && OccursAt(svg, "<svg", r.value.0)
    ensures r.Some? ==> svg[r.value.1 - 1] == '>'
  {
    var start := IndexOf(svg, "<svg");
    if start == -1 then None
    else
      var end := IndexOfFrom(svg, ">", start);
      if end == -1 then None
      else
        assert svg[end] == svg[end..end + 1][0] == '>';
        Some((start, end + 1))
  }

  /** sanitizeSvg as written: the text before the opening tag is not put
      back. */
  function SanitizeSvgAsWritten(svg: string): string {
    match OpenTagBounds(svg)
    case None => svg
    case Some((start, end)) => CleanOpenTag(svg[start..end]) + svg[end..]
  }

  /** sanitizeSvg keeping the text before the opening tag. */
  function SanitizeSvg(svg: string): (r: string)
    ensures OpenTagBounds(svg).None? ==> r == svg
  {
    match OpenTagBounds(svg)
    case None => svg
    case Some((start, end)) => svg[..start] + CleanOpenTag(svg[start..end]) + svg[end..]
  }

  /** Only the opening tag changes: what comes before and after it is kept,
      the tag keeps its first default namespace match and every other
      piece, and loses the later default namespace matches. */
  lemma SanitizeSvgSpec(svg: string)
    requires OpenTagBounds(svg).Some?
    ensures var (start, end) := OpenTagBounds(svg).value;
      var tokens := Tokens(svg[start..end], 0);
      var kept := KeepFirstDefault(tokens, false);
      && SanitizeSvg(svg) == svg[..start] + Render(kept) + svg[end..]
      && Render(tokens) == svg[start..end]
      && CountDefaults(kept) == (if CountDefaults(tokens) == 0 then 0 else 1)
      && NonDefaults(kept) == NonDefaults(tokens)
  {
    var (start, end) := OpenTagBounds(svg).value;
    TokensRender(svg[start..end], 0);
    KeepFirstDefaultSpec(Tokens(svg[start..end], 0), false);
  }

  /** A file whose opening tag has at most one default namespace
      attribute is left unchanged. */
  lemma SanitizeSvgNoop(svg: string)
    requires OpenTagBounds(svg).Some?
    requires var (start, end) := OpenTagBounds(svg).value; CountDefaults(Tokens(svg[start..end], 0)) <= 1
    ensures SanitizeSvg(svg) == svg
  {
    var (start, end) := OpenTagBounds(svg).value;
    CleanOpenTagNoop(svg[start..end]);
    ThreeParts(svg, start, end);
  }

  lemma ThreeParts<T>(s: seq<T>, a: nat, b: nat)
    requires a <= b <= |s|
    ensures s[..a] + s[a..b] + s[b..] == s
  {
  }

  /** The code as written drops an XML declaration in front of the tag:
      `a<svg>` becomes `<svg>`. */
  lemma AsWrittenDropsPrefix()
    ensures SanitizeSvgAsWritten("a<svg>") == "<svg>"
    ensures SanitizeSvg("a<svg>") == "a<svg>"
  {
    var svg := "a<svg>";
    ExampleBounds();
    assert svg[1..6] == "<svg>";
    ExampleTagClean();
    AsWrittenFromTag(svg, 1, 6);
    CorrectedKeepsAll(svg, 1, 6);
    assert svg[1..] == "<svg>";
  }

  /** When the opening tag needs no cleaning, the as-written function
      returns the text from the tag on. */
  lemma AsWrittenFromTag(svg: string, start: nat, end: nat)
    requires OpenTagBounds(svg) == Some((start, end))
    requires CleanOpenTag(svg[start..end]) == svg[start..end]
    ensures SanitizeSvgAsWritten(svg) == svg[start..]
  {
    TwoParts(svg, start, end);
  }

  lemma TwoParts<T>(s: seq<T>, a: nat, b: nat)
    requires a <= b <= |s|
    ensures s[a..b] + s[b..] == s[a..]
  {
  }

  /** When the opening tag needs no cleaning, the corrected function returns
      the whole text. */
  lemma CorrectedKeepsAll(svg: string, start: nat, end: nat)
    requires OpenTagBounds(svg) == Some((start, end))
    requires CleanOpenTag(svg[start..end]) == svg[start..end]
    ensures SanitizeSvg(svg) == svg
  {
    ThreeParts(svg, start, end);
  }

  /** The opening tag of `a<svg>` spans positions 1 to 6. */
  lemma ExampleBounds()
    ensures OpenTagBounds("a<svg>") == Some((1, 6))
  {
    var svg := "a<svg>";
    assert OccursAt(svg, "<svg", 1);
    assert svg[0..4][0] == 'a';
    assert IndexOf(svg, "<svg") == 1;
    assert IndexOfFrom(svg, ">", 1) == 5 by {
      assert OccursAt(svg, ">", 5);
      assert svg[1..2] == "<" && svg[2..3] == "s" && svg[3..4] == "v" && svg[4..5] == "g";
    }
  }

  /** `<svg>` has no attribute to drop. */
  lemma ExampleTagClean()
    ensures CleanOpenTag("<svg>") == "<svg>"
  {
    NoBlankNoMatch("<svg>", 0);
    CleanOpenTagNoop("<svg>");
  }
}

=== FILE: js_values.dfy ===
/** JavaScript values as the JS sources see them: only integer numbers are
    modelled (floating point, NaN and the infinities are not), and an
    object is a map from property names to values. */
module JsValues {
  import opened Wrappers
  import opened Text

  datatype JsValue =
    | Undefined
    | Null
    | Bool(b: bool)
    | Num(n: int)
    | Str(s: string)
    | Arr(items: seq<JsValue>)
    | Obj(props: map<string, JsValue>)

  /** `!!v`. */
  predicate Truthy(v: JsValue) {
    match v
    case Undefined => false
    case Null => false
    case Bool(b) => b
    case Num(n) => n != 0
    case Str(s) => s != ""
    case _ => true
  }

  /** `v === null || v === undefined`, what `??` skips. */
  predicate Nullish(v: JsValue) { v.Undefined? || v.Null? }

  /** `a ?? b`. */
  function Coalesce(a: JsValue, b: JsValue): (r: JsValue)
    ensures !Nullish(a) ==> r == a
    ensures Nullish(a) ==> r == b
  {
    if Nullish(a) then b else a
  }

  /** `a || b`. */
  function Or(a: JsValue, b: JsValue): (r: JsValue)
    ensures Truthy(a) ==> r == a
    ensures !Truthy(a) ==> r == b
  {
    if Truthy(a) then a else b
  }

  /** `typeof v === 'object' && v !== null && !Array.isArray(v)`. */
  predicate IsPlainObject(v: JsValue) { v.Obj? }

  /** `v[key]` on an object; any other value has no such own property. */
  function Get(v: JsValue, key: string): JsValue {
    if v.Obj? && key in v.props then v.props[key] else Undefined
  }

  // ------------------------------------------------------------ Number(text)

  /** A finite number written in decimal: `mant * 10^exp`. */
  datatype Decimal = Decimal(mant: int, exp: int)

  /** `v * 10^k`, one digit at a time. */
  function Shifted(v: int, k: nat): int {
    if k == 0 then v else 10 * Shifted(v, k - 1)
  }

  /** `v / 10^k` when `10^k` divides `v`. */
  function Unscaled(v: int, k: nat): Option<int>
    decreases k
  {
    if k == 0 then Some(v) else if v % 10 == 0 then Unscaled(v / 10, k - 1) else None
  }

  /** The decimal's value when it is a whole number. */
  function IntegerOf(d: Decimal): Option<int> {
    if d.exp >= 0 then Some(Shifted(d.mant, d.exp)) else Unscaled(d.mant, -d.exp)
  }

  /** `d <= k`. */
  predicate AtMost(d: Decimal, k: int) {
    if d.exp >= 0 then Shifted(d.mant, d.exp) <= k else d.mant <= Shifted(k, -d.exp)
  }

  /** `d >= k`. */
  predicate AtLeast(d: Decimal, k: int) {
    if d.exp >= 0 then Shifted(d.mant, d.exp) >= k else d.mant >= Shifted(k, -d.exp)
  }

  /** Dividing out `10^k` is undone by shifting back. */
  lemma {:induction false} UnscaledShifted(v: int, k: nat, n: int)
    requires Unscaled(v, k) == Some(n)
    ensures v == Shifted(n, k)
    decreases k
  {
    if k > 0 {
      UnscaledShifted(v / 10, k - 1, n);
    }
  }

  /** Shifting keeps the order of two integers. */
  lemma {:induction false} ShiftedMonotone(a: int, b: int, k: nat)
    ensures a <= b <==> Shifted(a, k) <= Shifted(b, k)
  {
    if k > 0 {
      ShiftedMonotone(a, b, k - 1);
    }
  }

  /** A whole decimal compares with an integer as its value does. */
  lemma IntegerCompare(d: Decimal, n: int, k: int)
    requires IntegerOf(d) == Some(n)
    ensures AtMost(d, k) <==> n <= k
    ensures AtLeast(d, k) <==> n >= k
  {
    if d.exp < 0 {
      UnscaledShifted(d.mant, -d.exp, n);
      ShiftedMonotone(n, k, -d.exp);
      ShiftedMonotone(k, n, -d.exp);
    }
  }

  /** The value of a character as a digit in a base up to 36 (letters in
      either case count from 10); 36 for any other character. */
  function RadixDigit(c: char): nat {
    if '0' <= c <= '9' then c as int - '0' as int
    else if 'a' <= c <= 'z' then c as int - 'a' as int + 10
    else if 'A' <= c <= 'Z' then c as int - 'A' as int + 10
    else 36
  }

  predicate AllRadixDigits(s: string, base: nat) {
    forall i :: 0 <= i < |s| ==> RadixDigit(s[i]) < base
  }

  function RadixValue(s: string, base: nat): nat {
    if s == [] then 0 else RadixValue(s[..|s| - 1], base) * base + RadixDigit(s[|s| - 1])
  }

  /** The base a `0x`, `0o` or `0b` prefix (in either case) names, or 0. */
  function RadixOfPrefix(t: string): nat {
    if |t| < 2 || t[0] != '0' then 0
    else if t[1] == 'x' || t[1] == 'X' then 16
    else if t[1] == 'o' || t[1] == 'O' then 8
    else if t[1] == 'b' || t[1] == 'B' then 2
    else 0
  }

  /** An exponent's digits with an optional sign. */
  function SignedInteger(s: string): Option<int> {
    var start := if s != [] && (s[0] == '+' || s[0] == '-') then 1 else 0;
    var digits := s[start..];
    if digits == [] || !AllDigits(digits) then None
    else
      var v: int := DecimalValue(digits);
      Some(if s[0] == '-' then -v else v)
  }

  /** Index of the first `e` or `E`, or the length of the text. */
  function ExponentMark(t: string): (i: nat)
    ensures i <= |t|
    ensures i < |t| ==> t[i] == 'e' || t[i] == 'E'
  {
    if t == [] || t[0] == 'e' || t[0] == 'E' then 0 else 1 + ExponentMark(t[1..])
  }

  /** No `e` or `E` comes before the mark: it is the first one. */
  lemma {:induction false} ExponentMarkFirst(t: string)
    ensures forall k :: 0 <= k < ExponentMark(t) ==> t[k] != 'e' && t[k] != 'E'
  {
    if t != [] && t[0] != 'e' && t[0] != 'E' {
      ExponentMarkFirst(t[1..]);
      assert forall k :: 1 <= k < ExponentMark(t) ==> t[k] == t[1..][k - 1];
    }
  }

  /** The digits before and after the point of a literal's significand,
      when it has at most one point, only digits besides, and at least one
      digit. */
  function Significand(m: string): (r: Option<(string, string)>)
    ensures r.Some? ==> AllDigits(r.value.0) && AllDigits(r.value.1)
  {
    var dot := IndexOfChar(m, '.');
    var whole := if dot == -1 then m else m[..dot];
    var frac := if dot == -1 then "" else m[dot + 1..];
    if (whole == "" && frac == "") || !AllDigits(whole) || !AllDigits(frac) then None
    else Some((whole, frac))
  }

  /** The number a significand and an exponent write. */
  function Scaled(sig: Option<(string, string)>, exp: Option<int>): Option<Decimal>
    requires sig.Some? ==> AllDigits(sig.value.0) && AllDigits(sig.value.1)
  {
    if sig.None? || exp.None? then None
    else
      var (whole, frac) := sig.value;
      Some(Decimal(Shifted(DecimalValue(whole), |frac|) + DecimalValue(frac), exp.value - |frac|))
  }

  /** An unsigned decimal literal: a significand, then an optional exponent.
      `Infinity` is not finite and reads as None here. */
  function UnsignedDecimal(t: string): Option<Decimal> {
    var e := ExponentMark(t);
    Scaled(Significand(t[..e]), if e == |t| then Some(0) else SignedInteger(t[e + 1..]))
  }

  /** A `0x`, `0o` or `0b` literal's digits in its base. */
  function RadixNumber(digits: string, base: nat): Option<Decimal> {
    if digits != [] && AllRadixDigits(digits, base) then Some(Decimal(RadixValue(digits, base), 0)) else None
  }

  function Negated(d: Option<Decimal>): Option<Decimal> {
    match d
    case Some(v) => Some(Decimal(-v.mant, v.exp))
    case None => None
  }

  /** `Number(s)` on a string, following the string numeric literal grammar
      of section 7.1.4.1.1 of ECMA-262: the text is trimmed, empty text is 0,
      a `0x`, `0o` or `0b` literal takes no sign, a decimal literal may carry
      a sign, a point and an exponent. None is NaN or an infinity; the value
      is exact (no rounding to a 64-bit float). */
  function StringNumber(s: string): Option<Decimal> {
    NumberText(JsTrim(s))
  }

  /** `Number` of trimmed text. */
  function NumberText(t: string): Option<Decimal> {
    if t == "" then Some(Decimal(0, 0))
    else if RadixOfPrefix(t) != 0 then RadixNumber(t[2..], RadixOfPrefix(t))
    else
      var u := UnsignedDecimal(if t[0] == '+' || t[0] == '-' then t[1..] else t);
      if t[0] == '-' then Negated(u) else u
  }

  /** A run of digits is a decimal literal with no exponent. */
  lemma DigitsDecimal(t: string)
    requires t != [] && AllDigits(t)
    ensures UnsignedDecimal(t) == Some(Decimal(DecimalValue(t), 0))
  {
    NoExponentMark(t);
    assert t[..ExponentMark(t)] == t;
    DigitsSignificand(t);
    ScaledWhole(t);
  }

  /** Digits with no fraction and no exponent are a whole decimal. */
  lemma ScaledWhole(t: string)
    requires AllDigits(t)
    ensures Scaled(Some((t, "")), Some(0)) == Some(Decimal(DecimalValue(t), 0))
  {
    assert Shifted(DecimalValue(t), 0) == DecimalValue(t);
  }

  lemma {:induction false} NoExponentMark(t: string)
    requires AllDigits(t)
    ensures ExponentMark(t) == |t|
  {
    if t != [] {
      assert IsAsciiDigit(t[0]);
      assert AllDigits(t[1..]) by {
        forall k | 0 <= k < |t| - 1 ensures IsAsciiDigit(t[1..][k]) { assert t[1..][k] == t[k + 1]; }
      }
      NoExponentMark(t[1..]);
    }
  }

  lemma DigitsSignificand(t: string)
    requires t != [] && AllDigits(t)
    ensures Significand(t) == Some((t, ""))
  {
    assert forall i :: 0 <= i < |t| ==> t[i] != '.' by {
      forall i | 0 <= i < |t| ensures t[i] != '.' { assert IsAsciiDigit(t[i]); }
    }
    assert IndexOfChar(t, '.') == -1;
  }

  /** `Number(v)` when it is a finite whole number; None stands for NaN,
      the infinities and fractions. An array converts through its string
      form: `[]` is "", a lone null or undefined element is "", and a lone
      array element `x` gives the string form of `x` itself, so `[[5]]` reads
      as 5 and `[[]]` as 0. */
  function NumberOf(v: JsValue): Option<int> {
    match v
    case Undefined => None
    case Null => Some(0)
    case Bool(b) => Some(if b then 1 else 0)
    case Num(n) => Some(n)
    case Str(s) => TextInteger(s)
    case Arr(items) =>
      if items == [] then Some(0)
      else if |items| == 1 then
        match items[0]
        case Num(n) => Some(n)
        case Str(s) => TextInteger(s)
        case Null => Some(0)
        case Undefined => Some(0)
        case Arr(_) => NumberOf(items[0])
        case _ => None
      else None
    case Obj(_) => None
  }

  /** A lone array element that is itself an array converts through its own
      string form, so nesting does not change the reading. */
  lemma NestedArrayNumber(v: JsValue)
    ensures NumberOf(Arr([Arr([v])])) == NumberOf(Arr([v]))
    ensures NumberOf(Arr([Arr([Str("5")])])) == Some(5)
    ensures NumberOf(Arr([Arr([])])) == Some(0)
    ensures NumberOf(Arr([Arr([Null])])) == Some(0)
  {
    JsTrimDigits("5");
    DigitsNumber("5");
  }

  /** `Number(s)` of a string when it is a finite whole number. */
  function TextInteger(s: string): Option<int> {
    match StringNumber(s)
    case Some(d) => IntegerOf(d)
    case None => None
  }

  /** A string value converts as its text does. */
  lemma TextNumberOf(s: string, n: int)
    requires TextInteger(s) == Some(n)
    ensures NumberOf(Str(s)) == Some(n)
  {
  }

  /** A whole decimal with no exponent is its mantissa. */
  lemma IntegerOfWhole(v: int)
    ensures IntegerOf(Decimal(v, 0)) == Some(v)
  {
    assert Shifted(v, 0) == v;
  }

  /** Digits are neither a radix prefix nor a sign. */
  lemma DigitsNumberText(t: string)
    requires t != [] && AllDigits(t)
    ensures NumberText(t) == Some(Decimal(DecimalValue(t), 0))
  {
    assert IsAsciiDigit(t[0]);
    if |t| >= 2 {
      assert IsAsciiDigit(t[1]);
    }
    assert RadixOfPrefix(t) == 0;
    DigitsDecimal(t);
  }

  /** Trimmed digits read as their decimal value, empty text as 0. */
  lemma DigitsNumber(s: string)
    requires AllDigits(JsTrim(s))
    ensures StringNumber(s) == Some(Decimal(DecimalValue(JsTrim(s)), 0))
    ensures NumberOf(Str(s)) == Some(DecimalValue(JsTrim(s)))
  {
    var t := JsTrim(s);
    if t != "" {
      DigitsNumberText(t);
    }
    IntegerOfWhole(DecimalValue(t));
  }

  /** `Number(String(n))` is `n` for every integer. */
  lemma NumberOfIntText(n: int)
    ensures TextInteger(IntToString(n)) == Some(n)
  {
    var t := IntToString(n);
    if n < 0 {
      var k: nat := -n;
      assert t == "-" + NatToString(k);
      NegativeText(k);
    } else {
      assert t == NatToString(n);
      NonNegativeText(n);
    }
    assert StringNumber(t) == Some(Decimal(n, 0));
    IntegerOfWhole(n);
  }

  lemma NonNegativeText(k: nat)
    ensures StringNumber(NatToString(k)) == Some(Decimal(k, 0))
  {
    var t := NatToString(k);
    JsTrimDigits(t);
    DigitsNumberText(t);
    NatToStringRoundTrip(k);
  }

  lemma NegativeText(k: nat)
    ensures StringNumber("-" + NatToString(k)) == Some(Decimal(-(k as int), 0))
  {
    SignedDigits(NatToString(k));
    NatToStringRoundTrip(k);
  }

  /** A minus sign before digits negates their decimal value. */
  lemma SignedDigits(d: string)
    requires d != [] && AllDigits(d)
    ensures StringNumber("-" + d) == Some(Decimal(-(DecimalValue(d) as int), 0))
  {
    var t := "-" + d;
    assert t[1..] == d;
    NegatedDigits(t);
    SignedTextTrimmed(d);
  }

  /** A minus sign and digits read as the negated decimal value. */
  lemma NegatedDigits(t: string)
    requires |t| >= 2 && t[0] == '-' && AllDigits(t[1..])
    ensures NumberText(t) == Some(Decimal(-(DecimalValue(t[1..]) as int), 0))
  {
    DigitsDecimal(t[1..]);
    MinusText(t);
  }

  /** Text that starts with a minus sign is the negation of the rest. */
  lemma MinusText(t: string)
    requires t != [] && t[0] == '-'
    ensures NumberText(t) == Negated(UnsignedDecimal(t[1..]))
  {
    assert RadixOfPrefix(t) == 0;
  }

  /** Digits after a sign are left alone by `trim()`. */
  lemma SignedTextTrimmed(d: string)
    requires d != [] && AllDigits(d)
    ensures JsTrim("-" + d) == "-" + d
    ensures StringNumber("-" + d) == NumberText("-" + d)
  {
    var t := "-" + d;
    assert t[0] == '-' && t[|t| - 1] == d[|d| - 1];
    assert IsAsciiDigit(d[|d| - 1]);
    JsTrimKeeps(t);
  }

  /** A point with a zero fraction leaves a whole number: 5.0 is 5. */
  lemma PointForm()
    ensures UnsignedDecimal("5.0") == Some(Decimal(50, -1))
    ensures IntegerOf(Decimal(50, -1)) == Some(5)
  {
    assert ExponentMark("5.0") == 3;
    assert "5.0"[..3] == "5.0";
    assert IndexOfChar("5.0", '.') == 1;
    assert "5.0"[..1] == "5" && "5.0"[2..] == "0";
    assert Significand("5.0") == Some(("5", "0"));
    assert Shifted(5, 1) == 50 && Unscaled(50, 1) == Some(5);
  }

  /** An exponent scales the significand: 5e1 is 50. */
  lemma ExponentForm()
    ensures UnsignedDecimal("5e1") == Some(Decimal(5, 1))
    ensures IntegerOf(Decimal(5, 1)) == Some(50)
  {
    assert ExponentMark("5e1") == 1;
    assert "5e1"[..1] == "5" && "5e1"[2..] == "1";
    assert SignedInteger("1") == Some(1);
    DigitsSignificand("5");
    assert Shifted(5, 0) == 5 && Shifted(5, 1) == 50;
  }

  /** `String(v)`: integers in decimal, an array as its elements' strings
      joined by `,` with null and undefined elements left empty, any other
      object as `[object Object]`. */
  function StringOf(v: JsValue): string
    decreases v
  {
    match v
    case Undefined => "undefined"
    case Null => "null"
    case Bool(b) => if b then "true" else "false"
    case Num(n) => IntToString(n)
    case Str(s) => s
    case Arr(items) => ElementsText(items)
    case Obj(_) => "[object Object]"
  }

  /** `Array.prototype.join(',')` as `String` applies it to an array. */
  function ElementsText(items: seq<JsValue>): string
    decreases items
  {
    if items == [] then ""
    else
      var head := if Nullish(items[0]) then "" else StringOf(items[0]);
      if |items| == 1 then head else head + "," + ElementsText(items[1..])
  }

  /** `items.map(String)`. */
  function StringsOf(items: seq<JsValue>): (r: seq<string>)
    ensures |r| == |items|
    ensures forall i :: 0 <= i < |r| ==> r[i] == StringOf(items[i])
  {
    if items == [] then [] else [StringOf(items[0])] + StringsOf(items[1..])
  }

  /** The texts as JavaScript string values. */
  function Strs(texts: seq<string>): (r: seq<JsValue>)
    ensures |r| == |texts|
    ensures forall i :: 0 <= i < |r| ==> r[i] == Str(texts[i])
  {
    if texts == [] then [] else [Str(texts[0])] + Strs(texts[1..])
  }
}

=== FILE: json_block.dfy ===
/** findJsonObjectStart and extractBalancedJsonBlock of webnew/server.js: the
    server looks for a JSON object written after a command word in the
    assistant's text and cuts out the brace-balanced block, skipping braces
    inside double-quoted strings. */
module JsonBlock {
  import opened Wrappers
  import opened Text

  /** COMMAND_PREFIX_SKIP_CHARS. */
  const PrefixSkipChars: set<char> := {':', '=', '(', ')', '-', '>', '[', ']', ',', ';'}

  predicate Skippable(c: char) { IsJsSpace(c) || c in PrefixSkipChars }

  /** The first index from `i` on whose character is not skippable, or |text|. */
  function SkipFrom(text: string, i: nat): (r: nat)
    requires i <= |text|
    ensures i <= r <= |text|
    ensures forall k :: i <= k < r ==> Skippable(text[k])
    ensures r < |text| ==> !Skippable(text[r])
    decreases |text| - i
  {
    if i == |text| || !Skippable(text[i]) then i else SkipFrom(text, i + 1)
  }

  /** findJsonObjectStart: the `{` reached after skipping blanks and the
      prefix punctuation, or -1. */
  method FindJsonObjectStart(text: string, startIndex: int) returns (idx: int)
    ensures idx == -1 || (0 <= startIndex <= idx < |text| && text[idx] == '{')
    ensures idx >= 0 ==> forall k :: startIndex <= k < idx ==> Skippable(text[k])
    ensures idx == -1 && 0 <= startIndex < |text| ==>
      var p := SkipFrom(text, startIndex); p == |text| || text[p] != '{'
  {
    if text == "" || startIndex >= |text| || startIndex < 0 {
      return -1;
    }
    var i := startIndex;
    while i < |text|
      invariant startIndex <= i <= |text|
      invariant forall k :: startIndex <= k < i ==> Skippable(text[k])
      invariant SkipFrom(text, startIndex) == SkipFrom(text, i)
    {
      var ch := text[i];
      if ch == '{' {
        return i;
      }
      if Skippable(ch) {
        i := i + 1;
        continue;
      }
      break;
    }
    return -1;
  }

  // ------------------------------------------------------------ the scanner

  /** depth, inString and escape of the scanning loop. */
  datatype ScanState = ScanState(depth: int, inString: bool, escape: bool)

  /** One character's effect on the scanner. */
  function Step(st: ScanState, ch: char): ScanState {
    if st.inString then
      if st.escape then st.(escape := false)
      else if ch == '\\' then st.(escape := true)
      else if ch == '"' then st.(inString := false)
      else st
    else if ch == '"' then st.(inString := true)
    else if ch == '{' then st.(depth := st.depth + 1)
    else if ch == '}' then st.(depth := st.depth - 1)
    else st
  }

  const Start: ScanState := ScanState(0, false, false)

  /** The scanner's state after reading `chunk`. */
  function StateAfter(chunk: string): ScanState {
    if chunk == [] then Start else Step(StateAfter(chunk[..|chunk| - 1]), chunk[|chunk| - 1])
  }

  /** Reading the last character of `chunk` is a `}` outside a string that
      brings the depth to zero: the loop returns there. */
  predicate ClosesAt(chunk: string) {
    && chunk != []
    && chunk[|chunk| - 1] == '}'
    && !StateAfter(chunk[..|chunk| - 1]).inString
    && StateAfter(chunk).depth == 0
  }

  /** The loop returns at index `i` when it gets that far. */
  predicate ClosesPrefix(text: string, start: int, i: int) {
    0 <= start <= i < |text| && ClosesAt(text[start..i + 1])
  }

  /** `i` is the first index where the loop returns. */
  predicate FirstClose(text: string, start: int, i: int) {
    ClosesPrefix(text, start, i) && forall k :: start <= k < i ==> !ClosesPrefix(text, start, k)
  }

  /** extractBalancedJsonBlock: the shortest block from `jsonStart` whose
      closing brace balances the opening one. */
  method ExtractBalancedJsonBlock(text: string, jsonStart: int) returns (r: Option<string>)
    ensures (jsonStart < 0 || jsonStart >= |text| || text[jsonStart] != '{') ==> r == None
    ensures r.Some? ==> exists i :: FirstClose(text, jsonStart, i) && r.value == text[jsonStart..i + 1]
    ensures (r.None? && 0 <= jsonStart < |text| && text[jsonStart] == '{') ==>
      forall k :: jsonStart <= k < |text| ==> !ClosesPrefix(text, jsonStart, k)
  {
    if text == "" || jsonStart < 0 || jsonStart >= |text| || text[jsonStart] != '{' {
      return None;
    }
    var depth := 0;
    var inString := false;
    var escape := false;
    var i := jsonStart;
    while i < |text|
      invariant jsonStart <= i <= |text|
      invariant ScanState(depth, inString, escape) == StateAfter(text[jsonStart..i])
      invariant forall k :: jsonStart <= k < i ==> !ClosesPrefix(text, jsonStart, k)
    {
      ghost var before := ScanState(depth, inString, escape);
      var ch := text[i];
      ghost var chunk := text[jsonStart..i + 1];
      assert |chunk| == i - jsonStart + 1;
      assert chunk[..|chunk| - 1] == text[jsonStart..i];
      assert chunk[|chunk| - 1] == ch;
      assert StateAfter(chunk) == Step(before, ch);
      if inString {
        if escape {
          escape := false;
        } else if ch == '\\' {
          escape := true;
        } else if ch == '"' {
          inString := false;
        }
      } else if ch == '"' {
        inString := true;
      } else if ch == '{' {
        depth := depth + 1;
      } else if ch == '}' {
        depth := depth - 1;
        if depth == 0 {
          assert ClosesPrefix(text, jsonStart, i);
          assert FirstClose(text, jsonStart, i);
          return Some(text[jsonStart..i + 1]);
        }
      }
      assert ScanState(depth, inString, escape) == StateAfter(chunk);
      assert !ClosesPrefix(text, jsonStart, i);
      i := i + 1;
    }
    return None;
  }

  // ------------------------------------------------------------ properties

  /** Each character moves the depth by at most one, and only a brace outside
      a string moves it. */
  lemma StepDepth(st: ScanState, ch: char)
    ensures var n := Step(st, ch);
      && (st.inString || (ch != '{' && ch != '}') ==> n.depth == st.depth)
      && (!st.inString && ch == '{' ==> n.depth == st.depth + 1)
      && (!st.inString && ch == '}' ==> n.depth == st.depth - 1)
  {
  }

  /** Inside the block that is cut out, the opening brace stays open until
      the very end: every shorter non-empty prefix has depth at least one,
      and the whole block has depth zero outside any string. */
  lemma BlockDepths(text: string, start: int, i: int)
    requires FirstClose(text, start, i) && text[start] == '{'
    ensures var block := text[start..i + 1];
      && StateAfter(block).depth == 0 && !StateAfter(block[..|block| - 1]).inString
      && forall k :: start < k <= i ==> StateAfter(text[start..k]).depth >= 1
  {
    forall k | start < k <= i ensures StateAfter(text[start..k]).depth >= 1 {
      PrefixDepthPositive(text, start, i, k);
    }
  }

  lemma {:induction false} PrefixDepthPositive(text: string, start: int, i: int, k: int)
    requires FirstClose(text, start, i) && text[start] == '{'
    requires start < k <= i
    ensures StateAfter(text[start..k]).depth >= 1
    decreases k
  {
    var p := text[start..k];
    assert p[..|p| - 1] == text[start..k - 1];
    if k == start + 1 {
      assert text[start..k - 1] == [];
      assert p[|p| - 1] == '{';
    } else {
      PrefixDepthPositive(text, start, i, k - 1);
      var prev := StateAfter(text[start..k - 1]);
      assert StateAfter(p) == Step(prev, text[k - 1]);
      StepDepth(prev, text[k - 1]);
      assert !ClosesPrefix(text, start, k - 1);
    }
  }
}

=== FILE: message_list.dfy ===
/** The de-duplication in MessageListInner of
    webnew/components/chat/MessageList.tsx: when some string id occurs twice,
    only the last message with each id is rendered. */
module MessageList {
  import opened Wrappers

  /** A chat message; `id` is None when the message's id is not a string.
      Only the id matters here; `content` stands for the other fields. */
  datatype ChatMessage = ChatMessage(id: Option<string>, content: string)

  /** The id the de-duplication goes by: a non-empty string id. */
  function Key(m: ChatMessage): Option<string> {
    if m.id.Some? && m.id.value != "" then m.id else None
  }

  /** The keys present in `ms`. */
  function KeysOf(ms: seq<ChatMessage>): set<string> {
    set i | 0 <= i < |ms| && Key(ms[i]).Some? :: Key(ms[i]).value
  }

  /** No key occurs twice. */
  predicate KeysDistinct(ms: seq<ChatMessage>) {
    forall i, j :: 0 <= i < j < |ms| && Key(ms[i]).Some? ==> Key(ms[i]) != Key(ms[j])
  }

  /** The messages kept: those without a key and those whose key does not
      occur again later, in their original order. */
  function KeepLast(ms: seq<ChatMessage>): (r: seq<ChatMessage>)
    ensures |r| <= |ms|
  {
    if ms == [] then []
    else
      (if Key(ms[0]).Some? && Key(ms[0]).value in KeysOf(ms[1..]) then [] else [ms[0]])
      + KeepLast(ms[1..])
  }

  function Reverse<T>(s: seq<T>): (r: seq<T>)
    ensures |r| == |s|
    ensures forall i :: 0 <= i < |s| ==> r[i] == s[|s| - 1 - i]
  {
    if s == [] then [] else Reverse(s[1..]) + [s[0]]
  }

  lemma ReverseReverse<T>(s: seq<T>)
    ensures Reverse(Reverse(s)) == s
  {
    var r := Reverse(Reverse(s));
    assert forall i :: 0 <= i < |s| ==> r[i] == s[i];
  }

  lemma KeysOfCons(m: ChatMessage, ms: seq<ChatMessage>)
    ensures KeysOf([m] + ms) == (if Key(m).Some? then {Key(m).value} else {}) + KeysOf(ms)
  {
    var whole := [m] + ms;
    forall k | k in KeysOf(whole)
      ensures k in (if Key(m).Some? then {Key(m).value} else {}) + KeysOf(ms)
    {
      var i :| 0 <= i < |whole| && Key(whole[i]).Some? && Key(whole[i]).value == k;
      if i > 0 {
        assert whole[i] == ms[i - 1];
      }
    }
    forall k | k in KeysOf(ms)
      ensures k in KeysOf(whole)
    {
      var i :| 0 <= i < |ms| && Key(ms[i]).Some? && Key(ms[i]).value == k;
      assert whole[i + 1] == ms[i];
    }
    if Key(m).Some? {
      assert whole[0] == m;
    }
  }

  /** The first pass: whether some key occurs twice. */
  method HasDuplicate(messages: seq<ChatMessage>) returns (dup: bool)
    ensures dup <==> !KeysDistinct(messages)
  {
    var seen: set<string> := {};
    dup := false;
    var i := 0;
    while i < |messages|
      invariant 0 <= i <= |messages|
      invariant seen == KeysOf(messages[..i])
      invariant KeysDistinct(messages[..i])
    {
      var key := Key(messages[i]);
      if key.Some? {
        if key.value in seen {
          var j :| 0 <= j < i && Key(messages[..i][j]) == key;
          assert Key(messages[j]) == Key(messages[i]);
          dup := true;
          return;
        }
        seen := seen + {key.value};
      }
      assert messages[..i + 1] == messages[..i] + [messages[i]];
      i := i + 1;
    }
    assert messages[..i] == messages;
  }

  /** The rendered list: the very same list when no key repeats, otherwise
      the second pass. */
  method DedupeMessages(messages: seq<ChatMessage>) returns (r: seq<ChatMessage>)
    ensures KeysDistinct(messages) ==> r == messages
    ensures r == KeepLast(messages)
  {
    if |messages| == 0 {
      return messages;
    }
    var dup := HasDuplicate(messages);
    if !dup {
      KeepLastDistinct(messages);
      return messages;
    }
    r := KeepLastBackward(messages);
  }

  /** The second pass: walks from the end, skips keys already seen, pushes
      the rest and reverses. */
  method KeepLastBackward(messages: seq<ChatMessage>) returns (r: seq<ChatMessage>)
    ensures r == KeepLast(messages)
  {
    var seen: set<string> := {};
    var deduped: seq<ChatMessage> := [];
    for i := |messages| downto 0
      invariant seen == KeysOf(messages[i..])
      invariant deduped == Reverse(KeepLast(messages[i..]))
    {
      var msg := messages[i];
      var key := Key(msg);
      BackStep(messages, i);
      if !(key.Some? && key.value in seen) {
        if key.Some? {
          seen := seen + {key.value};
        }
        deduped := deduped + [msg];
      }
    }
    assert messages[0..] == messages;
    ReverseReverse(KeepLast(messages));
    r := Reverse(deduped);
  }

  /** One step of the backward walk: the message at `i` is kept unless its
      key occurs later. */
  lemma BackStep(ms: seq<ChatMessage>, i: nat)
    requires i < |ms|
    ensures KeysOf(ms[i..]) == (if Key(ms[i]).Some? then {Key(ms[i]).value} else {}) + KeysOf(ms[i + 1..])
    ensures Reverse(KeepLast(ms[i..])) == Reverse(KeepLast(ms[i + 1..]))
      + (if Key(ms[i]).Some? && Key(ms[i]).value in KeysOf(ms[i + 1..]) then [] else [ms[i]])
  {
    assert ms[i..] == [ms[i]] + ms[i + 1..];
    KeysOfCons(ms[i], ms[i + 1..]);
    KeepLastCons(ms[i], ms[i + 1..]);
  }

  lemma KeepLastCons(m: ChatMessage, ms: seq<ChatMessage>)
    ensures Reverse(KeepLast([m] + ms)) == Reverse(KeepLast(ms))
      + (if Key(m).Some? && Key(m).value in KeysOf(ms) then [] else [m])
  {
    var whole := [m] + ms;
    assert whole[0] == m && whole[1..] == ms;
    var rest := KeepLast(ms);
    if !(Key(m).Some? && Key(m).value in KeysOf(ms)) {
      assert KeepLast(whole) == [m] + rest;
      assert ([m] + rest)[1..] == rest;
    }
  }

  /** With no repeated key nothing is dropped. */
  lemma {:induction false} KeepLastDistinct(ms: seq<ChatMessage>)
    requires KeysDistinct(ms)
    ensures KeepLast(ms) == ms
  {
    if ms != [] {
      var rest := ms[1..];
      assert KeysDistinct(rest) by {
        forall i, j | 0 <= i < j < |rest| && Key(rest[i]).Some?
          ensures Key(rest[i]) != Key(rest[j])
        {
          assert rest[i] == ms[i + 1] && rest[j] == ms[j + 1];
        }
      }
      KeepLastDistinct(rest);
      if Key(ms[0]).Some? {
        assert forall j :: 0 <= j < |rest| ==> rest[j] == ms[j + 1];
        assert Key(ms[0]).value !in KeysOf(rest);
      }
      assert ms == [ms[0]] + rest;
    }
  }

  /** After de-duplication no key repeats, every key is still present, and
      every message without a key is kept. */
  lemma {:induction false} KeepLastSpec(ms: seq<ChatMessage>)
    ensures KeysDistinct(KeepLast(ms))
    ensures KeysOf(KeepLast(ms)) == KeysOf(ms)
    ensures forall m :: m in ms && Key(m).None? ==> m in KeepLast(ms)
    ensures forall m :: m in KeepLast(ms) ==> m in ms
  {
    if ms != [] {
      var rest := ms[1..];
      KeepLastSpec(rest);
      var tail := KeepLast(rest);
      KeysOfCons(ms[0], rest);
      assert ms == [ms[0]] + rest;
      if Key(ms[0]).Some? && Key(ms[0]).value in KeysOf(rest) {
        assert KeepLast(ms) == tail;
      } else {
        assert KeepLast(ms) == [ms[0]] + tail;
        KeysOfCons(ms[0], tail);
        ConsDistinct(ms[0], tail);
      }
    }
  }

  lemma ConsDistinct(m: ChatMessage, ms: seq<ChatMessage>)
    requires KeysDistinct(ms)
    requires Key(m).Some? ==> Key(m).value !in KeysOf(ms)
    ensures KeysDistinct([m] + ms)
  {
    var whole := [m] + ms;
    forall i, j | 0 <= i < j < |whole| && Key(whole[i]).Some?
      ensures Key(whole[i]) != Key(whole[j])
    {
      if i == 0 {
        assert whole[j] == ms[j - 1];
      } else {
        assert whole[i] == ms[i - 1] && whole[j] == ms[j - 1];
      }
    }
  }

  /** The message kept for a key is the last one with that key. */
  lemma {:induction false} KeepLastIsLast(ms: seq<ChatMessage>, i: nat)
    requires i < |ms| && Key(ms[i]).Some?
    requires forall j :: i < j < |ms| ==> Key(ms[j]) != Key(ms[i])
    ensures ms[i] in KeepLast(ms)
  {
    if i == 0 {
      assert forall j :: 0 <= j < |ms[1..]| ==> ms[1..][j] == ms[j + 1];
      assert Key(ms[0]).value !in KeysOf(ms[1..]);
    } else {
      KeepLastIsLast(ms[1..], i - 1);
    }
  }
}

=== FILE: notify_tool.dfy ===
/** notify_tool.py, the command the assistant runs to send a notification:
    the checks and defaults applied to its JSON payload, and the list of
    server addresses it tries in turn. Environment variables are
    parameters; an unset variable is the empty string, which every use
    treats like a blank one. */
module NotifyTool {
  import opened Wrappers
  import opened Text

  // ------------------------------------------------------------ validate_payload

  /** A value of the payload as `json.loads` gives it; floating-point
      numbers are not modelled. */
  datatype PyValue =
    | PyNone
    | PyBool(b: bool)
    | PyInt(i: int)
    | PyStr(s: string)
    | PyList(items: seq<PyValue>)
    | PyDict(entries: map<string, PyValue>)

  const DefaultUserId: string := "local"
  const DefaultOrigin: string := "ai_autonomous"

  /** Python truthiness. */
  predicate Truthy(v: PyValue) {
    match v
    case PyNone => false
    case PyBool(b) => b
    case PyInt(i) => i != 0
    case PyStr(s) => s != ""
    case PyList(items) => items != []
    case PyDict(entries) => entries != map[]
  }

  /** `d.get(key)`. */
  function Get(d: map<string, PyValue>, key: string): PyValue {
    if key in d then d[key] else PyNone
  }

  /** `a or b`. */
  function Or(a: PyValue, b: PyValue): (r: PyValue)
    ensures Truthy(a) ==> r == a
    ensures !Truthy(a) ==> r == b
  {
    if Truthy(a) then a else b
  }

  /** `str(v)`; the text of a list or a dict is a parameter. */
  function StrOf(v: PyValue, containerText: PyValue -> string): string {
    match v
    case PyNone => "None"
    case PyBool(b) => if b then "True" else "False"
    case PyInt(i) => IntToString(i)
    case PyStr(s) => s
    case _ => containerText(v)
  }

  /** `str(v or default).strip() or default`. */
  function TextOr(v: PyValue, default: string, containerText: PyValue -> string): (r: string)
    requires default != ""
    ensures r != ""
    ensures v.PyStr? && PyStrip(v.s) != "" ==> r == PyStrip(v.s)
    ensures !Truthy(v) && PyStrip(default) == default ==> r == default
    ensures v.PyStr? && PyStrip(v.s) == "" && PyStrip(default) == default ==> r == default
  {
    var t := PyStrip(StrOf(Or(v, PyStr(default)), containerText));
    if t == "" then default else t
  }

  datatype NotifyError = NotificationNotObject | NotificationEmpty | ContextNotObject

  /** What validate_payload returns: the user id, the notification object
      and the context with its origin. */
  datatype Validated = Validated(userId: string, notification: map<string, PyValue>, context: map<string, PyValue>)

  /** The origin of the notification. */
  function Origin(payload: map<string, PyValue>, containerText: PyValue -> string): (r: string)
    ensures r != ""
  {
    TextOr(Get(payload, "origin"), DefaultOrigin, containerText)
  }

  /** validate_payload: the notification must be an object with a title or
      a body, the context must be an object or missing; the user id falls
      back from `userId` to `user_id` to `local`, and the context gets the
      origin unless it names one already. */
  function ValidatePayload(payload: map<string, PyValue>, containerText: PyValue -> string): (r: Result<Validated, NotifyError>)
    ensures r.Success? <==>
      && Get(payload, "notification").PyDict?
      && ("title" in Get(payload, "notification").entries || "body" in Get(payload, "notification").entries)
      && (Get(payload, "context").PyNone? || Get(payload, "context").PyDict?)
    ensures r.Success? ==> r.value.userId != "" && "origin" in r.value.context
  {
    var origin := Origin(payload, containerText);
    var notification := Get(payload, "notification");
    if !notification.PyDict? then Failure(NotificationNotObject)
    else if "title" !in notification.entries && "body" !in notification.entries then Failure(NotificationEmpty)
    else
      var userId := TextOr(Or(Get(payload, "userId"), Get(payload, "user_id")), DefaultUserId, containerText);
      var context := Get(payload, "context");
      if context.PyNone? then Success(Validated(userId, notification.entries, map["origin" := PyStr(origin)]))
      else if context.PyDict? then
        var entries := context.entries;
        Success(Validated(userId, notification.entries, if "origin" in entries then entries else entries["origin" := PyStr(origin)]))
      else Failure(ContextNotObject)
  }

  /** The errors in the order they are checked. */
  lemma ValidatePayloadErrors(payload: map<string, PyValue>, containerText: PyValue -> string)
    ensures !Get(payload, "notification").PyDict? ==>
      ValidatePayload(payload, containerText) == Failure(NotificationNotObject)
    ensures (Get(payload, "notification").PyDict?
      && "title" !in Get(payload, "notification").entries && "body" !in Get(payload, "notification").entries) ==>
      ValidatePayload(payload, containerText) == Failure(NotificationEmpty)
    ensures var n := Get(payload, "notification");
      var c := Get(payload, "context");
      n.PyDict? && ("title" in n.entries || "body" in n.entries) && !c.PyNone? && !c.PyDict? ==>
      ValidatePayload(payload, containerText) == Failure(ContextNotObject)
  {
  }

  /** On success: the notification is passed through; the origin defaults
      to `ai_autonomous` when missing or blank; the user id is `userId`,
      else `user_id`, else `local`, and a blank one is `local`; a missing
      context becomes one holding just the origin, and a given context
      keeps every entry and gains the origin only when it has none. */
  lemma ValidatePayloadSuccess(payload: map<string, PyValue>, containerText: PyValue -> string)
    requires ValidatePayload(payload, containerText).Success?
    ensures var v := ValidatePayload(payload, containerText).value;
      && v.notification == Get(payload, "notification").entries
      && (forall s :: Get(payload, "userId") == PyStr(s) && PyStrip(s) != "" ==> v.userId == PyStrip(s))
      && (forall s :: !Truthy(Get(payload, "userId")) && Get(payload, "user_id") == PyStr(s) && PyStrip(s) != "" ==>
            v.userId == PyStrip(s))
      && (!Truthy(Get(payload, "userId")) && !Truthy(Get(payload, "user_id")) ==> v.userId == DefaultUserId)
  {
    ValidatedFields(payload, containerText);
    UserIdRule(Get(payload, "userId"), Get(payload, "user_id"), containerText);
  }

  lemma ValidatedFields(payload: map<string, PyValue>, containerText: PyValue -> string)
    requires ValidatePayload(payload, containerText).Success?
    ensures var v := ValidatePayload(payload, containerText).value;
      && v.notification == Get(payload, "notification").entries
      && v.userId == TextOr(Or(Get(payload, "userId"), Get(payload, "user_id")), DefaultUserId, containerText)
  {
  }

  /** `str(a or b or "local").strip() or "local"`. */
  lemma UserIdRule(a: PyValue, b: PyValue, containerText: PyValue -> string)
    ensures var id := TextOr(Or(a, b), DefaultUserId, containerText);
      && (forall s :: a == PyStr(s) && PyStrip(s) != "" ==> id == PyStrip(s))
      && (forall s :: !Truthy(a) && b == PyStr(s) && PyStrip(s) != "" ==> id == PyStrip(s))
      && (!Truthy(a) && !Truthy(b) ==> id == DefaultUserId)
  {
    DefaultsStripped();
  }

  lemma DefaultsStripped()
    ensures PyStrip(DefaultUserId) == DefaultUserId && PyStrip(DefaultOrigin) == DefaultOrigin
  {
    assert !IsPySpace(DefaultUserId[0]) && !IsPySpace(DefaultUserId[|DefaultUserId| - 1]);
    assert !IsPySpace(DefaultOrigin[0]) && !IsPySpace(DefaultOrigin[|DefaultOrigin| - 1]);
  }

  /** The context on success. */
  lemma ValidatePayloadContext(payload: map<string, PyValue>, containerText: PyValue -> string)
    requires ValidatePayload(payload, containerText).Success?
    ensures var ctx := ValidatePayload(payload, containerText).value.context;
      var c := Get(payload, "context");
      && (c.PyNone? ==> ctx == map["origin" := PyStr(Origin(payload, containerText))])
      && (c.PyDict? && "origin" in c.entries ==> ctx == c.entries)
      && (c.PyDict? && "origin" !in c.entries ==> ctx == c.entries["origin" := PyStr(Origin(payload, containerText))])
  {
  }

  /** The origin is the trimmed `origin` field, or `ai_autonomous` when it
      is missing, false, empty or blank. */
  lemma OriginDefault(payload: map<string, PyValue>, containerText: PyValue -> string)
    ensures !Truthy(Get(payload, "origin")) ==> Origin(payload, containerText) == DefaultOrigin
    ensures forall s :: Get(payload, "origin") == PyStr(s) ==>
      Origin(payload, containerText) == if PyStrip(s) == "" then DefaultOrigin else PyStrip(s)
  {
    DefaultsStripped();
  }

  // ------------------------------------------------------------ iter_candidate_endpoints

  predicate IsSlash(c: char) { c == '/' }

  /** `s.rstrip("/")`. */
  function RstripSlash(s: string): (r: string)
    ensures r <= s && (r == [] || r[|r| - 1] != '/')
  {
    TrimEnd(s, IsSlash)
  }

  /** `raw.strip().rstrip("/")`. */
  function CleanEndpoint(raw: string): string {
    RstripSlash(PyStrip(raw))
  }

  /** The cleaned pieces of an explicit endpoint list, empty ones
      dropped. */
  function ExplicitEndpoints(pieces: seq<string>): (r: seq<string>)
    ensures forall u :: u in r <==> u != "" && exists p :: p in pieces && CleanEndpoint(p) == u
    ensures forall u :: u in r ==> u[|u| - 1] != '/'
  {
    if pieces == [] then []
    else
      var init := pieces[..|pieces| - 1];
      var url := CleanEndpoint(pieces[|pieces| - 1]);
      assert forall p :: p in pieces <==> p in init || p == pieces[|pieces| - 1];
      ExplicitEndpoints(init) + (if url != "" then [url] else [])
  }

  /** `f"{s}://{h}:{p}"`. */
  function Build(scheme: string, host: string, port: nat): string {
    scheme + "://" + host + ":" + NatToString(port)
  }

  /** `str.isdigit()` on ASCII text. */
  predicate IsDigits(s: string) { s != "" && AllDigits(s) }

  /** The scheme for a numeric port: the configured one when it is `http`
      or `https`, else `https` for 443 and `http` for any other port. */
  function SchemeFor(scheme: string, port: nat): string {
    if scheme == "http" || scheme == "https" then scheme else if port == 443 then "https" else "http"
  }

  /** The candidates before de-duplication. */
  function DefaultCandidates(host: string, portText: string, scheme: string): seq<string> {
    if IsDigits(portText) then
      var port := DecimalValue(portText);
      [Build(SchemeFor(scheme, port), host, port)]
    else
      [Build("https", host, 443), Build("http", host, 443), Build("https", host, 3000), Build("http", host, 3000)]
  }

  function RstripAll(urls: seq<string>): (r: seq<string>)
    ensures |r| == |urls| && forall i :: 0 <= i < |urls| ==> r[i] == RstripSlash(urls[i])
  {
    if urls == [] then [] else [RstripSlash(urls[0])] + RstripAll(urls[1..])
  }

  /** The host, defaulting to 127.0.0.1 when unset or blank. */
  function Host(envHost: string): string {
    if PyStrip(envHost) == "" then "127.0.0.1" else PyStrip(envHost)
  }

  /** Everything iter_candidate_endpoints yields, in order. */
  function CandidateEndpoints(envEndpoint: string, envHost: string, envPort: string, envScheme: string): seq<string> {
    var endpoint := PyStrip(envEndpoint);
    if endpoint != "" then ExplicitEndpoints(Split(endpoint, ','))
    else FirstOrder(RstripAll(DefaultCandidates(Host(envHost), PyStrip(envPort), Lower(PyStrip(envScheme)))))
  }

  /** iter_candidate_endpoints, its yields collected in order. `Lower` is
      ASCII case folding, which decides the comparison with `http` and
      `https` exactly as Python's `lower()` does. */
  method IterCandidateEndpoints(envEndpoint: string, envHost: string, envPort: string, envScheme: string)
    returns (urls: seq<string>)
    ensures urls == CandidateEndpoints(envEndpoint, envHost, envPort, envScheme)
  {
    var endpoint := PyStrip(envEndpoint);
    if endpoint != "" {
      urls := YieldExplicit(Split(endpoint, ','));
    } else {
      urls := YieldUnseen(DefaultCandidates(Host(envHost), PyStrip(envPort), Lower(PyStrip(envScheme))));
    }
  }

  /** The loop over an explicit list. */
  method YieldExplicit(pieces: seq<string>) returns (urls: seq<string>)
    ensures urls == ExplicitEndpoints(pieces)
  {
    urls := [];
    for k := 0 to |pieces|
      invariant urls == ExplicitEndpoints(pieces[..k])
    {
      ExplicitStep(pieces, k);
      var url := CleanEndpoint(pieces[k]);
      if url != "" {
        urls := urls + [url];
      }
    }
    assert pieces[..|pieces|] == pieces;
  }

  lemma ExplicitStep(pieces: seq<string>, k: nat)
    requires k < |pieces|
    ensures ExplicitEndpoints(pieces[..k + 1]) ==
      ExplicitEndpoints(pieces[..k]) + (if CleanEndpoint(pieces[k]) != "" then [CleanEndpoint(pieces[k])] else [])
  {
    assert pieces[..k + 1][..k] == pieces[..k];
  }

  /** The loop over the default candidates with its `seen` set. */
  method YieldUnseen(candidates: seq<string>) returns (urls: seq<string>)
    ensures urls == FirstOrder(RstripAll(candidates))
  {
    urls := [];
    var seen: set<string> := {};
    for k := 0 to |candidates|
      invariant urls == FirstOrder(RstripAll(candidates[..k]))
      invariant forall x :: x in seen <==> x in urls
    {
      var u := RstripSlash(candidates[k]);
      UnseenStep(candidates, k);
      if u !in seen {
        seen := seen + {u};
        urls := urls + [u];
      }
    }
    assert candidates[..|candidates|] == candidates;
  }

  lemma UnseenStep(candidates: seq<string>, k: nat)
    requires k < |candidates|
    ensures var before := RstripAll(candidates[..k]);
      var u := RstripSlash(candidates[k]);
      && (forall x :: x in FirstOrder(before) <==> x in before)
      && FirstOrder(RstripAll(candidates[..k + 1])) ==
           if u in before then FirstOrder(before) else FirstOrder(before) + [u]
  {
    var before := RstripAll(candidates[..k]);
    var u := RstripSlash(candidates[k]);
    var after := RstripAll(candidates[..k + 1]);
    assert after == before + [u];
    assert after[..|after| - 1] == before;
    FirstOrderSpec(before);
  }

  /** An explicit endpoint list is used alone: its cleaned, non-empty
      pieces in order, with no default appended. */
  lemma ExplicitOnly(envEndpoint: string, envHost: string, envPort: string, envScheme: string)
    requires PyStrip(envEndpoint) != ""
    ensures var urls := CandidateEndpoints(envEndpoint, envHost, envPort, envScheme);
      && urls == ExplicitEndpoints(Split(PyStrip(envEndpoint), ','))
      && forall u :: u in urls ==> u != "" && u[|u| - 1] != '/' && ',' !in u
  {
    var pieces := Split(PyStrip(envEndpoint), ',');
    forall u | u in ExplicitEndpoints(pieces)
      ensures ',' !in u
    {
      var p :| p in pieces && CleanEndpoint(p) == u;
      CleanKeepsOut(p, ',');
    }
  }

  /** Cleaning an endpoint only removes characters. */
  lemma CleanKeepsOut(p: string, c: char)
    requires c !in p
    ensures c !in CleanEndpoint(p)
  {
    var t := PyStrip(p);
    assert forall x :: x in t ==> x in p by {
      var s := TrimStart(p, IsPySpace);
      assert forall i :: 0 <= i < |s| ==> s[i] == p[|p| - |s| + i];
    }
  }

  /** A built address ends in a digit, so `rstrip("/")` keeps it. */
  lemma BuildKeeps(scheme: string, host: string, port: nat)
    ensures RstripSlash(Build(scheme, host, port)) == Build(scheme, host, port)
  {
    var b := Build(scheme, host, port);
    var digits := NatToString(port);
    assert b[|b| - 1] == digits[|digits| - 1];
    assert IsAsciiDigit(digits[|digits| - 1]);
  }

  /** Without an explicit list: a numeric port gives the one address with
      its scheme; otherwise https and http on 443, then https and http on
      3000, each once. */
  lemma DefaultEndpoints(envHost: string, envPort: string, envScheme: string)
    ensures var urls := CandidateEndpoints("", envHost, envPort, envScheme);
      var host := Host(envHost);
      var portText := PyStrip(envPort);
      && (IsDigits(portText) ==>
            urls == [Build(SchemeFor(Lower(PyStrip(envScheme)), DecimalValue(portText)), host, DecimalValue(portText))])
      && (!IsDigits(portText) ==>
            urls == [Build("https", host, 443), Build("http", host, 443), Build("https", host, 3000), Build("http", host, 3000)])
  {
    var cands := DefaultCandidates(Host(envHost), PyStrip(envPort), Lower(PyStrip(envScheme)));
    assert CandidateEndpoints("", envHost, envPort, envScheme) == FirstOrder(RstripAll(cands)) by {
      assert PyStrip("") == "";
    }
    CandidatesSettled(Host(envHost), PyStrip(envPort), Lower(PyStrip(envScheme)));
    FirstOrderDistinct(cands);
  }

  /** The default candidates differ from each other and carry no trailing
      slash. */
  lemma CandidatesSettled(host: string, portText: string, scheme: string)
    ensures var cands := DefaultCandidates(host, portText, scheme);
      RstripAll(cands) == cands && Distinct(cands)
  {
    var cands := DefaultCandidates(host, portText, scheme);
    if IsDigits(portText) {
      var port := DecimalValue(portText);
      BuildKeeps(SchemeFor(scheme, port), host, port);
    } else {
      BuildKeeps("https", host, 443);
      BuildKeeps("http", host, 443);
      BuildKeeps("https", host, 3000);
      BuildKeeps("http", host, 3000);
      FourDistinct(host);
    }
    assert forall i :: 0 <= i < |cands| ==> RstripAll(cands)[i] == cands[i];
  }

  /** The four default addresses differ. */
  lemma FourDistinct(host: string)
    ensures Distinct([Build("https", host, 443), Build("http", host, 443), Build("https", host, 3000), Build("http", host, 3000)])
  {
    assert NatToString(443) == "443" by {
      assert NatToString(44) == "44";
    }
    assert NatToString(3000) == "3000" by {
      assert NatToString(300) == "300" by {
        assert NatToString(30) == "30";
      }
    }
    var a, b, c, d := Build("https", host, 443), Build("http", host, 443), Build("https", host, 3000), Build("http", host, 3000);
    assert a[4] == 's' && b[4] == ':' && c[4] == 's' && d[4] == ':';
    assert |a| == |host| + 12 && |c| == |host| + 13;
    assert |b| == |host| + 11 && |d| == |host| + 12;
  }

  /** Without an explicit list no address is yielded twice. */
  lemma DefaultsDistinct(envEndpoint: string, envHost: string, envPort: string, envScheme: string)
    requires PyStrip(envEndpoint) == ""
    ensures Distinct(CandidateEndpoints(envEndpoint, envHost, envPort, envScheme))
  {
    FirstOrderSpec(RstripAll(DefaultCandidates(Host(envHost), PyStrip(envPort), Lower(PyStrip(envScheme)))));
  }
}

=== FILE: ordering.dfy ===
/** Sort keys and Python's `list.sort` / `sorted`. A sort key is a sequence of
    integers compared lexicographically (a proper prefix comes first). A
    string field contributes its code points shifted up by one and a 0
    terminator, so tuples of strings and integers compare field by field as
    Python compares them. */
module Ordering {

  /** Lexicographic order on keys; a proper prefix is smaller. */
  predicate LexLe(a: seq<int>, b: seq<int>)
    decreases |a|
  {
    a == [] || (b != [] && (a[0] < b[0] || (a[0] == b[0] && LexLe(a[1..], b[1..]))))
  }

  lemma {:induction false} LexLeTotal(a: seq<int>, b: seq<int>)
    ensures LexLe(a, b) || LexLe(b, a)
    decreases |a|
  {
    if a != [] && b != [] && a[0] == b[0] {
      LexLeTotal(a[1..], b[1..]);
    }
  }

  lemma {:induction false} LexLeTrans(a: seq<int>, b: seq<int>, c: seq<int>)
    requires LexLe(a, b) && LexLe(b, c)
    ensures LexLe(a, c)
    decreases |a|
  {
    if a != [] && a[0] == b[0] && b[0] == c[0] {
      LexLeTrans(a[1..], b[1..], c[1..]);
    }
  }

  lemma {:induction false} LexLeAntisym(a: seq<int>, b: seq<int>)
    requires LexLe(a, b) && LexLe(b, a)
    ensures a == b
    decreases |a|
  {
    if a != [] {
      LexLeAntisym(a[1..], b[1..]);
      assert a == [a[0]] + a[1..] && b == [b[0]] + b[1..];
    }
  }

  lemma {:induction false} LexLeRefl(a: seq<int>)
    ensures LexLe(a, a)
    decreases |a|
  {
    if a != [] {
      LexLeRefl(a[1..]);
    }
  }

  /** A string as a key field: code points plus one, then a 0 terminator. */
  function StrKey(s: string): (k: seq<int>)
    ensures |k| == |s| + 1 && k[|s|] == 0
    ensures forall i :: 0 <= i < |s| ==> k[i] == s[i] as int + 1 > 0
  {
    if s == [] then [0] else [s[0] as int + 1] + StrKey(s[1..])
  }

  /** Python's `a <= b` on strings: code-point lexicographic order. */
  predicate StrLe(a: string, b: string)
    decreases |a|
  {
    a == [] || (b != [] && (a[0] < b[0] || (a[0] == b[0] && StrLe(a[1..], b[1..]))))
  }

  /** A string field followed by further fields compares as the string does,
      and only when the strings are equal do the later fields decide. */
  lemma {:induction false} StrKeyField(a: string, b: string, x: seq<int>, y: seq<int>)
    ensures LexLe(StrKey(a) + x, StrKey(b) + y) <==> (a != b && StrLe(a, b)) || (a == b && LexLe(x, y))
    decreases |a|
  {
    var ka := StrKey(a) + x;
    var kb := StrKey(b) + y;
    if a == [] && b == [] {
      assert ka == [0] + x && kb == [0] + y;
      assert ka[1..] == x && kb[1..] == y;
    } else if a == [] {
      assert ka[0] == 0 && kb[0] == b[0] as int + 1;
    } else if b == [] {
      assert kb[0] == 0 && ka[0] == a[0] as int + 1;
    } else {
      StrKeyCons(a, x);
      StrKeyCons(b, y);
      StrKeyField(a[1..], b[1..], x, y);
      if a[0] == b[0] {
        assert a == b <==> a[1..] == b[1..] by {
          assert a == [a[0]] + a[1..] && b == [b[0]] + b[1..];
        }
      }
    }
  }

  lemma StrKeyCons(a: string, x: seq<int>)
    requires a != []
    ensures (StrKey(a) + x)[0] == a[0] as int + 1 && (StrKey(a) + x)[1..] == StrKey(a[1..]) + x
  {
  }

  predicate SortedAsc<T>(s: seq<T>, key: T -> seq<int>) {
    forall i, j :: 0 <= i < j < |s| ==> LexLe(key(s[i]), key(s[j]))
  }

  predicate SortedDesc<T>(s: seq<T>, key: T -> seq<int>) {
    forall i, j :: 0 <= i < j < |s| ==> LexLe(key(s[j]), key(s[i]))
  }

  /** Inserts `x` into an ascending sequence after every element whose key is
      not greater (so equal keys keep their arrival order). */
  function InsertAsc<T>(x: T, s: seq<T>, key: T -> seq<int>): (r: seq<T>)
    requires SortedAsc(s, key)
    ensures SortedAsc(r, key)
    ensures multiset(r) == multiset(s) + multiset{x}
  {
    if s == [] then [x]
    else if LexLe(key(s[|s| - 1]), key(x)) then
      forall i | 0 <= i < |s| ensures LexLe(key(s[i]), key(x)) {
        if i < |s| - 1 { LexLeTrans(key(s[i]), key(s[|s| - 1]), key(x)); }
      }
      s + [x]
    else
      var pre := s[..|s| - 1];
      var last := s[|s| - 1];
      assert s == pre + [last];
      var r := InsertAsc(x, pre, key);
      LexLeTotal(key(last), key(x));
      forall i | 0 <= i < |r| ensures LexLe(key(r[i]), key(last)) {
        assert r[i] in multiset(r);
        assert r[i] == x || r[i] in multiset(pre);
        if r[i] != x {
          var k :| 0 <= k < |pre| && pre[k] == r[i];
          assert s[k] == pre[k];
        }
      }
      r + [last]
  }

  /** Inserts `x` into a descending sequence after every element whose key is
      not smaller. */
  function InsertDesc<T>(x: T, s: seq<T>, key: T -> seq<int>): (r: seq<T>)
    requires SortedDesc(s, key)
    ensures SortedDesc(r, key)
    ensures multiset(r) == multiset(s) + multiset{x}
  {
    if s == [] then [x]
    else if LexLe(key(x), key(s[|s| - 1])) then
      forall i | 0 <= i < |s| ensures LexLe(key(x), key(s[i])) {
        if i < |s| - 1 { LexLeTrans(key(x), key(s[|s| - 1]), key(s[i])); }
      }
      s + [x]
    else
      var pre := s[..|s| - 1];
      var last := s[|s| - 1];
      assert s == pre + [last];
      var r := InsertDesc(x, pre, key);
      LexLeTotal(key(last), key(x));
      forall i | 0 <= i < |r| ensures LexLe(key(last), key(r[i])) {
        assert r[i] in multiset(r);
        assert r[i] == x || r[i] in multiset(pre);
        if r[i] != x {
          var k :| 0 <= k < |pre| && pre[k] == r[i];
          assert s[k] == pre[k];
        }
      }
      r + [last]
  }

  /** The elements of `s` whose key is `k`, in their order in `s`. A sort is
      stable when it keeps this subsequence for every key. */
  function WithKey<T>(s: seq<T>, key: T -> seq<int>, k: seq<int>): seq<T>
    decreases |s|
  {
    if s == [] then []
    else WithKey(s[..|s| - 1], key, k) + (if key(s[|s| - 1]) == k then [s[|s| - 1]] else [])
  }

  /** Insertion places `x` after every element of its own key. */
  lemma {:induction false} InsertAscStable<T>(x: T, s: seq<T>, key: T -> seq<int>, k: seq<int>)
    requires SortedAsc(s, key)
    ensures WithKey(InsertAsc(x, s, key), key, k) == WithKey(s, key, k) + (if key(x) == k then [x] else [])
    decreases |s|
  {
    if s == [] {
      assert [x][..0] == [];
    } else if LexLe(key(s[|s| - 1]), key(x)) {
      var r := s + [x];
      assert r[..|r| - 1] == s;
    } else {
      var pre := s[..|s| - 1];
      var last := s[|s| - 1];
      LexLeRefl(key(x));
      InsertAscStable(x, pre, key, k);
      InsertAscStep(x, s, key);
      InsertStableStep(x, last, WithKey(pre, key, k), InsertAsc(x, pre, key), key, k);
    }
  }

  /** The unfolding of the insertion when `x` goes before the last element. */
  lemma InsertAscStep<T>(x: T, s: seq<T>, key: T -> seq<int>)
    requires SortedAsc(s, key) && s != [] && !LexLe(key(s[|s| - 1]), key(x))
    ensures InsertAsc(x, s, key) == InsertAsc(x, s[..|s| - 1], key) + [s[|s| - 1]]
  {
  }

  lemma {:induction false} InsertDescStable<T>(x: T, s: seq<T>, key: T -> seq<int>, k: seq<int>)
    requires SortedDesc(s, key)
    ensures WithKey(InsertDesc(x, s, key), key, k) == WithKey(s, key, k) + (if key(x) == k then [x] else [])
    decreases |s|
  {
    if s == [] {
      assert [x][..0] == [];
    } else if LexLe(key(x), key(s[|s| - 1])) {
      var r := s + [x];
      assert r[..|r| - 1] == s;
    } else {
      var pre := s[..|s| - 1];
      var last := s[|s| - 1];
      LexLeRefl(key(x));
      InsertDescStable(x, pre, key, k);
      InsertDescStep(x, s, key);
      InsertStableStep(x, last, WithKey(pre, key, k), InsertDesc(x, pre, key), key, k);
    }
  }

  /** The unfolding of the insertion when `x` goes before the last element. */
  lemma InsertDescStep<T>(x: T, s: seq<T>, key: T -> seq<int>)
    requires SortedDesc(s, key) && s != [] && !LexLe(key(x), key(s[|s| - 1]))
    ensures InsertDesc(x, s, key) == InsertDesc(x, s[..|s| - 1], key) + [s[|s| - 1]]
  {
  }

  /** Appending an element whose key differs from that of `x` commutes with
      appending `x` in every key's subsequence. */
  lemma InsertStableStep<T>(x: T, last: T, w: seq<T>, r: seq<T>, key: T -> seq<int>, k: seq<int>)
    requires key(last) != key(x)
    requires WithKey(r, key, k) == w + (if key(x) == k then [x] else [])
    ensures WithKey(r + [last], key, k) == w + (if key(last) == k then [last] else []) + (if key(x) == k then [x] else [])
  {
    var rr := r + [last];
    assert rr[..|rr| - 1] == r;
  }

  /** `sorted(xs, key=key)`; the sort is stable, so elements of equal key
      keep their order in `xs`. */
  function SortAsc<T>(xs: seq<T>, key: T -> seq<int>): (r: seq<T>)
    ensures SortedAsc(r, key)
    ensures multiset(r) == multiset(xs)
    ensures forall k :: WithKey(r, key, k) == WithKey(xs, key, k)
  {
    if xs == [] then []
    else
      var pre := xs[..|xs| - 1];
      var x := xs[|xs| - 1];
      assert xs == pre + [x];
      var sorted := SortAsc(pre, key);
      forall k ensures WithKey(InsertAsc(x, sorted, key), key, k) == WithKey(xs, key, k) {
        InsertAscStable(x, sorted, key, k);
      }
      InsertAsc(x, sorted, key)
  }

  /** `sorted(xs, key=key, reverse=True)`; Python keeps this sort stable too,
      so elements of equal key keep their order in `xs`. */
  function SortDesc<T>(xs: seq<T>, key: T -> seq<int>): (r: seq<T>)
    ensures SortedDesc(r, key)
    ensures multiset(r) == multiset(xs)
    ensures forall k :: WithKey(r, key, k) == WithKey(xs, key, k)
  {
    if xs == [] then []
    else
      var pre := xs[..|xs| - 1];
      var x := xs[|xs| - 1];
      assert xs == pre + [x];
      var sorted := SortDesc(pre, key);
      forall k ensures WithKey(InsertDesc(x, sorted, key), key, k) == WithKey(xs, key, k) {
        InsertDescStable(x, sorted, key, k);
      }
      InsertDesc(x, sorted, key)
  }
}

=== FILE: pending_notify.dfy ===
/** setPendingNotifyRun of webnew/server.js: a notification run that has to
    wait is parked in `pendingNotifyRun`, and later requests are merged into
    it instead of queueing. The clock reading is passed in as `now`. */
module PendingNotify {
  import opened Wrappers
  import opened JsValues

  /** PENDING_SOURCE_MERGE_LIMIT. */
  const SourceMergeLimit: nat := 4

  /** A request as handed in; None stands for a missing or falsy field. */
  datatype NotifyRequest = NotifyRequest(
    source: Option<string>, intent: Option<string>, context: Option<map<string, JsValue>>,
    userId: Option<string>, requestedAt: Option<int>)

  /** The `source` field: one name, or a list once several sources merged. */
  datatype Sources = OneSource(name: string) | SourceList(names: seq<string>)

  datatype PendingRun = PendingRun(
    source: Sources, intent: string, context: map<string, JsValue>,
    userId: string, requestedAt: int)

  /** `a || b` on an optional string. */
  function OrText(a: Option<string>, b: string): string {
    if a.Some? && a.value != "" then a.value else b
  }

  /** The payload built from a request, with the `||` defaults. */
  function Payload(request: NotifyRequest, now: int): (p: PendingRun)
    ensures p.source.OneSource? && p.source.name != ""
    ensures p.userId != "" && p.intent != ""
  {
    PendingRun(
      OneSource(OrText(request.source, "scheduler")),
      OrText(request.intent, "auto"),
      request.context.GetOr(map[]),
      OrText(request.userId, "local"),
      if request.requestedAt.Some? && request.requestedAt.value != 0 then request.requestedAt.value else now)
  }

  function Min(a: int, b: int): int { if a <= b then a else b }

  /** The last `n` elements, `slice(-n)`. */
  function LastN<T>(s: seq<T>, n: nat): (r: seq<T>)
    ensures |r| == if |s| <= n then |s| else n
    ensures forall i :: 0 <= i < |r| ==> r[i] == s[|s| - |r| + i]
  {
    if |s| <= n then s else s[|s| - n..]
  }

  /** How an incoming source joins the sources already recorded. */
  function MergeSources(current: Sources, incoming: string): Sources
    requires incoming != ""
  {
    match current
    case OneSource(name) =>
      if name != "" && name != incoming then SourceList([name, incoming])
      else if name == "" then OneSource(incoming)
      else current
    case SourceList(names) =>
      if incoming !in names then SourceList(LastN(names + [incoming], SourceMergeLimit))
      else current
  }

  /** The new value of `pendingNotifyRun` after one call. */
  function Merged(pending: Option<PendingRun>, request: Option<NotifyRequest>, now: int): Option<PendingRun> {
    if request.None? then pending
    else
      var p := Payload(request.value, now);
      if pending.None? then Some(p)
      else
        var q := pending.value;
        Some(PendingRun(
          MergeSources(q.source, p.source.name),
          q.intent,
          q.context + p.context,
          p.userId,
          Min(if q.requestedAt != 0 then q.requestedAt else now, p.requestedAt)))
  }

  /** What every parked run satisfies: a non-empty single source, or a list
      of two to four distinct non-empty sources. */
  predicate SourcesValid(s: Sources) {
    match s
    case OneSource(name) => name != ""
    case SourceList(names) =>
      && 2 <= |names| <= SourceMergeLimit
      && (forall i, j :: 0 <= i < j < |names| ==> names[i] != names[j])
      && forall i :: 0 <= i < |names| ==> names[i] != ""
  }

  predicate RunValid(pending: Option<PendingRun>) {
    pending.Some? ==> SourcesValid(pending.value.source)
  }

  /** The module-level `pendingNotifyRun` variable. */
  class NotifyQueue {
    var pending: Option<PendingRun>

    constructor ()
      ensures pending == None
    {
      pending := None;
    }

    /** setPendingNotifyRun. */
    method SetPendingNotifyRun(request: Option<NotifyRequest>, now: int)
      modifies this
      ensures pending == Merged(old(pending), request, now)
    {
      if request.None? {
        return;
      }
      var payload := Payload(request.value, now);
      if pending.None? {
        pending := Some(payload);
        return;
      }
      var run := pending.value;
      var since := if run.requestedAt != 0 then run.requestedAt else now;
      run := run.(requestedAt := Min(since, payload.requestedAt));
      if run.userId != payload.userId {
        run := run.(userId := payload.userId);
      }
      run := run.(context := run.context + payload.context);
      run := run.(source := MergeSources(run.source, payload.source.name));
      pending := Some(run);
    }
  }

  // ------------------------------------------------------------ properties

  /** Merging keeps the sources well formed. */
  lemma MergeSourcesValid(current: Sources, incoming: string)
    requires incoming != "" && SourcesValid(current)
    ensures SourcesValid(MergeSources(current, incoming))
  {
    if current.SourceList? && incoming !in current.names {
      LastNDistinct(current.names, incoming, SourceMergeLimit);
      var r := LastN(current.names + [incoming], SourceMergeLimit);
      forall i | 0 <= i < |r| ensures r[i] != "" {
        LastNFrom(current.names, incoming, SourceMergeLimit, i);
      }
    }
  }

  /** Keeping the last `n` of distinct names and a new name keeps them
      distinct. */
  lemma LastNDistinct<T>(names: seq<T>, incoming: T, n: nat)
    requires incoming !in names
    requires forall i, j :: 0 <= i < j < |names| ==> names[i] != names[j]
    ensures var r := LastN(names + [incoming], n);
      forall i, j :: 0 <= i < j < |r| ==> r[i] != r[j]
  {
    var grown := names + [incoming];
    var r := LastN(grown, n);
    var off := |grown| - |r|;
    forall i, j | 0 <= i < j < |r| ensures r[i] != r[j] {
      assert r[i] == grown[off + i] && r[j] == grown[off + j];
      if off + j == |grown| - 1 {
        assert grown[off + i] == names[off + i];
      }
    }
  }

  /** Every name kept is one of the names or the new one. */
  lemma LastNFrom<T>(names: seq<T>, incoming: T, n: nat, i: nat)
    requires i < |LastN(names + [incoming], n)|
    ensures var r := LastN(names + [incoming], n);
      r[i] == incoming || exists j :: 0 <= j < |names| && r[i] == names[j]
  {
    var grown := names + [incoming];
    var r := LastN(grown, n);
    var k := |grown| - |r| + i;
    assert r[i] == grown[k];
    if k < |names| {
      assert grown[k] == names[k];
    }
  }

  /** Every call keeps the parked run well formed. */
  lemma MergedValid(pending: Option<PendingRun>, request: Option<NotifyRequest>, now: int)
    requires RunValid(pending)
    ensures RunValid(Merged(pending, request, now))
  {
    if request.Some? && pending.Some? {
      MergeSourcesValid(pending.value.source, Payload(request.value, now).source.name);
    }
  }

  /** The latest source is recorded after the merge. */
  lemma LatestSourceRecorded(current: Sources, incoming: string)
    requires incoming != "" && SourcesValid(current)
    ensures var s := MergeSources(current, incoming);
      if s.OneSource? then s.name == incoming else incoming in s.names
  {
    if current.SourceList? && incoming !in current.names {
      var grown := current.names + [incoming];
      var r := LastN(grown, SourceMergeLimit);
      assert r[|r| - 1] == incoming;
    }
  }

  /** A merge keeps the earliest request time, the latest user, the first
      intent, and lets the later context's keys win. */
  lemma MergeKeepsEarliestAndLatest(q: PendingRun, request: NotifyRequest, now: int)
    ensures var m := Merged(Some(q), Some(request), now).value;
      var p := Payload(request, now);
      && m.requestedAt <= p.requestedAt
      && (q.requestedAt != 0 ==> m.requestedAt <= q.requestedAt)
      && (m.requestedAt == p.requestedAt || m.requestedAt == (if q.requestedAt != 0 then q.requestedAt else now))
      && m.userId == p.userId
      && m.intent == q.intent
      && (forall k :: k in p.context ==> k in m.context && m.context[k] == p.context[k])
      && (forall k :: k in q.context && k !in p.context ==> k in m.context && m.context[k] == q.context[k])
      && (forall k :: k in m.context ==> k in q.context || k in p.context)
  {
  }

  /** A first request is parked as its payload, defaults filled in. */
  lemma FirstRequestParked(request: NotifyRequest, now: int)
    ensures var m := Merged(None, Some(request), now).value;
      && m.source == OneSource(OrText(request.source, "scheduler"))
      && m.intent == OrText(request.intent, "auto")
      && m.userId == OrText(request.userId, "local")
      && (request.requestedAt.None? ==> m.requestedAt == now)
  {
  }

  /** Requests from one and the same source never turn it into a list. */
  lemma SameSourceStaysSingle(name: string)
    requires name != ""
    ensures MergeSources(OneSource(name), name) == OneSource(name)
  {
  }
}

=== FILE: permission.dfy ===
/** The automatic answer webnew/background-gemini.js gives to a tool
    permission request: deriveCommandKey turns the tool call into a command
    key, and handlePermissionRequest allows once only the python helper
    scripts and otherwise picks the deny option or rejects. */
module Permission {
  import opened Wrappers
  import opened Text
  import opened CommandKeys

  /** The fields of a tool call that are read; a missing or falsy field is "". */
  datatype ToolCall = ToolCall(title: string, kind: string, locPath: string)

  // ------------------------------------------------------------ the hay patterns

  predicate NoNewline(s: string, a: int, b: int)
    requires 0 <= a <= b <= |s|
  {
    forall k :: a <= k < b ==> s[k] != '\n'
  }

  predicate SpaceRun(s: string, a: int, b: int)
    requires 0 <= a <= b <= |s|
  {
    a < b && forall k :: a <= k < b ==> IsJsSpace(s[k])
  }

  /** `/python3\s+[^\n]*manage_log\.py/` matching "python3" at `i`, the
      blanks up to `m` and the script name at `j`. */
  predicate Python3LogAt(hay: string, i: int, m: int, j: int) {
    && 0 <= i && i + 7 <= m <= j
    && OccursAt(hay, "python3", i) && OccursAt(hay, "manage_log.py", j)
    && SpaceRun(hay, i + 7, m) && NoNewline(hay, m, j)
  }

  /** `/manage_log\.py[^\n]*python3/` with the script name at `j` and
      "python3" at `i`. */
  predicate LogPython3At(hay: string, j: int, i: int) {
    && 0 <= j && j + 13 <= i
    && OccursAt(hay, "manage_log.py", j) && OccursAt(hay, "python3", i)
    && NoNewline(hay, j + 13, i)
  }

  /** `/\bpython\s+[^\n]*manage_log\.py/`: "python" at a word boundary. */
  predicate PythonLogAt(hay: string, i: int, m: int, j: int) {
    && 0 <= i && i + 6 <= m <= j
    && OccursAt(hay, "python", i) && (i == 0 || !IsWordChar(hay[i - 1]))
    && OccursAt(hay, "manage_log.py", j)
    && SpaceRun(hay, i + 6, m) && NoNewline(hay, m, j)
  }

  predicate Python3LogMatch(hay: string) {
    exists i, m, j :: 0 <= i <= m <= j <= |hay| && Python3LogAt(hay, i, m, j)
  }

  predicate LogPython3Match(hay: string) {
    exists j, i :: 0 <= j <= i <= |hay| && LogPython3At(hay, j, i)
  }

  predicate PythonLogMatch(hay: string) {
    exists i, m, j :: 0 <= i <= m <= j <= |hay| && PythonLogAt(hay, i, m, j)
  }

  // ------------------------------------------------------------ the title pattern

  /** The characters `.` does not match. */
  predicate IsLineTerminator(c: char) {
    c == '\n' || c == '\r' || c == '\U{2028}' || c == '\U{2029}'
  }

  predicate IsTitleSep(c: char) { c == ':' || IsJsSpace(c) }

  /** The end of the run of `[:\s]` characters from `k`. */
  function SepRunEnd(s: string, k: nat): (r: nat)
    requires k <= |s|
    ensures k <= r <= |s|
    ensures forall i :: k <= i < r ==> IsTitleSep(s[i])
    ensures r < |s| ==> !IsTitleSep(s[r])
    decreases |s| - k
  {
    if k == |s| || !IsTitleSep(s[k]) then k else SepRunEnd(s, k + 1)
  }

  predicate NoLineTerminator(s: string, a: int)
    requires 0 <= a <= |s|
  {
    forall k :: a <= k < |s| ==> !IsLineTerminator(s[k])
  }

  /** The length of the `Shell` or `Terminal` word the title starts with,
      in any case, or 0. */
  function TitleWord(title: string): (n: nat)
    ensures n == 0 || n == 5 || n == 8
    ensures n <= |title|
  {
    var low := Lower(title);
    if StartsWith(low, "shell") then 5 else if StartsWith(low, "terminal") then 8 else 0
  }

  /** The group of `/^(?:Shell|Terminal)[:\s]+(.+)$/i`: the separators are
      taken greedily, giving one back when nothing would be left for `.+`. */
  function TitleCommand(title: string): Option<string> {
    var a := TitleWord(title);
    if a == 0 then None
    else
      var k := SepRunEnd(title, a);
      if k == a then None
      else if k < |title| then
        if NoLineTerminator(title, k) then Some(title[k..]) else None
      else if k - 1 > a && !IsLineTerminator(title[k - 1]) then Some(title[k - 1..])
      else None
  }

  /** A way the title pattern can match: the word ends at `a`, the
      separators fill `[a, k)` and the group is the rest. */
  predicate TitleSplit(title: string, k: int) {
    var a := TitleWord(title);
    && a > 0 && a < k < |title|
    && (forall i :: a <= i < k ==> IsTitleSep(title[i]))
    && NoLineTerminator(title, k)
  }

  /** TitleCommand is the regular expression's match: it succeeds exactly
      when some split exists, and then yields the group of the split with
      the longest run of separators. */
  lemma TitleCommandIsMatch(title: string)
    ensures TitleCommand(title).Some? <==> exists k :: 0 <= k <= |title| && TitleSplit(title, k)
    ensures TitleCommand(title).Some? ==>
      exists k :: 0 <= k <= |title| && TitleSplit(title, k) && TitleCommand(title).value == title[k..]
        && forall k2 :: k < k2 <= |title| ==> !TitleSplit(title, k2)
  {
    var a := TitleWord(title);
    if a > 0 {
      var k := SepRunEnd(title, a);
      if k < |title| && k > a && NoLineTerminator(title, k) {
        assert TitleSplit(title, k);
        forall k2 | k < k2 <= |title| ensures !TitleSplit(title, k2) {
          assert !IsTitleSep(title[k]);
        }
      } else if k == |title| && k - 1 > a && !IsLineTerminator(title[k - 1]) {
        assert TitleSplit(title, k - 1);
      } else if k == a {
        forall k2 | 0 <= k2 <= |title| ensures !TitleSplit(title, k2) {
          assert a < |title| ==> !IsTitleSep(title[a]);
        }
      } else if k < |title| {
        var w := WitnessTerminator(title, k);
        forall k2 | 0 <= k2 <= |title| ensures !TitleSplit(title, k2) {
          assert k2 > k ==> !IsTitleSep(title[k]);
          assert k2 <= k ==> k2 <= w && IsLineTerminator(title[w]);
        }
      } else {
        assert k - 1 == a || IsLineTerminator(title[k - 1]);
      }
    }
  }

  /** The position of a line terminator in `[k, |s|)`, when there is one. */
  function WitnessTerminator(s: string, k: int): (r: int)
    requires 0 <= k <= |s| && !NoLineTerminator(s, k)
    ensures k <= r < |s| && IsLineTerminator(s[r])
    decreases |s| - k
  {
    if IsLineTerminator(s[k]) then k else WitnessTerminator(s, k + 1)
  }

  /** `/shell|terminal/i.test(...)`. */
  predicate MentionsShell(s: string) {
    var low := Lower(s);
    Contains(low, "shell") || Contains(low, "terminal")
  }

  /** `locPath || titleCmd || ''`. */
  function CommandString(tc: ToolCall): string {
    if tc.locPath != "" then tc.locPath
    else match TitleCommand(tc.title)
      case Some(c) => c
      case None => if MentionsShell(tc.title) then tc.title else ""
  }

  // ------------------------------------------------------------ shell keys

  predicate IsOperator(t: string) { t == "&&" || t == "||" || t == ";" || t == "|" }

  /** The tokens before the first `&&`, `||`, `;` or `|`. */
  function CutAtOperator(tokens: seq<string>): (r: seq<string>)
    ensures r <= tokens
    ensures forall k :: 0 <= k < |r| ==> !IsOperator(r[k])
    ensures |r| < |tokens| ==> IsOperator(tokens[|r|])
  {
    if tokens == [] || IsOperator(tokens[0]) then []
    else [tokens[0]] + CutAtOperator(tokens[1..])
  }

  /** `bash`, `sh` or `zsh` followed by a `-c`-style flag and a command. */
  predicate IsShellWrapper(tokens: seq<string>) {
    && |tokens| >= 3
    && (tokens[0] == "bash" || tokens[0] == "sh" || tokens[0] == "zsh")
    && (tokens[1] == "c" || tokens[1] == "-c" || tokens[1] == "lc" || tokens[1] == "-lc")
  }

  /** `s.replace(/^['"]|['"]$/g, '')`: a quote at the start and one at the
      end are dropped; a single quote character is dropped once. */
  function StripQuotes(s: string): (r: string)
    ensures |s| - 2 <= |r| <= |s|
  {
    var a := if |s| > 0 && IsQuoteChar(s[0]) then 1 else 0;
    var b := if |s| > a && IsQuoteChar(s[|s| - 1]) then |s| - 1 else |s|;
    s[a..b]
  }

  function Tokens(cmd: string): seq<string> {
    CutAtOperator(Scan(cmd, None, "", []))
  }

  /** The key of a command string, looking inside `bash -c "…"` first. */
  function ShellKey(cmdStr: string): string {
    var tokens := Tokens(JsTrim(cmdStr));
    var inner := if IsShellWrapper(tokens) then
      CommandKey(Tokens(StripQuotes(Join(tokens[2..], " "))), WorkerScripts)
    else "";
    if inner != "" then inner else CommandKey(tokens, WorkerScripts)
  }

  /** The first blank-separated word of a text. */
  function FirstWord(s: string): (r: string)
    ensures r <= s
    ensures forall k :: 0 <= k < |r| ==> !IsJsSpace(r[k])
    ensures |r| < |s| ==> IsJsSpace(s[|r|])
  {
    if s == [] || IsJsSpace(s[0]) then [] else [s[0]] + FirstWord(s[1..])
  }

  /** `(title.trim().split(/\s+/)[0] || 'tool').toLowerCase()`. */
  function FallbackKey(title: string): (r: string)
    ensures r != ""
  {
    var w := FirstWord(JsTrim(title));
    Lower(if w == "" then "tool" else w)
  }

  function Hay(name: string, locPath: string): string {
    Lower(name + " " + locPath)
  }

  /** deriveCommandKey. */
  function DeriveCommandKey(tc: ToolCall): (r: string)
    ensures r != ""
    ensures Python3LogMatch(Hay(tc.title, tc.locPath)) ==> r == "python3:manage_log"
  {
    var hay := Hay(tc.title, tc.locPath);
    if Python3LogMatch(hay) || LogPython3Match(hay) then "python3:manage_log"
    else if PythonLogMatch(hay) then "python:manage_log"
    else
      var cmdStr := CommandString(tc);
      var key := if MentionsShell(tc.kind) || cmdStr != "" then ShellKey(cmdStr) else "";
      if key != "" then key else FallbackKey(tc.title)
  }

  // ------------------------------------------------------------ handlePermissionRequest

  /** A permission option; a missing option id is "". */
  datatype PermOption = PermOption(kind: string, optionId: string)

  datatype Outcome = Selected(optionId: string) | Rejected

  /** The first option of the given kind. */
  function FindKind(opts: seq<PermOption>, kind: string): (r: Option<PermOption>)
    ensures r.Some? ==> exists k :: (0 <= k < |opts| && opts[k] == r.value && r.value.kind == kind
      && forall j :: 0 <= j < k ==> opts[j].kind != kind)
    ensures r.None? ==> forall k :: 0 <= k < |opts| ==> opts[k].kind != kind
  {
    if opts == [] then None
    else if opts[0].kind == kind then Some(opts[0])
    else
      var r := FindKind(opts[1..], kind);
      if r.Some? then
        ghost var k :| 0 <= k < |opts[1..]| && opts[1..][k] == r.value && r.value.kind == kind
          && forall j :: 0 <= j < k ==> opts[1..][j].kind != kind;
        assert opts[k + 1] == r.value;
        r
      else r
  }

  /** The first option with the given id. */
  function FindId(opts: seq<PermOption>, id: string): (r: Option<PermOption>)
    ensures r.Some? ==> r.value.optionId == id && r.value in opts
    ensures r.None? ==> forall k :: 0 <= k < |opts| ==> opts[k].optionId != id
  {
    if opts == [] then None
    else if opts[0].optionId == id then Some(opts[0])
    else FindId(opts[1..], id)
  }

  /** `allowOnce`: an allow_once option, else the proceed_once option, else
      the first option. */
  function AllowOnce(opts: seq<PermOption>): Option<PermOption> {
    var byKind := FindKind(opts, "allow_once");
    if byKind.Some? then byKind
    else
      var byId := FindId(opts, "proceed_once");
      if byId.Some? then byId
      else if opts != [] then Some(opts[0])
      else None
  }

  /** `denyOpt`: a deny option, else the cancel option. */
  function DenyOption(opts: seq<PermOption>): Option<PermOption> {
    var byKind := FindKind(opts, "deny");
    if byKind.Some? then byKind else FindId(opts, "cancel")
  }

  function DenyOutcome(opts: seq<PermOption>): Outcome {
    var d := DenyOption(opts);
    if d.Some? && d.value.optionId != "" then Selected(d.value.optionId) else Rejected
  }

  function AllowOutcome(opts: seq<PermOption>): Outcome {
    var a := AllowOnce(opts);
    Selected(if a.Some? && a.value.optionId != "" then a.value.optionId else "proceed_once")
  }

  /** The command keys counted as python. */
  const PythonKeys: set<string> := {
    "python", "python3", "python:manage_log", "python3:manage_log",
    "python:manage_context", "python3:manage_context", "shell:python3"}

  /** `tc.title || String(tc.kind || 'tool')`. */
  function RawLabel(tc: ToolCall): string {
    if tc.title != "" then tc.title else if tc.kind != "" then tc.kind else "tool"
  }

  predicate MentionsHelperScript(hay: string) {
    Contains(hay, "manage_log.py") || Contains(hay, "manage_context.py") || Contains(hay, "notify_tool.py")
  }

  /** The rule: a python key and a helper script named in the label or path. */
  predicate Allowed(tc: ToolCall) {
    DeriveCommandKey(tc) in PythonKeys && MentionsHelperScript(Hay(RawLabel(tc), tc.locPath))
  }

  /** The decision of handlePermissionRequest; `tc` is None when the request
      carries no tool call. */
  function Decide(tc: Option<ToolCall>, opts: seq<PermOption>): (r: Outcome)
    ensures r.Selected? ==> r.optionId != ""
  {
    if tc.None? then DenyOutcome(opts)
    else if Allowed(tc.value) then AllowOutcome(opts)
    else DenyOutcome(opts)
  }

  // ------------------------------------------------------------ properties

  /** A request without a tool call is never allowed: it gets the deny
      option or is rejected. */
  lemma NoToolCallDenied(opts: seq<PermOption>)
    ensures Decide(None, opts) == DenyOutcome(opts)
    ensures Decide(None, opts).Selected? ==>
      exists k :: (0 <= k < |opts| && opts[k].optionId == Decide(None, opts).optionId
        && (opts[k].kind == "deny" || opts[k].optionId == "cancel"))
  {
    DenyNamesDenyOption(opts);
  }

  /** The deny outcome names an offered deny or cancel option. */
  lemma DenyNamesDenyOption(opts: seq<PermOption>)
    ensures DenyOutcome(opts).Selected? ==>
      exists k :: (0 <= k < |opts| && opts[k].optionId == DenyOutcome(opts).optionId
        && (opts[k].kind == "deny" || opts[k].optionId == "cancel"))
  {
    var d := DenyOption(opts);
    if d.Some? && FindKind(opts, "deny").None? {
      var k :| 0 <= k < |opts| && opts[k] == d.value;
    }
  }

  /** An offered allow_once option with an id is what an allowed request
      selects; with none, the answer is proceed_once or an offered id. */
  lemma AllowPicksAllowOnce(opts: seq<PermOption>)
    ensures var o := AllowOutcome(opts);
      && o.Selected?
      && (o.optionId == "proceed_once" || exists k :: 0 <= k < |opts| && opts[k].optionId == o.optionId)
      && (forall k :: (0 <= k < |opts| && opts[k].kind == "allow_once" && opts[k].optionId != ""
            && (forall j :: 0 <= j < k ==> opts[j].kind != "allow_once")) ==> o.optionId == opts[k].optionId)
  {
    var a := AllowOnce(opts);
    if a.Some? && FindKind(opts, "allow_once").None? && FindId(opts, "proceed_once").Some? {
      var k :| 0 <= k < |opts| && opts[k] == a.value;
    }
    forall k | 0 <= k < |opts| && opts[k].kind == "allow_once" && opts[k].optionId != ""
        && (forall j :: 0 <= j < k ==> opts[j].kind != "allow_once")
      ensures AllowOutcome(opts).optionId == opts[k].optionId
    {
      var b := FindKind(opts, "allow_once");
      var k2 :| 0 <= k2 < |opts| && opts[k2] == b.value && b.value.kind == "allow_once"
        && forall j :: 0 <= j < k2 ==> opts[j].kind != "allow_once";
      assert k2 == k;
    }
  }

  /** Allowing needs a python command key and a helper script in the label
      or path; every other request with a tool call is answered as one
      without. */
  lemma OnlyHelperScriptsAllowed(tc: ToolCall, opts: seq<PermOption>)
    ensures Decide(Some(tc), opts) == (if Allowed(tc) then AllowOutcome(opts) else Decide(None, opts))
    ensures Allowed(tc) ==>
      (DeriveCommandKey(tc) in PythonKeys
        && (Contains(Hay(RawLabel(tc), tc.locPath), "manage_log.py")
          || Contains(Hay(RawLabel(tc), tc.locPath), "manage_context.py")
          || Contains(Hay(RawLabel(tc), tc.locPath), "notify_tool.py")))
  {
  }

  /** "python3", blanks and then manage_log.py on the same line anywhere in
      the title or path give the python3 key, before any tokenizing. */
  lemma Python3ManageLogKey(tc: ToolCall, i: int, j: int)
    requires var hay := Hay(tc.title, tc.locPath);
      && 0 <= i && i + 8 <= j && OccursAt(hay, "manage_log.py", j)
      && OccursAt(hay, "python3", i) && IsJsSpace(hay[i + 7]) && NoNewline(hay, i + 8, j)
    ensures DeriveCommandKey(tc) == "python3:manage_log"
  {
    var hay := Hay(tc.title, tc.locPath);
    assert Python3LogAt(hay, i, i + 8, j);
  }

  /** A tool call whose key comes from the tokenizer gets the classifier's
      key of its command string, unless a `bash -c` wrapper yields one. */
  lemma ShellKeyFromClassifier(tc: ToolCall)
    requires var hay := Hay(tc.title, tc.locPath);
      !Python3LogMatch(hay) && !LogPython3Match(hay) && !PythonLogMatch(hay)
    requires CommandString(tc) != "" || MentionsShell(tc.kind)
    requires var tokens := Tokens(JsTrim(CommandString(tc)));
      !IsShellWrapper(tokens) && CommandKey(tokens, WorkerScripts) != ""
    ensures DeriveCommandKey(tc) == CommandKey(Tokens(JsTrim(CommandString(tc))), WorkerScripts)
  {
  }

  /** Only allowed requests are answered with an allow option: when the
      deny option is distinct from the allow one, the two outcomes differ. */
  lemma AllowedIffAllowOutcome(tc: ToolCall, opts: seq<PermOption>)
    requires AllowOutcome(opts) != DenyOutcome(opts)
    ensures Decide(Some(tc), opts) == AllowOutcome(opts) <==> Allowed(tc)
  {
  }
}

=== FILE: port_candidates.dfy ===
/** buildPortCandidates of webnew/server.js: the ports the HTTPS server tries
    in turn. A port that is not a finite number is None. */
module PortCandidates {
  import opened Wrappers
  import opened Text

  predicate ValidPort(p: Option<int>) { p.Some? && p.value > 0 }

  predicate AllPositive(s: seq<int>) {
    forall i :: 0 <= i < |s| ==> s[i] > 0
  }

  /** The position of `v` in `s`, or |s| when absent. */
  function Position(s: seq<int>, v: int): (r: nat)
    ensures r <= |s|
    ensures r < |s| ==> s[r] == v
    ensures forall i :: 0 <= i < r ==> s[i] != v
    ensures r == |s| <==> v !in s
  {
    if s == [] then 0
    else if s[0] == v then 0
    else 1 + Position(s[1..], v)
  }

  /** The `addCandidate` closure: a finite positive port not yet listed is
      appended. */
  method AddCandidate(candidates: seq<int>, value: Option<int>) returns (r: seq<int>)
    requires Distinct(candidates) && AllPositive(candidates)
    ensures Distinct(r) && AllPositive(r) && candidates <= r
    ensures forall p :: p in candidates ==> p in r
    ensures ValidPort(value) ==> value.value in r
    ensures ValidPort(value) && value.value !in candidates ==> r == candidates + [value.value]
    ensures !(ValidPort(value) && value.value !in candidates) ==> r == candidates
  {
    if !ValidPort(value) || value.value in candidates {
      return candidates;
    }
    r := candidates + [value.value];
  }

  /** Appending moves no port already listed. */
  lemma {:induction false} PositionInPrefix(s: seq<int>, t: seq<int>, v: int)
    requires s <= t && v in s
    ensures Position(t, v) == Position(s, v)
  {
    if s[0] != v {
      assert s[1..] <= t[1..];
      PositionInPrefix(s[1..], t[1..], v);
    }
  }

  /** A port appended later sits after every port listed before it. */
  lemma PositionAfterPrefix(s: seq<int>, t: seq<int>, w: int)
    requires s <= t && w !in s
    ensures Position(t, w) >= |s|
  {
    assert forall i :: 0 <= i < |s| ==> t[i] == s[i];
  }

  lemma PrefixTrans(a: seq<int>, b: seq<int>, c: seq<int>)
    requires a <= b && b <= c
    ensures a <= c
  {
    assert forall i :: 0 <= i < |a| ==> a[i] == b[i] == c[i];
  }

  /** The ports a candidate list may hold. */
  function Pool(requestedPort: Option<int>, fallbackPort: Option<int>): set<int> {
    {443, 3000, 8443, 8080}
    + (if ValidPort(requestedPort) then {requestedPort.value} else {})
    + (if ValidPort(fallbackPort) then {fallbackPort.value} else {})
  }

  predicate Within(s: seq<int>, pool: set<int>) {
    forall p :: p in s ==> p in pool
  }

  predicate FallbackIsCustom(fallbackPort: Option<int>) {
    ValidPort(fallbackPort) && fallbackPort.value != 3000
  }

  /** The first part of buildPortCandidates: the requested port, then 443
      and the fallback in the order the fallback calls for. */
  method LeadingCandidates(requestedPort: Option<int>, fallbackPort: Option<int>) returns (candidates: seq<int>)
    ensures Distinct(candidates) && AllPositive(candidates)
    ensures Within(candidates, Pool(requestedPort, fallbackPort))
    ensures ValidPort(requestedPort) ==> |candidates| > 0 && candidates[0] == requestedPort.value
    ensures 443 in candidates && (ValidPort(fallbackPort) ==> fallbackPort.value in candidates)
    ensures (FallbackIsCustom(fallbackPort) && fallbackPort.value != 443 && requestedPort != Some(443)) ==>
      Position(candidates, fallbackPort.value) < Position(candidates, 443)
    ensures (!FallbackIsCustom(fallbackPort) && requestedPort != Some(3000) && 3000 in candidates) ==>
      Position(candidates, 443) < Position(candidates, 3000)
  {
    var first := AddCandidate([], requestedPort);
    if ValidPort(requestedPort) {
      assert first == [requestedPort.value];
    }
    if !FallbackIsCustom(fallbackPort) {
      candidates := DefaultOrder(first, requestedPort, fallbackPort);
    } else {
      candidates := CustomOrder(first, requestedPort, fallbackPort);
    }
  }

  /** The requested port alone, when it is a valid port. */
  predicate OnlyRequested(first: seq<int>, requestedPort: Option<int>) {
    first == if ValidPort(requestedPort) then [requestedPort.value] else []
  }

  /** 443 before the fallback (when the fallback is 3000 or not valid). */
  method DefaultOrder(first: seq<int>, requestedPort: Option<int>, fallbackPort: Option<int>)
    returns (candidates: seq<int>)
    requires OnlyRequested(first, requestedPort)
    ensures Distinct(candidates) && AllPositive(candidates)
    ensures Within(candidates, Pool(requestedPort, fallbackPort))
    ensures ValidPort(requestedPort) ==> |candidates| > 0 && candidates[0] == requestedPort.value
    ensures 443 in candidates && (ValidPort(fallbackPort) ==> fallbackPort.value in candidates)
    ensures (requestedPort != Some(3000) && 3000 in candidates) ==>
      Position(candidates, 443) < Position(candidates, 3000)
  {
    ghost var pool := Pool(requestedPort, fallbackPort);
    candidates := AddCandidate(first, Some(443));
    var early := candidates;
    assert Within(candidates, pool);
    candidates := AddCandidate(candidates, fallbackPort);
    assert Within(candidates, pool);
    if requestedPort != Some(3000) && 3000 in candidates {
      assert 3000 !in early;
      PositionInPrefix(early, candidates, 443);
      PositionAfterPrefix(early, candidates, 3000);
    }
    PrefixTrans(first, early, candidates);
    if ValidPort(requestedPort) {
      assert candidates[0] == first[0];
    }
  }

  /** The fallback before 443 (when the fallback is a valid port other than
      3000). */
  method CustomOrder(first: seq<int>, requestedPort: Option<int>, fallbackPort: Option<int>)
    returns (candidates: seq<int>)
    requires OnlyRequested(first, requestedPort) && FallbackIsCustom(fallbackPort)
    ensures Distinct(candidates) && AllPositive(candidates)
    ensures Within(candidates, Pool(requestedPort, fallbackPort))
    ensures ValidPort(requestedPort) ==> |candidates| > 0 && candidates[0] == requestedPort.value
    ensures 443 in candidates && fallbackPort.value in candidates
    ensures (fallbackPort.value != 443 && requestedPort != Some(443)) ==>
      Position(candidates, fallbackPort.value) < Position(candidates, 443)
  {
    ghost var pool := Pool(requestedPort, fallbackPort);
    candidates := AddCandidate(first, fallbackPort);
    var afterFallback := candidates;
    assert Within(candidates, pool);
    candidates := AddCandidate(candidates, Some(443));
    assert Within(candidates, pool);
    if fallbackPort.value != 443 && requestedPort != Some(443) {
      assert 443 !in afterFallback;
      PositionInPrefix(afterFallback, candidates, fallbackPort.value);
      PositionAfterPrefix(afterFallback, candidates, 443);
    }
    PrefixTrans(first, afterFallback, candidates);
    if ValidPort(requestedPort) {
      assert candidates[0] == first[0];
    }
  }

  /** buildPortCandidates. */
  method BuildPortCandidates(requestedPort: Option<int>, fallbackPort: Option<int>) returns (candidates: seq<int>)
    ensures Distinct(candidates) && AllPositive(candidates)
    ensures ValidPort(requestedPort) ==> |candidates| > 0 && candidates[0] == requestedPort.value
    ensures 443 in candidates && 3000 in candidates && 8443 in candidates && 8080 in candidates
    ensures ValidPort(fallbackPort) ==> fallbackPort.value in candidates
    ensures Within(candidates, Pool(requestedPort, fallbackPort))
    ensures (FallbackIsCustom(fallbackPort) && fallbackPort.value != 443 && requestedPort != Some(443)) ==>
      Position(candidates, fallbackPort.value) < Position(candidates, 443)
    ensures (!FallbackIsCustom(fallbackPort) && requestedPort != Some(3000)) ==>
      Position(candidates, 443) < Position(candidates, 3000)
  {
    var lead := LeadingCandidates(requestedPort, fallbackPort);
    candidates := TrailingCandidates(lead, Pool(requestedPort, fallbackPort));
    if ValidPort(requestedPort) {
      assert candidates[0] == lead[0];
    }
    if FallbackIsCustom(fallbackPort) && fallbackPort.value != 443 && requestedPort != Some(443) {
      PositionInPrefix(lead, candidates, fallbackPort.value);
      PositionInPrefix(lead, candidates, 443);
    }
    if !FallbackIsCustom(fallbackPort) && requestedPort != Some(3000) {
      PositionInPrefix(lead, candidates, 443);
      if 3000 in lead {
        PositionInPrefix(lead, candidates, 3000);
      } else {
        PositionAfterPrefix(lead, candidates, 3000);
      }
    }
  }

  /** The last part of buildPortCandidates: 3000, 8443 and 8080 are added
      after the leading ports. */
  method TrailingCandidates(lead: seq<int>, ghost pool: set<int>) returns (candidates: seq<int>)
    requires Distinct(lead) && AllPositive(lead) && Within(lead, pool)
    requires 3000 in pool && 8443 in pool && 8080 in pool
    ensures Distinct(candidates) && AllPositive(candidates) && Within(candidates, pool)
    ensures lead <= candidates
    ensures 3000 in candidates && 8443 in candidates && 8080 in candidates
  {
    candidates := AddCandidate(lead, Some(3000));
    var c1 := candidates;
    assert Within(candidates, pool);
    candidates := AddCandidate(candidates, Some(8443));
    var c2 := candidates;
    assert Within(candidates, pool);
    candidates := AddCandidate(candidates, Some(8080));
    assert Within(candidates, pool);
    PrefixTrans(c1, c2, candidates);
    PrefixTrans(lead, c1, candidates);
  }
}

=== FILE: quiet_hours.dfy ===
/** parseQuietHourComponent of webnew/server.js on integer inputs: a quiet
    hours bound given as a number or as text is normalised to an hour in
    0..23 and a minute in 0..59, carrying surplus minutes into the hour and
    wrapping the hour around the day. */
module QuietHours {
  import opened Wrappers
  import opened Text
  import opened JsValues

  datatype QuietTime = QuietTime(hour: int, minute: int, totalMinutes: int)

  /** What the function yields: null, a time, or `OutsideIntegerBranch` for
      text that JavaScript reads as a finite number with a fractional part,
      whose truncation and rounding in 64-bit floating point are not
      modelled. */
  datatype QuietParse = NoQuietTime | QuietAt(time: QuietTime) | OutsideIntegerBranch

  /** The reference reading of (hour, minute): minutes taken modulo 60 with
      the carry added to the hour, the hour taken modulo 24. */
  function Normalized(hour: int, minute: int): (t: QuietTime)
    ensures 0 <= t.hour < 24 && 0 <= t.minute < 60
    ensures t.totalMinutes == t.hour * 60 + t.minute
  {
    var m := minute % 60;
    var h := (hour + minute / 60) % 24;
    QuietTime(h, m, h * 60 + m)
  }

  /** The time of day is the input's minute count taken modulo one day. */
  lemma NormalizedIsMinuteOfDay(hour: int, minute: int)
    ensures Normalized(hour, minute).totalMinutes == (hour * 60 + minute) % 1440
  {
    var c := minute / 60;
    var m := minute % 60;
    var h := (hour + c) % 24;
    var k := (hour + c) / 24;
    assert minute == 60 * c + m;
    assert hour + c == 24 * k + h;
    assert hour * 60 + minute == 1440 * k + (h * 60 + m);
    assert 0 <= h * 60 + m < 1440;
  }

  /** `((h % 24) + 24) % 24` with JavaScript's remainder. */
  function WrapHour(h: int): (r: int)
    ensures r == h % 24
  {
    var a := JsRem(h, 24) + 24;
    assert a == h - TruncDiv(h, 24) * 24 + 24;
    JsRem(a, 24)
  }

  /** The `finalize` closure: the two carry loops, then the hour wrap. */
  method Finalize(hour: int, minute: int) returns (t: QuietTime)
    ensures t == Normalized(hour, minute)
  {
    var h := hour;
    var m := minute;
    while m >= 60
      invariant h * 60 + m == hour * 60 + minute
      decreases m
    {
      m := m - 60;
      h := h + 1;
    }
    while m < 0
      invariant h * 60 + m == hour * 60 + minute
      invariant m < 60
      decreases -m
    {
      m := m + 60;
      h := h - 1;
    }
    CarryAgrees(hour, minute, h, m);
    h := WrapHour(h);
    t := QuietTime(h, m, h * 60 + m);
  }

  lemma CarryAgrees(hour: int, minute: int, h: int, m: int)
    requires h * 60 + m == hour * 60 + minute && 0 <= m < 60
    ensures m == minute % 60 && h == hour + minute / 60
  {
    var c := minute / 60;
    assert minute == 60 * c + minute % 60;
    assert 60 * (h - hour - c) == minute % 60 - m;
  }

  /** `padStart(4, '0')` of a 3- or 4-digit text. */
  function Pad4(t: string): (r: string)
    requires 3 <= |t| <= 4
    ensures |r| == 4
  {
    if |t| == 3 then "0" + t else t
  }

  /** A time of day. */
  predicate ValidTime(t: QuietTime) {
    0 <= t.hour < 24 && 0 <= t.minute < 60 && 0 <= t.totalMinutes < 1440
  }

  /** The two numbers of `h:m` text (`split(':', 2)` keeps the first two
      pieces, and a missing minute is `'0'`), when both are finite. */
  function ColonNumbers(t: string): Option<(Decimal, Decimal)> {
    var parts := Split(t, ':');
    var h := StringNumber(parts[0]);
    var m := if |parts| >= 2 then StringNumber(parts[1]) else Some(Decimal(0, 0));
    if h.Some? && m.Some? then Some((h.value, m.value)) else None
  }

  /** `h:m` text: null unless both numbers are finite. */
  function ColonReading(t: string): QuietParse {
    match ColonNumbers(t)
    case None => NoQuietTime
    case Some((h, m)) =>
      if IntegerOf(h).Some? && IntegerOf(m).Some?
      then QuietAt(Normalized(IntegerOf(h).value, IntegerOf(m).value))
      else OutsideIntegerBranch
  }

  /** Other text: `Number(text)` when finite, read as a number of hours. */
  function NumberReading(t: string): QuietParse {
    match StringNumber(t)
    case None => NoQuietTime
    case Some(d) =>
      match IntegerOf(d)
      case Some(n) => QuietAt(Normalized(n, 0))
      case None => OutsideIntegerBranch
  }

  /** The string branch on the trimmed, non-empty text. */
  function TextReading(t: string): QuietParse {
    if ':' in t then ColonReading(t)
    else if 3 <= |t| <= 4 && AllDigits(t) then
      var p := Pad4(t);
      QuietAt(Normalized(DecimalValue(p[..2]), DecimalValue(p[2..])))
    else NumberReading(t)
  }

  /** The reference definition of parseQuietHourComponent. */
  function QuietSpec(v: JsValue): QuietParse {
    match v
    case Undefined => NoQuietTime
    case Null => NoQuietTime
    case Num(n) => QuietAt(Normalized(n, 0))
    case Str(s) => if JsTrim(s) == "" then NoQuietTime else TextReading(JsTrim(s))
    case _ => NoQuietTime
  }

  /** The string branch, with `finalize` run as a method. */
  method ReadText(t: string) returns (r: QuietParse)
    ensures r == TextReading(t)
  {
    if ':' in t {
      var numbers := ColonNumbers(t);
      if numbers.None? {
        r := NoQuietTime;
      } else if IntegerOf(numbers.value.0).Some? && IntegerOf(numbers.value.1).Some? {
        var time := Finalize(IntegerOf(numbers.value.0).value, IntegerOf(numbers.value.1).value);
        r := QuietAt(time);
      } else {
        r := OutsideIntegerBranch;
      }
    } else if 3 <= |t| <= 4 && AllDigits(t) {
      var p := Pad4(t);
      var time := Finalize(DecimalValue(p[..2]), DecimalValue(p[2..]));
      r := QuietAt(time);
    } else {
      var n := StringNumber(t);
      if n.None? {
        r := NoQuietTime;
      } else if IntegerOf(n.value).Some? {
        var time := Finalize(IntegerOf(n.value).value, 0);
        r := QuietAt(time);
      } else {
        r := OutsideIntegerBranch;
      }
    }
  }

  /** parseQuietHourComponent. */
  method ParseQuietHourComponent(v: JsValue) returns (r: QuietParse)
    ensures r == QuietSpec(v)
  {
    match v
    case Undefined => r := NoQuietTime;
    case Null => r := NoQuietTime;
    case Num(n) =>
      var time := Finalize(n, 0);
      r := QuietAt(time);
    case Str(s) =>
      var trimmed := JsTrim(s);
      if trimmed == "" {
        r := NoQuietTime;
      } else {
        r := ReadText(trimmed);
      }
    case _ => r := NoQuietTime;
  }

  /** Any time produced is a valid time of day. */
  lemma QuietSpecBounds(v: JsValue)
    ensures QuietSpec(v).QuietAt? ==> ValidTime(QuietSpec(v).time)
  {
    if v.Str? && JsTrim(v.s) != "" {
      TextReadingBounds(JsTrim(v.s));
    }
  }

  lemma TextReadingBounds(t: string)
    ensures TextReading(t).QuietAt? ==> ValidTime(TextReading(t).time)
  {
    if ':' in t && ColonNumbers(t).Some? {
      var (h, m) := ColonNumbers(t).value;
      if IntegerOf(h).Some? && IntegerOf(m).Some? {
        assert ColonReading(t) == QuietAt(Normalized(IntegerOf(h).value, IntegerOf(m).value));
      }
    }
  }

  lemma SplitAtColon(a: string, b: string)
    requires ':' !in a && ':' !in b
    ensures Split(a + ":" + b, ':') == [a, b]
  {
    var t := a + ":" + b;
    assert t[..|a|] == a && t[|a|] == ':' && t[|a| + 1..] == b;
    assert IndexOfChar(t, ':') == |a| by {
      assert t[..|a|] == a;
    }
    assert Split(b, ':') == [b];
  }

  lemma DigitsHaveNoColon(s: string)
    requires AllDigits(s)
    ensures ':' !in s
  {
  }

  lemma DigitsText(s: string)
    requires s != [] && AllDigits(s)
    ensures StringNumber(s) == Some(Decimal(DecimalValue(s), 0))
    ensures IntegerOf(Decimal(DecimalValue(s), 0)) == Some(DecimalValue(s))
  {
    JsTrimDigits(s);
    DigitsNumber(s);
  }

  lemma NormalizedValid(h: int, m: int)
    requires 0 <= h < 24 && 0 <= m < 60
    ensures Normalized(h, m) == QuietTime(h, m, h * 60 + m)
  {
  }

  lemma ColonReadingDigits(hd: string, md: string)
    requires hd != [] && md != [] && AllDigits(hd) && AllDigits(md)
    ensures ColonReading(hd + ":" + md) == QuietAt(Normalized(DecimalValue(hd), DecimalValue(md)))
  {
    DigitsHaveNoColon(hd);
    DigitsHaveNoColon(md);
    SplitAtColon(hd, md);
    DigitsText(hd);
    DigitsText(md);
  }

  /** "HH:MM" of a valid time reads back as that time. */
  lemma ClockTextReadsBack(h: nat, m: nat)
    requires h < 24 && m < 60
    ensures QuietSpec(Str(Pad2(h) + ":" + Pad2(m))) == QuietAt(QuietTime(h, m, h * 60 + m))
  {
    DigitsClockReading(Pad2(h), Pad2(m));
    Pad2RoundTrip(h);
    Pad2RoundTrip(m);
    NormalizedValid(h, m);
  }

  /** Two runs of digits around a colon read as hours and minutes. */
  lemma DigitsClockReading(hd: string, md: string)
    requires hd != [] && md != [] && AllDigits(hd) && AllDigits(md)
    ensures QuietSpec(Str(hd + ":" + md)) == QuietAt(Normalized(DecimalValue(hd), DecimalValue(md)))
  {
    ClockTextTrimmed(hd, md);
    ColonInClockText(hd, md);
    TrimmedColonText(hd + ":" + md);
    ColonReadingDigits(hd, md);
  }

  lemma ColonInClockText(hd: string, md: string)
    ensures ':' in hd + ":" + md
  {
    assert (hd + ":" + md)[|hd|] == ':';
  }

  /** Trimmed text with a colon takes the `h:m` branch. */
  lemma TrimmedColonText(t: string)
    requires JsTrim(t) == t && ':' in t
    ensures QuietSpec(Str(t)) == ColonReading(t)
  {
    TrimmedText(t);
    ColonText(t);
  }

  /** Trimmed, non-empty text goes to the string branch as it is. */
  lemma TrimmedText(t: string)
    requires JsTrim(t) == t && t != ""
    ensures QuietSpec(Str(t)) == TextReading(t)
  {
  }

  lemma ColonText(t: string)
    requires ':' in t
    ensures t != "" && TextReading(t) == ColonReading(t)
  {
  }

  lemma ClockTextTrimmed(hd: string, md: string)
    requires hd != [] && md != [] && AllDigits(hd) && AllDigits(md)
    ensures JsTrim(hd + ":" + md) == hd + ":" + md
  {
    var t := hd + ":" + md;
    assert t[0] == hd[0] && t[|t| - 1] == md[|md| - 1];
    assert IsAsciiDigit(hd[0]) && IsAsciiDigit(md[|md| - 1]);
    JsTrimKeeps(t);
  }

  /** A negative whole number of hours counts back from midnight: "-5" is
      19:00. */
  lemma NegativeHoursWrap(n: int)
    requires n < 0
    ensures QuietSpec(Str(IntToString(n))) == QuietAt(Normalized(n, 0))
  {
    var k: nat := -n;
    var t := IntToString(n);
    assert t == "-" + NatToString(k);
    NegativeTextShape(n);
    PlainNumberText(t);
    NegativeText(k);
    assert StringNumber(t) == Some(Decimal(n, 0));
    WholeNumberReading(t, n);
  }

  /** Trimmed text with no colon that is not a 3- or 4-digit clock is read
      as a number. */
  lemma PlainNumberText(t: string)
    requires JsTrim(t) == t && t != "" && ':' !in t && !AllDigits(t)
    ensures QuietSpec(Str(t)) == NumberReading(t)
  {
  }

  /** Text that reads as a whole number `n` is `n` hours past midnight. */
  lemma WholeNumberReading(t: string, n: int)
    requires StringNumber(t) == Some(Decimal(n, 0))
    ensures NumberReading(t) == QuietAt(Normalized(n, 0))
  {
    IntegerOfWhole(n);
  }

  /** `String(n)` of a negative number: trimmed already, no colon, not all
      digits. */
  lemma NegativeTextShape(n: int)
    requires n < 0
    ensures var t := "-" + NatToString(-n); JsTrim(t) == t && t != "" && ':' !in t && !AllDigits(t)
  {
    var d := NatToString(-n);
    var t := "-" + d;
    assert t[0] == '-' && t[|t| - 1] == d[|d| - 1];
    assert IsAsciiDigit(d[|d| - 1]);
    JsTrimKeeps(t);
    assert ':' !in t by {
      forall i | 0 <= i < |t| ensures t[i] != ':' {
        if i > 0 { assert t[i] == d[i - 1] && IsAsciiDigit(d[i - 1]); }
      }
    }
    assert !IsAsciiDigit(t[0]);
  }

  /** Surplus minutes carry into the hour and the hour wraps: "23:90" is
      00:30. */
  lemma CarryAndWrap()
    ensures Normalized(23, 90) == QuietTime(0, 30, 30)
    ensures Normalized(25, 0) == QuietTime(1, 0, 60)
  {
  }
}

=== FILE: reconcile.dfy ===
/** The reference-preserving merges of webnew/lib/reconcile.ts. A JavaScript
    object is an `Obj` whose identity is its reference, so `===` on objects
    is reference equality; its properties never change after creation, as
    in the source, where every merge builds new objects. Arrays are values. */
module Reconcile {
  import opened Wrappers
  import JsValues

  datatype Val =
    | Undefined
    | Null
    | Bool(b: bool)
    | Num(n: int)
    | Str(s: string)
    | Arr(items: seq<Val>)
    | Ref(obj: Obj)

  class Obj {
    const fields: map<string, Val>

    constructor (fields: map<string, Val>)
      ensures this.fields == fields
    {
      this.fields := fields;
    }
  }

  /** The value as a plain JavaScript value, for the conversions that do not
      look inside objects. */
  function ToJs(v: Val): JsValues.JsValue {
    match v
    case Undefined => JsValues.Undefined
    case Null => JsValues.Null
    case Bool(b) => JsValues.Bool(b)
    case Num(n) => JsValues.Num(n)
    case Str(s) => JsValues.Str(s)
    case Arr(items) => JsValues.Arr(seq(|items|, i requires 0 <= i < |items| => ToJs(items[i])))
    case Ref(_) => JsValues.Obj(map[])
  }

  /** `!v`. */
  predicate Falsy(v: Val) {
    !JsValues.Truthy(ToJs(v))
  }

  /** `a || b`. */
  function Or(a: Val, b: Val): Val {
    if Falsy(a) then b else a
  }

  /** `o[k]`. */
  function Get(o: Obj, k: string): Val {
    if k in o.fields then o.fields[k] else Undefined
  }

  /** `v[k]` where `v` is an object; numbers, booleans and strings carry no
      property the reconcilers read. */
  function Prop(v: Val, k: string): Val {
    if v.Ref? then Get(v.obj, k) else Undefined
  }

  /** The own enumerable properties `{...v}` and `Object.keys(v)` see, for an
      object, a number or a boolean (the last two have none). */
  function Own(v: Val): map<string, Val> {
    if v.Ref? then v.obj.fields else map[]
  }

  predicate Keyless(v: Val) { v.Num? || v.Bool? }

  // ------------------------------------------------------------ shallowEqual

  /** Same key count, and every key of `a` reads `===` in `b`. */
  predicate SameProps(a: map<string, Val>, b: map<string, Val>) {
    |a.Keys| == |b.Keys| && forall k :: k in a ==> a[k] == (if k in b then b[k] else Undefined)
  }

  /** shallowEqual: the same value, or two truthy values whose own
      properties agree key by key. */
  predicate ShallowEqual(a: Val, b: Val) {
    || a == b
    || (&& !Falsy(a) && !Falsy(b)
        && (a.Ref? || Keyless(a)) && (b.Ref? || Keyless(b))
        && SameProps(Own(a), Own(b)))
  }

  /** shallowEqual, with its loop over the keys of `a`. */
  method ShallowEqualCheck(a: Val, b: Val) returns (r: bool)
    ensures r == ShallowEqual(a, b)
  {
    if a == b {
      return true;
    }
    if Falsy(a) || Falsy(b) || !(a.Ref? || Keyless(a)) || !(b.Ref? || Keyless(b)) {
      return false;
    }
    var x := Own(a);
    var y := Own(b);
    if |x.Keys| != |y.Keys| {
      return false;
    }
    var keys := x.Keys;
    while keys != {}
      invariant keys <= x.Keys
      invariant forall k :: k in x && k !in keys ==> x[k] == (if k in y then y[k] else Undefined)
      decreases |keys|
    {
      var k :| k in keys;
      if x[k] != (if k in y then y[k] else Undefined) {
        return false;
      }
      keys := keys - {k};
    }
    return true;
  }

  /** For objects without undefined-valued properties, shallowEqual holds
      exactly when both hold the same properties. */
  lemma ShallowEqualMeansSameFields(a: Obj, b: Obj)
    requires forall k :: k in a.fields ==> a.fields[k] != Undefined
    ensures ShallowEqual(Ref(a), Ref(b)) <==> a == b || a.fields == b.fields
  {
    if SameProps(a.fields, b.fields) {
      assert a.fields.Keys <= b.fields.Keys;
      SubsetSameSize(a.fields.Keys, b.fields.Keys);
    }
  }

  lemma SubsetSameSize<T>(s: set<T>, t: set<T>)
    requires s <= t && |s| == |t|
    ensures s == t
  {
    assert |t - s| == |t| - |s|;
  }

  /** An undefined-valued key makes shallowEqual lopsided: `{x: undefined}`
      is shallow-equal to `{y: 1}` but not the other way round. */
  lemma ShallowEqualNotSymmetric(a: Obj, b: Obj)
    requires a.fields == map["x" := Undefined] && b.fields == map["y" := Num(1)]
    ensures ShallowEqual(Ref(a), Ref(b)) && !ShallowEqual(Ref(b), Ref(a))
  {
    assert a.fields.Keys == {"x"} && b.fields.Keys == {"y"};
    assert "y" in b.fields && "y" !in a.fields;
  }

  /** Numbers and booleans have no keys, so any two truthy ones are
      shallow-equal, as is an empty object to either. */
  lemma KeylessShallowEqual(a: Val, b: Val)
    requires !Falsy(a) && !Falsy(b) && Keyless(a) && (Keyless(b) || (b.Ref? && b.obj.fields == map[]))
    ensures ShallowEqual(a, b)
  {
    assert Own(a) == map[] && Own(b) == map[];
  }

  // ------------------------------------------------------------ reconcileArrayById

  /** A `Map` filled from `arr` in order: each key to the last element with
      that key. */
  function KeyedMap<K(==)>(arr: seq<Obj>, key: Obj -> K): map<K, Obj> {
    if arr == [] then map[]
    else
      var last := arr[|arr| - 1];
      KeyedMap(arr[..|arr| - 1], key)[key(last) := last]
  }

  /** The index of the last element of `arr` whose key is `k`, or -1. */
  function LastWith<K(==)>(arr: seq<Obj>, key: Obj -> K, k: K): (r: int)
    ensures -1 <= r < |arr|
    ensures r >= 0 ==> key(arr[r]) == k
    ensures forall j :: r < j < |arr| ==> key(arr[j]) != k
  {
    if arr == [] then -1
    else if key(arr[|arr| - 1]) == k then |arr| - 1
    else
      var init := arr[..|arr| - 1];
      assert forall j :: 0 <= j < |init| ==> init[j] == arr[j];
      LastWith(init, key, k)
  }

  /** What the map holds: a key is present exactly when some element has
      it, and it maps to the last such element. */
  lemma {:induction false} KeyedMapIsLast<K>(arr: seq<Obj>, key: Obj -> K, k: K)
    ensures k in KeyedMap(arr, key) <==> LastWith(arr, key, k) >= 0
    ensures k in KeyedMap(arr, key) ==> KeyedMap(arr, key)[k] == arr[LastWith(arr, key, k)]
    decreases |arr|
  {
    if arr != [] {
      var init := arr[..|arr| - 1];
      KeyedMapIsLast(init, key, k);
      if key(arr[|arr| - 1]) != k {
        assert LastWith(arr, key, k) == LastWith(init, key, k);
        if LastWith(init, key, k) >= 0 {
          assert arr[LastWith(init, key, k)] == init[LastWith(init, key, k)];
        }
      }
    }
  }

  /** The element stored under a key carries that key. */
  lemma KeyedMapKeyed<K>(arr: seq<Obj>, key: Obj -> K, k: K)
    requires k in KeyedMap(arr, key)
    ensures key(KeyedMap(arr, key)[k]) == k
  {
    KeyedMapIsLast(arr, key, k);
  }

  /** The loop `for (const it of arr) map.set(key(it), it)`. */
  method BuildKeyedMap<K(==)>(arr: seq<Obj>, key: Obj -> K) returns (m: map<K, Obj>)
    ensures m == KeyedMap(arr, key)
  {
    m := map[];
    for i := 0 to |arr|
      invariant m == KeyedMap(arr[..i], key)
    {
      assert arr[..i + 1][..i] == arr[..i];
      m := m[key(arr[i]) := arr[i]];
    }
    assert arr[..|arr|] == arr;
  }

  function Lookup<K(==)>(m: map<K, Obj>, k: K): Option<Obj> {
    if k in m then Some(m[k]) else None
  }

  /** `o => o[idKey]`. */
  function IdOf(idKey: string): Obj -> Val {
    (o: Obj) => Get(o, idKey)
  }

  /** `{...(prev || {}), ...next}`. */
  function Spread(prev: Option<Obj>, next: Obj): map<string, Val> {
    (if prev.Some? then prev.value.fields else map[]) + next.fields
  }

  /** The previous element with `next`'s id. */
  function PrevFor(prevArr: seq<Obj>, next: Obj, idKey: string): Option<Obj> {
    Lookup(KeyedMap(prevArr, IdOf(idKey)), Get(next, idKey))
  }

  /** reconcileArrayById keeps the previous element for `next`. */
  predicate Reused(prevArr: seq<Obj>, next: Obj, idKey: string) {
    var p := PrevFor(prevArr, next, idKey);
    p.Some? && ShallowEqual(Ref(p.value), Ref(next))
  }

  /** What reconcileArrayById puts in place of `next`: an object with the
      same id, either the previous object with that id, reused when it is
      shallow-equal to `next`, or a new object spreading `next` over it. */
  predicate Reconciled(prevArr: seq<Obj>, next: Obj, idKey: string, o: Obj) {
    var prev := PrevFor(prevArr, next, idKey);
    && Get(o, idKey) == Get(next, idKey)
    && (Reused(prevArr, next, idKey) ==> o == prev.value)
    && (!Reused(prevArr, next, idKey) ==> o !in prevArr && o.fields == Spread(prev, next))
  }

  /** The body of the loop over `nextArr`. */
  method ReconcileOne(prevArr: seq<Obj>, prevMap: map<Val, Obj>, next: Obj, idKey: string) returns (o: Obj)
    requires prevMap == KeyedMap(prevArr, IdOf(idKey))
    ensures Reconciled(prevArr, next, idKey, o)
  {
    var id := Get(next, idKey);
    var prev := Lookup(prevMap, id);
    var same := false;
    if prev.Some? {
      KeyedMapKeyed(prevArr, IdOf(idKey), id);
      same := ShallowEqualCheck(Ref(prev.value), Ref(next));
    }
    if same {
      o := prev.value;
    } else {
      o := new Obj(Spread(prev, next));
      assert Get(o, idKey) == id by {
        if idKey !in next.fields {
          assert prev.Some? ==> Get(prev.value, idKey) == id;
        }
      }
    }
  }

  /** reconcileArrayById. */
  method ReconcileArrayById(prevArr: seq<Obj>, nextArr: seq<Obj>, idKey: string) returns (result: seq<Obj>)
    ensures |result| == |nextArr|
    ensures forall i :: 0 <= i < |result| ==> Reconciled(prevArr, nextArr[i], idKey, result[i])
  {
    var prevMap := BuildKeyedMap(prevArr, IdOf(idKey));
    result := [];
    for i := 0 to |nextArr|
      invariant |result| == i
      invariant forall j :: 0 <= j < i ==> Reconciled(prevArr, nextArr[j], idKey, result[j])
    {
      var o := ReconcileOne(prevArr, prevMap, nextArr[i], idKey);
      result := result + [o];
    }
  }

  /** Every element of the result is the previous element at the same
      position exactly when the lists have the same length and each new
      element is reused from the previous element at its own position. */
  predicate AllReusedInPlace(prevArr: seq<Obj>, nextArr: seq<Obj>, idKey: string) {
    && |prevArr| == |nextArr|
    && forall i :: 0 <= i < |nextArr| ==>
      Reused(prevArr, nextArr[i], idKey) && PrevFor(prevArr, nextArr[i], idKey) == Some(prevArr[i])
  }

  /** The source's "nothing changed" test, `psLogs.every((l, i) => l ===
      merged[i])` with equal lengths, in terms of the inputs alone. */
  lemma SameReferencesIffReusedInPlace(prevArr: seq<Obj>, nextArr: seq<Obj>, idKey: string, result: seq<Obj>)
    requires |result| == |nextArr|
    requires forall i :: 0 <= i < |result| ==> Reconciled(prevArr, nextArr[i], idKey, result[i])
    ensures (|prevArr| == |result| && forall i :: 0 <= i < |prevArr| ==> prevArr[i] == result[i])
      <==> AllReusedInPlace(prevArr, nextArr, idKey)
  {
    if |prevArr| == |result| && forall i :: 0 <= i < |prevArr| ==> prevArr[i] == result[i] {
      forall i | 0 <= i < |nextArr|
        ensures Reused(prevArr, nextArr[i], idKey) && PrevFor(prevArr, nextArr[i], idKey) == Some(prevArr[i])
      {
        assert Reconciled(prevArr, nextArr[i], idKey, result[i]);
        assert result[i] in prevArr;
      }
    }
  }

  /** Reconciling a list against itself keeps every element in place when
      its ids are distinct: a refresh that brings nothing new changes no
      reference. */
  lemma SameListReusedInPlace(arr: seq<Obj>, idKey: string)
    requires forall i, j :: 0 <= i < j < |arr| ==> Get(arr[i], idKey) != Get(arr[j], idKey)
    ensures AllReusedInPlace(arr, arr, idKey)
  {
    forall i | 0 <= i < |arr|
      ensures Reused(arr, arr[i], idKey) && PrevFor(arr, arr[i], idKey) == Some(arr[i])
    {
      var id := Get(arr[i], idKey);
      KeyedMapIsLast(arr, IdOf(idKey), id);
      assert IdOf(idKey)(arr[i]) == id;
      assert LastWith(arr, IdOf(idKey), id) == i;
    }
  }

  /** With a repeated id the earlier element loses its reference: the id
      map holds the later one. */
  lemma DuplicateIdNotReusedInPlace(arr: seq<Obj>, idKey: string)
    requires |arr| == 2 && arr[0] != arr[1] && Get(arr[0], idKey) == Get(arr[1], idKey)
    ensures !AllReusedInPlace(arr, arr, idKey)
  {
    var id := Get(arr[0], idKey);
    KeyedMapIsLast(arr, IdOf(idKey), id);
    assert IdOf(idKey)(arr[1]) == id;
  }

  // ------------------------------------------------------------ list values

  /** The objects of an array value whose items are all objects. */
  function AsObjs(v: Val): Option<seq<Obj>> {
    if v.Arr? && forall i :: 0 <= i < |v.items| ==> v.items[i].Ref? then
      Some(seq(|v.items|, i requires 0 <= i < |v.items| => v.items[i].obj))
    else None
  }

  /** The array value holding `objs`. */
  function Refs(objs: seq<Obj>): Val {
    Arr(seq(|objs|, i requires 0 <= i < |objs| => Ref(objs[i])))
  }

  lemma AsObjsRefs(objs: seq<Obj>)
    ensures AsObjs(Refs(objs)) == Some(objs)
  {
    var v := Refs(objs);
    assert forall i :: 0 <= i < |v.items| ==> v.items[i] == Ref(objs[i]);
    assert seq(|v.items|, i requires 0 <= i < |v.items| => v.items[i].obj) == objs;
  }

  /** A list parameter with the default `= []`, which replaces undefined only. */
  function Defaulted(v: Val): Val {
    if v.Undefined? then Arr([]) else v
  }

  // ------------------------------------------------------------ reconcileDashboard

  const DashboardKeys: set<string> := {"studyStats", "todayGoals", "recentSessions"}

  /** The callers' side of reconcileDashboard: a truthy `prev` is an object
      and both todayGoals lists are lists of objects (or absent). */
  predicate DashboardInputs(prev: Val, next: Val) {
    !Falsy(prev) ==>
      && prev.Ref?
      && AsObjs(Defaulted(Prop(prev, "todayGoals"))).Some?
      && AsObjs(Defaulted(Prop(next, "todayGoals"))).Some?
  }

  /** reconcileDashboard. */
  method ReconcileDashboard(prev: Val, next: Val) returns (r: Val)
    requires DashboardInputs(prev, next)
    ensures Falsy(prev) ==> r == next
    ensures !Falsy(prev) ==>
      var m := Own(r);
      var prevGoals := AsObjs(Defaulted(Prop(prev, "todayGoals"))).value;
      var nextGoals := AsObjs(Defaulted(Prop(next, "todayGoals"))).value;
      && r.Ref?
      && m.Keys == prev.obj.fields.Keys + DashboardKeys
      && (forall k :: k in prev.obj.fields && k !in DashboardKeys ==> m[k] == prev.obj.fields[k])
      && m["studyStats"] == (if ShallowEqual(Prop(prev, "studyStats"), Prop(next, "studyStats"))
                             then Prop(prev, "studyStats") else Prop(next, "studyStats"))
      && AsObjs(m["todayGoals"]).Some?
      && var goals := AsObjs(m["todayGoals"]).value;
      && |goals| == |nextGoals|
      && (forall i :: 0 <= i < |goals| ==> Reconciled(prevGoals, nextGoals[i], "id", goals[i]))
      && m["recentSessions"] == Prop(next, "recentSessions")
  {
    if Falsy(prev) {
      return next;
    }
    var prevStats := Prop(prev, "studyStats");
    var nextStats := Prop(next, "studyStats");
    var same := ShallowEqualCheck(prevStats, nextStats);
    var stats := if same then prevStats else nextStats;
    var prevGoals := AsObjs(Defaulted(Prop(prev, "todayGoals"))).value;
    var nextGoals := AsObjs(Defaulted(Prop(next, "todayGoals"))).value;
    var goals := ReconcileArrayById(prevGoals, nextGoals, "id");
    AsObjsRefs(goals);
    var merged := new Obj(prev.obj.fields["studyStats" := stats]["todayGoals" := Refs(goals)]
                            ["recentSessions" := Prop(next, "recentSessions")]);
    r := Ref(merged);
  }

  // ------------------------------------------------------------ reconcileLogData

  /** `Number(s.session_id)`, the key sessions are matched by; None is NaN,
      which a `Map` matches with itself. */
  function SessionKey(s: Obj): Option<int> {
    JsValues.NumberOf(ToJs(Get(s, "session_id")))
  }

  /** `v || []` read as a list of objects. */
  function ListOf(v: Val): seq<Obj> {
    var l := AsObjs(Or(v, Arr([])));
    if l.Some? then l.value else []
  }

  predicate IsObjectList(v: Val) {
    AsObjs(Or(v, Arr([]))).Some?
  }

  /** `s.logs || []`. */
  function LogsOf(s: Obj): seq<Obj> {
    ListOf(Get(s, "logs"))
  }

  /** The callers' side of reconcileLogData: a truthy `prev` is an object,
      both session lists are lists of objects (or falsy), and so is every
      session's log list. */
  predicate LogDataInputs(prev: Val, next: Val) {
    !Falsy(prev) ==>
      && prev.Ref?
      && IsObjectList(Prop(prev, "sessions")) && IsObjectList(Prop(next, "sessions"))
      && (forall s :: s in ListOf(Prop(prev, "sessions")) ==> IsObjectList(Get(s, "logs")))
      && (forall s :: s in ListOf(Prop(next, "sessions")) ==> IsObjectList(Get(s, "logs")))
  }

  /** The previous session keeps its reference: the same start, end and
      total, and every log reused in place. */
  predicate SessionUnchanged(ps: Obj, ns: Obj) {
    && Get(ps, "start_time") == Get(ns, "start_time")
    && Get(ps, "end_time") == Get(ns, "end_time")
    && Get(ps, "total_duration") == Get(ns, "total_duration")
    && AllReusedInPlace(LogsOf(ps), LogsOf(ns), "id")
  }

  /** `o` is `{...ps}` with the times of `ns` and, as its log list, the
      reconcileArrayById of the two log lists. */
  predicate MergedSession(ps: Obj, ns: Obj, o: Obj) {
    var l := AsObjs(Get(o, "logs"));
    l.Some? &&
    var logs := l.value;
    && |logs| == |LogsOf(ns)|
    && (forall i :: 0 <= i < |logs| ==> Reconciled(LogsOf(ps), LogsOf(ns)[i], "id", logs[i]))
    && o.fields == ps.fields["start_time" := Get(ns, "start_time")]["end_time" := Get(ns, "end_time")]
                            ["total_duration" := Get(ns, "total_duration")]["logs" := Refs(logs)]
  }

  /** The previous session with `ns`'s key. */
  function PrevSession(prevSessions: seq<Obj>, ns: Obj): Option<Obj> {
    Lookup(KeyedMap(prevSessions, SessionKey), SessionKey(ns))
  }

  /** What reconcileLogData puts in place of the session `ns`: `ns` itself
      when no previous session has its key, the previous session when
      nothing in it changed, and otherwise a new merged session. */
  predicate SessionReconciled(prevSessions: seq<Obj>, ns: Obj, out: Val) {
    var ps := PrevSession(prevSessions, ns);
    && (ps.None? ==> out == Ref(ns))
    && (ps.Some? && SessionUnchanged(ps.value, ns) ==> out == Ref(ps.value))
    && (ps.Some? && !SessionUnchanged(ps.value, ns) ==>
          out.Ref? && out.obj !in prevSessions
          && MergedSession(ps.value, ns, out.obj))
  }

  /** `a.length === b.length && a.every((l, i) => l === b[i])`. */
  method SameReferences(a: seq<Obj>, b: seq<Obj>) returns (same: bool)
    ensures same <==> |a| == |b| && forall j :: 0 <= j < |a| ==> a[j] == b[j]
  {
    if |a| != |b| {
      return false;
    }
    for i := 0 to |a|
      invariant forall j :: 0 <= j < i ==> a[j] == b[j]
    {
      if a[i] != b[i] {
        return false;
      }
    }
    return true;
  }

  /** The body of the loop over the next sessions. */
  method ReconcileSession(prevSessions: seq<Obj>, prevMap: map<Option<int>, Obj>, ns: Obj) returns (out: Val)
    requires prevMap == KeyedMap(prevSessions, SessionKey)
    ensures SessionReconciled(prevSessions, ns, out)
  {
    var ps := Lookup(prevMap, SessionKey(ns));
    if ps.None? {
      return Ref(ns);
    }
    var p := ps.value;
    var psLogs := LogsOf(p);
    var nsLogs := LogsOf(ns);
    var logs := ReconcileArrayById(psLogs, nsLogs, "id");
    SameReferencesIffReusedInPlace(psLogs, nsLogs, "id", logs);
    var unchangedLogs := SameReferences(psLogs, logs);
    if Get(p, "start_time") == Get(ns, "start_time") && Get(p, "end_time") == Get(ns, "end_time")
      && Get(p, "total_duration") == Get(ns, "total_duration") && unchangedLogs
    {
      out := Ref(p);
    } else {
      var merged := new Obj(p.fields["start_time" := Get(ns, "start_time")]["end_time" := Get(ns, "end_time")]
                                     ["total_duration" := Get(ns, "total_duration")]["logs" := Refs(logs)]);
      AsObjsRefs(logs);
      assert MergedSession(p, ns, merged);
      out := Ref(merged);
    }
  }

  /** The session loop of reconcileLogData. */
  method ReconcileSessions(prevSessions: seq<Obj>, nextSessions: seq<Obj>) returns (out: seq<Val>)
    ensures |out| == |nextSessions|
    ensures forall i :: 0 <= i < |out| ==> SessionReconciled(prevSessions, nextSessions[i], out[i])
  {
    var prevMap := BuildKeyedMap(prevSessions, SessionKey);
    out := [];
    for i := 0 to |nextSessions|
      invariant |out| == i
      invariant forall j :: 0 <= j < i ==> SessionReconciled(prevSessions, nextSessions[j], out[j])
    {
      var o := ReconcileSession(prevSessions, prevMap, nextSessions[i]);
      ghost var done := out;
      out := out + [o];
      assert out[i] == o && forall j :: 0 <= j < i ==> out[j] == done[j];
    }
  }

  const LogDataKeys: set<string> := {"daily_summary", "sessions"}

  /** reconcileLogData. */
  method ReconcileLogData(prev: Val, next: Val) returns (r: Val)
    requires LogDataInputs(prev, next)
    ensures Falsy(prev) ==> r == next
    ensures !Falsy(prev) ==>
      var m := Own(r);
      var nextSessions := ListOf(Prop(next, "sessions"));
      && r.Ref?
      && m.Keys == prev.obj.fields.Keys + LogDataKeys
      && (forall k :: k in prev.obj.fields && k !in LogDataKeys ==> m[k] == prev.obj.fields[k])
      && m["daily_summary"] == (if ShallowEqual(Prop(prev, "daily_summary"), Prop(next, "daily_summary"))
                                then Prop(prev, "daily_summary") else Prop(next, "daily_summary"))
      && m["sessions"].Arr? && |m["sessions"].items| == |nextSessions|
      && forall i :: 0 <= i < |nextSessions| ==>
           SessionReconciled(ListOf(Prop(prev, "sessions")), nextSessions[i], m["sessions"].items[i])
  {
    if Falsy(prev) {
      return next;
    }
    var prevSummary := Prop(prev, "daily_summary");
    var nextSummary := Prop(next, "daily_summary");
    var same := ShallowEqualCheck(prevSummary, nextSummary);
    var summary := if same then prevSummary else nextSummary;
    var sessions := ReconcileSessions(ListOf(Prop(prev, "sessions")), ListOf(Prop(next, "sessions")));
    var merged := new Obj(prev.obj.fields["daily_summary" := summary]["sessions" := Arr(sessions)]);
    r := Ref(merged);
  }
}

=== FILE: rescue_hosts.dfy ===
/** The flag and host predicates of webnew/rescue-chat-app/rescue-server.js:
    parseBoolean for environment switches, isLoopbackAddress and
    isPrivateIpv4. */
module RescueHosts {
  import opened Wrappers
  import opened Text
  import JsValues

  // ------------------------------------------------------------ parseBoolean

  predicate IsTrueWord(w: string) {
    w == "1" || w == "true" || w == "yes" || w == "y" || w == "on"
  }

  predicate IsFalseWord(w: string) {
    w == "0" || w == "false" || w == "no" || w == "n" || w == "off"
  }

  /** parseBoolean: booleans pass through, a string is read case- and
      blank-insensitively as one of the switch words, anything else is
      null (None). */
  function ParseBoolean(v: JsValues.JsValue): (r: Option<bool>)
    ensures v.Bool? ==> r == Some(v.b)
    ensures !v.Bool? && !v.Str? ==> r == None
    ensures v.Str? ==> (r == Some(true) <==> IsTrueWord(Lower(JsTrim(v.s))))
    ensures v.Str? ==> (r == Some(false) <==> IsFalseWord(Lower(JsTrim(v.s))))
  {
    match v
    case Bool(b) => Some(b)
    case Str(s) =>
      var normalized := Lower(JsTrim(s));
      if IsTrueWord(normalized) then Some(true)
      else if IsFalseWord(normalized) then Some(false)
      else None
    case _ => None
  }

  /** `String(b)`. */
  function BoolText(b: bool): string {
    if b then "true" else "false"
  }

  /** A boolean written out as text reads back as itself. */
  lemma ParseBooleanRoundTrip(b: bool)
    ensures ParseBoolean(JsValues.Str(BoolText(b))) == Some(b)
  {
    var t := BoolText(b);
    assert JsTrim(t) == t by {
      JsTrimKeeps(t);
    }
    assert Lower(t) == t by {
      LowerKeeps(t);
    }
  }

  /** Case and surrounding blanks do not matter: a setting reads the same as
      its trimmed lower-case form. */
  lemma ParseBooleanNormalized(s: string)
    ensures ParseBoolean(JsValues.Str(s)) == ParseBoolean(JsValues.Str(Lower(JsTrim(s))))
  {
    NormalizeSwitchStable(s);
  }

  /** Trimming and lower-casing a second time changes nothing. */
  lemma NormalizeSwitchStable(s: string)
    ensures Lower(JsTrim(Lower(JsTrim(s)))) == Lower(JsTrim(s))
  {
    var t := JsTrim(s);
    var l := Lower(t);
    if l != [] {
      assert !IsJsSpace(t[0]) && !IsJsSpace(t[|t| - 1]);
      assert l[0] == LowerChar(t[0]) && l[|l| - 1] == LowerChar(t[|t| - 1]);
      JsTrimKeeps(l);
    }
    LowerTwice(t);
  }

  // ------------------------------------------------------------ isLoopbackAddress

  /** `n.replace(/^\[|\]$/g, '')`: a leading `[` and a trailing `]` are
      removed, each on its own. */
  function StripBrackets(n: string): (r: string)
    ensures |r| <= |n|
  {
    var from := if n != [] && n[0] == '[' then 1 else 0;
    var to := if n != [] && n[|n| - 1] == ']' && |n| > from then |n| - 1 else |n|;
    n[from..to]
  }

  /** isLoopbackAddress. */
  function IsLoopbackAddress(hostname: string): bool {
    var normalized := Lower(JsTrim(hostname));
    if hostname == "" || normalized == "" then false
    else if normalized == "localhost" then true
    else if StripBrackets(normalized) == "::1" then true
    else normalized == "127.0.0.1" || normalized == "0.0.0.0"
  }

  /** `::1` with or without either bracket. */
  predicate IsBracketedLoopback(n: string) {
    n == "::1" || n == "[::1]" || n == "[::1" || n == "::1]"
  }

  predicate IsLoopbackName(n: string) {
    n == "localhost" || IsBracketedLoopback(n) || n == "127.0.0.1" || n == "0.0.0.0"
  }

  /** The names isLoopbackAddress accepts, after trimming and
      lower-casing. */
  lemma LoopbackExactly(hostname: string)
    ensures IsLoopbackAddress(hostname) <==> IsLoopbackName(Lower(JsTrim(hostname)))
  {
    var n := Lower(JsTrim(hostname));
    assert hostname == "" ==> n == "";
    assert IsLoopbackAddress(hostname) <==>
      n != "" && (n == "localhost" || StripBrackets(n) == "::1" || n == "127.0.0.1" || n == "0.0.0.0");
    StripBracketsLoopback(n);
  }

  lemma StripBracketsLoopback(n: string)
    ensures StripBrackets(n) == "::1" <==> IsBracketedLoopback(n)
  {
    var r := StripBrackets(n);
    var from := if n != [] && n[0] == '[' then 1 else 0;
    var to := if n != [] && n[|n| - 1] == ']' && |n| > from then |n| - 1 else |n|;
    assert n == n[..from] + r + n[to..];
    if from == 1 {
      assert n[..from] == "[";
    } else {
      assert n[..from] == "";
    }
    if to == |n| - 1 {
      assert n[to..] == "]";
    } else {
      assert n[to..] == "";
    }
  }

  // ------------------------------------------------------------ isPrivateIpv4

  /** One part of a dotted quad as `net.isIP` accepts it: one to three
      decimal digits, no leading zero, at most 255. */
  predicate IsOctetText(p: string) {
    1 <= |p| <= 3 && AllDigits(p) && (|p| > 1 ==> p[0] != '0') && DecimalValue(p) <= 255
  }

  /** `net.isIP(h) === 4`. */
  predicate IsIPv4(h: string) {
    var parts := Split(h, '.');
    |parts| == 4 && forall i :: 0 <= i < 4 ==> IsOctetText(parts[i])
  }

  /** The four parts of a dotted quad read with `parseInt(part, 10)`. */
  function Octets(h: string): (r: seq<nat>)
    requires IsIPv4(h)
    ensures |r| == 4 && forall i :: 0 <= i < 4 ==> r[i] <= 255
  {
    var parts := Split(h, '.');
    [DecimalValue(parts[0]), DecimalValue(parts[1]), DecimalValue(parts[2]), DecimalValue(parts[3])]
  }

  /** isPrivateIpv4. */
  function IsPrivateIpv4(hostname: string): bool {
    if hostname == "" || !IsIPv4(hostname) then false
    else
      var segments := Octets(hostname);
      if exists i :: 0 <= i < 4 && segments[i] > 255 then false
      else
        var a := segments[0];
        var b := segments[1];
        || a == 10 || a == 127 || a == 0
        || (a == 169 && b == 254)
        || (a == 172 && 16 <= b <= 31)
        || (a == 192 && b == 168)
  }

  /** The address as a 32-bit number. */
  function Address(h: string): nat
    requires IsIPv4(h)
  {
    var o := Octets(h);
    o[0] * 16777216 + o[1] * 65536 + o[2] * 256 + o[3]
  }

  /** A CIDR block: a base address and a prefix length of 8, 12 or 16. */
  datatype Block = Block(base: nat, prefix: nat)

  function BlockSpan(prefix: nat): nat {
    if prefix == 8 then 16777216 else if prefix == 12 then 1048576 else 65536
  }

  predicate InBlock(addr: nat, block: Block) {
    addr / BlockSpan(block.prefix) == block.base / BlockSpan(block.prefix)
  }

  /** 10/8, 127/8, 0/8, 169.254/16, 172.16/12 and 192.168/16. */
  const PrivateBlocks: seq<Block> := [
    Block(167772160, 8), Block(2130706432, 8), Block(0, 8),
    Block(2851995648, 16), Block(2886729728, 12), Block(3232235520, 16)
  ]

  /** isPrivateIpv4 holds exactly for valid dotted quads inside one of the
      private, loopback, unspecified and link-local blocks. */
  lemma PrivateIffInBlock(h: string)
    ensures IsPrivateIpv4(h) <==>
      IsIPv4(h) && exists i :: 0 <= i < |PrivateBlocks| && InBlock(Address(h), PrivateBlocks[i])
  {
    if IsIPv4(h) {
      assert h != "" by {
        assert Split("", '.') == [""];
      }
      var o := Octets(h);
      var addr := Address(h);
      var a, b := o[0], o[1];
      AddressDivisions(a, b, o[2], o[3]);
      BlocksByOctets(addr, a, b);
    }
  }

  /** Membership in each private block read off the first two octets. */
  lemma BlocksByOctets(addr: nat, a: nat, b: nat)
    requires a <= 255 && b <= 255
    requires addr / 16777216 == a && addr / 1048576 == a * 16 + b / 16 && addr / 65536 == a * 256 + b
    ensures InBlock(addr, PrivateBlocks[0]) <==> a == 10
    ensures InBlock(addr, PrivateBlocks[1]) <==> a == 127
    ensures InBlock(addr, PrivateBlocks[2]) <==> a == 0
    ensures InBlock(addr, PrivateBlocks[3]) <==> a == 169 && b == 254
    ensures InBlock(addr, PrivateBlocks[4]) <==> a == 172 && 16 <= b <= 31
    ensures InBlock(addr, PrivateBlocks[5]) <==> a == 192 && b == 168
  {
    assert 167772160 / 16777216 == 10 && 2130706432 / 16777216 == 127 && 0 / 16777216 == 0;
    assert 2851995648 / 65536 == 169 * 256 + 254 && 3232235520 / 65536 == 192 * 256 + 168;
    assert 2886729728 / 1048576 == 172 * 16 + 1;
    assert 0 <= b / 16 <= 15;
    assert b / 16 == 1 <==> 16 <= b <= 31;
  }

  /** The leading 8, 12 and 16 bits of an address. */
  lemma AddressDivisions(a: nat, b: nat, c: nat, d: nat)
    requires a <= 255 && b <= 255 && c <= 255 && d <= 255
    ensures (a * 16777216 + b * 65536 + c * 256 + d) / 16777216 == a
    ensures (a * 16777216 + b * 65536 + c * 256 + d) / 1048576 == a * 16 + b / 16
    ensures (a * 16777216 + b * 65536 + c * 256 + d) / 65536 == a * 256 + b
  {
    var low := c * 256 + d;
    assert 0 <= low < 65536;
    assert a * 16777216 + b * 65536 + low == (a * 256 + b) * 65536 + low;
    assert b * 65536 + low < 16777216;
    assert a * 16777216 + b * 65536 + low == (a * 16 + b / 16) * 1048576 + ((b % 16) * 65536 + low);
  }
}

=== FILE: rescue_paths.dfy ===
/** normalizePath of webnew/rescue-chat-app/rescue-server.js: the canonical
    form in which the rescue server compares request paths and the local API
    prefixes. */
module RescuePaths {
  import opened Text

  /** `s.slice(0, s.indexOf(c))` when `c` occurs, else `s`. */
  function CutBefore(s: string, c: char): (r: string)
    ensures r <= s && c !in r
    ensures c !in s ==> r == s
  {
    var k := IndexOfChar(s, c);
    if k == -1 then s else s[..k]
  }

  predicate NoDoubleSlash(s: string) {
    forall i :: 0 <= i < |s| - 1 ==> !(s[i] == '/' && s[i + 1] == '/')
  }

  /** The characters of `s` other than `/`, in order. */
  function WithoutSlashes(s: string): string {
    if s == [] then []
    else (if s[0] == '/' then [] else [s[0]]) + WithoutSlashes(s[1..])
  }

  /** `s.replace(/\/{2,}/g, '/')`: every run of slashes becomes one. */
  function CollapseSlashes(s: string): (r: string)
    ensures |r| <= |s|
    ensures NoDoubleSlash(r)
    ensures WithoutSlashes(r) == WithoutSlashes(s)
    ensures s != [] ==> r != [] && r[0] == s[0]
    ensures forall c :: c in r ==> c in s
  {
    if |s| < 2 then s
    else if s[0] == '/' && s[1] == '/' then CollapseSlashes(s[1..])
    else
      var rest := CollapseSlashes(s[1..]);
      assert ([s[0]] + rest)[1..] == rest;
      [s[0]] + rest
  }

  /** The trailing-slash loop: slashes are dropped from the end while more
      than one character is left. */
  function TrimTrailingSlashes(s: string): (r: string)
    ensures r <= s
    ensures s != [] ==> r != []
    ensures |r| > 1 ==> r[|r| - 1] != '/'
    ensures forall i :: |r| <= i < |s| ==> s[i] == '/'
  {
    if |s| > 1 && s[|s| - 1] == '/' then TrimTrailingSlashes(s[..|s| - 1]) else s
  }

  /** The path before lower-casing: trimmed, cut before `#` and then `?`,
      given a leading `/`, runs of slashes collapsed, trailing slashes
      dropped. */
  function PathBody(value: string): string {
    var cut := CutBefore(CutBefore(JsTrim(value), '#'), '?');
    var rooted := if StartsWith(cut, "/") then cut else "/" + cut;
    TrimTrailingSlashes(CollapseSlashes(rooted))
  }

  /** What normalizePath returns. */
  function NormalizedPath(value: string): string {
    if JsTrim(value) == "" then "" else Lower(PathBody(value))
  }

  /** normalizePath, with its loop over trailing slashes. */
  method NormalizePath(value: string) returns (r: string)
    ensures r == NormalizedPath(value)
  {
    if value == "" {
      return "";
    }
    var path := JsTrim(value);
    if path == "" {
      return "";
    }
    path := CutBefore(path, '#');
    path := CutBefore(path, '?');
    if !StartsWith(path, "/") {
      path := "/" + path;
    }
    path := CollapseSlashes(path);
    ghost var collapsed := path;
    while |path| > 1 && path[|path| - 1] == '/'
      invariant TrimTrailingSlashes(path) == TrimTrailingSlashes(collapsed)
      decreases |path|
    {
      path := path[..|path| - 1];
    }
    r := Lower(path);
  }

  /** A canonical path: it starts with `/`, holds no `//`, `?` or `#`, ends
      with `/` only when it is `/` itself, and has no upper-case letter. */
  predicate Canonical(p: string) {
    && p != [] && p[0] == '/'
    && NoDoubleSlash(p)
    && '?' !in p && '#' !in p
    && (|p| > 1 ==> p[|p| - 1] != '/')
    && NoUpper(p)
  }

  predicate NoUpper(p: string) {
    forall i :: 0 <= i < |p| ==> !('A' <= p[i] <= 'Z')
  }

  /** normalizePath is empty exactly for blank input and canonical
      otherwise. */
  lemma NormalizedPathCanonical(value: string)
    ensures NormalizedPath(value) == "" <==> JsTrim(value) == ""
    ensures NormalizedPath(value) != "" ==> Canonical(NormalizedPath(value))
  {
    if JsTrim(value) != "" {
      PathBodyShape(value);
      LowerShape(PathBody(value));
    }
  }

  /** The shape of the path before lower-casing. */
  lemma PathBodyShape(value: string)
    ensures var body := PathBody(value);
      && body != [] && body[0] == '/' && NoDoubleSlash(body) && '?' !in body && '#' !in body
      && (|body| > 1 ==> body[|body| - 1] != '/')
  {
    var cut := CutBefore(CutBefore(JsTrim(value), '#'), '?');
    var rooted := if StartsWith(cut, "/") then cut else "/" + cut;
    RootedShape(cut, rooted);
    var collapsed := CollapseSlashes(rooted);
    PrefixShape(TrimTrailingSlashes(collapsed), collapsed);
  }

  lemma RootedShape(cut: string, rooted: string)
    requires '#' !in cut && '?' !in cut
    requires rooted == if StartsWith(cut, "/") then cut else "/" + cut
    ensures rooted != [] && rooted[0] == '/' && '#' !in rooted && '?' !in rooted
  {
    assert forall c :: c in rooted ==> c == '/' || c in cut;
  }

  lemma PrefixShape(body: string, whole: string)
    requires body <= whole && NoDoubleSlash(whole) && '#' !in whole && '?' !in whole
    ensures NoDoubleSlash(body) && '#' !in body && '?' !in body
  {
    assert forall i :: 0 <= i < |body| ==> body[i] == whole[i];
  }

  /** Lower-casing keeps a canonical shape. */
  lemma LowerShape(p: string)
    requires p != [] && p[0] == '/' && NoDoubleSlash(p) && '?' !in p && '#' !in p
    requires |p| > 1 ==> p[|p| - 1] != '/'
    ensures Canonical(Lower(p))
  {
    var l := Lower(p);
    forall i | 0 <= i < |p|
      ensures (l[i] == '/' <==> p[i] == '/') && (l[i] == '?' <==> p[i] == '?') && (l[i] == '#' <==> p[i] == '#')
      ensures !('A' <= l[i] <= 'Z')
    {
      LowerCharMarks(p[i]);
    }
    assert l[0] == '/';
    assert NoDoubleSlash(l);
    assert '?' !in l && '#' !in l;
  }

  /** Lower-casing leaves `/`, `?` and `#` where they are and removes every
      upper-case letter. */
  lemma LowerCharMarks(c: char)
    ensures (LowerChar(c) == '/' <==> c == '/') && (LowerChar(c) == '?' <==> c == '?')
    ensures (LowerChar(c) == '#' <==> c == '#') && !('A' <= LowerChar(c) <= 'Z')
  {
  }

  /** A path without a double slash has nothing to collapse. */
  lemma {:induction false} CollapseKeeps(s: string)
    requires NoDoubleSlash(s)
    ensures CollapseSlashes(s) == s
  {
    if |s| >= 2 {
      assert NoDoubleSlash(s[1..]) by {
        assert forall i :: 0 <= i < |s[1..]| ==> s[1..][i] == s[i + 1];
      }
      CollapseKeeps(s[1..]);
      assert s == [s[0]] + s[1..];
    }
  }

  /** A canonical path whose last character is not blank normalises to
      itself. */
  lemma NormalizeCanonical(p: string)
    requires Canonical(p) && !IsJsSpace(p[|p| - 1])
    ensures NormalizedPath(p) == p
  {
    assert !IsJsSpace(p[0]);
    JsTrimKeeps(p);
    CollapseKeeps(p);
    LowerKeeps(PathBody(p));
    assert StartsWith(p, "/");
  }

  /** Normalising twice is normalising once, unless the first result ends
      in a blank (which a second trim removes). */
  lemma NormalizeIdempotent(value: string)
    requires var r := NormalizedPath(value); r == "" || !IsJsSpace(r[|r| - 1])
    ensures NormalizedPath(NormalizedPath(value)) == NormalizedPath(value)
  {
    NormalizedPathCanonical(value);
    var r := NormalizedPath(value);
    if r == "" {
      assert JsTrim(r) == "";
    } else {
      NormalizeCanonical(r);
    }
  }

  /** A non-empty prefix of a canonical path is rooted, and has nothing to cut,
      collapse or lower-case. */
  lemma CanonicalPrefix(n: string, t: string)
    requires Canonical(n) && t <= n && t != []
    ensures CutBefore(CutBefore(t, '#'), '?') == t && StartsWith(t, "/")
    ensures NoDoubleSlash(t) && NoUpper(t)
  {
    assert forall k :: 0 <= k < |t| ==> t[k] == n[k];
    assert '#' !in t && '?' !in t by {
      forall k | 0 <= k < |t| ensures t[k] != '#' && t[k] != '?' { assert n[k] in n; }
    }
  }

  /** Trimming a canonical path keeps every character up to the last one that
      is not blank. */
  lemma TrimCanonical(n: string, k: nat)
    requires Canonical(n) && 0 < k <= |n| && !IsJsSpace(n[k - 1])
    ensures JsTrim(n) <= n && |JsTrim(n)| >= k
  {
    assert n[0] == '/';
    assert TrimStart(n, IsJsSpace) == n;
    var r := TrimEnd(n, IsJsSpace);
    assert JsTrim(n) == r;
  }

  /** For a canonical path the body is its trimmed form without trailing slashes. */
  lemma PathBodyCanonical(n: string)
    requires Canonical(n) && JsTrim(n) <= n && JsTrim(n) != []
    ensures PathBody(n) == TrimTrailingSlashes(JsTrim(n))
  {
    var t := JsTrim(n);
    CanonicalPrefix(n, t);
    CollapseKeeps(t);
  }

  /** Normalising a canonical path again only drops a tail of blanks and
      slashes: the result is a prefix of the path that keeps every character
      up to the last one that is neither. */
  lemma RenormalizeCanonical(n: string, k: nat)
    requires Canonical(n) && 0 < k <= |n| && !IsJsSpace(n[k - 1]) && n[k - 1] != '/'
    ensures NormalizedPath(n) <= n && |NormalizedPath(n)| >= k
  {
    TrimCanonical(n, k);
    var t := JsTrim(n);
    PathBodyCanonical(n);
    var r := TrimTrailingSlashes(t);
    TrimmedSlashesKeep(n, t, k);
    NoUpperPrefix(n, r);
    LowerKeeps(r);
    assert NormalizedPath(n) == Lower(r);
  }

  lemma NoUpperPrefix(n: string, r: string)
    requires NoUpper(n) && r <= n
    ensures NoUpper(r)
  {
    assert forall i :: 0 <= i < |r| ==> r[i] == n[i];
  }

  lemma TrimmedSlashesKeep(n: string, t: string, k: nat)
    requires t <= n && 0 < k <= |t| && n[k - 1] != '/'
    ensures TrimTrailingSlashes(t) <= n && |TrimTrailingSlashes(t)| >= k
  {
    var r := TrimTrailingSlashes(t);
    if |r| < k { assert t[k - 1] == n[k - 1]; }
  }

  /** A path at or below a prefix ending in a character that is neither blank
      nor a slash is still at or below it after a second normalisation. */
  lemma RenormalizeUnder(n: string, p: string)
    requires Canonical(n) && p != [] && !IsJsSpace(p[|p| - 1]) && p[|p| - 1] != '/'
    requires n == p || StartsWith(n, p + "/")
    ensures var m := NormalizedPath(n); m == p || StartsWith(m, p + "/")
  {
    assert n[|p| - 1] == p[|p| - 1];
    RenormalizeCanonical(n, |p|);
    PrefixStaysUnder(n, NormalizedPath(n), p);
  }

  /** A prefix of a path at or below `p` that is at least as long as `p` is
      itself at or below `p`. */
  lemma PrefixStaysUnder(n: string, m: string, p: string)
    requires m <= n && |m| >= |p|
    requires n == p || StartsWith(n, p + "/")
    ensures m == p || StartsWith(m, p + "/")
  {
    assert forall i :: 0 <= i < |p| ==> m[i] == n[i] == p[i];
    if |m| > |p| {
      assert m[|p|] == n[|p|] == (p + "/")[|p|];
      assert m[..|p| + 1] == p + "/";
    } else {
      assert m == p;
    }
  }
}

=== FILE: rescue_proxy.dfy ===
/** The proxy routing of webnew/rescue-chat-app/rescue-server.js: which
    request paths the rescue app answers itself (the local API prefixes) and
    which it forwards to the main backend, the connection settings for the
    forwarded request, and the `x-forwarded-for` header it appends to. */
module RescueProxy {
  import opened Wrappers
  import opened Text
  import opened RescuePaths

  // ------------------------------------------------------------ LOCAL_API_PREFIXES

  /** `entries.map(normalizePath)`. */
  function NormalizeAll(entries: seq<string>): (r: seq<string>)
    ensures |r| == |entries|
    ensures forall i :: 0 <= i < |r| ==> r[i] == NormalizedPath(entries[i])
  {
    seq(|entries|, i requires 0 <= i < |entries| => NormalizedPath(entries[i]))
  }

  /** `[...new Set(s)]`: the first occurrence of each entry, in order. */
  function Dedupe(s: seq<string>): (r: seq<string>)
    ensures Distinct(r)
    ensures forall x :: x in r <==> x in s
  {
    if s == [] then []
    else
      var d := Dedupe(s[..|s| - 1]);
      var last := s[|s| - 1];
      assert s == s[..|s| - 1] + [last];
      if last in d then d else d + [last]
  }

  const SettingsPrefix: string := "/api/settings"

  /** `A || B || ''` over two environment strings (unset reads as ""). */
  function EnvOr(a: string, b: string): string {
    if a != "" then a else b
  }

  /** LOCAL_API_PREFIXES, from RESCUE_LOCAL_API_PREFIXES and
      RESCUE_LOCAL_API_ROUTES. */
  function LocalApiPrefixes(envPrefixes: string, envRoutes: string): seq<string> {
    var fromEnv := NonEmpty(NormalizeAll(Split(EnvOr(envPrefixes, envRoutes), ',')));
    var defaults := NonEmpty(NormalizeAll([SettingsPrefix]));
    Dedupe(fromEnv + defaults)
  }

  lemma SettingsPrefixCanonical()
    ensures NormalizedPath(SettingsPrefix) == SettingsPrefix
  {
    var p := SettingsPrefix;
    NormalizeCanonical(p);
  }

  /** The normalised default list is `/api/settings` alone. */
  lemma DefaultsNormalized()
    ensures NonEmpty(NormalizeAll([SettingsPrefix])) == [SettingsPrefix]
  {
    SettingsPrefixCanonical();
    NormalizeOne(SettingsPrefix);
  }

  lemma NormalizeOne(p: string)
    requires NormalizedPath(p) == p != ""
    ensures NonEmpty(NormalizeAll([p])) == [p]
  {
    NormalizeSingle(p);
    NonEmptySingle(p);
  }

  lemma NormalizeSingle(p: string)
    requires NormalizedPath(p) == p
    ensures NormalizeAll([p]) == [p]
  {
    assert NormalizeAll([p])[0] == p;
  }

  lemma NonEmptySingle(p: string)
    requires p != ""
    ensures NonEmpty([p]) == [p]
  {
    assert NonEmpty([p]) == [p] + NonEmpty([]);
  }

  /** The normalised entries are the normal forms of the entries. */
  lemma NormalizeAllMembers(entries: seq<string>, p: string)
    ensures p in NormalizeAll(entries) <==> exists e :: e in entries && NormalizedPath(e) == p
  {
    var normalized := NormalizeAll(entries);
    if p in normalized {
      var i :| 0 <= i < |normalized| && normalized[i] == p;
      assert entries[i] in entries;
    }
    if exists e :: e in entries && NormalizedPath(e) == p {
      var e :| e in entries && NormalizedPath(e) == p;
      var i :| 0 <= i < |entries| && entries[i] == e;
      assert normalized[i] == p;
    }
  }

  /** `p` is the non-blank normal form of an entry of the comma-separated
      setting. */
  predicate FromSetting(envPrefixes: string, envRoutes: string, p: string) {
    p != "" && exists e :: e in Split(EnvOr(envPrefixes, envRoutes), ',') && NormalizedPath(e) == p
  }

  /** The prefixes are exactly `/api/settings` and the normalised
      non-blank entries of the comma-separated setting. */
  lemma LocalApiPrefixesMembers(envPrefixes: string, envRoutes: string, p: string)
    ensures p in LocalApiPrefixes(envPrefixes, envRoutes) <==> p == SettingsPrefix || FromSetting(envPrefixes, envRoutes, p)
  {
    var entries := Split(EnvOr(envPrefixes, envRoutes), ',');
    PrefixesFromEntries(envPrefixes, envRoutes);
    assert p in NonEmpty(NormalizeAll(entries)) + [SettingsPrefix] <==>
      p == SettingsPrefix || (p != "" && p in NormalizeAll(entries));
    NormalizeAllMembers(entries, p);
  }

  lemma PrefixesFromEntries(envPrefixes: string, envRoutes: string)
    ensures LocalApiPrefixes(envPrefixes, envRoutes) ==
      Dedupe(NonEmpty(NormalizeAll(Split(EnvOr(envPrefixes, envRoutes), ','))) + [SettingsPrefix])
  {
    DefaultsNormalized();
  }

  /** The prefixes always include `/api/settings`, hold no duplicate and no
      empty entry, and are exactly the normalised non-blank entries of the
      comma-separated setting plus `/api/settings`. */
  lemma LocalApiPrefixesShape(envPrefixes: string, envRoutes: string)
    ensures var r := LocalApiPrefixes(envPrefixes, envRoutes);
      && SettingsPrefix in r && Distinct(r) && "" !in r
      && forall p :: p in r <==> p == SettingsPrefix || FromSetting(envPrefixes, envRoutes, p)
  {
    forall p
      ensures p in LocalApiPrefixes(envPrefixes, envRoutes) <==> p == SettingsPrefix || FromSetting(envPrefixes, envRoutes, p)
    {
      LocalApiPrefixesMembers(envPrefixes, envRoutes, p);
    }
    LocalApiPrefixesMembers(envPrefixes, envRoutes, SettingsPrefix);
    LocalApiPrefixesMembers(envPrefixes, envRoutes, "");
  }

  /** Every prefix is a canonical path. */
  lemma LocalApiPrefixesCanonical(envPrefixes: string, envRoutes: string)
    ensures forall p :: p in LocalApiPrefixes(envPrefixes, envRoutes) ==> Canonical(p)
  {
    LocalApiPrefixesShape(envPrefixes, envRoutes);
    forall p | p in LocalApiPrefixes(envPrefixes, envRoutes)
      ensures Canonical(p)
    {
      if p == SettingsPrefix {
        SettingsPrefixCanonical();
        NormalizedPathCanonical(SettingsPrefix);
      } else {
        assert FromSetting(envPrefixes, envRoutes, p);
        var e :| e in Split(EnvOr(envPrefixes, envRoutes), ',') && NormalizedPath(e) == p;
        NormalizedPathCanonical(e);
      }
    }
  }

  // ------------------------------------------------------------ isLocalApiPath

  /** One prefix of the local list matches the normalised path: a wildcard
      prefix (one ending in a slash and a star) by its normalised base, any
      other one by itself, each as the path itself or as the path followed
      by `/` and more. */
  predicate MatchesPrefix(normalized: string, prefix: string) {
    && prefix != ""
    && (if EndsWith(prefix, "/*") then
          (var base := NormalizedPath(prefix[..|prefix| - 2]);
           base != "" && (normalized == base || StartsWith(normalized, base + "/")))
        else
          normalized == prefix || StartsWith(normalized, prefix + "/"))
  }

  /** What isLocalApiPath answers. */
  predicate IsLocalApi(pathname: string, prefixes: seq<string>) {
    var normalized := NormalizedPath(pathname);
    normalized != "" && exists i :: 0 <= i < |prefixes| && MatchesPrefix(normalized, prefixes[i])
  }

  /** isLocalApiPath, with its loop over the prefixes. */
  method IsLocalApiPath(pathname: string, prefixes: seq<string>) returns (r: bool)
    ensures r == IsLocalApi(pathname, prefixes)
  {
    var normalized := NormalizePath(pathname);
    if normalized == "" {
      return false;
    }
    for i := 0 to |prefixes|
      invariant NoneMatch(normalized, prefixes, i)
    {
      var matched := MatchPrefix(normalized, prefixes[i]);
      if matched {
        LocalApiAt(pathname, prefixes, i);
        return true;
      }
      NoneMatchStep(normalized, prefixes, i);
    }
    NoneMatchNotLocal(pathname, prefixes);
    return false;
  }

  /** No prefix before the `n`th matches. */
  predicate NoneMatch(normalized: string, prefixes: seq<string>, n: nat)
    requires n <= |prefixes|
  {
    forall j :: 0 <= j < n ==> !MatchesPrefix(normalized, prefixes[j])
  }

  lemma NoneMatchStep(normalized: string, prefixes: seq<string>, n: nat)
    requires n < |prefixes| && NoneMatch(normalized, prefixes, n)
    requires !MatchesPrefix(normalized, prefixes[n])
    ensures NoneMatch(normalized, prefixes, n + 1)
  {
  }

  lemma NoneMatchNotLocal(pathname: string, prefixes: seq<string>)
    requires NoneMatch(NormalizedPath(pathname), prefixes, |prefixes|)
    ensures !IsLocalApi(pathname, prefixes)
  {
  }

  lemma LocalApiAt(pathname: string, prefixes: seq<string>, i: nat)
    requires i < |prefixes| && NormalizedPath(pathname) != ""
    requires MatchesPrefix(NormalizedPath(pathname), prefixes[i])
    ensures IsLocalApi(pathname, prefixes)
  {
  }

  /** One turn of isLocalApiPath's loop. */
  method MatchPrefix(normalized: string, prefix: string) returns (matched: bool)
    ensures matched == MatchesPrefix(normalized, prefix)
  {
    if prefix == "" {
      return false;
    }
    if EndsWith(prefix, "/*") {
      var base := NormalizePath(prefix[..|prefix| - 2]);
      if base == "" {
        return false;
      }
      return normalized == base || StartsWith(normalized, base + "/");
    }
    return normalized == prefix || StartsWith(normalized, prefix + "/");
  }

  /** A prefix does not match a longer name that merely starts with it:
      `/api/settingsx` is not under `/api/settings`. */
  lemma SettingsSiblingNotMatched()
    ensures !MatchesPrefix("/api/settingsx", SettingsPrefix)
    ensures MatchesPrefix("/api/settings/theme", SettingsPrefix)
  {
    var p := SettingsPrefix;
    assert !EndsWith(p, "/*") by {
      assert p[|p| - 1] == 's';
    }
    assert "/api/settingsx"[13] == 'x';
    assert (p + "/")[13] == '/';
    assert p + "/" == "/api/settings/";
    assert "/api/settings/theme"[..14] == "/api/settings/";
  }

  /** A wildcard prefix over a canonical base matches exactly what the base
      alone matches. */
  lemma WildcardSameAsBase(normalized: string, base: string)
    requires Canonical(base) && !IsJsSpace(base[|base| - 1]) && !EndsWith(base, "/*")
    ensures MatchesPrefix(normalized, base + "/*") <==> MatchesPrefix(normalized, base)
  {
    var prefix := base + "/*";
    assert EndsWith(prefix, "/*");
    assert prefix[..|prefix| - 2] == base;
    NormalizeCanonical(base);
  }

  // ------------------------------------------------------------ shouldProxyToBackend

  predicate UnderApi(normalized: string) {
    normalized == "/api" || StartsWith(normalized, "/api/")
  }

  /** shouldProxyToBackend: the path is under `/api` and is not a local API
      path (isLocalApiPath is given the already normalised path). */
  method ShouldProxyToBackend(pathname: string, prefixes: seq<string>) returns (r: bool)
    ensures var normalized := NormalizedPath(pathname);
      r <==> normalized != "" && !IsLocalApi(normalized, prefixes) && UnderApi(normalized)
  {
    var normalized := NormalizePath(pathname);
    if normalized == "" {
      return false;
    }
    var local := IsLocalApiPath(normalized, prefixes);
    if local {
      return false;
    }
    if normalized == "/api" {
      return true;
    }
    return StartsWith(normalized, "/api/");
  }

  /** `/api/settings` covers itself and everything below it. */
  lemma SettingsPrefixMatches(n: string)
    requires n == SettingsPrefix || StartsWith(n, SettingsPrefix + "/")
    ensures MatchesPrefix(n, SettingsPrefix)
  {
    assert !EndsWith(SettingsPrefix, "/*") by {
      assert SettingsPrefix[|SettingsPrefix| - 1] == 's';
    }
  }

  /** isLocalApiPath normalises the already normalised path again; a path at
      or below `/api/settings` stays there, even when the second trim drops a
      blank the first normalisation left before a `#` or `?`. */
  lemma SettingsRenormalized(n: string)
    requires Canonical(n) && (n == SettingsPrefix || StartsWith(n, SettingsPrefix + "/"))
    ensures var m := NormalizedPath(n); m == SettingsPrefix || StartsWith(m, SettingsPrefix + "/")
  {
    assert SettingsPrefix[|SettingsPrefix| - 1] == 's';
    RenormalizeUnder(n, SettingsPrefix);
  }

  /** Paths under a local prefix are never forwarded: `/api/settings` and
      everything below it stay with the rescue app, whatever the setting
      adds. */
  lemma SettingsNeverProxied(pathname: string, envPrefixes: string, envRoutes: string)
    requires var n := NormalizedPath(pathname); n == SettingsPrefix || StartsWith(n, SettingsPrefix + "/")
    ensures IsLocalApi(NormalizedPath(pathname), LocalApiPrefixes(envPrefixes, envRoutes))
  {
    var n := NormalizedPath(pathname);
    NormalizedPathCanonical(pathname);
    SettingsRenormalized(n);
    var prefixes := LocalApiPrefixes(envPrefixes, envRoutes);
    LocalApiPrefixesShape(envPrefixes, envRoutes);
    var i :| 0 <= i < |prefixes| && prefixes[i] == SettingsPrefix;
    SettingsPrefixMatches(NormalizedPath(n));
    assert MatchesPrefix(NormalizedPath(n), prefixes[i]);
  }

  // ------------------------------------------------------------ resolveProxyConfig

  /** The parts of the parsed target URL the proxy reads. */
  datatype Target = Target(protocol: string, port: string, hostname: string)

  /** `target.port || default`: the URL's own port text, or a number. */
  datatype Port = PortText(text: string) | PortNumber(n: nat)

  /** The settings of the forwarded request; `rejectUnauthorized` None is
      `undefined`. */
  datatype ProxyConfig = ProxyConfig(secure: bool, requestProtocol: string, port: Port, rejectUnauthorized: Option<bool>)

  /** resolveProxyConfig. Whether self-signed certificates are allowed for
      the target host (shouldAllowSelfSignedCertificates, which reads the
      environment) is given as `allowSelfSigned`. */
  function ResolveProxyConfig(target: Option<Target>, allowSelfSigned: bool): (c: ProxyConfig)
    ensures c.secure <==> c.requestProtocol == "https:"
    ensures !c.secure ==> c.rejectUnauthorized == None
    ensures c.secure ==> (c.rejectUnauthorized == Some(false) <==> allowSelfSigned) && c.rejectUnauthorized != Some(true)
  {
    var protocol := if target.Some? then Lower(target.value.protocol) else "";
    var requestProtocol :=
      if protocol == "ws:" then "http:" else if protocol == "wss:" then "https:" else protocol;
    var isSecure := requestProtocol == "https:";
    var port :=
      if target.Some? && target.value.port != "" then PortText(target.value.port)
      else PortNumber(if isSecure then 443 else 80);
    var rejectUnauthorized := if isSecure && allowSelfSigned then Some(false) else None;
    ProxyConfig(isSecure, requestProtocol, port, rejectUnauthorized)
  }

  /** WebSocket schemes travel as their HTTP counterparts: the request is
      secure exactly for `https:` and `wss:` targets (in any case), and the
      default port follows. */
  lemma ProxySchemes(target: Target, allowSelfSigned: bool)
    ensures var c := ResolveProxyConfig(Some(target), allowSelfSigned);
      && (c.secure <==> Lower(target.protocol) == "https:" || Lower(target.protocol) == "wss:")
      && (Lower(target.protocol) == "ws:" ==> c.requestProtocol == "http:")
      && (Lower(target.protocol) == "wss:" ==> c.requestProtocol == "https:")
      && (target.port == "" ==> c.port == PortNumber(if c.secure then 443 else 80))
      && (target.port != "" ==> c.port == PortText(target.port))
  {
  }

  // ------------------------------------------------------------ appendForwardedFor

  /** A header value: one string or a list of strings. */
  datatype HeaderValue = Text(s: string) | List(items: seq<string>)

  /** The outgoing request headers, which appendForwardedFor updates in
      place. */
  class Headers {
    var entries: map<string, HeaderValue>

    constructor (entries: map<string, HeaderValue>)
      ensures this.entries == entries
    {
      this.entries := entries;
    }
  }

  const ForwardedForKey: string := "x-forwarded-for"

  /** The address text: a list's non-empty entries joined with `, `, or the
      trimmed string. */
  function AddressText(address: HeaderValue): string {
    match address
    case List(items) => Join(NonEmpty(items), ", ")
    case Text(s) => JsTrim(s)
  }

  /** The addresses already in the header, as the text the new one is
      appended to. */
  function Prior(existing: Option<HeaderValue>): string {
    match existing
    case None => ""
    case Some(List(items)) => Join(NonEmpty(items), ", ")
    case Some(Text(s)) => JsTrim(s)
  }

  /** The new header text for `value` (not empty) after `existing`. */
  function ForwardedFor(existing: Option<HeaderValue>, value: string): string
    requires value != ""
  {
    match existing
    case None => value
    case Some(Text("")) => value
    case Some(List(items)) => Join(NonEmpty(items + [value]), ", ")
    case Some(Text(s)) => var e := JsTrim(s); if e != "" then e + ", " + value else value
  }

  lemma NonEmptyAppend(items: seq<string>, value: string)
    requires value != ""
    ensures NonEmpty(items + [value]) == NonEmpty(items) + [value]
    decreases |items|
  {
    if items != [] {
      assert (items + [value])[1..] == items[1..] + [value];
      NonEmptyAppend(items[1..], value);
    } else {
      assert NonEmpty([value]) == [value] + NonEmpty([]);
    }
  }

  lemma {:induction false} JoinAppend(parts: seq<string>, last: string, sep: string)
    requires parts != []
    ensures Join(parts + [last], sep) == Join(parts, sep) + sep + last
    decreases |parts|
  {
    if |parts| == 1 {
      assert parts + [last] == [parts[0], last];
      assert Join([last], sep) == last;
    } else {
      assert (parts + [last])[1..] == parts[1..] + [last];
      JoinAppend(parts[1..], last, sep);
    }
  }

  lemma JoinNotEmpty(parts: seq<string>, sep: string)
    requires parts != [] && parts[0] != ""
    ensures Join(parts, sep) != ""
  {
    if |parts| > 1 {
      assert Join(parts, sep) == parts[0] + sep + Join(parts[1..], sep);
    }
  }

  /** The header grows at the end: the new address follows the addresses
      already present, separated by `, `, and stands alone when there were
      none. */
  lemma ForwardedForAppends(existing: Option<HeaderValue>, value: string)
    requires value != ""
    ensures Prior(existing) == "" ==> ForwardedFor(existing, value) == value
    ensures Prior(existing) != "" ==> ForwardedFor(existing, value) == Prior(existing) + ", " + value
  {
    if existing.Some? && existing.value.List? {
      var items := existing.value.items;
      NonEmptyAppend(items, value);
      if NonEmpty(items) == [] {
        assert Join(NonEmpty(items) + [value], ", ") == Join([value], ", ");
      } else {
        JoinAppend(NonEmpty(items), value, ", ");
        assert NonEmpty(items)[0] in NonEmpty(items);
        JoinNotEmpty(NonEmpty(items), ", ");
      }
    } else if existing == Some(Text("")) {
      assert JsTrim("") == "";
    }
  }

  /** appendForwardedFor. `address` None is a missing address. */
  method AppendForwardedFor(headers: Headers, address: Option<HeaderValue>)
    modifies headers
    ensures var value := if address.Some? && address.value != Text("") then AddressText(address.value) else "";
      && (value == "" ==> headers.entries == old(headers.entries))
      && (value != "" ==> headers.entries == old(headers.entries)[ForwardedForKey :=
            Text(ForwardedFor(Lookup(old(headers.entries), ForwardedForKey), value))])
  {
    if address.None? || address.value == Text("") {
      return;
    }
    var value := AddressText(address.value);
    if value == "" {
      return;
    }
    var existing := Lookup(headers.entries, ForwardedForKey);
    headers.entries := headers.entries[ForwardedForKey := Text(ForwardedFor(existing, value))];
  }

  function Lookup(m: map<string, HeaderValue>, k: string): Option<HeaderValue> {
    if k in m then Some(m[k]) else None
  }
}

=== FILE: search.dfy ===
/** The ordering and paging at the end of search_data in manage_log.py: the
    collected hits are sorted by relevance, oldest first or newest first, and
    cut with a Python slice `items[offset:offset + limit]`. */
module Search {
  import opened Wrappers
  import opened Ordering

  datatype Kind = EntryHit | GoalHit | SummaryHit

  /** The `kind` text each hit carries. */
  function KindName(k: Kind): string {
    match k
    case EntryHit => "entry"
    case GoalHit => "goal"
    case SummaryHit => "summary"
  }

  /** A search hit. `id` is `str(id)`: the row id for entries and goals, the
      date for summaries. */
  datatype Item = Item(kind: Kind, id: string, date: Option<string>, score: int)

  /** `x['date'] or ''`. */
  function DateText(x: Item): string { x.date.GetOr("") }

  /** `(score, date or '')`, sorted with reverse=True. */
  function RelevanceKey(x: Item): seq<int> { [x.score] + StrKey(DateText(x)) }

  /** `(date or '', kind, str(id))`. */
  function ChronoKey(x: Item): seq<int> { StrKey(DateText(x)) + TieBreak(x) }

  /** The `(kind, str(id))` part of the key that breaks ties between dates. */
  function TieBreak(x: Item): seq<int> { StrKey(KindName(x.kind)) + StrKey(x.id) }

  /** The sort step: relevance when asked for and there are query words,
      `oldest` ascending, anything else newest first. Each sort is stable:
      hits of equal key (for relevance, the same score and date) keep their
      order in `items`. */
  function SortHits(items: seq<Item>, order: string, hasWords: bool): (r: seq<Item>)
    ensures multiset(r) == multiset(items)
    ensures order == "relevance" && hasWords ==>
      forall k :: WithKey(r, RelevanceKey, k) == WithKey(items, RelevanceKey, k)
    ensures !(order == "relevance" && hasWords) ==>
      forall k :: WithKey(r, ChronoKey, k) == WithKey(items, ChronoKey, k)
  {
    if order == "relevance" && hasWords then SortDesc(items, RelevanceKey)
    else if order == "oldest" then SortAsc(items, ChronoKey)
    else SortDesc(items, ChronoKey)
  }

  // ------------------------------------------------------------ key facts

  lemma StrLeRefl(a: string)
    ensures StrLe(a, a)
  {
    if a != [] { StrLeRefl(a[1..]); }
  }

  /** A key that starts with one integer is ordered first by that integer. */
  lemma {:induction false} LexLeHead(a: int, b: int, x: seq<int>, y: seq<int>)
    ensures LexLe([a] + x, [b] + y) <==> a < b || (a == b && LexLe(x, y))
  {
    assert ([a] + x)[1..] == x && ([b] + y)[1..] == y;
  }

  /** A key that starts with a string field is ordered by that string. */
  lemma StrFieldLe(a: string, b: string, x: seq<int>, y: seq<int>)
    requires LexLe(StrKey(a) + x, StrKey(b) + y)
    ensures StrLe(a, b)
  {
    StrKeyField(a, b, x, y);
    if a == b { StrLeRefl(a); }
  }

  lemma RelevanceKeyLe(x: Item, y: Item)
    requires LexLe(RelevanceKey(x), RelevanceKey(y))
    ensures x.score <= y.score
    ensures x.score == y.score ==> StrLe(DateText(x), DateText(y))
  {
    LexLeHead(x.score, y.score, StrKey(DateText(x)), StrKey(DateText(y)));
    if x.score == y.score {
      assert StrKey(DateText(x)) + [] == StrKey(DateText(x));
      assert StrKey(DateText(y)) + [] == StrKey(DateText(y));
      StrFieldLe(DateText(x), DateText(y), [], []);
    }
  }

  lemma ChronoKeyLe(x: Item, y: Item)
    requires LexLe(ChronoKey(x), ChronoKey(y))
    ensures StrLe(DateText(x), DateText(y))
  {
    StrFieldLe(DateText(x), DateText(y), TieBreak(x), TieBreak(y));
  }

  /** Relevance order: scores never increase, and among equal scores the
      later date comes first. */
  lemma RelevanceOrder(items: seq<Item>)
    ensures var r := SortHits(items, "relevance", true);
      forall i, j :: 0 <= i < j < |r| ==>
        r[j].score <= r[i].score && (r[j].score == r[i].score ==> StrLe(DateText(r[j]), DateText(r[i])))
  {
    var r := SortHits(items, "relevance", true);
    forall i, j | 0 <= i < j < |r|
      ensures r[j].score <= r[i].score && (r[j].score == r[i].score ==> StrLe(DateText(r[j]), DateText(r[i])))
    {
      RelevanceKeyLe(r[j], r[i]);
    }
  }

  /** `oldest`: dates never decrease (a hit without a date counts as ""). */
  lemma OldestOrder(items: seq<Item>, hasWords: bool)
    ensures var r := SortHits(items, "oldest", hasWords);
      forall i, j :: 0 <= i < j < |r| ==> StrLe(DateText(r[i]), DateText(r[j]))
  {
    var r := SortHits(items, "oldest", hasWords);
    forall i, j | 0 <= i < j < |r| ensures StrLe(DateText(r[i]), DateText(r[j])) {
      ChronoKeyLe(r[i], r[j]);
    }
  }

  /** Any other order (and relevance without query words): dates never
      increase. */
  lemma NewestOrder(items: seq<Item>, order: string, hasWords: bool)
    requires order != "oldest" && !(order == "relevance" && hasWords)
    ensures var r := SortHits(items, order, hasWords);
      forall i, j :: 0 <= i < j < |r| ==> StrLe(DateText(r[j]), DateText(r[i]))
  {
    var r := SortHits(items, order, hasWords);
    forall i, j | 0 <= i < j < |r| ensures StrLe(DateText(r[j]), DateText(r[i])) {
      ChronoKeyLe(r[j], r[i]);
    }
  }

  // ------------------------------------------------------------ paging

  /** Where a Python slice bound `i` lands in a sequence of length `n`: a
      negative bound counts from the end, and both ends are clamped. */
  function SliceBound(i: int, n: nat): (r: nat)
    ensures r <= n
    ensures 0 <= i <= n ==> r == i
    ensures i > n ==> r == n
    ensures i < 0 ==> r == if i + n < 0 then 0 else i + n
  {
    if i < 0 then (if i + n < 0 then 0 else i + n) else if i > n then n else i
  }

  /** `items[start:stop]`. */
  function PySlice<T>(items: seq<T>, start: int, stop: int): (r: seq<T>)
    ensures var a := SliceBound(start, |items|);
      var b := SliceBound(stop, |items|);
      if a < b then r == items[a..b] else r == []
  {
    var a := SliceBound(start, |items|);
    var b := SliceBound(stop, |items|);
    if a < b then items[a..b] else []
  }

  datatype Page = Page(total: nat, items: seq<Item>, hasMore: bool, nextOffset: int)

  /** The answer built from the sorted hits. */
  function Paginate(sorted: seq<Item>, offset: int, limit: int): (p: Page)
    ensures p.total == |sorted|
    ensures p.hasMore <==> offset + limit < |sorted|
    ensures p.nextOffset == if p.hasMore then offset + limit else offset
  {
    var hasMore := offset + limit < |sorted|;
    Page(|sorted|, PySlice(sorted, offset, offset + limit), hasMore, if hasMore then offset + limit else offset)
  }

  /** The sort and the page of search_data. */
  function SearchAnswer(hits: seq<Item>, order: string, hasWords: bool, offset: int, limit: int): (p: Page)
    ensures p.total == |hits|
  {
    var sorted := SortHits(hits, order, hasWords);
    assert |sorted| == |multiset(sorted)| == |multiset(hits)| == |hits|;
    Paginate(sorted, offset, limit)
  }

  /** With a non-negative offset and limit the page is the window of at most
      `limit` hits starting at `offset`. */
  lemma PageWindow(sorted: seq<Item>, offset: nat, limit: nat)
    ensures var p := Paginate(sorted, offset, limit);
      var n := |sorted|;
      p.items == sorted[if offset < n then offset else n .. if offset + limit < n then offset + limit else n]
  {
  }

  /** Following `nextOffset` while `hasMore` holds walks the hits without gaps
      or overlaps: a page that has more is full, and it joins the next page
      into the page of twice the limit. */
  lemma PagesTile(sorted: seq<Item>, offset: nat, limit: nat)
    requires Paginate(sorted, offset, limit).hasMore
    ensures var p := Paginate(sorted, offset, limit);
      var q := Paginate(sorted, p.nextOffset, limit);
      && |p.items| == limit
      && p.nextOffset == offset + |p.items|
      && p.items + q.items == Paginate(sorted, offset, 2 * limit).items
  {
    var n := |sorted|;
    var p := Paginate(sorted, offset, limit);
    var q := Paginate(sorted, offset + limit, limit);
    var b := if offset + 2 * limit < n then offset + 2 * limit else n;
    assert p.items == sorted[offset..offset + limit];
    if limit == 0 {
      assert q.items == [];
      assert sorted[offset..offset] == [];
    } else {
      assert q.items == sorted[offset + limit..b];
    }
    assert sorted[offset..b] == sorted[offset..offset + limit] + sorted[offset + limit..b];
  }

  /** The last page: when nothing is left, the page runs to the end of the
      hits and the next offset stays put. */
  lemma LastPage(sorted: seq<Item>, offset: nat, limit: nat)
    requires !Paginate(sorted, offset, limit).hasMore
    ensures var p := Paginate(sorted, offset, limit);
      p.nextOffset == offset && p.items == sorted[if offset < |sorted| then offset else |sorted|..]
  {
  }

  /** A negative offset counts back from the end as Python slicing does,
      but the stop `offset + limit` is a slice bound too: offset -k with limit
      k stops at index 0, so the page is empty while `hasMore` is still
      reported and the next offset is 0. */
  lemma NegativeOffsetPage(sorted: seq<Item>, k: nat)
    requires 0 < k <= |sorted|
    ensures var p := Paginate(sorted, -(k as int), k);
      p.items == [] && p.hasMore && p.nextOffset == 0
  {
  }
}

=== FILE: settings.dfy ===
/** The settings API of the rescue chat app
    (webnew/rescue-chat-app/app/api/settings/route.ts): a JSON file read as a
    store of nested values, GET reading requested dot-paths out of it and POST
    setting one dot-path in it. */
module Settings {
  import opened Wrappers
  import opened Text
  import opened JsValues

  /** What the settings file holds: nothing yet, text that does not parse,
      or a parsed JSON value. */
  datatype FileContent = Missing | Unparsable | Parsed(value: JsValue)

  /** ensureStore: a missing file is created holding `{}`; anything else is
      left as it is. */
  function Ensured(f: FileContent): FileContent {
    if f.Missing? then Parsed(Obj(map[])) else f
  }

  /** readStore: the parsed file, or `{}` when it is missing, empty or not
      JSON. */
  function ReadStore(f: FileContent): JsValue {
    if f.Parsed? then f.value else Obj(map[])
  }

  /** An unreadable or invalid settings file reads as `{}`, and reading it
      makes sure the file exists afterwards. */
  lemma ReadStoreDefaults(f: FileContent)
    ensures !f.Parsed? ==> ReadStore(f) == Obj(map[])
    ensures Ensured(f) != Missing && ReadStore(Ensured(f)) == ReadStore(f)
  {
  }

  /** `typeof v === 'object' && v !== null`: objects and arrays. */
  predicate ObjectLike(v: JsValue) {
    v.Obj? || v.Arr?
  }

  /** The array index a property name denotes: a canonical decimal numeral
      (the bound of 2^32 - 2 on indices is not modelled). */
  function ArrayIndex(k: string): Option<nat> {
    if k != "" && AllDigits(k) && (k[0] == '0' ==> |k| == 1) then Some(DecimalValue(k)) else None
  }

  /** `v[k]` on an object or array: the own property, or undefined. */
  function Member(v: JsValue, k: string): JsValue
    requires ObjectLike(v)
  {
    if v.Obj? then (if k in v.props then v.props[k] else Undefined)
    else match ArrayIndex(k)
      case Some(i) => if i < |v.items| then v.items[i] else Undefined
      case None => Undefined
  }

  /** `v[k] = x` on an object or array. On an array an index past the end
      extends it with holes; a property that is not an index is not kept,
      as the JSON file cannot hold it. */
  function Assign(v: JsValue, k: string, x: JsValue): (r: JsValue)
    requires ObjectLike(v)
    ensures ObjectLike(r)
    ensures v.Obj? ==> r.Obj? && r.props == v.props[k := x]
  {
    if v.Obj? then Obj(v.props[k := x])
    else match ArrayIndex(k)
      case Some(i) =>
        if i < |v.items| then Arr(v.items[i := x])
        else Arr(v.items + seq(i - |v.items|, _ => Undefined) + [x])
      case None => v
  }

  // ------------------------------------------------------------ getByPath

  /** One step of the reduce in getByPath. */
  function Step(acc: JsValue, p: string): JsValue {
    if Truthy(acc) && ObjectLike(acc) then Member(acc, p) else Undefined
  }

  /** getByPath over the segments of a dotted key. */
  function GetByPath(v: JsValue, parts: seq<string>): JsValue
    decreases |parts|
  {
    if parts == [] then v else GetByPath(Step(v, parts[0]), parts[1..])
  }

  /** getByPath yields undefined once a non-object is traversed, so in
      particular once a segment is missing. */
  lemma {:induction false} PastNonObject(v: JsValue, parts: seq<string>)
    requires parts != [] && !ObjectLike(v)
    ensures GetByPath(v, parts) == Undefined
    decreases |parts|
  {
    if |parts| > 1 {
      PastNonObject(Undefined, parts[1..]);
    }
  }

  /** A missing segment makes the whole path undefined. */
  lemma MissingSegment(v: JsValue, parts: seq<string>)
    requires |parts| >= 2 && ObjectLike(v) && Member(v, parts[0]) == Undefined
    ensures GetByPath(v, parts) == Undefined
  {
    PastNonObject(Undefined, parts[1..]);
  }

  // ------------------------------------------------------------ the dot-path setter

  /** The walk of POST: every segment but the last is stepped into, an
      intermediate that is not an object or array being replaced by `{}`
      first; the last segment is then set to the value. */
  function SetPath(v: JsValue, parts: seq<string>, x: JsValue): (r: JsValue)
    requires ObjectLike(v) && parts != []
    ensures ObjectLike(r)
    decreases |parts|
  {
    if |parts| == 1 then Assign(v, parts[0], x)
    else
      var child := Member(v, parts[0]);
      var next := if ObjectLike(child) then child else Obj(map[]);
      Assign(v, parts[0], SetPath(next, parts[1..], x))
  }

  /** Every value met along the path, down to the parent of the last
      segment, is an object or is absent or a primitive (to be replaced by
      `{}`), never an array. */
  predicate ObjectsAlong(v: JsValue, parts: seq<string>)
    requires parts != []
    decreases |parts|
  {
    v.Obj? &&
    (|parts| > 1 ==>
      var child := Member(v, parts[0]);
      !child.Arr? && (child.Obj? ==> ObjectsAlong(child, parts[1..])))
  }

  /** After a set, getByPath with the same segments returns the stored
      value. */
  lemma {:induction false} GetAfterSet(v: JsValue, parts: seq<string>, x: JsValue)
    requires parts != [] && ObjectsAlong(v, parts)
    ensures GetByPath(SetPath(v, parts, x), parts) == x
    decreases |parts|
  {
    var r := SetPath(v, parts, x);
    if |parts| > 1 {
      var child := Member(v, parts[0]);
      var next := if ObjectLike(child) then child else Obj(map[]);
      GetAfterSet(next, parts[1..], x);
      assert Step(r, parts[0]) == SetPath(next, parts[1..], x);
    }
  }

  /** A set leaves every path that leaves the set path at some segment as
      it was: siblings at every level are untouched. */
  lemma {:induction false} SetLeavesSiblings(v: JsValue, parts: seq<string>, x: JsValue, q: seq<string>, i: nat)
    requires parts != [] && ObjectsAlong(v, parts)
    requires i < |parts| && i < |q| && q[..i] == parts[..i] && q[i] != parts[i]
    ensures GetByPath(SetPath(v, parts, x), q) == GetByPath(v, q)
    decreases i
  {
    var r := SetPath(v, parts, x);
    if i == 0 {
      assert Step(r, q[0]) == Step(v, q[0]);
    } else {
      assert q[0] == parts[0] by {
        assert q[..i][0] == parts[..i][0];
      }
      var child := Member(v, parts[0]);
      var next := if ObjectLike(child) then child else Obj(map[]);
      assert q[1..][..i - 1] == parts[1..][..i - 1] by {
        assert q[1..][..i - 1] == q[..i][1..];
        assert parts[1..][..i - 1] == parts[..i][1..];
      }
      SetLeavesSiblings(next, parts[1..], x, q[1..], i - 1);
      assert Step(r, q[0]) == SetPath(next, parts[1..], x);
      if !ObjectLike(child) {
        PastNonObject(child, q[1..]);
        PastNonObject(Undefined, q[1..]);
        assert GetByPath(next, q[1..]) == Undefined by {
          assert Step(next, q[1..][0]) == Undefined;
          if |q[1..]| > 1 {
            PastNonObject(Undefined, q[1..][1..]);
          }
        }
      }
    }
  }

  /** A key without a dot sets `store[key]` directly. */
  lemma UndottedKey(v: JsValue, key: string, x: JsValue)
    requires ObjectLike(v) && '.' !in key
    ensures Split(key, '.') == [key]
    ensures SetPath(v, Split(key, '.'), x) == Assign(v, key, x)
  {
  }

  // ------------------------------------------------------------ GET

  /** The keys GET looks up: none (the whole store) when the parameter is
      absent or empty, otherwise its comma-separated, trimmed, non-empty
      pieces. */
  function RequestedKeys(keysParam: Option<string>): Option<seq<string>> {
    if keysParam.None? || keysParam.value == "" then None
    else Some(NonEmpty(TrimAll(Split(keysParam.value, ','))))
  }

  /** The requested keys hold no comma and are never empty. */
  lemma RequestedKeysShape(keysParam: Option<string>)
    ensures keysParam.None? ==> RequestedKeys(keysParam).None?
    ensures RequestedKeys(keysParam).Some? ==>
      forall k :: k in RequestedKeys(keysParam).value ==> k != "" && ',' !in k
  {
    if RequestedKeys(keysParam).Some? {
      var pieces := Split(keysParam.value, ',');
      var trimmed := TrimAll(pieces);
      forall k | k in RequestedKeys(keysParam).value ensures ',' !in k {
        var j :| 0 <= j < |trimmed| && k == trimmed[j];
        TrimKeepsOut(pieces[j], ',');
      }
    }
  }

  /** Trimming adds no character. */
  lemma TrimKeepsOut(s: string, c: char)
    requires c !in s
    ensures c !in JsTrim(s)
  {
    var front := TrimStart(s, IsJsSpace);
    var t := TrimEnd(front, IsJsSpace);
    assert forall i :: 0 <= i < |front| ==> front[i] == s[|s| - |front| + i];
    assert forall i :: 0 <= i < |t| ==> t[i] == front[i];
  }

  /** The loop of GET: each requested key whose path is defined in the
      store is reported with its value. */
  method Collect(store: JsValue, keys: seq<string>) returns (out: map<string, JsValue>)
    ensures forall k :: k in out <==> k in keys && GetByPath(store, Split(k, '.')) != Undefined
    ensures forall k :: k in out ==> out[k] == GetByPath(store, Split(k, '.'))
  {
    out := map[];
    for i := 0 to |keys|
      invariant forall k :: k in out <==> k in keys[..i] && GetByPath(store, Split(k, '.')) != Undefined
      invariant forall k :: k in out ==> out[k] == GetByPath(store, Split(k, '.'))
    {
      var v := GetByPath(store, Split(keys[i], '.'));
      if v != Undefined {
        out := out[keys[i] := v];
      }
      assert keys[..i + 1] == keys[..i] + [keys[i]];
    }
    assert keys[..|keys|] == keys;
  }

  /** `Object.assign({}, store)` for a store that is an object; any other
      store is reported as `{}`. */
  function WholeStore(store: JsValue): map<string, JsValue> {
    if store.Obj? then store.props else map[]
  }

  // ------------------------------------------------------------ the route

  /** What POST answers. */
  datatype PostReply = Saved | KeyRequired | ServerError

  /** The settings file the route reads and writes. */
  class SettingsFile {
    var content: FileContent

    constructor(content: FileContent)
      ensures this.content == content
    {
      this.content := content;
    }

    /** GET: the whole store without `keys`, otherwise each requested key
        whose path is defined. Reading creates a missing file. */
    method Get(keysParam: Option<string>) returns (settings: map<string, JsValue>)
      modifies this
      ensures content == Ensured(old(content))
      ensures RequestedKeys(keysParam).None? ==> settings == WholeStore(ReadStore(content))
      ensures RequestedKeys(keysParam).Some? ==> forall k :: k in settings <==>
        k in RequestedKeys(keysParam).value && GetByPath(ReadStore(content), Split(k, '.')) != Undefined
      ensures forall k :: k in settings && RequestedKeys(keysParam).Some? ==>
        settings[k] == GetByPath(ReadStore(content), Split(k, '.'))
    {
      content := Ensured(content);
      var store := ReadStore(content);
      var keys := RequestedKeys(keysParam);
      if keys.Some? {
        settings := Collect(store, keys.value);
      } else {
        settings := WholeStore(store);
      }
    }

    /** POST with the parsed request body (None when it is not JSON): no key
        answers 400 and writes nothing; a string key sets its dot-path in
        the store, which is written back. */
    method Post(body: Option<JsValue>) returns (reply: PostReply)
      modifies this
      ensures body.None? ==> reply == ServerError && content == old(content)
      ensures body.Some? && !Truthy(JsValues.Get(body.value, "key")) ==>
        reply == KeyRequired && content == old(content)
      ensures reply == Saved <==>
        body.Some? && Truthy(JsValues.Get(body.value, "key")) && JsValues.Get(body.value, "key").Str?
        && ObjectLike(ReadStore(old(content)))
      ensures reply == Saved ==>
        content == Parsed(SetPath(ReadStore(old(content)), Split(JsValues.Get(body.value, "key").s, '.'),
                                  JsValues.Get(body.value, "value")))
      ensures reply == ServerError && body.Some? ==> content == Ensured(old(content))
    {
      if body.None? {
        return ServerError;
      }
      var key := JsValues.Get(body.value, "key");
      var value := JsValues.Get(body.value, "value");
      if !Truthy(key) {
        return KeyRequired;
      }
      content := Ensured(content);
      var store := ReadStore(content);
      if !key.Str? || !ObjectLike(store) {
        return ServerError;
      }
      var parts := Split(key.s, '.');
      content := Parsed(SetPath(store, parts, value));
      reply := Saved;
    }
  }
}

=== FILE: snapshot_pools.dfy ===
/** The three snapshot directories of manage_log.py as sequences of files.
    A file carries the name built from the backup clock, the modification
    time `shutil.copy2` copied from the store, and the copied store image.
    The order of a sequence is the directory listing order; Python's `sorted`
    is stable, so among files with equal mtimes the one listed first wins
    both "newest" and "oldest". */
module SnapshotPools {
  import opened Wrappers

  datatype Snapshot<I> = Snapshot(name: nat, mtime: int, image: I)

  datatype PoolKind = ShortTerm | LongTerm | Redo

  /** MAX_BACKUPS, MAX_LONG_TERM_BACKUPS and MAX_REDO_BACKUPS. */
  function Cap(kind: PoolKind): (n: nat)
    ensures n >= 1
  {
    match kind
    case ShortTerm => 100
    case LongTerm => 30
    case Redo => 10
  }

  /** `i` is the file `sorted(..., key=getmtime, reverse=True)[0]` picks. */
  ghost predicate IsLatest<I>(p: seq<Snapshot<I>>, i: nat) {
    i < |p|
    && (forall j :: 0 <= j < |p| ==> p[j].mtime <= p[i].mtime)
    && (forall j :: 0 <= j < i ==> p[j].mtime < p[i].mtime)
  }

  /** `i` is the file `sorted(..., key=getmtime).pop(0)` deletes. */
  ghost predicate IsOldest<I>(p: seq<Snapshot<I>>, i: nat) {
    i < |p|
    && (forall j :: 0 <= j < |p| ==> p[i].mtime <= p[j].mtime)
    && (forall j :: 0 <= j < i ==> p[i].mtime < p[j].mtime)
  }

  function LatestIn<I>(p: seq<Snapshot<I>>, n: nat): (r: nat)
    requires 0 < n <= |p|
    ensures IsLatest(p[..n], r)
  {
    if n == 1 then 0
    else
      var k := LatestIn(p, n - 1);
      assert p[..n - 1] == p[..n][..n - 1];
      if p[n - 1].mtime > p[k].mtime then n - 1 else k
  }

  function OldestIn<I>(p: seq<Snapshot<I>>, n: nat): (r: nat)
    requires 0 < n <= |p|
    ensures IsOldest(p[..n], r)
  {
    if n == 1 then 0
    else
      var k := OldestIn(p, n - 1);
      assert p[..n - 1] == p[..n][..n - 1];
      if p[n - 1].mtime < p[k].mtime then n - 1 else k
  }

  /** get_latest_backup_file: the newest file of a pool, or None when it is empty. */
  function Latest<I>(p: seq<Snapshot<I>>): (r: Option<nat>)
    ensures r.None? <==> p == []
    ensures r.Some? ==> IsLatest(p, r.value)
  {
    if p == [] then None else assert p[..|p|] == p; Some(LatestIn(p, |p|))
  }

  function Oldest<I>(p: seq<Snapshot<I>>): (r: nat)
    requires p != []
    ensures IsOldest(p, r)
  {
    assert p[..|p|] == p;
    OldestIn(p, |p|)
  }

  function RemoveAt<T>(s: seq<T>, i: nat): (r: seq<T>)
    requires i < |s|
    ensures |r| == |s| - 1
  {
    s[..i] + s[i + 1..]
  }

  /** manage_backups / manage_long_term_backups / manage_redo_backups:
      while the pool holds more than `cap` files, delete the oldest. */
  function Pruned<I>(p: seq<Snapshot<I>>, cap: nat): seq<Snapshot<I>>
    decreases |p|
  {
    if |p| <= cap then p else Pruned(RemoveAt(p, Oldest(p)), cap)
  }

  /** After pruning the pool holds `cap` files, or all of them when there were fewer. */
  lemma {:induction false} PrunedSize<I>(p: seq<Snapshot<I>>, cap: nat)
    ensures |Pruned(p, cap)| == if |p| <= cap then |p| else cap
    decreases |p|
  {
    if |p| > cap {
      PrunedSize(RemoveAt(p, Oldest(p)), cap);
    }
  }

  lemma KeptByRemoveAt<T>(s: seq<T>, i: nat, k: nat)
    requires i < |s| && k < |s| && k != i
    ensures s[k] in RemoveAt(s, i)
  {
    if k < i { assert RemoveAt(s, i)[k] == s[k]; } else { assert RemoveAt(s, i)[k - 1] == s[k]; }
  }

  lemma FromRemoveAt<T>(s: seq<T>, i: nat, x: T)
    requires i < |s| && x in RemoveAt(s, i)
    ensures x in s
  {
    var q := RemoveAt(s, i);
    var k :| 0 <= k < |q| && q[k] == x;
    if k < i { assert s[k] == x; } else { assert s[k + 1] == x; }
  }

  /** Pruning only deletes files: every kept file was in the pool. */
  lemma {:induction false} PrunedOnlyDeletes<I>(p: seq<Snapshot<I>>, cap: nat)
    ensures forall x :: x in Pruned(p, cap) ==> x in p
    decreases |p|
  {
    if |p| > cap {
      var q := RemoveAt(p, Oldest(p));
      PrunedOnlyDeletes(q, cap);
      forall x | x in Pruned(q, cap) ensures x in p {
        FromRemoveAt(p, Oldest(p), x);
      }
    }
  }

  /** Pruning deletes the smallest-mtime files first: no deleted file is newer
      than a kept one. */
  lemma {:induction false} PrunedDeletesOldest<I>(p: seq<Snapshot<I>>, cap: nat)
    ensures forall x, y :: x in p && x !in Pruned(p, cap) && y in Pruned(p, cap) ==> x.mtime <= y.mtime
    decreases |p|
  {
    if |p| > cap {
      var o := Oldest(p);
      var q := RemoveAt(p, o);
      var kept := Pruned(q, cap);
      assert Pruned(p, cap) == kept;
      forall x, y | x in p && x !in kept && y in kept
        ensures x.mtime <= y.mtime
      {
        var k :| 0 <= k < |p| && p[k] == x;
        if k == o {
          PrunedOnlyDeletes(q, cap);
          FromRemoveAt(p, o, y);
        } else {
          KeptByRemoveAt(p, o, k);
          PrunedDeletesOldest(q, cap);
        }
      }
    }
  }

  /** `x` is in the pool and every file at least as new as `x` is `x` itself. */
  ghost predicate NewestIs<I>(p: seq<Snapshot<I>>, x: Snapshot<I>) {
    x in p && forall y :: y in p && y.mtime >= x.mtime ==> y == x
  }

  /** The newest-file lookup finds the pool's unique newest file. */
  lemma NewestIsLatest<I>(p: seq<Snapshot<I>>, x: Snapshot<I>)
    requires NewestIs(p, x)
    ensures Latest(p).Some? && p[Latest(p).value] == x
  {
    var k :| 0 <= k < |p| && p[k] == x;
    assert p[Latest(p).value].mtime >= p[k].mtime;
  }

  /** A file newer than all others stays the unique newest once an older file is added. */
  lemma NewestAfterOlderAdded<I>(p: seq<Snapshot<I>>, x: Snapshot<I>, y: Snapshot<I>)
    requires NewestIs(p, x) && y.mtime < x.mtime
    ensures NewestIs(p + [y], x)
  {
  }

  /** A file added to a pool of strictly older files is the pool's unique newest. */
  lemma NewestWhenAddedLast<I>(p: seq<Snapshot<I>>, x: Snapshot<I>)
    requires forall j :: 0 <= j < |p| ==> p[j].mtime < x.mtime
    ensures NewestIs(p + [x], x)
  {
    forall y | y in p + [x] && y.mtime >= x.mtime ensures y == x {
    }
  }

  /** The unique newest file survives pruning (every cap is at least one) and
      stays the unique newest. */
  lemma {:induction false} PrunedKeepsNewest<I>(p: seq<Snapshot<I>>, cap: nat, x: Snapshot<I>)
    requires cap >= 1 && NewestIs(p, x)
    ensures NewestIs(Pruned(p, cap), x)
    decreases |p|
  {
    if |p| > cap {
      var o := Oldest(p);
      var q := RemoveAt(p, o);
      assert x in q by {
        var i :| 0 <= i < |p| && p[i] == x;
        if i != o {
          KeptByRemoveAt(p, o, i);
        } else {
          var j := if o == 0 then 1 else 0;
          assert p[j].mtime >= p[o].mtime;
          KeptByRemoveAt(p, o, j);
        }
      }
      forall y | y in q && y.mtime >= x.mtime ensures y == x {
        FromRemoveAt(p, o, y);
      }
      PrunedKeepsNewest(q, cap, x);
    }
  }

  /** The newest mtime in the pool is `t`, and every file of that mtime holds
      `img`: files may tie on the newest mtime, provided they agree on content. */
  ghost predicate NewestHolds<I>(p: seq<Snapshot<I>>, t: int, img: I) {
    (exists y :: y in p && y.mtime == t)
    && forall y :: y in p ==> y.mtime <= t && (y.mtime == t ==> y.image == img)
  }

  /** Whichever of the tied newest files the lookup picks, it holds `img`. */
  lemma NewestHoldsLatest<I>(p: seq<Snapshot<I>>, t: int, img: I)
    requires NewestHolds(p, t, img)
    ensures Latest(p).Some? && p[Latest(p).value].mtime == t && p[Latest(p).value].image == img
  {
    var y :| y in p && y.mtime == t;
    var k :| 0 <= k < |p| && p[k] == y;
    assert p[Latest(p).value].mtime >= p[k].mtime;
  }

  /** A file added to a pool of files no newer than it, where the equally new
      ones hold its content, sets what the newest files hold. */
  lemma NewestHoldsWhenAddedLast<I>(p: seq<Snapshot<I>>, x: Snapshot<I>)
    requires forall j :: 0 <= j < |p| ==> p[j].mtime <= x.mtime && (p[j].mtime == x.mtime ==> p[j].image == x.image)
    ensures NewestHolds(p + [x], x.mtime, x.image)
  {
    assert (p + [x])[|p|] == x;
    forall y | y in p + [x] ensures y.mtime <= x.mtime && (y.mtime == x.mtime ==> y.image == x.image) {
      if y in p {
        var k :| 0 <= k < |p| && p[k] == y;
      }
    }
  }

  /** Pruning keeps a newest file (every cap is at least one), so what the
      newest files hold is unchanged. */
  lemma {:induction false} PrunedKeepsNewestHolds<I>(p: seq<Snapshot<I>>, cap: nat, t: int, img: I)
    requires cap >= 1 && NewestHolds(p, t, img)
    ensures NewestHolds(Pruned(p, cap), t, img)
    decreases |p|
  {
    if |p| > cap {
      var o := Oldest(p);
      var q := RemoveAt(p, o);
      assert exists y :: y in q && y.mtime == t by {
        var w :| w in p && w.mtime == t;
        var i :| 0 <= i < |p| && p[i] == w;
        if i != o {
          KeptByRemoveAt(p, o, i);
          assert q[if i < o then i else i - 1] == w;
        } else {
          var j := if o == 0 then 1 else 0;
          assert p[j] in p;
          assert p[j].mtime >= p[o].mtime;
          KeptByRemoveAt(p, o, j);
          assert p[j] in q && p[j].mtime == t;
        }
      }
      forall y | y in q ensures y.mtime <= t && (y.mtime == t ==> y.image == img) {
        FromRemoveAt(p, o, y);
      }
      PrunedKeepsNewestHolds(q, cap, t, img);
    }
  }
}

=== FILE: store.dfy ===
/** manage_log.py as a program: the store file, its snapshot directories and
    journal are the fields of `Database`, and every command is a method that
    changes them step by step in the order the source does. Each method is
    proved to reach the state the matching function of StoreState describes. */
module StudyLogStore {
  import opened Wrappers
  import opened SnapshotPools
  import opened StudyLog
  import opened StoreState

  // ------------------------------------------------------------ lookups

  /** get_latest_backup_file's scan. */
  method FindLatest(p: seq<Snap>) returns (r: Option<nat>)
    ensures r == Latest(p)
  {
    if |p| == 0 { return None; }
    var best := 0;
    var k := 1;
    while k < |p|
      invariant 1 <= k <= |p|
      invariant best == LatestIn(p, k)
    {
      if p[k].mtime > p[best].mtime { best := k; }
      k := k + 1;
    }
    assert p[..|p|] == p;
    r := Some(best);
  }

  /** The file the pruning loop deletes next: the first of the pool sorted by mtime. */
  method FindOldest(p: seq<Snap>) returns (r: nat)
    requires p != []
    ensures r == Oldest(p)
  {
    r := 0;
    var k := 1;
    while k < |p|
      invariant 1 <= k <= |p|
      invariant r == OldestIn(p, k)
    {
      if p[k].mtime < p[r].mtime { r := k; }
      k := k + 1;
    }
    assert p[..|p|] == p;
  }

  /** The pruning loop of manage_backups / manage_long_term_backups /
      manage_redo_backups. */
  method PrunePool(p: seq<Snap>, cap: nat) returns (q: seq<Snap>)
    ensures q == Pruned(p, cap)
  {
    q := p;
    while |q| > cap
      invariant Pruned(q, cap) == Pruned(p, cap)
      decreases |q|
    {
      var o := FindOldest(q);
      q := RemoveAt(q, o);
    }
  }

  /** `ORDER BY start_time DESC LIMIT 1` over the rows satisfying `p`. */
  method ScanLatestStart(es: seq<Entry>, p: Entry -> bool) returns (r: Option<nat>)
    ensures r == LatestStartWhere(es, p)
  {
    r := None;
    var k := 0;
    while k < |es|
      invariant 0 <= k <= |es|
      invariant r == LatestStartIn(es, p, k)
    {
      if p(es[k]) && (r.None? || es[k].start > es[r.value].start) { r := Some(k); }
      k := k + 1;
    }
  }

  /** `SELECT ... WHERE id = ?`. */
  method ScanId(es: seq<Entry>, id: nat) returns (r: Option<nat>)
    ensures r == IndexOfId(es, id)
  {
    var k := 0;
    while k < |es|
      invariant 0 <= k <= |es|
      invariant forall j :: 0 <= j < k ==> es[j].id != id
    {
      if es[k].id == id {
        var f := IndexOfId(es, id);
        assert f.value == k by { assert !(f.value < k) && !(k < f.value); }
        return Some(k);
      }
      k := k + 1;
    }
    return None;
  }

  /** `SELECT ... WHERE id = ? AND event_type = 'START'`. */
  method ScanStartId(es: seq<Entry>, id: nat) returns (r: Option<nat>)
    ensures r == IndexOfStartId(es, id)
  {
    var k := 0;
    while k < |es|
      invariant 0 <= k <= |es|
      invariant forall j :: 0 <= j < k ==> !(es[j].id == id && IsStart(es[j]))
    {
      if es[k].id == id && IsStart(es[k]) {
        var f := IndexOfStartId(es, id);
        assert f.value == k by { assert !(f.value < k) && !(k < f.value); }
        return Some(k);
      }
      k := k + 1;
    }
    return None;
  }

  /** merge_sessions' `WHERE id >= ? AND id < ? ORDER BY start_time DESC, id DESC LIMIT 1`. */
  method ScanLastInRange(es: seq<Entry>, lo: nat, hi: nat) returns (r: Option<nat>)
    ensures r == LastInRange(es, lo, hi)
  {
    r := None;
    var k := 0;
    while k < |es|
      invariant 0 <= k <= |es|
      invariant r == LastInRange(es[..k], lo, hi)
    {
      assert es[..k + 1][..k] == es[..k];
      if InIdRange(es[k], lo, hi) && (r.None? || StartIdLe(es[r.value], es[k])) { r := Some(k); }
      k := k + 1;
    }
    assert es[..|es|] == es;
  }

  /** action_session_active's `WHERE end_time IS NULL ORDER BY id DESC LIMIT 1`. */
  method ScanLastOpen(es: seq<Entry>) returns (r: Option<nat>)
    ensures r == LastOpenIndex(es)
  {
    var k := |es|;
    while k > 0
      invariant 0 <= k <= |es|
      invariant forall j :: k <= j < |es| ==> !IsOpen(es[j])
    {
      if IsOpen(es[k - 1]) {
        var f := LastOpenIndex(es);
        assert f.value == k - 1 by { assert !(f.value < k - 1) && !(k - 1 < f.value); }
        return Some(k - 1);
      }
      k := k - 1;
    }
    return None;
  }

  /** is_today_log_exists. */
  method ScanToday(es: seq<Entry>, today: int) returns (found: bool)
    ensures found == TodayLogExists(es, today)
  {
    var k := 0;
    while k < |es|
      invariant 0 <= k <= |es|
      invariant forall j :: 0 <= j < k ==> es[j].start / 86400 != today
    {
      if es[k].start / 86400 == today { return true; }
      k := k + 1;
    }
    return false;
  }

  // ------------------------------------------------------------ the store

  class Database {
    var entries: seq<Entry>
    var nextId: nat
    var mtime: int
    var shortTerm: seq<Snap>
    var longTerm: seq<Snap>
    var redo: seq<Snap>
    var journal: seq<JournalLine>

    function Current(): State
      reads this
    {
      State(Image(entries, nextId), mtime, shortTerm, longTerm, redo, journal)
    }

    constructor(s: State)
      ensures Current() == s
    {
      entries := s.image.entries;
      nextId := s.image.nextId;
      mtime := s.mtime;
      shortTerm := s.shortTerm;
      longTerm := s.longTerm;
      redo := s.redo;
      journal := s.journal;
    }

    method SetPool(kind: PoolKind, p: seq<Snap>)
      modifies this
      ensures Current() == WithPool(old(Current()), kind, p)
    {
      match kind
      case ShortTerm => shortTerm := p;
      case LongTerm => longTerm := p;
      case Redo => redo := p;
    }

    /** backup_database. */
    method Backup(kind: PoolKind, stamp: nat, description: string, io: IoOutcome)
      modifies this
      ensures Current() == StoreState.Backup(old(Current()), kind, stamp, description, io)
    {
      if io == CopyFailed { return; }
      var p := Pool(Current(), kind) + [Snapshot(stamp, mtime, Image(entries, nextId))];
      if io == Copied {
        journal := journal + [JournalLine(stamp, description)];
        p := PrunePool(p, Cap(kind));
      }
      SetPool(kind, p);
    }

    /** restore_database; `ok` is the returned status. */
    method Restore(snap: Snap, description: string, io: IoOutcome) returns (ok: bool)
      modifies this
      ensures (Current(), ok) == StoreState.Restore(old(Current()), snap, description, io)
    {
      if io == CopyFailed { return false; }
      entries := snap.image.entries;
      nextId := snap.image.nextId;
      mtime := snap.mtime;
      if io == JournalFailed { return false; }
      journal := journal + [JournalLine(snap.name, description)];
      ok := true;
    }

    /** undo_last_operation; `found` says whether there was a snapshot to go back to. */
    method Undo(stamp: nat, backupIo: IoOutcome, restoreIo: IoOutcome) returns (found: bool)
      modifies this
      ensures (Current(), found) == StoreState.Undo(old(Current()), stamp, backupIo, restoreIo)
    {
      var latest := FindLatest(shortTerm);
      if latest.None? { return false; }
      var i := latest.value;
      var snap := shortTerm[i];
      Backup(Redo, stamp, "For Redo", backupIo);
      var _ := Restore(snap, "Undo operation", restoreIo);
      shortTerm := RemoveAt(shortTerm, i);
      found := true;
    }

    /** redo_last_undo. */
    method RedoLastUndo(stamp: nat, backupIo: IoOutcome, restoreIo: IoOutcome) returns (found: bool)
      modifies this
      ensures (Current(), found) == RedoOp(old(Current()), stamp, backupIo, restoreIo)
    {
      var latest := FindLatest(redo);
      if latest.None? { return false; }
      var i := latest.value;
      var snap := redo[i];
      Backup(ShortTerm, stamp, "For Undo (Redo operation)", backupIo);
      var _ := Restore(snap, "Redo operation", restoreIo);
      redo := RemoveAt(redo, i);
      found := true;
    }

    /** An INSERT and its commit. */
    method Insert(event: EventType, subject: Option<string>, content: Option<string>, start: int,
                  end: Option<int>, memo: Option<string>, impression: Option<string>, wtime: int)
      modifies this
      ensures Current() == old(Current()).(image := Append(old(Current()).image, event, subject, content, start, end, memo, impression),
                                           mtime := wtime)
    {
      entries := entries + [Entry(nextId, event, subject, content, start, end, None, None, memo, impression)];
      nextId := nextId + 1;
      mtime := wtime;
    }

    /** update_end_time; `ok` is false for the "id not found" error. */
    method UpdateEndTime(id: nat, t: int, wtime: int) returns (ok: bool)
      modifies this
      ensures ok == StudyLog.UpdateEndTime(old(Current()).image, id, t).Some?
      ensures ok ==> Current() == old(Current()).(image := StudyLog.UpdateEndTime(old(Current()).image, id, t).value, mtime := wtime)
      ensures !ok ==> Current() == old(Current())
    {
      var i := ScanId(entries, id);
      if i.None? { return false; }
      entries := entries[i.value := Close(entries[i.value], t)];
      mtime := wtime;
      ok := true;
    }

    /** start_session. */
    method StartSession(today: int, dailyStamp: nat, dailyIo: IoOutcome, stamp: nat, io: IoOutcome, now: int, wtime: int,
                        subject: Option<string>, content: Option<string>,
                        memo: Option<string>, impression: Option<string>)
      modifies this
      ensures Current() == StoreState.StartSession(old(Current()), today, dailyStamp, dailyIo, stamp, io, now, wtime,
                                                   subject, content, memo, impression)
    {
      var seenToday := ScanToday(entries, today);
      if !seenToday {
        Backup(LongTerm, dailyStamp, "Daily auto backup before first study session.", dailyIo);
      }
      Backup(ShortTerm, stamp, "Before start session.", io);
      Insert(Start, subject, content, now, None, memo, impression, wtime);
    }

    /** action_log_create. */
    method LogCreate(today: int, dailyStamp: nat, dailyIo: IoOutcome, stamp: nat, io: IoOutcome, now: int, wtime: int,
                     subject: Option<string>, content: Option<string>,
                     memo: Option<string>, impression: Option<string>) returns (ok: bool)
      modifies this
      ensures (Current(), ok) == StoreState.LogCreate(old(Current()), today, dailyStamp, dailyIo, stamp, io, now, wtime,
                                                      subject, content, memo, impression)
    {
      if !Truthy(subject) || !Truthy(content) { return false; }
      StartSession(today, dailyStamp, dailyIo, stamp, io, now, wtime, subject, content, memo, impression);
      ok := true;
    }

    /** end_session. */
    method EndSession(stamp: nat, io: IoOutcome, now: int, wtime: int)
      modifies this
      ensures Current() == StoreState.EndSession(old(Current()), stamp, io, now, wtime)
    {
      Backup(ShortTerm, stamp, "Before ending session.", io);
      var active := ScanLatestStart(entries, IsOpen);
      if active.Some? {
        var _ := UpdateEndTime(entries[active.value].id, now, wtime);
      }
    }

    /** break_session; `ok` is the returned status. */
    method BreakSession(stamp: nat, io: IoOutcome, now: int, wtime: int, content: Option<string>) returns (ok: bool)
      modifies this
      ensures (Current(), ok) == StoreState.BreakSession(old(Current()), stamp, io, now, wtime, content)
    {
      Backup(ShortTerm, stamp, "Before break session.", io);
      var active := ScanLatestStart(entries, IsOpen);
      if active.None? { return false; }
      var _ := UpdateEndTime(entries[active.value].id, now, wtime);
      Insert(Break, None, content, now, None, None, None, wtime);
      ok := true;
    }

    /** resume_session. */
    method ResumeSession(stamp: nat, io: IoOutcome, now: int, wtime: int, memo: Option<string>, impression: Option<string>)
      modifies this
      ensures Current() == StoreState.ResumeSession(old(Current()), stamp, io, now, wtime, memo, impression)
    {
      Backup(ShortTerm, stamp, "Before resume session.", io);
      ResumeRows(now, wtime, memo, impression);
    }

    /** resume_session after its snapshot: the active row is closed, then a
        RESUME row copies subject and content from the latest START row. */
    method ResumeRows(now: int, wtime: int, memo: Option<string>, impression: Option<string>)
      modifies this
      ensures var r := ResumeImage(old(Current()).image, now, memo, impression);
        Current() == (if r.Some? then old(Current()).(image := r.value, mtime := wtime) else old(Current()))
    {
      var active := ScanLatestStart(entries, IsOpen);
      if active.None? { return; }
      var _ := UpdateEndTime(entries[active.value].id, now, wtime);
      var k := ScanLatestStart(entries, IsStart);
      var subject := if k.Some? then entries[k.value].subject else None;
      var content := if k.Some? then entries[k.value].content else None;
      assert (subject, content) == ResumeSource(entries);
      Insert(Resume, subject, content, now, None, memo, impression, wtime);
    }

    /** merge_sessions; `err` is None on success. */
    method MergeSessions(stamp: nat, io: IoOutcome, s1: nat, s2: nat, wtime: int) returns (err: Option<MergeError>)
      modifies this
      ensures (Current(), err) == StoreState.MergeSessions(old(Current()), stamp, io, s1, s2, wtime)
    {
      Backup(ShortTerm, stamp, "Before merging sessions.", io);
      err := MergeRows(s1, s2, wtime);
    }

    /** merge_sessions after its snapshot: the lookups, the error returns and
        the two writes and their commit. */
    method MergeRows(s1: nat, s2: nat, wtime: int) returns (err: Option<MergeError>)
      modifies this
      ensures var r := MergeImage(old(Current()).image, s1, s2);
        && err == (if r.Failure? then Some(r.error) else None)
        && Current() == (if r.Success? then old(Current()).(image := r.value, mtime := wtime) else old(Current()))
    {
      var i1 := ScanStartId(entries, s1);
      var i2 := ScanStartId(entries, s2);
      if i1.None? || i2.None? { return Some(StartNotFound); }
      if entries[i1.value].summary != entries[i2.value].summary { return Some(SummaryMismatch); }
      var k := ScanLastInRange(entries, s1, s2);
      if k.None? || entries[k.value].end.None? { return Some(Session1EndMissing); }
      var a := entries[i1.value];
      var b := entries[i2.value];
      var breakStart := entries[k.value].end.value;
      entries := entries[i2.value := b.(event := Resume, summary := None)];
      Insert(Break, a.subject, Some(MergeBreakContent), breakStart, Some(b.start), None, None, wtime);
      err := None;
    }

    /** consolidate_last_break_into_resume; `err` is None on success. */
    method Consolidate(stamp: nat, io: IoOutcome, wtime: int) returns (err: Option<ConsolidateError>)
      modifies this
      ensures (Current(), err) == StoreState.Consolidate(old(Current()), stamp, io, wtime)
    {
      Backup(ShortTerm, stamp, "Before consolidating last BREAK into RESUME.", io);
      var n := |entries|;
      if n < 2 { return Some(NotEnoughEntries); }
      var b := entries[n - 1];
      var r := entries[n - 2];
      if !(b.event == Break && r.event == Resume) { return Some(NotBreakAfterResume); }
      entries := entries[..n - 2] + [r.(content := ConsolidatedContent(r.content, b.content), end := b.end)];
      mtime := wtime;
      err := None;
    }

    /** action_log_update_end_time. */
    method UpdateEndTimeAction(id: nat, t: int, wtime: int) returns (ok: bool)
      modifies this
      ensures (Current(), ok) == StoreState.UpdateEndTimeAction(old(Current()), id, t, wtime)
    {
      ok := UpdateEndTime(id, t, wtime);
    }

    /** action_session_active. */
    method SessionActive() returns (active: bool, event: Option<EventType>)
      ensures (active, event) == StudyLog.SessionActive(entries)
    {
      var i := ScanLastOpen(entries);
      if i.None? { return false, None; }
      active := entries[i.value].event != Break;
      event := Some(entries[i.value].event);
    }
  }
}

=== FILE: store_props.dfy ===
/** Properties of the snapshot discipline of manage_log.py: pool caps, undo and
    redo, and the snapshot every mutating session operation takes first. */
module StoreProperties {
  import opened Wrappers
  import opened SnapshotPools
  import opened StudyLog
  import opened StoreState

  /** A backup whose copy and journal line both happened leaves the pool at its
      cap at most, appends the journal line, keeps only files that were there or
      the new copy, deletes no file newer than one it keeps, and leaves the store
      and the other pools alone. */
  lemma BackupCopiedSpec(s: State, kind: PoolKind, stamp: nat, description: string)
    ensures var r := Backup(s, kind, stamp, description, Copied);
      var p := Pool(s, kind) + [Snapshot(stamp, s.mtime, s.image)];
      && |Pool(r, kind)| == (if |p| <= Cap(kind) then |p| else Cap(kind))
      && r.journal == s.journal + [JournalLine(stamp, description)]
      && (forall x :: x in Pool(r, kind) ==> x in p)
      && (forall x, y :: x in p && x !in Pool(r, kind) && y in Pool(r, kind) ==> x.mtime <= y.mtime)
      && r.image == s.image && r.mtime == s.mtime
      && (forall k :: k != kind ==> Pool(r, k) == Pool(s, k))
  {
    var p := Pool(s, kind) + [Snapshot(stamp, s.mtime, s.image)];
    PrunedSize(p, Cap(kind));
    PrunedOnlyDeletes(p, Cap(kind));
    PrunedDeletesOldest(p, Cap(kind));
  }

  /** When the journal append fails the pruning is skipped, so a full pool ends
      one file over its cap. */
  lemma BackupJournalFailedSkipsPruning(s: State, kind: PoolKind, stamp: nat, description: string)
    requires |Pool(s, kind)| == Cap(kind)
    ensures var r := Backup(s, kind, stamp, description, JournalFailed);
      |Pool(r, kind)| == Cap(kind) + 1 && r.journal == s.journal
  {
  }

  /** A backup whose copy happened keeps a pool's unique newest file. */
  lemma BackupKeepsNewest(s: State, kind: PoolKind, stamp: nat, description: string, io: IoOutcome, x: Snap)
    requires io != CopyFailed
    requires NewestIs(Pool(s, kind) + [Snapshot(stamp, s.mtime, s.image)], x)
    ensures NewestIs(Pool(Backup(s, kind, stamp, description, io), kind), x)
  {
    if io == Copied {
      PrunedKeepsNewest(Pool(s, kind) + [Snapshot(stamp, s.mtime, s.image)], Cap(kind), x);
    }
  }

  /** A backup whose copy happened keeps what a pool's newest files hold, when
      the store is no older than the pool and ties with it only on equal content. */
  lemma BackupKeepsNewestHolds(s: State, kind: PoolKind, stamp: nat, description: string, io: IoOutcome)
    requires io != CopyFailed
    requires NewestHolds(Pool(s, kind) + [Snapshot(stamp, s.mtime, s.image)], s.mtime, s.image)
    ensures NewestHolds(Pool(Backup(s, kind, stamp, description, io), kind), s.mtime, s.image)
  {
    if io == Copied {
      PrunedKeepsNewestHolds(Pool(s, kind) + [Snapshot(stamp, s.mtime, s.image)], Cap(kind), s.mtime, s.image);
    }
  }

  /** Undo with an empty short-term pool and redo with an empty redo pool change nothing. */
  lemma UndoRedoOnEmptyPool(s: State, stamp: nat, backupIo: IoOutcome, restoreIo: IoOutcome)
    ensures s.shortTerm == [] ==> Undo(s, stamp, backupIo, restoreIo) == (s, false)
    ensures s.redo == [] ==> RedoOp(s, stamp, backupIo, restoreIo) == (s, false)
  {
  }

  /** Undo with a non-empty pool: the newest short-term file is deleted from the
      pool and, when its copy happens, becomes the store (contents and mtime);
      the pre-undo store is saved into the redo pool. */
  lemma UndoSpec(s: State, stamp: nat, backupIo: IoOutcome, restoreIo: IoOutcome)
    requires s.shortTerm != []
    ensures var i := Latest(s.shortTerm).value;
      var r := Undo(s, stamp, backupIo, restoreIo);
      && r.1
      && r.0.shortTerm == RemoveAt(s.shortTerm, i)
      && r.0.redo == Backup(s, Redo, stamp, "For Redo", backupIo).redo
      && r.0.longTerm == s.longTerm
      && (restoreIo != CopyFailed ==> r.0.image == s.shortTerm[i].image && r.0.mtime == s.shortTerm[i].mtime)
      && (restoreIo == CopyFailed ==> r.0.image == s.image && r.0.mtime == s.mtime)
  {
  }

  /** Redo with a non-empty redo pool: the newest redo file is deleted from
      the pool whatever the restore reports and, when its copy happens,
      becomes the store (contents and mtime); the pre-redo store is saved into
      the short-term pool and the long-term pool is untouched. */
  lemma RedoSpec(s: State, stamp: nat, backupIo: IoOutcome, restoreIo: IoOutcome)
    requires s.redo != []
    ensures var i := Latest(s.redo).value;
      var r := RedoOp(s, stamp, backupIo, restoreIo);
      && r.1
      && r.0.redo == RemoveAt(s.redo, i)
      && r.0.shortTerm == Backup(s, ShortTerm, stamp, "For Undo (Redo operation)", backupIo).shortTerm
      && r.0.longTerm == s.longTerm
      && (restoreIo != CopyFailed ==> r.0.image == s.redo[i].image && r.0.mtime == s.redo[i].mtime)
      && (restoreIo == CopyFailed ==> r.0.image == s.image && r.0.mtime == s.mtime)
  {
  }

  /** Undo followed by redo gives back the store as it was, contents and mtime,
      when the copies happen and every earlier redo file is older than the
      store. */
  lemma UndoThenRedo(s: State, stamp1: nat, backupIo1: IoOutcome, restoreIo1: IoOutcome,
                     stamp2: nat, backupIo2: IoOutcome, restoreIo2: IoOutcome)
    requires s.shortTerm != []
    requires backupIo1 != CopyFailed && restoreIo1 != CopyFailed && restoreIo2 != CopyFailed
    requires forall j :: 0 <= j < |s.redo| ==> s.redo[j].mtime < s.mtime
    ensures var u := Undo(s, stamp1, backupIo1, restoreIo1).0;
      var r := RedoOp(u, stamp2, backupIo2, restoreIo2);
      r.1 && r.0.image == s.image && r.0.mtime == s.mtime
  {
    var x := Snapshot(stamp1, s.mtime, s.image);
    NewestWhenAddedLast(s.redo, x);
    BackupKeepsNewest(s, Redo, stamp1, "For Redo", backupIo1, x);
    var u := Undo(s, stamp1, backupIo1, restoreIo1).0;
    assert u.redo == Backup(s, Redo, stamp1, "For Redo", backupIo1).redo;
    NewestIsLatest(u.redo, x);
  }

  /** Two undos and one redo: the redo file written by the first undo carries
      the newer mtime, so redo returns to the store as it was before the FIRST
      undo, skipping the state between the two undos. */
  lemma TwoUndosThenRedo(s: State, stamp1: nat, bio1: IoOutcome, rio1: IoOutcome,
                         stamp2: nat, bio2: IoOutcome, rio2: IoOutcome,
                         stamp3: nat, bio3: IoOutcome, rio3: IoOutcome)
    requires |s.shortTerm| >= 2
    requires bio1 != CopyFailed && rio1 != CopyFailed && bio2 != CopyFailed && rio2 != CopyFailed && rio3 != CopyFailed
    requires forall j :: 0 <= j < |s.redo| ==> s.redo[j].mtime < s.mtime
    requires s.shortTerm[Latest(s.shortTerm).value].mtime < s.mtime
    ensures var u1 := Undo(s, stamp1, bio1, rio1).0;
      var u2 := Undo(u1, stamp2, bio2, rio2).0;
      var r := RedoOp(u2, stamp3, bio3, rio3);
      r.1 && r.0.image == s.image && r.0.mtime == s.mtime
  {
    var x := Snapshot(stamp1, s.mtime, s.image);
    NewestWhenAddedLast(s.redo, x);
    BackupKeepsNewest(s, Redo, stamp1, "For Redo", bio1, x);
    var u1 := Undo(s, stamp1, bio1, rio1).0;
    assert u1.redo == Backup(s, Redo, stamp1, "For Redo", bio1).redo;
    assert u1.mtime == s.shortTerm[Latest(s.shortTerm).value].mtime;
    assert u1.shortTerm != [];
    var y := Snapshot(stamp2, u1.mtime, u1.image);
    NewestAfterOlderAdded(u1.redo, x, y);
    BackupKeepsNewest(u1, Redo, stamp2, "For Redo", bio2, x);
    var u2 := Undo(u1, stamp2, bio2, rio2).0;
    assert u2.redo == Backup(u1, Redo, stamp2, "For Redo", bio2).redo;
    NewestIsLatest(u2.redo, x);
  }

  /** Every mutating session operation is undoable: when its snapshot copy
      happens and no short-term file is newer than the store, or as new with
      other content, an undo right after it restores the store as it was
      before the operation. This covers a store left untouched by a session
      operation that found nothing to change, whose snapshot ties the store. */
  lemma UndoRevertsMutation(s: State, stamp: nat, description: string, io: IoOutcome, img: Option<Image>, wtime: int,
                            ustamp: nat, ubackupIo: IoOutcome, urestoreIo: IoOutcome)
    requires io != CopyFailed && urestoreIo != CopyFailed
    requires UndoReady(s)
    ensures var m := Mutate(s, stamp, description, io, img, wtime);
      var u := Undo(m, ustamp, ubackupIo, urestoreIo);
      u.1 && u.0.image == s.image && u.0.mtime == s.mtime
  {
    var x := Snapshot(stamp, s.mtime, s.image);
    NewestHoldsWhenAddedLast(s.shortTerm, x);
    BackupKeepsNewestHolds(s, ShortTerm, stamp, description, io);
    var m := Mutate(s, stamp, description, io, img, wtime);
    assert m.shortTerm == Backup(s, ShortTerm, stamp, description, io).shortTerm;
    NewestHoldsLatest(m.shortTerm, s.mtime, s.image);
  }

  /** No short-term file is newer than the store, and one as new holds the
      store's content. */
  ghost predicate UndoReady(s: State) {
    forall j :: 0 <= j < |s.shortTerm| ==>
      s.shortTerm[j].mtime <= s.mtime && (s.shortTerm[j].mtime == s.mtime ==> s.shortTerm[j].image == s.image)
  }

  /** A session operation keeps the store ready for undo when its table write,
      if any, comes at a later clock reading than the store's mtime; so each
      of a run of such operations is undoable in turn. */
  lemma MutateKeepsUndoReady(s: State, stamp: nat, description: string, io: IoOutcome, img: Option<Image>, wtime: int)
    requires UndoReady(s)
    requires img.Some? ==> wtime > s.mtime
    ensures UndoReady(Mutate(s, stamp, description, io, img, wtime))
  {
    var x := Snapshot(stamp, s.mtime, s.image);
    var b := Backup(s, ShortTerm, stamp, description, io);
    var m := Mutate(s, stamp, description, io, img, wtime);
    assert m.shortTerm == b.shortTerm;
    PrunedOnlyDeletes(s.shortTerm + [x], Cap(ShortTerm));
    forall j | 0 <= j < |m.shortTerm|
      ensures m.shortTerm[j].mtime <= m.mtime && (m.shortTerm[j].mtime == m.mtime ==> m.shortTerm[j].image == m.image)
    {
      var y := m.shortTerm[j];
      assert y in s.shortTerm + [x] by {
        if io == Copied { assert y in Pruned(s.shortTerm + [x], Cap(ShortTerm)); }
      }
      if y in s.shortTerm {
        var k :| 0 <= k < |s.shortTerm| && s.shortTerm[k] == y;
      }
    }
  }

  /** start_session appends the START row and sets the store's mtime to the
      write time; it takes the daily long-term snapshot only when no row
      starts on `today`, and after it a row starts on the day of `now`, so a
      second start on the same day takes no long-term snapshot. */
  lemma StartSessionSpec(s: State, today: int, dailyStamp: nat, dailyIo: IoOutcome, stamp: nat, io: IoOutcome,
                         now: int, wtime: int, subject: Option<string>, content: Option<string>,
                         memo: Option<string>, impression: Option<string>)
    ensures var r := StartSession(s, today, dailyStamp, dailyIo, stamp, io, now, wtime, subject, content, memo, impression);
      && r.image == StartImage(s.image, subject, content, now, memo, impression)
      && r.mtime == wtime
      && (TodayLogExists(s.image.entries, today) ==> r.longTerm == s.longTerm)
      && (!TodayLogExists(s.image.entries, today) ==>
            r.longTerm == Backup(s, LongTerm, dailyStamp, "Daily auto backup before first study session.", dailyIo).longTerm)
      && TodayLogExists(r.image.entries, now / 86400)
      && r.redo == s.redo
  {
    var r := StartSession(s, today, dailyStamp, dailyIo, stamp, io, now, wtime, subject, content, memo, impression);
    var n := |s.image.entries|;
    assert r.image.entries[n].start / 86400 == now / 86400;
  }

  /** action_log_create refuses an empty subject or content before taking any
      snapshot; otherwise it is start_session. */
  lemma LogCreateSpec(s: State, today: int, dailyStamp: nat, dailyIo: IoOutcome, stamp: nat, io: IoOutcome,
                      now: int, wtime: int, subject: Option<string>, content: Option<string>,
                      memo: Option<string>, impression: Option<string>)
    ensures var r := LogCreate(s, today, dailyStamp, dailyIo, stamp, io, now, wtime, subject, content, memo, impression);
      && (r.1 <==> Truthy(subject) && Truthy(content))
      && (!r.1 ==> r.0 == s)
      && (r.1 ==> r.0.image.entries == s.image.entries + [Entry(s.image.nextId, Start, subject, content, now, None, None, None, memo, impression)])
  {
  }

  /** A session operation that finds nothing to change still takes its snapshot
      and leaves the table and the store's mtime as they were. */
  lemma FailedOperationOnlySnapshots(s: State, stamp: nat, io: IoOutcome, now: int, wtime: int, content: Option<string>)
    requires forall j :: 0 <= j < |s.image.entries| ==> !IsOpen(s.image.entries[j])
    requires WellFormed(s.image)
    ensures var r := BreakSession(s, stamp, io, now, wtime, content);
      && !r.1
      && r.0 == Backup(s, ShortTerm, stamp, "Before break session.", io)
      && r.0.image == s.image && r.0.mtime == s.mtime
    ensures EndSession(s, stamp, io, now, wtime) == Backup(s, ShortTerm, stamp, "Before ending session.", io)
  {
    assert ActiveIndex(s.image.entries).None?;
  }

  /** The update_end_time action takes no snapshot: the pools and the journal
      are untouched, so an undo after it reverts the operation before it. */
  lemma UpdateEndTimeActionTakesNoSnapshot(s: State, id: nat, t: int, wtime: int)
    requires WellFormed(s.image)
    ensures var r := UpdateEndTimeAction(s, id, t, wtime);
      && r.0.shortTerm == s.shortTerm && r.0.longTerm == s.longTerm && r.0.redo == s.redo
      && r.0.journal == s.journal
      && (r.1 <==> exists j :: 0 <= j < |s.image.entries| && s.image.entries[j].id == id)
  {
  }
}

=== FILE: store_state.dfy ===
/** The whole on-disk state manage_log.py works on: the live store file (its
    table image and modification time), the three snapshot directories and
    the append-only backup journal; and every operation as a function from
    one state to the next. File-system failures become an `IoOutcome`
    parameter, the backup clock a `stamp` parameter. */
module StoreState {
  import opened Wrappers
  import opened SnapshotPools
  import opened StudyLog

  /** How far a copy-then-journal step got before an exception was caught:
      the copy failed, the copy happened but the journal append failed, or both
      happened. */
  datatype IoOutcome = CopyFailed | JournalFailed | Copied

  /** One line of backup_log.txt: `<file name>: <description>`. */
  datatype JournalLine = JournalLine(name: nat, description: string)

  type Snap = Snapshot<Image>

  datatype State = State(
    image: Image, mtime: int,
    shortTerm: seq<Snap>, longTerm: seq<Snap>, redo: seq<Snap>,
    journal: seq<JournalLine>)

  function Pool(s: State, kind: PoolKind): seq<Snap> {
    match kind
    case ShortTerm => s.shortTerm
    case LongTerm => s.longTerm
    case Redo => s.redo
  }

  function WithPool(s: State, kind: PoolKind, p: seq<Snap>): (r: State)
    ensures Pool(r, kind) == p
    ensures forall k :: k != kind ==> Pool(r, k) == Pool(s, k)
    ensures r.image == s.image && r.mtime == s.mtime && r.journal == s.journal
  {
    match kind
    case ShortTerm => s.(shortTerm := p)
    case LongTerm => s.(longTerm := p)
    case Redo => s.(redo := p)
  }

  /** backup_database: copy the store (with its mtime) into the pool, append the
      journal line, then prune the pool to its cap. A failed copy changes
      nothing; a failed journal append skips the pruning. */
  function Backup(s: State, kind: PoolKind, stamp: nat, description: string, io: IoOutcome): (r: State)
    ensures r.image == s.image && r.mtime == s.mtime
    ensures forall k :: k != kind ==> Pool(r, k) == Pool(s, k)
  {
    var snap := Snapshot(stamp, s.mtime, s.image);
    match io
    case CopyFailed => s
    case JournalFailed => WithPool(s, kind, Pool(s, kind) + [snap])
    case Copied =>
      WithPool(s.(journal := s.journal + [JournalLine(stamp, description)]), kind,
               Pruned(Pool(s, kind) + [snap], Cap(kind)))
  }

  /** restore_database: copy the snapshot over the store (the store takes the
      snapshot's mtime), then journal `<file name>: <description>`. The result
      is the returned status: success only when both steps happened. */
  function Restore(s: State, snap: Snap, description: string, io: IoOutcome): (State, bool) {
    match io
    case CopyFailed => (s, false)
    case JournalFailed => (s.(image := snap.image, mtime := snap.mtime), false)
    case Copied =>
      (s.(image := snap.image, mtime := snap.mtime,
          journal := s.journal + [JournalLine(snap.name, description)]), true)
  }

  /** undo_last_operation. The flag says whether a snapshot was found; the
      status of the restore is not looked at, and the snapshot is deleted
      either way. */
  function Undo(s: State, stamp: nat, backupIo: IoOutcome, restoreIo: IoOutcome): (State, bool) {
    match Latest(s.shortTerm)
    case None => (s, false)
    case Some(i) =>
      var snap := s.shortTerm[i];
      var s1 := Backup(s, Redo, stamp, "For Redo", backupIo);
      var s2 := Restore(s1, snap, "Undo operation", restoreIo).0;
      (s2.(shortTerm := RemoveAt(s2.shortTerm, i)), true)
  }

  /** redo_last_undo: the mirror image of Undo, saving the current store into
      the short-term pool. */
  function RedoOp(s: State, stamp: nat, backupIo: IoOutcome, restoreIo: IoOutcome): (State, bool) {
    match Latest(s.redo)
    case None => (s, false)
    case Some(i) =>
      var snap := s.redo[i];
      var s1 := Backup(s, ShortTerm, stamp, "For Undo (Redo operation)", backupIo);
      var s2 := Restore(s1, snap, "Redo operation", restoreIo).0;
      (s2.(redo := RemoveAt(s2.redo, i)), true)
  }

  /** A mutating session operation: a short-term snapshot first, then, when the
      operation found what it needed, the table write, which sets the store's
      mtime to `wtime`. Rows carry whole-second times, while `wtime` is the
      file system's clock at the write, which is finer, so two writes in the
      same second need not give the store the same mtime. */
  function Mutate(s: State, stamp: nat, description: string, io: IoOutcome, img: Option<Image>, wtime: int): State {
    var b := Backup(s, ShortTerm, stamp, description, io);
    match img
    case None => b
    case Some(i) => b.(image := i, mtime := wtime)
  }

  /** start_session: a long-term snapshot before the first row of the day, a
      short-term snapshot, then the START row. */
  function StartSession(s: State, today: int, dailyStamp: nat, dailyIo: IoOutcome, stamp: nat, io: IoOutcome,
                        now: int, wtime: int, subject: Option<string>, content: Option<string>,
                        memo: Option<string>, impression: Option<string>): State
  {
    var s0 := if TodayLogExists(s.image.entries, today) then s
              else Backup(s, LongTerm, dailyStamp, "Daily auto backup before first study session.", dailyIo);
    Mutate(s0, stamp, "Before start session.", io, Some(StartImage(s.image, subject, content, now, memo, impression)), wtime)
  }

  /** action_log_create: subject and content must both be non-empty, checked
      before any snapshot is taken. */
  function LogCreate(s: State, today: int, dailyStamp: nat, dailyIo: IoOutcome, stamp: nat, io: IoOutcome,
                     now: int, wtime: int, subject: Option<string>, content: Option<string>,
                     memo: Option<string>, impression: Option<string>): (State, bool)
  {
    if !Truthy(subject) || !Truthy(content) then (s, false)
    else (StartSession(s, today, dailyStamp, dailyIo, stamp, io, now, wtime, subject, content, memo, impression), true)
  }

  /** end_session. */
  function EndSession(s: State, stamp: nat, io: IoOutcome, now: int, wtime: int): State {
    Mutate(s, stamp, "Before ending session.", io, EndImage(s.image, now), wtime)
  }

  /** break_session; the flag is the returned status. */
  function BreakSession(s: State, stamp: nat, io: IoOutcome, now: int, wtime: int, content: Option<string>): (State, bool) {
    var img := BreakImage(s.image, now, content);
    (Mutate(s, stamp, "Before break session.", io, img, wtime), img.Some?)
  }

  /** resume_session (its caller action_log_resume reports success either way). */
  function ResumeSession(s: State, stamp: nat, io: IoOutcome, now: int, wtime: int,
                         memo: Option<string>, impression: Option<string>): State
  {
    Mutate(s, stamp, "Before resume session.", io, ResumeImage(s.image, now, memo, impression), wtime)
  }

  /** merge_sessions. */
  function MergeSessions(s: State, stamp: nat, io: IoOutcome, s1: nat, s2: nat, wtime: int): (State, Option<MergeError>) {
    var r := MergeImage(s.image, s1, s2);
    var img := if r.Success? then Some(r.value) else None;
    (Mutate(s, stamp, "Before merging sessions.", io, img, wtime), if r.Failure? then Some(r.error) else None)
  }

  /** consolidate_last_break_into_resume. */
  function Consolidate(s: State, stamp: nat, io: IoOutcome, wtime: int): (State, Option<ConsolidateError>) {
    var r := ConsolidateImage(s.image);
    var img := if r.Success? then Some(r.value) else None;
    (Mutate(s, stamp, "Before consolidating last BREAK into RESUME.", io, img, wtime),
     if r.Failure? then Some(r.error) else None)
  }

  /** action_log_update_end_time: update_end_time without any snapshot. */
  function UpdateEndTimeAction(s: State, id: nat, t: int, wtime: int): (State, bool) {
    match UpdateEndTime(s.image, id, t)
    case None => (s, false)
    case Some(img) => (s.(image := img, mtime := wtime), true)
  }
}

=== FILE: stream_text.dfy ===
/** Text helpers of webnew/server.js: the elapsed-time label put in front of
    history lines, the cap on long strings in history deltas, and the
    de-duplication of streamed assistant text chunks. Times are integer
    milliseconds. */
module StreamText {
  import opened Wrappers
  import opened Text

  // ------------------------------------------------------------ formatElapsed

  /** The `HHh`, `MMm`, `SSs` parts for a positive number of seconds: zero
      hours and zero minutes are left out, and zero seconds are left out
      unless nothing else was printed. */
  function ElapsedParts(secs: nat): string {
    var h := secs / 3600;
    var m := (secs - h * 3600) / 60;
    var s := secs - h * 3600 - m * 60;
    assert 0 <= secs - h * 3600 < 3600;
    PartsOf(h, m, s)
  }

  /** The parts for `h` hours, `m` minutes and `s` seconds. */
  function PartsOf(h: nat, m: nat, s: nat): string {
    Part(h > 0, h, 'h') + Part(m > 0, m, 'm') + Part(s > 0 || (h == 0 && m == 0), s, 's')
  }

  /** One part: two or more digits and the unit letter, or nothing. */
  function Part(present: bool, x: nat, unit: char): string {
    if present then Pad2(x) + [unit] else ""
  }

  /** formatElapsed: `prevTs` is None when it is not a finite number. */
  function FormatElapsed(prevTs: Option<int>, current: int): (r: string)
    ensures |r| >= 4 && r[0] == '+'
    ensures (prevTs.None? || prevTs.value < 0 || current - prevTs.value <= 0) ==> r == "+00s"
  {
    if prevTs.None? || prevTs.value < 0 || current - prevTs.value <= 0 then "+00s"
    else "+" + ElapsedParts((current - prevTs.value) / 1000)
  }

  /** Reads a label back: digit runs accumulate, and `h`, `m`, `s` close a run
      as hours, minutes or seconds. */
  function ReadElapsed(t: string, acc: nat): nat {
    if t == [] then 0
    else if IsAsciiDigit(t[0]) then ReadElapsed(t[1..], acc * 10 + DigitValue(t[0]))
    else if t[0] == 'h' then acc * 3600 + ReadElapsed(t[1..], 0)
    else if t[0] == 'm' then acc * 60 + ReadElapsed(t[1..], 0)
    else if t[0] == 's' then acc + ReadElapsed(t[1..], 0)
    else ReadElapsed(t[1..], 0)
  }

  lemma {:induction false} ReadDigits(ds: string, rest: string)
    requires AllDigits(ds)
    ensures ReadElapsed(ds + rest, 0) == ReadElapsed(rest, DecimalValue(ds))
    decreases |ds|
  {
    if ds == [] {
      assert ds + rest == rest;
    } else {
      var front := ds[..|ds| - 1];
      var d := ds[|ds| - 1];
      assert ds + rest == front + ([d] + rest);
      ReadDigits(front, [d] + rest);
      assert ([d] + rest)[1..] == rest;
    }
  }

  lemma ReadUnit(x: nat, u: char, rest: string)
    requires u == 'h' || u == 'm' || u == 's'
    ensures ReadElapsed(Pad2(x) + [u] + rest, 0)
      == x * (if u == 'h' then 3600 else if u == 'm' then 60 else 1) + ReadElapsed(rest, 0)
  {
    assert Pad2(x) + [u] + rest == Pad2(x) + ([u] + rest);
    ReadDigits(Pad2(x), [u] + rest);
    Pad2RoundTrip(x);
    assert ([u] + rest)[1..] == rest;
  }

  /** A part read back adds its count in seconds. */
  lemma ReadPart(present: bool, x: nat, u: char, rest: string)
    requires u == 'h' || u == 'm' || u == 's'
    ensures ReadElapsed(Part(present, x, u) + rest, 0)
      == (if present then x * (if u == 'h' then 3600 else if u == 'm' then 60 else 1) else 0) + ReadElapsed(rest, 0)
  {
    if present {
      ReadUnit(x, u, rest);
    } else {
      assert Part(present, x, u) + rest == rest;
    }
  }

  /** The parts read back as the seconds they stand for. */
  lemma ReadParts(h: nat, m: nat, s: nat)
    ensures ReadElapsed(PartsOf(h, m, s), 0)
      == (if h > 0 then h * 3600 else 0) + (if m > 0 then m * 60 else 0) + (if s > 0 || (h == 0 && m == 0) then s else 0)
  {
    var hp, mp, sp := Part(h > 0, h, 'h'), Part(m > 0, m, 'm'), Part(s > 0 || (h == 0 && m == 0), s, 's');
    assert PartsOf(h, m, s) == hp + (mp + sp);
    ReadPart(s > 0 || (h == 0 && m == 0), s, 's', "");
    assert sp + "" == sp;
    ReadPart(m > 0, m, 'm', sp);
    ReadPart(h > 0, h, 'h', mp + sp);
  }

  /** The parts read back as the number of seconds they were made from. */
  lemma ElapsedPartsReadBack(secs: nat)
    ensures ReadElapsed(ElapsedParts(secs), 0) == secs
  {
    var h := secs / 3600;
    assert 0 <= secs - h * 3600 < 3600;
    var m := (secs - h * 3600) / 60;
    var s := secs - h * 3600 - m * 60;
    ReadParts(h, m, s);
  }

  /** The label after `+` reads back as the whole seconds elapsed, and 0 for
      a missing, negative or later previous time. */
  lemma FormatElapsedReadBack(prevTs: Option<int>, current: int)
    ensures var r := FormatElapsed(prevTs, current);
      ReadElapsed(r[1..], 0) ==
        if prevTs.None? || prevTs.value < 0 || current - prevTs.value <= 0 then 0
        else (current - prevTs.value) / 1000
  {
    var r := FormatElapsed(prevTs, current);
    if prevTs.None? || prevTs.value < 0 || current - prevTs.value <= 0 {
      assert r[1..] == Pad2(0) + ['s'] + "";
      ReadUnit(0, 's', "");
    } else {
      assert r[1..] == ElapsedParts((current - prevTs.value) / 1000);
      ElapsedPartsReadBack((current - prevTs.value) / 1000);
    }
  }

  // ------------------------------------------------------------ truncateHistoryDeltaString

  const HistoryStringMax: nat := 35000

  /** The marker that replaces the cut-off tail; `…` is one UTF-16 unit. */
  function TruncationSuffix(n: nat): string {
    "\U{2026} [truncated " + NatToString(n) + " chars]"
  }

  /** truncateHistoryDeltaString on a string value. */
  function TruncateHistoryString(v: string): (r: string)
    ensures |v| <= HistoryStringMax ==> r == v
    ensures |v| > HistoryStringMax ==>
      var suffix := TruncationSuffix(|v| - HistoryStringMax);
      && EndsWith(r, suffix)
      && r[..|r| - |suffix|] <= v
      && (|suffix| <= HistoryStringMax ==> |r| == HistoryStringMax)
  {
    if |v| <= HistoryStringMax then v
    else
      var suffix := TruncationSuffix(|v| - HistoryStringMax);
      var keep := if HistoryStringMax - |suffix| > 0 then HistoryStringMax - |suffix| else 0;
      var r := v[..keep] + suffix;
      assert r[..|r| - |suffix|] == v[..keep];
      r
  }

  lemma {:induction false} NatToStringLength(n: nat, k: nat)
    requires 1 <= k && n < Pow10(k)
    ensures |NatToString(n)| <= k
  {
    if n >= 10 {
      assert k >= 2;
      NatToStringLength(n / 10, k - 1);
    }
  }

  /** For any string shorter than a billion units the cut result is exactly
      35000 units, and the number in the marker is the count removed. */
  lemma TruncatedLength(v: string)
    requires HistoryStringMax < |v| < 1000000000
    ensures |TruncateHistoryString(v)| == HistoryStringMax
    ensures EndsWith(TruncateHistoryString(v), TruncationSuffix(|v| - HistoryStringMax))
    ensures DecimalValue(NatToString(|v| - HistoryStringMax)) == |v| - HistoryStringMax
  {
    SuffixFits(|v| - HistoryStringMax);
    NatToStringRoundTrip(|v| - HistoryStringMax);
  }

  /** A count below a billion has at most nine digits, so its marker is far
      shorter than the limit. */
  lemma SuffixFits(n: nat)
    requires n < 1000000000
    ensures |TruncationSuffix(n)| <= HistoryStringMax
  {
    assert Pow10(9) == 1000000000;
    NatToStringLength(n, 9);
  }

  // ------------------------------------------------------------ extractNewStreamSegment

  /** The last `k` units of `previous` are the first `k` of `incoming`. */
  predicate Overlaps(previous: string, incoming: string, k: nat) {
    0 < k <= |previous| && k <= |incoming| && previous[|previous| - k..] == incoming[..k]
  }

  function MaxOverlap(previous: string, incoming: string): nat {
    var cap := if |incoming| > 0 then |incoming| - 1 else 0;
    if |previous| < cap then |previous| else cap
  }

  /** The `endsWith` test of extractNewStreamSegment can never decide: a
      suffix of `previous` is already caught by the containment test. */
  lemma EndsWithCaughtEarlier(previous: string, incoming: string)
    requires EndsWith(previous, incoming)
    ensures |incoming| <= |previous| && Contains(previous, incoming)
  {
    assert OccursAt(previous, incoming, |previous| - |incoming|);
  }

  /** extractNewStreamSegment: what `incoming` adds to the text already
      shown. The result is always a suffix of `incoming`, and appending it to
      `previous` yields text that contains `incoming`. */
  method ExtractNewStreamSegment(previous: string, incoming: string) returns (r: string)
    ensures |r| <= |incoming| && r == incoming[|incoming| - |r|..]
    ensures Contains(previous + r, incoming)
    ensures incoming == "" ==> r == ""
    ensures incoming != "" && previous == "" ==> r == incoming
    ensures incoming != "" && previous != "" && (incoming == previous || (|incoming| <= |previous| && Contains(previous, incoming)))
      ==> r == ""
    ensures (incoming != "" && previous != "" && !(|incoming| <= |previous| && Contains(previous, incoming))
      && StartsWith(incoming, previous)) ==> r == incoming[|previous|..]
    ensures (incoming != "" && previous != "" && !(|incoming| <= |previous| && Contains(previous, incoming))
      && !StartsWith(incoming, previous)) ==>
        exists k :: 0 <= k <= MaxOverlap(previous, incoming) && r == incoming[k..]
          && (k > 0 ==> Overlaps(previous, incoming, k))
          && forall j :: k < j <= MaxOverlap(previous, incoming) ==> !Overlaps(previous, incoming, j)
  {
    if incoming == "" {
      assert OccursAt(previous + "", incoming, 0);
      return "";
    }
    if previous == "" {
      assert previous + incoming == incoming;
      assert OccursAt(incoming, incoming, 0);
      return incoming;
    }
    if incoming == previous {
      assert OccursAt(previous, incoming, 0);
      assert previous + "" == previous;
      return "";
    }
    if |incoming| <= |previous| && Contains(previous, incoming) {
      ContainsInLonger(previous, "", incoming);
      assert previous + "" == previous;
      return "";
    }
    if StartsWith(incoming, previous) {
      r := incoming[|previous|..];
      assert previous + r == incoming;
      assert OccursAt(previous + r, incoming, 0);
      return;
    }
    if EndsWith(previous, incoming) {
      EndsWithCaughtEarlier(previous, incoming);
      return "";
    }
    var maxOverlap := MaxOverlap(previous, incoming);
    var overlap := maxOverlap;
    while overlap > 0
      invariant 0 <= overlap <= maxOverlap
      invariant forall j :: overlap < j <= maxOverlap ==> !Overlaps(previous, incoming, j)
    {
      if previous[|previous| - overlap..] == incoming[..overlap] {
        r := incoming[overlap..];
        OverlapJoin(previous, incoming, overlap);
        return;
      }
      overlap := overlap - 1;
    }
    r := incoming;
    assert OccursAt(previous + r, incoming, |previous|);
  }

  lemma ContainsInLonger(a: string, b: string, t: string)
    requires Contains(a, t)
    ensures Contains(a + b, t)
  {
    var i :| 0 <= i <= |a| && OccursAt(a, t, i);
    assert (a + b)[i..i + |t|] == a[i..i + |t|];
    assert OccursAt(a + b, t, i);
  }

  lemma OverlapJoin(previous: string, incoming: string, k: nat)
    requires Overlaps(previous, incoming, k)
    ensures Contains(previous + incoming[k..], incoming)
  {
    var i := |previous| - k;
    var joined := previous + incoming[k..];
    assert joined[i..i + |incoming|] == previous[i..] + incoming[k..];
    assert incoming == incoming[..k] + incoming[k..];
    assert OccursAt(joined, incoming, i);
  }
}

=== FILE: study_log.dfy ===
/** The study_logs table of manage_log.py and the session operations on it,
    as functions from one table image to the next. Times are seconds on the
    local (JST) clock; `get_now()` becomes a parameter. The sequence of rows
    is kept in id order, which is the order SQLite's AUTOINCREMENT hands ids
    out in. */
module StudyLog {
  import opened Wrappers
  import opened Text

  /** event_type; the program only ever writes these three. */
  datatype EventType = Start | Resume | Break

  /** One study_logs row. `end` and `duration` are None while the row is open. */
  datatype Entry = Entry(
    id: nat, event: EventType,
    subject: Option<string>, content: Option<string>,
    start: int, end: Option<int>, duration: Option<int>,
    summary: Option<string>, memo: Option<string>, impression: Option<string>)

  /** The store file's contents: the rows and the AUTOINCREMENT counter (the next id). */
  datatype Image = Image(entries: seq<Entry>, nextId: nat)

  /** The counter starts at 1; ids are positive, below the counter and strictly
      increasing along the sequence. */
  ghost predicate WellFormed(img: Image) {
    img.nextId >= 1
    && (forall i :: 0 <= i < |img.entries| ==> 1 <= img.entries[i].id < img.nextId)
    && (forall i, j :: 0 <= i < j < |img.entries| ==> img.entries[i].id < img.entries[j].id)
  }

  predicate IsOpen(e: Entry) { e.end.None? }
  predicate IsStart(e: Entry) { e.event == Start }

  /** Python truthiness of a TEXT column. */
  predicate Truthy(s: Option<string>) { s.Some? && s.value != "" }

  /** The content of the BREAK row merge_sessions inserts. */
  const MergeBreakContent: string := "セッション結合による自動挿入"

  /** update_end_time: `int(total_seconds / 60)`, truncated toward zero. */
  function Minutes(start: int, end: int): (m: int)
    ensures start <= end ==> 0 <= m && m * 60 <= end - start < m * 60 + 60
    ensures end < start ==> m <= 0 && m * 60 - 60 < end - start <= m * 60
  {
    TruncDiv(end - start, 60)
  }

  function Close(e: Entry, t: int): Entry {
    e.(end := Some(t), duration := Some(Minutes(e.start, t)))
  }

  /** Appends a row with the next AUTOINCREMENT id. */
  function Append(img: Image, event: EventType, subject: Option<string>, content: Option<string>,
                  start: int, end: Option<int>, memo: Option<string>, impression: Option<string>): Image
  {
    Image(img.entries + [Entry(img.nextId, event, subject, content, start, end, None, None, memo, impression)],
          img.nextId + 1)
  }

  // ---------------------------------------------------------------- lookups

  /** `i` is a row `... WHERE p ORDER BY start_time DESC LIMIT 1` may return:
      a row of latest start. SQLite leaves the order among rows of equal
      start unspecified; the model settles such ties on the lowest id. */
  ghost predicate IsLatestStartWhere(es: seq<Entry>, p: Entry -> bool, i: nat) {
    i < |es| && p(es[i])
    && (forall j :: 0 <= j < |es| && p(es[j]) ==> es[j].start <= es[i].start)
    && (forall j :: 0 <= j < i && p(es[j]) ==> es[j].start < es[i].start)
  }

  function LatestStartIn(es: seq<Entry>, p: Entry -> bool, n: nat): (r: Option<nat>)
    requires n <= |es|
    ensures r.None? <==> forall j :: 0 <= j < n ==> !p(es[j])
    ensures r.Some? ==> IsLatestStartWhere(es[..n], p, r.value)
  {
    if n == 0 then None
    else
      var k := LatestStartIn(es, p, n - 1);
      assert es[..n - 1] == es[..n][..n - 1];
      if !p(es[n - 1]) then k
      else if k.None? || es[n - 1].start > es[k.value].start then Some(n - 1)
      else k
  }

  function LatestStartWhere(es: seq<Entry>, p: Entry -> bool): (r: Option<nat>)
    ensures r.None? <==> forall j :: 0 <= j < |es| ==> !p(es[j])
    ensures r.Some? ==> IsLatestStartWhere(es, p, r.value)
  {
    assert es[..|es|] == es;
    LatestStartIn(es, p, |es|)
  }

  /** get_last_active_log_id: the open row with the latest start_time. */
  function ActiveIndex(es: seq<Entry>): Option<nat> {
    LatestStartWhere(es, IsOpen)
  }

  /** resume_session's lookup: the START row with the latest start_time. */
  function LatestStartIndex(es: seq<Entry>): Option<nat> {
    LatestStartWhere(es, IsStart)
  }

  /** The subject and content resume_session copies: those of the START row
      with the latest start_time, or None for both when there is none. */
  function ResumeSource(es: seq<Entry>): (Option<string>, Option<string>) {
    match LatestStartIndex(es)
    case None => (None, None)
    case Some(k) => (es[k].subject, es[k].content)
  }

  /** action_session_active's lookup: the open row with the greatest id. */
  function LastOpenIndex(es: seq<Entry>): (r: Option<nat>)
    ensures r.None? <==> forall j :: 0 <= j < |es| ==> !IsOpen(es[j])
    ensures r.Some? ==> (r.value < |es| && IsOpen(es[r.value])
                         && forall j :: r.value < j < |es| ==> !IsOpen(es[j]))
  {
    if es == [] then None
    else if IsOpen(es[|es| - 1]) then Some(|es| - 1)
    else LastOpenIndex(es[..|es| - 1])
  }

  /** `SELECT ... WHERE id = ?`: the row with that id, if any. */
  function IndexOfId(es: seq<Entry>, id: nat): (r: Option<nat>)
    ensures r.None? <==> forall j :: 0 <= j < |es| ==> es[j].id != id
    ensures r.Some? ==> (r.value < |es| && es[r.value].id == id
                         && forall j :: 0 <= j < r.value ==> es[j].id != id)
  {
    if es == [] then None
    else if es[0].id == id then Some(0)
    else match IndexOfId(es[1..], id)
      case None => None
      case Some(k) => Some(k + 1)
  }

  /** `SELECT ... WHERE id = ? AND event_type = 'START'`. */
  function IndexOfStartId(es: seq<Entry>, id: nat): (r: Option<nat>)
    ensures r.None? <==> forall j :: 0 <= j < |es| ==> !(es[j].id == id && IsStart(es[j]))
    ensures r.Some? ==> (r.value < |es| && es[r.value].id == id && IsStart(es[r.value])
                         && forall j :: 0 <= j < r.value ==> !(es[j].id == id && IsStart(es[j])))
  {
    if es == [] then None
    else if es[0].id == id && IsStart(es[0]) then Some(0)
    else match IndexOfStartId(es[1..], id)
      case None => None
      case Some(k) => Some(k + 1)
  }

  predicate InIdRange(e: Entry, lo: nat, hi: nat) { lo <= e.id < hi }

  /** `(start, id)` of `a` is lexicographically at most that of `b`. */
  predicate StartIdLe(a: Entry, b: Entry) {
    a.start < b.start || (a.start == b.start && a.id <= b.id)
  }

  /** merge_sessions' lookup: among rows with lo <= id < hi, the one first in
      `ORDER BY start_time DESC, id DESC`. */
  function LastInRange(es: seq<Entry>, lo: nat, hi: nat): (r: Option<nat>)
    ensures r.None? <==> forall j :: 0 <= j < |es| ==> !InIdRange(es[j], lo, hi)
    ensures r.Some? ==> (r.value < |es| && InIdRange(es[r.value], lo, hi)
                         && forall j :: 0 <= j < |es| && InIdRange(es[j], lo, hi) ==> StartIdLe(es[j], es[r.value]))
  {
    if es == [] then None
    else
      var k := LastInRange(es[..|es| - 1], lo, hi);
      var e := es[|es| - 1];
      if !InIdRange(e, lo, hi) then k
      else if k.None? || StartIdLe(es[k.value], e) then Some(|es| - 1)
      else k
  }

  /** is_today_log_exists: some row's start_time falls on `today` (a day number). */
  predicate TodayLogExists(es: seq<Entry>, today: int) {
    exists j :: 0 <= j < |es| && es[j].start / 86400 == today
  }

  // ------------------------------------------------------------ operations

  function CloseRow(img: Image, i: nat, t: int): Image
    requires i < |img.entries|
  {
    img.(entries := img.entries[i := Close(img.entries[i], t)])
  }

  /** update_end_time: None is the "id not found" error. */
  function UpdateEndTime(img: Image, id: nat, t: int): Option<Image> {
    match IndexOfId(img.entries, id)
    case None => None
    case Some(i) => Some(CloseRow(img, i, t))
  }

  /** The INSERT of start_session. */
  function StartImage(img: Image, subject: Option<string>, content: Option<string>, now: int,
                      memo: Option<string>, impression: Option<string>): Image
  {
    Append(img, Start, subject, content, now, None, memo, impression)
  }

  /** end_session's writes; None when no row is open. */
  function EndImage(img: Image, now: int): Option<Image> {
    match ActiveIndex(img.entries)
    case None => None
    case Some(i) => UpdateEndTime(img, img.entries[i].id, now)
  }

  /** break_session's writes; None when no row is open. */
  function BreakImage(img: Image, now: int, content: Option<string>): Option<Image> {
    match EndImage(img, now)
    case None => None
    case Some(c) => Some(Append(c, Break, None, content, now, None, None, None))
  }

  /** resume_session's writes; None when no row is open. The new RESUME row
      takes subject and content from the START row with the latest start_time. */
  function ResumeImage(img: Image, now: int, memo: Option<string>, impression: Option<string>): Option<Image> {
    match EndImage(img, now)
    case None => None
    case Some(c) =>
      var (subject, content) := ResumeSource(c.entries);
      Some(Append(c, Resume, subject, content, now, None, memo, impression))
  }

  datatype MergeError = StartNotFound | SummaryMismatch | Session1EndMissing

  /** merge_sessions' writes. */
  function MergeImage(img: Image, s1: nat, s2: nat): Result<Image, MergeError> {
    var es := img.entries;
    var i1 := IndexOfStartId(es, s1);
    var i2 := IndexOfStartId(es, s2);
    if i1.None? || i2.None? then Failure(StartNotFound)
    else if es[i1.value].summary != es[i2.value].summary then Failure(SummaryMismatch)
    else
      var k := LastInRange(es, s1, s2);
      if k.None? || es[k.value].end.None? then Failure(Session1EndMissing)
      else
        var a := es[i1.value];
        var b := es[i2.value];
        var u := img.(entries := es[i2.value := b.(event := Resume, summary := None)]);
        Success(Append(u, Break, a.subject, Some(MergeBreakContent), es[k.value].end.value, Some(b.start), None, None))
  }

  datatype ConsolidateError = NotEnoughEntries | NotBreakAfterResume

  /** The RESUME row's new content: the BREAK's content is appended after a space
      when both are non-empty, replaces it when only the BREAK's is non-empty. */
  function ConsolidatedContent(resume: Option<string>, brk: Option<string>): Option<string> {
    if !Truthy(brk) then resume
    else if Truthy(resume) then Some(resume.value + " " + brk.value)
    else brk
  }

  /** consolidate_last_break_into_resume's writes. The deleted id is not reused. */
  function ConsolidateImage(img: Image): Result<Image, ConsolidateError> {
    var es := img.entries;
    var n := |es|;
    if n < 2 then Failure(NotEnoughEntries)
    else if es[n - 1].event == Break && es[n - 2].event == Resume then
      var r := es[n - 2];
      var b := es[n - 1];
      Success(img.(entries := es[..n - 2] + [r.(content := ConsolidatedContent(r.content, b.content), end := b.end)]))
    else Failure(NotBreakAfterResume)
  }

  /** action_session_active: whether the open row with the greatest id is not a
      BREAK, and that row's event type. */
  function SessionActive(es: seq<Entry>): (bool, Option<EventType>) {
    match LastOpenIndex(es)
    case None => (false, None)
    case Some(i) => (es[i].event != Break, Some(es[i].event))
  }

  // ---------------------------------------------------------------- open rows

  function OpenCount(es: seq<Entry>): nat {
    if es == [] then 0 else OpenCount(es[..|es| - 1]) + (if IsOpen(es[|es| - 1]) then 1 else 0)
  }

  ghost predicate AtMostOneOpen(es: seq<Entry>) { OpenCount(es) <= 1 }
}

=== FILE: study_log_props.dfy ===
/** Properties of the session operations of manage_log.py on the study_logs table. */
module StudyLogProperties {
  import opened Wrappers
  import opened Text
  import opened StudyLog

  // ------------------------------------------------------------ helpers

  lemma AppendWellFormed(img: Image, event: EventType, subject: Option<string>, content: Option<string>,
                         start: int, end: Option<int>, memo: Option<string>, impression: Option<string>)
    requires WellFormed(img)
    ensures WellFormed(Append(img, event, subject, content, start, end, memo, impression))
  {
  }

  lemma CloseRowWellFormed(img: Image, i: nat, t: int)
    requires WellFormed(img) && i < |img.entries|
    ensures WellFormed(CloseRow(img, i, t))
  {
  }

  /** In a well-formed image a row's id finds that row. */
  lemma IdFindsRow(img: Image, i: nat)
    requires WellFormed(img) && i < |img.entries|
    ensures IndexOfId(img.entries, img.entries[i].id) == Some(i)
  {
  }

  lemma {:induction false} OpenCountAppend(es: seq<Entry>, e: Entry)
    ensures OpenCount(es + [e]) == OpenCount(es) + (if IsOpen(e) then 1 else 0)
  {
    assert (es + [e])[..|es|] == es;
  }

  lemma {:induction false} OpenCountUpdate(es: seq<Entry>, i: nat, x: Entry)
    requires i < |es|
    ensures OpenCount(es[i := x]) == OpenCount(es) - (if IsOpen(es[i]) then 1 else 0) + (if IsOpen(x) then 1 else 0)
    decreases |es|
  {
    var n := |es|;
    if i < n - 1 {
      assert es[i := x][..n - 1] == es[..n - 1][i := x];
      OpenCountUpdate(es[..n - 1], i, x);
    } else {
      assert es[i := x][..n - 1] == es[..n - 1];
    }
  }

  lemma {:induction false} OpenCountZero(es: seq<Entry>)
    ensures OpenCount(es) == 0 <==> forall j :: 0 <= j < |es| ==> !IsOpen(es[j])
    decreases |es|
  {
    if es != [] {
      var n := |es|;
      OpenCountZero(es[..n - 1]);
      assert forall j :: 0 <= j < n - 1 ==> es[..n - 1][j] == es[j];
    }
  }

  /** Two distinct open rows make the open count at least two. */
  lemma {:induction false} OpenCountTwo(es: seq<Entry>, i: nat, k: nat)
    requires i < k < |es| && IsOpen(es[i]) && IsOpen(es[k])
    ensures OpenCount(es) >= 2
    decreases |es|
  {
    var n := |es|;
    var pre := es[..n - 1];
    if k < n - 1 {
      OpenCountTwo(pre, i, k);
    } else {
      assert pre[i] == es[i];
      OpenCountZero(pre);
    }
  }

  lemma LatestUnique(es: seq<Entry>, p: Entry -> bool, i: nat, k: nat)
    requires IsLatestStartWhere(es, p, i) && IsLatestStartWhere(es, p, k)
    ensures i == k
  {
  }

  /** Closing a row changes neither its event type nor its start, so the START
      row resume_session copies from is the same before and after. */
  lemma LatestStartAfterClose(es: seq<Entry>, i: nat, t: int)
    requires i < |es|
    ensures LatestStartIndex(es[i := Close(es[i], t)]) == LatestStartIndex(es)
  {
    var es' := es[i := Close(es[i], t)];
    assert forall j :: 0 <= j < |es| ==> es'[j].start == es[j].start && es'[j].event == es[j].event;
    var a := LatestStartIndex(es);
    var b := LatestStartIndex(es');
    if a.Some? {
      assert IsLatestStartWhere(es', IsStart, a.value);
      LatestUnique(es', IsStart, a.value, b.value);
    }
  }

  // ------------------------------------------------------------ duration

  /** 09:00:00 to 09:45:30 is recorded as 45 minutes; an end 90 seconds before
      the start gives -1 (truncation), not -2 (floor). */
  lemma MinutesExamples()
    ensures Minutes(9 * 3600, 9 * 3600 + 45 * 60 + 30) == 45
    ensures Minutes(90, 0) == -1
  {
  }

  // ------------------------------------------------------------ update_end_time

  /** update_end_time fails exactly when no row has the id; otherwise that row
      gets the new end time and its duration in whole minutes, and nothing else
      changes. */
  lemma {:induction false} UpdateEndTimeSpec(img: Image, id: nat, t: int)
    requires WellFormed(img)
    ensures UpdateEndTime(img, id, t).None? <==> forall j :: 0 <= j < |img.entries| ==> img.entries[j].id != id
    ensures UpdateEndTime(img, id, t).Some? ==>
      var img' := UpdateEndTime(img, id, t).value;
      && WellFormed(img')
      && img'.nextId == img.nextId
      && |img'.entries| == |img.entries|
      && (forall j :: 0 <= j < |img.entries| && img.entries[j].id == id ==>
            img'.entries[j] == img.entries[j].(end := Some(t), duration := Some(Minutes(img.entries[j].start, t))))
      && (forall j :: 0 <= j < |img.entries| && img.entries[j].id != id ==> img'.entries[j] == img.entries[j])
  {
    var r := IndexOfId(img.entries, id);
    if r.Some? {
      CloseRowWellFormed(img, r.value, t);
      forall j | 0 <= j < |img.entries| && img.entries[j].id == id ensures j == r.value {
        assert !(j < r.value) && !(r.value < j);
      }
    }
  }

  // ------------------------------------------------------------ open rows

  /** With at most one open row, get_last_active_log_id (latest start_time) and
      action_session_active (greatest id) pick the same row. */
  lemma ActiveSelectorsAgree(es: seq<Entry>)
    requires AtMostOneOpen(es)
    ensures ActiveIndex(es) == LastOpenIndex(es)
  {
    var a := ActiveIndex(es);
    var l := LastOpenIndex(es);
    if a.Some? && l.Some? && a.value < l.value {
      OpenCountTwo(es, a.value, l.value);
    }
  }

  /** Two open START rows, the later id with the earlier start time (the clock
      was moved back): end_session closes row 1 while session.active reports
      row 2. */
  lemma ActiveSelectorsCanDiffer()
    ensures var es := [Entry(1, Start, None, None, 100, None, None, None, None, None),
                       Entry(2, Start, None, None, 50, None, None, None, None, None)];
            ActiveIndex(es) == Some(0) && LastOpenIndex(es) == Some(1)
  {
    var es := [Entry(1, Start, None, None, 100, None, None, None, None, None),
               Entry(2, Start, None, None, 50, None, None, None, None, None)];
    assert IsOpen(es[0]) && IsOpen(es[1]);
  }

  /** session.active reports active exactly when some row is open and the open
      row with the greatest id is not a BREAK. */
  lemma SessionActiveSpec(es: seq<Entry>)
    ensures SessionActive(es).0 <==>
      exists i :: 0 <= i < |es| && IsOpen(es[i]) && es[i].event != Break
                  && forall j :: i < j < |es| ==> !IsOpen(es[j])
  {
    var l := LastOpenIndex(es);
    if SessionActive(es).0 {
      assert IsOpen(es[l.value]) && es[l.value].event != Break;
    } else {
      forall i | 0 <= i < |es| && IsOpen(es[i]) && es[i].event != Break
        ensures !forall j :: i < j < |es| ==> !IsOpen(es[j])
      {
        assert l.Some? && es[l.value].event == Break;
        assert i != l.value;
        assert i < l.value;
      }
    }
  }

  // ------------------------------------------------------------ session operations

  /** end_session fails exactly when no row is open; otherwise it closes the open
      row with the latest start time at `now` and the open count drops by one. */
  lemma EndSpec(img: Image, now: int)
    requires WellFormed(img)
    ensures EndImage(img, now).None? <==> forall j :: 0 <= j < |img.entries| ==> !IsOpen(img.entries[j])
    ensures EndImage(img, now).Some? ==>
      && ActiveIndex(img.entries).Some?
      && EndImage(img, now).value == CloseRow(img, ActiveIndex(img.entries).value, now)
      && WellFormed(EndImage(img, now).value)
      && OpenCount(EndImage(img, now).value.entries) == OpenCount(img.entries) - 1
  {
    var a := ActiveIndex(img.entries);
    if a.Some? {
      IdFindsRow(img, a.value);
      CloseRowWellFormed(img, a.value, now);
      OpenCountUpdate(img.entries, a.value, Close(img.entries[a.value], now));
    }
  }

  /** break_session fails exactly when no row is open; otherwise it closes the
      active row at `now`, appends an open BREAK row started at `now` with no
      subject, and the open count is unchanged. */
  lemma BreakSpec(img: Image, now: int, content: Option<string>)
    requires WellFormed(img)
    ensures BreakImage(img, now, content).None? <==> forall j :: 0 <= j < |img.entries| ==> !IsOpen(img.entries[j])
    ensures BreakImage(img, now, content).Some? ==>
      var img' := BreakImage(img, now, content).value;
      var n := |img.entries|;
      && ActiveIndex(img.entries).Some?
      && |img'.entries| == n + 1 && img'.nextId == img.nextId + 1
      && img'.entries[..n] == CloseRow(img, ActiveIndex(img.entries).value, now).entries
      && img'.entries[n] == Entry(img.nextId, Break, None, content, now, None, None, None, None, None)
      && WellFormed(img')
      && OpenCount(img'.entries) == OpenCount(img.entries)
  {
    EndSpec(img, now);
    var a := ActiveIndex(img.entries);
    if a.Some? {
      var c := CloseRow(img, a.value, now);
      AppendWellFormed(c, Break, None, content, now, None, None, None);
      OpenCountAppend(c.entries, Entry(c.nextId, Break, None, content, now, None, None, None, None, None));
      assert (c.entries + [Entry(c.nextId, Break, None, content, now, None, None, None, None, None)])[..|img.entries|] == c.entries;
    }
  }

  /** resume_session fails exactly when no row is open; otherwise it closes the
      active row at `now` and appends an open RESUME row whose subject and
      content are those of the START row with the latest start time (None when
      there is no START row); the open count is unchanged. */
  lemma ResumeSpec(img: Image, now: int, memo: Option<string>, impression: Option<string>)
    requires WellFormed(img)
    ensures ResumeImage(img, now, memo, impression).None? <==> forall j :: 0 <= j < |img.entries| ==> !IsOpen(img.entries[j])
    ensures ResumeImage(img, now, memo, impression).Some? ==>
      var img' := ResumeImage(img, now, memo, impression).value;
      var n := |img.entries|;
      var k := LatestStartIndex(img.entries);
      && ActiveIndex(img.entries).Some?
      && |img'.entries| == n + 1 && img'.nextId == img.nextId + 1
      && img'.entries[..n] == CloseRow(img, ActiveIndex(img.entries).value, now).entries
      && img'.entries[n].id == img.nextId && img'.entries[n].event == Resume
      && img'.entries[n].start == now && IsOpen(img'.entries[n])
      && img'.entries[n].memo == memo && img'.entries[n].impression == impression
      && img'.entries[n].subject == (if k.Some? then img.entries[k.value].subject else None)
      && img'.entries[n].content == (if k.Some? then img.entries[k.value].content else None)
      && WellFormed(img')
      && OpenCount(img'.entries) == OpenCount(img.entries)
  {
    EndSpec(img, now);
    var a := ActiveIndex(img.entries);
    if a.Some? {
      var c := CloseRow(img, a.value, now);
      var src := ResumeSource(c.entries);
      assert ResumeImage(img, now, memo, impression) == Some(Append(c, Resume, src.0, src.1, now, None, memo, impression));
      ResumeAfterClose(img, a.value, now, memo, impression);
      var k := LatestStartIndex(img.entries);
      assert ResumeSource(img.entries).0 == (if k.Some? then img.entries[k.value].subject else None);
      assert ResumeSource(img.entries).1 == (if k.Some? then img.entries[k.value].content else None);
    }
  }

  /** The RESUME row appended after closing row `i` copies subject and content
      from the latest START row, which closing a row does not change. */
  lemma ResumeAfterClose(img: Image, i: nat, now: int, memo: Option<string>, impression: Option<string>)
    requires WellFormed(img) && i < |img.entries| && IsOpen(img.entries[i])
    ensures var c := CloseRow(img, i, now);
      var src := ResumeSource(c.entries);
      var img' := Append(c, Resume, src.0, src.1, now, None, memo, impression);
      var n := |img.entries|;
      && src == ResumeSource(img.entries)
      && |img'.entries| == n + 1 && img'.nextId == img.nextId + 1
      && img'.entries[..n] == c.entries
      && img'.entries[n] == Entry(img.nextId, Resume, src.0, src.1, now, None, None, None, memo, impression)
      && WellFormed(img')
      && OpenCount(img'.entries) == OpenCount(img.entries)
  {
    var c := CloseRow(img, i, now);
    LatestStartAfterClose(img.entries, i, now);
    var src := ResumeSource(c.entries);
    CloseRowWellFormed(img, i, now);
    AppendWellFormed(c, Resume, src.0, src.1, now, None, memo, impression);
    var e := Entry(c.nextId, Resume, src.0, src.1, now, None, None, None, memo, impression);
    OpenCountUpdate(img.entries, i, Close(img.entries[i], now));
    OpenCountAppend(c.entries, e);
    assert (c.entries + [e])[..|img.entries|] == c.entries;
  }

  /** start_session does not look for an open row: it always appends an open
      START row, so one open row before gives two after. */
  lemma StartSpec(img: Image, subject: Option<string>, content: Option<string>, now: int,
                  memo: Option<string>, impression: Option<string>)
    requires WellFormed(img)
    ensures var img' := StartImage(img, subject, content, now, memo, impression);
      && WellFormed(img')
      && img'.entries == img.entries + [Entry(img.nextId, Start, subject, content, now, None, None, None, memo, impression)]
      && OpenCount(img'.entries) == OpenCount(img.entries) + 1
  {
    AppendWellFormed(img, Start, subject, content, now, None, memo, impression);
    OpenCountAppend(img.entries, Entry(img.nextId, Start, subject, content, now, None, None, None, memo, impression));
  }

  /** merge_sessions' three error cases: a START row with either id is missing;
      the two START rows' summaries differ; session 1's last row (greatest
      start time, then greatest id, among ids s1 <= id < s2) is missing or open. */
  lemma MergeErrors(img: Image, s1: nat, s2: nat)
    ensures var es := img.entries;
      var i1 := IndexOfStartId(es, s1);
      var i2 := IndexOfStartId(es, s2);
      var k := LastInRange(es, s1, s2);
      var r := MergeImage(img, s1, s2);
      && (r == Failure(StartNotFound) <==> i1.None? || i2.None?)
      && (r == Failure(SummaryMismatch) <==> i1.Some? && i2.Some? && es[i1.value].summary != es[i2.value].summary)
      && (r == Failure(Session1EndMissing) <==>
            i1.Some? && i2.Some? && es[i1.value].summary == es[i2.value].summary && (k.None? || es[k.value].end.None?))
  {
  }

  /** A successful merge_sessions turns the second START row into a RESUME row
      without summary, appends one closed BREAK row (subject of session 1)
      spanning from the end of session 1's last row to the start of session 2,
      and leaves every other row unchanged. */
  lemma MergeSuccess(img: Image, s1: nat, s2: nat)
    requires MergeImage(img, s1, s2).Success?
    ensures var es := img.entries;
      var i1 := IndexOfStartId(es, s1).value;
      var i2 := IndexOfStartId(es, s2).value;
      var k := LastInRange(es, s1, s2).value;
      var img' := MergeImage(img, s1, s2).value;
      var n := |es|;
      && es[k].end.Some?
      && |img'.entries| == n + 1 && img'.nextId == img.nextId + 1
      && img'.entries[i2] == es[i2].(event := Resume, summary := None)
      && (forall j :: 0 <= j < n && j != i2 ==> img'.entries[j] == es[j])
      && img'.entries[n] == Entry(img.nextId, Break, es[i1].subject, Some(MergeBreakContent),
                                  es[k].end.value, Some(es[i2].start), None, None, None, None)
  {
  }

  /** A successful merge keeps the store well formed and adds no open row. */
  lemma MergeKeepsInvariants(img: Image, s1: nat, s2: nat)
    requires WellFormed(img)
    requires MergeImage(img, s1, s2).Success?
    ensures WellFormed(MergeImage(img, s1, s2).value)
    ensures OpenCount(MergeImage(img, s1, s2).value.entries) == OpenCount(img.entries)
  {
    var es := img.entries;
    var i1 := IndexOfStartId(es, s1).value;
    var i2 := IndexOfStartId(es, s2).value;
    var k := LastInRange(es, s1, s2).value;
    var b := es[i2];
    var u := img.(entries := es[i2 := b.(event := Resume, summary := None)]);
    var brk := Entry(u.nextId, Break, es[i1].subject, Some(MergeBreakContent), es[k].end.value, Some(b.start), None, None, None, None);
    assert WellFormed(u);
    AppendWellFormed(u, Break, es[i1].subject, Some(MergeBreakContent), es[k].end.value, Some(b.start), None, None);
    OpenCountUpdate(es, i2, b.(event := Resume, summary := None));
    OpenCountAppend(u.entries, brk);
  }

  /** consolidate_last_break_into_resume succeeds exactly when the two rows with
      the greatest ids are a RESUME followed by a BREAK; it then deletes the
      BREAK row, gives the RESUME row the BREAK's end time and the joined
      content and changes none of its other fields (its duration is not
      recomputed), leaves every other row and the id counter alone, and never
      raises the open count. */
  lemma ConsolidateSpec(img: Image)
    requires WellFormed(img)
    ensures var es := img.entries;
      var n := |es|;
      var r := ConsolidateImage(img);
      && (r == Failure(NotEnoughEntries) <==> n < 2)
      && (r.Success? <==> n >= 2 && es[n - 1].event == Break && es[n - 2].event == Resume)
      && (r.Success? ==>
            var img' := r.value;
            && WellFormed(img')
            && img'.nextId == img.nextId
            && |img'.entries| == n - 1
            && img'.entries[..n - 2] == es[..n - 2]
            && img'.entries[n - 2] == es[n - 2].(content := ConsolidatedContent(es[n - 2].content, es[n - 1].content),
                                                 end := es[n - 1].end)
            && OpenCount(img'.entries) <= OpenCount(es))
  {
    var es := img.entries;
    var n := |es|;
    if n >= 2 && es[n - 1].event == Break && es[n - 2].event == Resume {
      var img' := ConsolidateImage(img).value;
      var pre := es[..n - 2];
      var r' := img'.entries[n - 2];
      assert img'.entries == pre + [r'];
      assert es[..n - 1] == pre + [es[n - 2]];
      assert es == es[..n - 1] + [es[n - 1]];
      OpenCountAppend(pre, r');
      OpenCountAppend(pre, es[n - 2]);
      OpenCountAppend(es[..n - 1], es[n - 1]);
    }
  }

  /** The content rule of consolidation: the BREAK's text follows the RESUME's
      after one space when both are non-empty; an empty BREAK text keeps the
      RESUME's; an empty RESUME text is replaced by the BREAK's. */
  lemma ConsolidatedContentCases(resume: Option<string>, brk: Option<string>)
    ensures Truthy(resume) && Truthy(brk) ==> ConsolidatedContent(resume, brk) == Some(resume.value + " " + brk.value)
    ensures !Truthy(brk) ==> ConsolidatedContent(resume, brk) == resume
    ensures !Truthy(resume) && Truthy(brk) ==> ConsolidatedContent(resume, brk) == brk
  {
  }

  /** Every operation except start_session keeps "at most one open row". */
  lemma AtMostOneOpenPreserved(img: Image, now: int, content: Option<string>, memo: Option<string>,
                               impression: Option<string>, s1: nat, s2: nat)
    requires WellFormed(img) && AtMostOneOpen(img.entries)
    ensures EndImage(img, now).Some? ==> AtMostOneOpen(EndImage(img, now).value.entries)
    ensures BreakImage(img, now, content).Some? ==> AtMostOneOpen(BreakImage(img, now, content).value.entries)
    ensures ResumeImage(img, now, memo, impression).Some? ==> AtMostOneOpen(ResumeImage(img, now, memo, impression).value.entries)
    ensures MergeImage(img, s1, s2).Success? ==> AtMostOneOpen(MergeImage(img, s1, s2).value.entries)
    ensures ConsolidateImage(img).Success? ==> AtMostOneOpen(ConsolidateImage(img).value.entries)
  {
    EndSpec(img, now);
    BreakSpec(img, now, content);
    ResumeSpec(img, now, memo, impression);
    if MergeImage(img, s1, s2).Success? {
      MergeKeepsInvariants(img, s1, s2);
    }
    ConsolidateSpec(img);
  }
}

=== FILE: study_records.dfy ===
/** Helpers of the records screen, webnew/components/study-records.tsx: the
    search box's split into free text and `#tags`, the duration label, and
    the normalisation of a picked date range. Dates are whole day numbers
    (days since 1970-01-01), which is what the screen's same-day comparison
    distinguishes. */
module StudyRecords {
  import opened Wrappers
  import opened Text

  // ------------------------------------------------------------ extractTagsFromInput

  predicate NoSpace(t: string) {
    forall i :: 0 <= i < |t| ==> !IsJsSpace(t[i])
  }

  /** The index of the first blank, or -1. */
  function FirstSpace(s: string): (k: int)
    ensures -1 <= k < |s|
    ensures k == -1 ==> NoSpace(s)
    ensures k != -1 ==> IsJsSpace(s[k]) && NoSpace(s[..k])
  {
    if s == [] then -1
    else if IsJsSpace(s[0]) then 0
    else
      var k := FirstSpace(s[1..]);
      if k == -1 then -1
      else
        assert s[..k + 1] == [s[0]] + s[1..][..k];
        k + 1
  }

  /** The text split at every blank; the pieces hold no blank. */
  function Pieces(s: string): (r: seq<string>)
    ensures |r| >= 1
    ensures forall i :: 0 <= i < |r| ==> NoSpace(r[i])
    decreases |s|
  {
    var k := FirstSpace(s);
    if k == -1 then [s] else [s[..k]] + Pieces(s[k + 1..])
  }

  /** `input.split(/\s+/).filter(Boolean)`: splitting at every blank and
      dropping the empty pieces gives the same words as splitting at runs
      of blanks. */
  function Tokens(input: string): (r: seq<string>)
    ensures forall t :: t in r ==> t != "" && NoSpace(t)
  {
    NonEmpty(Pieces(input))
  }

  /** The characters `stripPunct` removes from the end of a tag. */
  predicate IsClosingPunct(c: char) {
    || c == '、' || c == '。' || c == '.' || c == ',' || c == '!' || c == '?'
    || c == ':' || c == ';' || c == ')' || c == ']' || c == '}' || c == '＞'
    || c == '〉' || c == '》' || c == '」' || c == '』' || c == '】' || c == '］'
    || c == '）'
  }

  /** stripPunct: the trailing run of closing punctuation removed. */
  function StripPunct(s: string): (r: string)
    ensures r <= s
    ensures r == [] || !IsClosingPunct(r[|r| - 1])
    ensures forall i :: |r| <= i < |s| ==> IsClosingPunct(s[i])
  {
    TrimEnd(s, IsClosingPunct)
  }

  /** isTagToken: a word starting with an ASCII or a full-width `#`. */
  predicate IsTagToken(t: string) {
    t != [] && (t[0] == '#' || t[0] == '＃')
  }

  function NonTagTokens(tokens: seq<string>): (r: seq<string>)
    ensures forall t :: t in r <==> t in tokens && !IsTagToken(t)
  {
    if tokens == [] then []
    else (if IsTagToken(tokens[0]) then [] else [tokens[0]]) + NonTagTokens(tokens[1..])
  }

  /** `tokens.filter(isTagToken).map(t => stripPunct(t.substring(1)))`. */
  function TagBodies(tokens: seq<string>): (r: seq<string>)
    ensures forall x :: x in r <==> exists t :: t in tokens && IsTagToken(t) && StripPunct(t[1..]) == x
  {
    if tokens == [] then []
    else
      var rest := TagBodies(tokens[1..]);
      assert forall t :: t in tokens <==> t == tokens[0] || t in tokens[1..];
      (if IsTagToken(tokens[0]) then [StripPunct(tokens[0][1..])] else []) + rest
  }

  /** The search box split into the free-text query and the tags. */
  datatype Query = Query(q: string, tags: seq<string>)

  /** extractTagsFromInput. */
  function ExtractTags(input: string): (r: Query)
  {
    var tokens := Tokens(input);
    Query(Join(NonTagTokens(tokens), " "), NonEmpty(TagBodies(tokens)))
  }

  /** A tag is the non-empty rest of a tag word, with closing punctuation
      removed from its end, and every such rest is a tag. */
  lemma ExtractTagsTags(input: string)
    ensures forall x :: x in ExtractTags(input).tags <==>
      x != "" && exists t :: t in Tokens(input) && IsTagToken(t) && StripPunct(t[1..]) == x
    ensures forall x :: x in ExtractTags(input).tags ==>
      NoSpace(x) && !IsClosingPunct(x[|x| - 1]) && !IsJsSpace(x[0])
  {
    forall x | x in ExtractTags(input).tags
      ensures NoSpace(x) && !IsClosingPunct(x[|x| - 1]) && !IsJsSpace(x[0])
    {
      var t :| t in Tokens(input) && IsTagToken(t) && StripPunct(t[1..]) == x;
      assert forall i :: 0 <= i < |x| ==> x[i] == t[i + 1];
    }
  }

  /** The free-text query splits back into exactly the words that are not
      tags, so it holds no tag word. */
  lemma ExtractTagsQuery(input: string)
    ensures Tokens(ExtractTags(input).q) == NonTagTokens(Tokens(input))
    ensures forall w :: w in Tokens(ExtractTags(input).q) ==> !IsTagToken(w)
  {
    var words := NonTagTokens(Tokens(input));
    assert ExtractTags(input).q == Join(words, " ");
    assert forall i :: 0 <= i < |words| ==> words[i] in words;
    JoinTokens(words);
  }

  /** Non-empty words without blanks joined by spaces tokenize back into
      those words. */
  lemma JoinTokens(words: seq<string>)
    requires forall i :: 0 <= i < |words| ==> words[i] != "" && NoSpace(words[i])
    ensures Tokens(Join(words, " ")) == words
  {
    if words == [] {
      assert FirstSpace("") == -1;
      assert Pieces("") == [""];
    } else {
      JoinPieces(words);
      NonEmptyKeeps(words);
    }
  }

  /** Words without blanks joined by spaces split back into those words. */
  lemma {:induction false} JoinPieces(words: seq<string>)
    requires words != []
    requires forall i :: 0 <= i < |words| ==> NoSpace(words[i])
    ensures Pieces(Join(words, " ")) == words
  {
    if |words| == 1 {
      assert FirstSpace(words[0]) == -1;
    } else {
      var head, rest := words[0], words[1..];
      var s := Join(words, " ");
      assert s == head + " " + Join(rest, " ");
      assert s[|head|] == ' ';
      FirstSpaceAt(s, head);
      assert s[|head| + 1..] == Join(rest, " ");
      assert s[..|head|] == head;
      JoinPieces(rest);
    }
  }

  lemma FirstSpaceAt(s: string, head: string)
    requires |head| < |s| && s[..|head|] == head && NoSpace(head) && s[|head|] == ' '
    ensures FirstSpace(s) == |head|
  {
    assert IsJsSpace(s[|head|]);
    assert forall i :: 0 <= i < |head| ==> s[i] == head[i] && !IsJsSpace(s[i]);
    var k := FirstSpace(s);
    assert k != -1 ==> NoSpace(s[..k]) && s[k] == s[..k + 1][k];
  }

  /** Keeping the non-empty words of a list of non-empty words keeps it. */
  lemma {:induction false} NonEmptyKeeps(words: seq<string>)
    requires forall i :: 0 <= i < |words| ==> words[i] != ""
    ensures NonEmpty(words) == words
  {
    if words != [] {
      NonEmptyKeeps(words[1..]);
      assert words == [words[0]] + words[1..];
    }
  }

  // ------------------------------------------------------------ formatDuration

  /** formatDuration; `minutes` is None for NaN. Hours are `Math.floor` of
      minutes over 60 and the rest is JavaScript's `%`. */
  function FormatDuration(minutes: Option<int>): (r: string)
    ensures minutes.None? ==> r == "0分"
    ensures r != [] && r[|r| - 1] == '分'
  {
    match minutes
    case None => "0分"
    case Some(n) =>
      var hours := n / 60;
      var remaining := JsRem(n, 60);
      if hours > 0 then NatToString(hours) + "時間" + IntToString(remaining) + "分"
      else IntToString(remaining) + "分"
  }

  /** The label with the cases spelled out: below an hour only the minutes,
      otherwise hours and the minutes past the hour. */
  lemma FormatDurationShape(n: int)
    ensures 0 <= n < 60 ==> FormatDuration(Some(n)) == NatToString(n) + "分"
    ensures n >= 60 ==> FormatDuration(Some(n)) == NatToString(n / 60) + "時間" + NatToString(n % 60) + "分"
  {
    if n >= 0 {
      assert JsRem(n, 60) == n % 60;
    }
  }

  /** Reads a label back: digit runs accumulate, `時` closes a run of hours
      and `分` a run of minutes. */
  function ReadDuration(t: string, acc: nat): nat {
    if t == [] then 0
    else if IsAsciiDigit(t[0]) then ReadDuration(t[1..], acc * 10 + DigitValue(t[0]))
    else if t[0] == '時' then acc * 60 + ReadDuration(t[1..], 0)
    else if t[0] == '分' then acc + ReadDuration(t[1..], 0)
    else ReadDuration(t[1..], 0)
  }

  lemma {:induction false} ReadDurationDigits(ds: string, rest: string)
    requires AllDigits(ds)
    ensures ReadDuration(ds + rest, 0) == ReadDuration(rest, DecimalValue(ds))
    decreases |ds|
  {
    if ds == [] {
      assert ds + rest == rest;
    } else {
      var front := ds[..|ds| - 1];
      var d := ds[|ds| - 1];
      assert ds + rest == front + ([d] + rest);
      ReadDurationDigits(front, [d] + rest);
      assert ([d] + rest)[1..] == rest;
    }
  }

  lemma ReadDurationMinutes(m: nat)
    ensures ReadDuration(NatToString(m) + "分", 0) == m
  {
    ReadDurationDigits(NatToString(m), "分");
    NatToStringRoundTrip(m);
    assert "分"[1..] == "";
  }

  lemma ReadDurationHours(h: nat, m: nat)
    ensures ReadDuration(NatToString(h) + "時間" + NatToString(m) + "分", 0) == h * 60 + m
  {
    var hs, ms := NatToString(h), NatToString(m);
    var tail := "時間" + ms + "分";
    assert ReadDuration(tail[1..], 0) == m by {
      ReadDurationMinutes(m);
      assert tail[1..][1..] == ms + "分";
    }
    assert hs + "時間" + ms + "分" == hs + tail;
    ReadDurationDigits(hs, tail);
    NatToStringRoundTrip(h);
  }

  /** A label of either shape reads back as its minutes. */
  lemma ReadDurationLabel(t: string, n: nat)
    requires n < 60 ==> t == NatToString(n) + "分"
    requires n >= 60 ==> t == NatToString(n / 60) + "時間" + NatToString(n % 60) + "分"
    ensures ReadDuration(t, 0) == n
  {
    if n < 60 {
      ReadDurationMinutes(n);
    } else {
      ReadDurationHours(n / 60, n % 60);
    }
  }

  /** A non-negative number of minutes reads back from its label. */
  lemma FormatDurationReadBack(n: nat)
    ensures ReadDuration(FormatDuration(Some(n)), 0) == n
  {
    FormatDurationShape(n);
    ReadDurationLabel(FormatDuration(Some(n)), n);
  }

  // ------------------------------------------------------------ normalizeRange

  /** A date as a day number. */
  type Day = int

  /** `new Date(1900, 0, 1)` and `new Date(9999, 11, 31)`, the sentinels for
      an open start and an open end. */
  const MinDate: Day := -25567
  const MaxDate: Day := 2932896

  /** A picked range; either end may be missing. */
  datatype DateRange = DateRange(from: Option<Day>, to: Option<Day>)

  /** normalizeRange. */
  function NormalizeRange(applied: Option<DateRange>): (r: Option<DateRange>)
    ensures applied.None? || applied.value.from.None? ==> r.None?
    ensures applied.Some? && applied.value.from.Some? ==> r.Some? && (r.value.from.Some? || r.value.to.Some?)
  {
    match applied
    case None => None
    case Some(rng) =>
      if rng.from.Some? && rng.to.None? then Some(DateRange(rng.from, rng.from))
      else if rng.from.Some? && rng.to.Some? then
        if rng.from.value == MinDate then Some(DateRange(None, rng.to))
        else if rng.to.value == MaxDate then Some(DateRange(rng.from, None))
        else applied
      else None
  }

  /** The days a range of the picker stands for: a start alone is that one
      day, the start sentinel opens the range below, the end sentinel
      opens it above. */
  predicate Picked(rng: DateRange, d: Day)
    requires rng.from.Some?
  {
    if rng.to.None? then d == rng.from.value
    else
      && (rng.from.value == MinDate || rng.from.value <= d)
      && (rng.to.value == MaxDate || d <= rng.to.value)
  }

  /** The days a normalised range covers: a missing end is open. */
  predicate Covers(rng: DateRange, d: Day) {
    && (rng.from.None? || rng.from.value <= d)
    && (rng.to.None? || d <= rng.to.value)
  }

  /** The normalised range covers exactly the days the picked one stands
      for, up to the end sentinel (a range from the start sentinel to the
      end sentinel keeps its upper end). */
  lemma NormalizeRangeCovers(rng: DateRange, d: Day)
    requires rng.from.Some? && d <= MaxDate
    ensures Covers(NormalizeRange(Some(rng)).value, d) <==> Picked(rng, d)
  {
  }

  /** The three rewrites: a start alone becomes a one-day range, a start at
      the sentinel becomes an end-only range, an end at the sentinel becomes
      a start-only range. */
  lemma NormalizeRangeCases(rng: DateRange)
    requires rng.from.Some?
    ensures rng.to.None? ==> NormalizeRange(Some(rng)) == Some(DateRange(rng.from, rng.from))
    ensures rng.to.Some? && rng.from.value == MinDate ==> NormalizeRange(Some(rng)) == Some(DateRange(None, rng.to))
    ensures rng.to.Some? && rng.from.value != MinDate && rng.to.value == MaxDate ==>
      NormalizeRange(Some(rng)) == Some(DateRange(rng.from, None))
    ensures rng.to.Some? && rng.from.value != MinDate && rng.to.value != MaxDate ==>
      NormalizeRange(Some(rng)) == Some(rng)
  {
  }
}

=== FILE: tag_counts.dfy ===
/** get_all_tags of manage_log.py: every tag occurrence (goal tag lists first,
    then hashtags in study-log text, then hashtags in daily summaries) is
    counted per name; each name keeps a source (goal wins, otherwise the first
    place it was seen), and the names are listed by count, then name. */
module TagCounts {
  import opened Wrappers
  import opened Text
  import opened Ordering
  import opened StudyLog
  import opened Tags

  datatype TagSource = FromGoal | FromEntry | FromSummary

  datatype Occurrence = Occurrence(name: string, source: TagSource)

  datatype TagItem = TagItem(name: string, source: TagSource, count: nat)

  // ------------------------------------------------------------ the stream

  /** A goal's tag list: each element stripped, blank ones dropped. */
  function GoalTagNames(tags: seq<string>): (r: seq<string>)
    ensures forall t :: t in r ==> t != ""
  {
    if tags == [] then []
    else
      var t := PyStrip(tags[0]);
      (if t == "" then [] else [t]) + GoalTagNames(tags[1..])
  }

  /** The non-empty text fields of a row. */
  function PresentFields(fields: seq<Option<string>>): seq<string> {
    if fields == [] then []
    else (if Truthy(fields[0]) then [fields[0].value] else []) + PresentFields(fields[1..])
  }

  function Tagged(names: seq<string>, source: TagSource): (r: seq<Occurrence>)
    ensures |r| == |names|
    ensures forall i :: 0 <= i < |r| ==> r[i] == Occurrence(names[i], source)
  {
    if names == [] then [] else [Occurrence(names[0], source)] + Tagged(names[1..], source)
  }

  /** The names of a stream, in order. */
  function Names(s: seq<Occurrence>): (r: seq<string>)
    ensures |r| == |s|
    ensures forall i :: 0 <= i < |s| ==> r[i] == s[i].name
  {
    if s == [] then [] else Names(s[..|s| - 1]) + [s[|s| - 1].name]
  }

  lemma NamesAppend(a: seq<Occurrence>, b: seq<Occurrence>)
    ensures Names(a + b) == Names(a) + Names(b)
  {
  }

  lemma NameIn(s: seq<Occurrence>, n: string)
    ensures n in Names(s) <==> exists src :: Occurrence(n, src) in s
  {
    if n in Names(s) {
      var i :| 0 <= i < |s| && Names(s)[i] == n;
      assert s[i] == Occurrence(n, s[i].source);
    }
    if exists src :: Occurrence(n, src) in s {
      var src :| Occurrence(n, src) in s;
      var i :| 0 <= i < |s| && s[i] == Occurrence(n, src);
      assert Names(s)[i] == n;
    }
  }

  function GoalStream(goals: seq<seq<string>>): seq<Occurrence> {
    if goals == [] then [] else Tagged(GoalTagNames(goals[0]), FromGoal) + GoalStream(goals[1..])
  }

  /** Each study-log row's content, summary, memo and impression, joined by
      newlines, scanned for hashtags. */
  function EntryStream(rows: seq<seq<Option<string>>>): seq<Occurrence> {
    if rows == [] then []
    else Tagged(Hashtags(Some(Join(PresentFields(rows[0]), "\n"))), FromEntry) + EntryStream(rows[1..])
  }

  function SummaryStream(summaries: seq<string>): seq<Occurrence> {
    if summaries == [] then [] else Tagged(Hashtags(Some(summaries[0])), FromSummary) + SummaryStream(summaries[1..])
  }

  /** Every occurrence in the order get_all_tags visits them. */
  function TagStream(goals: seq<seq<string>>, rows: seq<seq<Option<string>>>, summaries: seq<string>): seq<Occurrence> {
    GoalStream(goals) + EntryStream(rows) + SummaryStream(summaries)
  }

  // ------------------------------------------------------------ counting

  /** How often `n` occurs. */
  function Count(s: seq<Occurrence>, n: string): nat {
    if s == [] then 0 else Count(s[..|s| - 1], n) + (if s[|s| - 1].name == n then 1 else 0)
  }

  lemma {:induction false} CountPositive(s: seq<Occurrence>, n: string)
    ensures Count(s, n) > 0 <==> n in Names(s)
  {
    if s != [] {
      var p := s[..|s| - 1];
      CountPositive(p, n);
      assert Names(s) == Names(p) + [s[|s| - 1].name];
    }
  }

  /** The source of the first occurrence of `n`. */
  function FirstSource(s: seq<Occurrence>, n: string): TagSource
    requires Count(s, n) > 0
  {
    var p := s[..|s| - 1];
    if Count(p, n) > 0 then FirstSource(p, n) else s[|s| - 1].source
  }

  predicate HasGoal(s: seq<Occurrence>, n: string) {
    Occurrence(n, FromGoal) in s
  }

  /** The source get_all_tags reports: goal when the name is a goal tag,
      otherwise where it was first seen. */
  function SourceOf(s: seq<Occurrence>, n: string): TagSource
    requires Count(s, n) > 0
  {
    if HasGoal(s, n) then FromGoal else FirstSource(s, n)
  }

  lemma SourceSnoc(s: seq<Occurrence>, o: Occurrence, n: string)
    requires Count(s + [o], n) > 0
    ensures var t := s + [o];
      SourceOf(t, n) ==
        if o == Occurrence(n, FromGoal) then FromGoal
        else if Count(s, n) == 0 then o.source
        else SourceOf(s, n)
  {
    var t := s + [o];
    assert t[..|s|] == s;
    if Count(s, n) == 0 {
      CountPositive(s, n);
      NameIn(s, n);
    }
  }

  /** The dicts after counting `s`: the names in first-seen order, each
      with its count and its source. */
  ghost predicate Tallied(s: seq<Occurrence>, names: seq<string>, counts: map<string, nat>, sources: map<string, TagSource>) {
    CountsTallied(s, names, counts) && SourcesTallied(s, names, sources)
  }

  ghost predicate CountsTallied(s: seq<Occurrence>, names: seq<string>, counts: map<string, nat>) {
    && (forall i, j :: 0 <= i < j < |names| ==> names[i] != names[j])
    && (forall n :: n in names <==> Count(s, n) > 0)
    && (forall n :: n in counts <==> n in names)
    && (forall n :: n in counts ==> Count(s, n) > 0 && counts[n] == Count(s, n))
  }

  ghost predicate SourcesTallied(s: seq<Occurrence>, names: seq<string>, sources: map<string, TagSource>) {
    && (forall n :: n in sources <==> n in names)
    && (forall n :: n in sources ==> Count(s, n) > 0 && sources[n] == SourceOf(s, n))
  }

  /** The counting loops of get_all_tags: the tag names in first-seen order
      (the dict's order), with their counts and sources. */
  method CountTags(stream: seq<Occurrence>) returns (names: seq<string>, counts: map<string, nat>, sources: map<string, TagSource>)
    ensures forall i, j :: 0 <= i < j < |names| ==> names[i] != names[j]
    ensures forall n :: n in names <==> Count(stream, n) > 0
    ensures forall n :: n in counts <==> n in names
    ensures forall n :: n in sources <==> n in names
    ensures forall n :: n in counts ==> Count(stream, n) > 0 && counts[n] == Count(stream, n)
    ensures forall n :: n in sources ==> Count(stream, n) > 0 && sources[n] == SourceOf(stream, n)
  {
    names, counts, sources := [], map[], map[];
    var k := 0;
    while k < |stream|
      invariant 0 <= k <= |stream|
      invariant Tallied(stream[..k], names, counts, sources)
    {
      var o := stream[k];
      assert stream[..k + 1] == stream[..k] + [o];
      TallyStep(stream[..k], o, names, counts, sources);
      if o.name !in counts {
        names := names + [o.name];
        counts := counts[o.name := 1];
      } else {
        counts := counts[o.name := counts[o.name] + 1];
      }
      if o.source == FromGoal {
        sources := sources[o.name := FromGoal];
      } else if o.name !in sources {
        sources := sources[o.name := o.source];
      }
      k := k + 1;
    }
    assert stream[..|stream|] == stream;
  }

  /** One turn of the counting loop. */
  lemma TallyStep(pre: seq<Occurrence>, o: Occurrence, names: seq<string>, counts: map<string, nat>, sources: map<string, TagSource>)
    requires Tallied(pre, names, counts, sources)
    ensures Tallied(pre + [o],
      if o.name !in counts then names + [o.name] else names,
      counts[o.name := if o.name in counts then counts[o.name] + 1 else 1],
      if o.source == FromGoal then sources[o.name := FromGoal]
      else if o.name !in sources then sources[o.name := o.source] else sources)
  {
    CountsStep(pre, o, names, counts);
    SourcesStep(pre, o, names, sources);
  }

  lemma CountSnoc(pre: seq<Occurrence>, o: Occurrence, n: string)
    ensures Count(pre + [o], n) == Count(pre, n) + (if o.name == n then 1 else 0)
  {
    assert (pre + [o])[..|pre|] == pre;
  }

  lemma CountsStep(pre: seq<Occurrence>, o: Occurrence, names: seq<string>, counts: map<string, nat>)
    requires CountsTallied(pre, names, counts)
    ensures CountsTallied(pre + [o],
      if o.name !in counts then names + [o.name] else names,
      counts[o.name := if o.name in counts then counts[o.name] + 1 else 1])
  {
    forall n {
      CountSnoc(pre, o, n);
    }
  }

  lemma SourcesStep(pre: seq<Occurrence>, o: Occurrence, names: seq<string>, sources: map<string, TagSource>)
    requires SourcesTallied(pre, names, sources)
    requires forall n :: n in names <==> Count(pre, n) > 0
    ensures SourcesTallied(pre + [o],
      if o.name !in names then names + [o.name] else names,
      if o.source == FromGoal then sources[o.name := FromGoal]
      else if o.name !in sources then sources[o.name := o.source] else sources)
  {
    forall n {
      CountSnoc(pre, o, n);
    }
    forall n | Count(pre + [o], n) > 0 {
      SourceSnoc(pre, o, n);
    }
  }

  // ------------------------------------------------------------ ranking

  /** The sort key `(-count, name)`. */
  function TagKey(t: TagItem): seq<int> { [-(t.count as int)] + StrKey(t.name) }

  /** Items of distinct names come in descending count, then ascending name. */
  lemma TagKeyOrder(a: TagItem, b: TagItem)
    requires a.name != b.name
    ensures LexLe(TagKey(a), TagKey(b)) <==> a.count > b.count || (a.count == b.count && StrLe(a.name, b.name))
  {
    var ka := TagKey(a);
    var kb := TagKey(b);
    assert ka[1..] == StrKey(a.name) + [] && kb[1..] == StrKey(b.name) + [];
    StrKeyField(a.name, b.name, [], []);
  }

  /** The `limit` argument: used only when its text is all decimal digits. */
  function ParseLimit(limit: Option<string>): (r: Option<nat>)
    ensures r.Some? <==> limit.Some? && limit.value != "" && AllDigits(limit.value)
  {
    if limit.Some? && limit.value != "" && AllDigits(limit.value) then Some(DecimalValue(limit.value)) else None
  }

  predicate Selected(name: string, prefix: string) { prefix == "" || StartsWith(name, prefix) }

  /** The filtering loop of get_all_tags: one item per counted name that
      starts with the prefix, in first-seen order. */
  method SelectItems(names: seq<string>, counts: map<string, nat>, sources: map<string, TagSource>, prefix: string)
    returns (all: seq<TagItem>)
    requires forall n :: n in names ==> n in counts && n in sources
    requires forall i, j :: 0 <= i < j < |names| ==> names[i] != names[j]
    ensures forall i :: 0 <= i < |all| ==>
      && Selected(all[i].name, prefix) && all[i].name in names
      && all[i] == TagItem(all[i].name, sources[all[i].name], counts[all[i].name])
    ensures forall i, j :: 0 <= i < j < |all| ==> all[i].name != all[j].name
    ensures forall n :: n in names && Selected(n, prefix) ==> exists i :: 0 <= i < |all| && all[i].name == n
  {
    all := [];
    var k := 0;
    while k < |names|
      invariant 0 <= k <= |names|
      invariant forall i :: 0 <= i < |all| ==>
        && Selected(all[i].name, prefix) && all[i].name in names[..k]
        && all[i] == TagItem(all[i].name, sources[all[i].name], counts[all[i].name])
      invariant forall i, j :: 0 <= i < j < |all| ==> all[i].name != all[j].name
      invariant forall n :: n in names[..k] && Selected(n, prefix) ==> exists i :: 0 <= i < |all| && all[i].name == n
    {
      var n := names[k];
      assert names[..k + 1] == names[..k] + [n];
      if prefix == "" || StartsWith(n, prefix) {
        assert n !in names[..k];
        ghost var before := all;
        all := all + [TagItem(n, sources[n], counts[n])];
        forall m | m in names[..k + 1] && Selected(m, prefix)
          ensures exists i :: 0 <= i < |all| && all[i].name == m
        {
          if m == n {
            assert all[|before|].name == m;
          } else {
            var i :| 0 <= i < |before| && before[i].name == m;
            assert all[i].name == m;
          }
        }
      }
      k := k + 1;
    }
    assert names[..|names|] == names;
  }

  /** get_all_tags: count, keep the names starting with the stripped prefix,
      sort by count then name, then cut to the limit. */
  method GetAllTags(goals: seq<seq<string>>, rows: seq<seq<Option<string>>>, summaries: seq<string>,
                    prefixArg: Option<string>, limitArg: Option<string>) returns (items: seq<TagItem>)
    ensures Ranked(items, TagStream(goals, rows, summaries), PyStrip(prefixArg.GetOr("")), ParseLimit(limitArg))
  {
    items := RankTags(TagStream(goals, rows, summaries), PyStrip(prefixArg.GetOr("")), ParseLimit(limitArg));
  }

  /** Every item is a selected name with its true count and source. */
  ghost predicate ItemsTrue(items: seq<TagItem>, s: seq<Occurrence>, prefix: string) {
    forall i :: 0 <= i < |items| ==>
      && Selected(items[i].name, prefix)
      && Count(s, items[i].name) > 0
      && items[i].count == Count(s, items[i].name)
      && items[i].source == SourceOf(s, items[i].name)
  }

  predicate NamesDistinct(items: seq<TagItem>) {
    forall i, j :: 0 <= i < j < |items| ==> items[i].name != items[j].name
  }

  /** Every selected name that occurs has an item. */
  ghost predicate Complete(items: seq<TagItem>, s: seq<Occurrence>, prefix: string) {
    forall n :: Count(s, n) > 0 && Selected(n, prefix) ==> exists i :: 0 <= i < |items| && items[i].name == n
  }

  /** The item a name would have in the full ranking of `s`. */
  function ItemOf(s: seq<Occurrence>, n: string): TagItem
    requires Count(s, n) > 0
  {
    TagItem(n, SourceOf(s, n), Count(s, n))
  }

  /** Every selected name that occurs but has no item ranks after every
      item: the items are a top slice of the full ranking. */
  ghost predicate KeptRankFirst(items: seq<TagItem>, s: seq<Occurrence>, prefix: string) {
    forall n, i ::
      (Count(s, n) > 0 && Selected(n, prefix) && 0 <= i < |items| &&
       forall j :: 0 <= j < |items| ==> items[j].name != n) ==>
      LexLe(TagKey(items[i]), TagKey(ItemOf(s, n)))
  }

  /** What get_all_tags promises about its answer for the occurrence stream
      `s`: true items, no name twice, ordered by count then name, and every
      selected name present when there is no limit. With a limit there are
      at most `limit` items, all selected names when fewer, and the omitted
      names rank after the kept ones: the answer is the first `limit` items
      of the full ranking. */
  ghost predicate Ranked(items: seq<TagItem>, s: seq<Occurrence>, prefix: string, limit: Option<nat>) {
    && ItemsTrue(items, s, prefix)
    && NamesDistinct(items)
    && SortedAsc(items, TagKey)
    && (limit.None? ==> Complete(items, s, prefix))
    && (limit.Some? ==> |items| <= limit.value && (|items| < limit.value ==> Complete(items, s, prefix)))
    && KeptRankFirst(items, s, prefix)
  }

  method RankTags(s: seq<Occurrence>, prefix: string, limit: Option<nat>) returns (items: seq<TagItem>)
    ensures Ranked(items, s, prefix, limit)
  {
    var names, counts, sources := CountTags(s);
    var all := SelectItems(names, counts, sources, prefix);
    SelectedTrue(s, names, counts, sources, prefix, all);
    var sorted := SortAsc(all, TagKey);
    Reordered(all, sorted, s, prefix);
    items := sorted;
    if limit.Some? && limit.value < |sorted| {
      items := sorted[..limit.value];
      Truncated(sorted, limit.value, s, prefix);
    } else {
      CompleteKeepsAll(sorted, s, prefix);
    }
  }

  /** A complete list omits no selected name, so nothing ranks after it. */
  lemma CompleteKeepsAll(items: seq<TagItem>, s: seq<Occurrence>, prefix: string)
    requires Complete(items, s, prefix)
    ensures KeptRankFirst(items, s, prefix)
  {
  }

  lemma SelectedTrue(s: seq<Occurrence>, names: seq<string>, counts: map<string, nat>, sources: map<string, TagSource>,
                     prefix: string, all: seq<TagItem>)
    requires forall n :: n in names <==> Count(s, n) > 0
    requires forall n :: n in counts <==> n in names
    requires forall n :: n in sources <==> n in names
    requires forall n :: n in counts ==> Count(s, n) > 0 && counts[n] == Count(s, n)
    requires forall n :: n in sources ==> Count(s, n) > 0 && sources[n] == SourceOf(s, n)
    requires forall i :: 0 <= i < |all| ==>
      && Selected(all[i].name, prefix) && all[i].name in names
      && all[i] == TagItem(all[i].name, sources[all[i].name], counts[all[i].name])
    requires forall n :: n in names && Selected(n, prefix) ==> exists i :: 0 <= i < |all| && all[i].name == n
    ensures ItemsTrue(all, s, prefix) && Complete(all, s, prefix)
  {
  }

  lemma Reordered(all: seq<TagItem>, sorted: seq<TagItem>, s: seq<Occurrence>, prefix: string)
    requires multiset(all) == multiset(sorted)
    requires ItemsTrue(all, s, prefix) && Complete(all, s, prefix) && NamesDistinct(all)
    ensures ItemsTrue(sorted, s, prefix) && Complete(sorted, s, prefix) && NamesDistinct(sorted)
  {
    SameElementsKept(all, sorted);
    NoDuplicateNames(all, sorted);
    forall i | 0 <= i < |sorted|
      ensures Selected(sorted[i].name, prefix) && Count(s, sorted[i].name) > 0
      ensures sorted[i].count == Count(s, sorted[i].name) && sorted[i].source == SourceOf(s, sorted[i].name)
    {
      assert sorted[i] in all;
    }
    forall n | Count(s, n) > 0 && Selected(n, prefix)
      ensures exists i :: 0 <= i < |sorted| && sorted[i].name == n
    {
      var i :| 0 <= i < |all| && all[i].name == n;
      assert all[i] in sorted;
    }
  }

  lemma Truncated(sorted: seq<TagItem>, k: nat, s: seq<Occurrence>, prefix: string)
    requires k <= |sorted|
    requires ItemsTrue(sorted, s, prefix) && NamesDistinct(sorted) && SortedAsc(sorted, TagKey)
    requires Complete(sorted, s, prefix)
    ensures ItemsTrue(sorted[..k], s, prefix) && NamesDistinct(sorted[..k]) && SortedAsc(sorted[..k], TagKey)
    ensures KeptRankFirst(sorted[..k], s, prefix)
  {
    var items := sorted[..k];
    forall n, i | Count(s, n) > 0 && Selected(n, prefix) && 0 <= i < |items| &&
        (forall j :: 0 <= j < |items| ==> items[j].name != n)
      ensures LexLe(TagKey(items[i]), TagKey(ItemOf(s, n)))
    {
      var j :| 0 <= j < |sorted| && sorted[j].name == n;
      assert forall m :: 0 <= m < k ==> sorted[m].name != n by {
        forall m | 0 <= m < k ensures sorted[m].name != n {
          assert items[m] == sorted[m];
        }
      }
      assert sorted[j] == ItemOf(s, n);
    }
  }

  /** Two items with the same key have the same name and count. */
  lemma TagKeyInjective(a: TagItem, b: TagItem)
    requires TagKey(a) == TagKey(b)
    ensures a.name == b.name && a.count == b.count
  {
    var ka := TagKey(a);
    assert ka[0] == -(a.count as int) && TagKey(b)[0] == -(b.count as int);
    assert ka[1..] == StrKey(a.name) && TagKey(b)[1..] == StrKey(b.name);
    assert forall i :: 0 <= i < |a.name| ==> a.name[i] as int + 1 == StrKey(a.name)[i];
  }

  /** Two true items of the same name are the same item. */
  lemma SameNameSameItem(items: seq<TagItem>, full: seq<TagItem>, s: seq<Occurrence>, prefix: string, i: nat, j: nat)
    requires ItemsTrue(items, s, prefix) && ItemsTrue(full, s, prefix)
    requires i < |items| && j < |full| && items[i].name == full[j].name
    ensures items[i] == full[j]
  {
  }

  /** The `i`th kept item ranks no later than the `i`th item of the full
      ranking, once the items before agree by name. */
  lemma KeptNoLater(items: seq<TagItem>, full: seq<TagItem>, s: seq<Occurrence>, prefix: string, i: nat)
    requires ItemsTrue(items, s, prefix) && SortedAsc(items, TagKey) && KeptRankFirst(items, s, prefix)
    requires ItemsTrue(full, s, prefix)
    requires i < |items| && i < |full|
    requires forall m :: 0 <= m < i ==> items[m].name != full[i].name
    ensures LexLe(TagKey(items[i]), TagKey(full[i]))
  {
    var n := full[i].name;
    if m :| 0 <= m < |items| && items[m].name == n {
      SameNameSameItem(items, full, s, prefix, m, i);
      if m == i {
        LexLeRefl(TagKey(full[i]));
      }
    } else {
      assert full[i] == ItemOf(s, n);
    }
  }

  /** The `i`th item of the full ranking ranks no later than the `i`th kept
      item, once the items before agree by name. */
  lemma FullNoLater(items: seq<TagItem>, full: seq<TagItem>, s: seq<Occurrence>, prefix: string, i: nat)
    requires ItemsTrue(items, s, prefix) && ItemsTrue(full, s, prefix)
    requires SortedAsc(full, TagKey) && Complete(full, s, prefix)
    requires i < |items| && i < |full|
    requires forall m :: 0 <= m < i ==> full[m].name != items[i].name
    ensures LexLe(TagKey(full[i]), TagKey(items[i]))
  {
    var j :| 0 <= j < |full| && full[j].name == items[i].name;
    SameNameSameItem(items, full, s, prefix, i, j);
    if j == i {
      LexLeRefl(TagKey(full[i]));
    }
  }

  /** Once the first `p` items agree, so does the next one. */
  lemma SamePrefixStep(items: seq<TagItem>, full: seq<TagItem>, s: seq<Occurrence>, prefix: string, p: nat)
    requires ItemsTrue(items, s, prefix) && NamesDistinct(items) && SortedAsc(items, TagKey) && KeptRankFirst(items, s, prefix)
    requires ItemsTrue(full, s, prefix) && NamesDistinct(full) && SortedAsc(full, TagKey) && Complete(full, s, prefix)
    requires p < |items| && p < |full|
    requires forall m :: 0 <= m < p ==> items[m] == full[m]
    ensures items[p] == full[p]
  {
    KeptNoLater(items, full, s, prefix, p);
    FullNoLater(items, full, s, prefix, p);
    LexLeAntisym(TagKey(items[p]), TagKey(full[p]));
    TagKeyInjective(items[p], full[p]);
    SameNameSameItem(items, full, s, prefix, p, p);
  }

  /** The kept items and the full ranking agree on their first `i` items. */
  lemma {:induction false} SamePrefix(items: seq<TagItem>, full: seq<TagItem>, s: seq<Occurrence>, prefix: string, i: nat)
    requires ItemsTrue(items, s, prefix) && NamesDistinct(items) && SortedAsc(items, TagKey) && KeptRankFirst(items, s, prefix)
    requires ItemsTrue(full, s, prefix) && NamesDistinct(full) && SortedAsc(full, TagKey) && Complete(full, s, prefix)
    requires i <= |items| && i <= |full|
    ensures forall m :: 0 <= m < i ==> items[m] == full[m]
  {
    if i > 0 {
      SamePrefix(items, full, s, prefix, i - 1);
      SamePrefixStep(items, full, s, prefix, i - 1);
    }
  }

  /** The names of a list of items. */
  function NameSet(items: seq<TagItem>): (r: set<string>)
    ensures forall n :: n in r <==> exists i :: 0 <= i < |items| && items[i].name == n
  {
    if items == [] then {}
    else
      var p := items[..|items| - 1];
      var r := NameSet(p) + {items[|items| - 1].name};
      assert forall i :: 0 <= i < |p| ==> p[i] == items[i];
      r
  }

  /** A list without repeated names has as many names as items. */
  lemma {:induction false} NameSetSize(items: seq<TagItem>)
    requires NamesDistinct(items)
    ensures |NameSet(items)| == |items|
  {
    if items != [] {
      var p := items[..|items| - 1];
      NameSetSize(p);
      assert items[|items| - 1].name !in NameSet(p);
    }
  }

  lemma {:induction false} SubsetSize(a: set<string>, b: set<string>)
    requires a <= b
    ensures |a| <= |b|
    decreases |a|
  {
    if a != {} {
      var x :| x in a;
      SubsetSize(a - {x}, b - {x});
    }
  }

  /** With a limit, get_all_tags answers the first `limit` items of the
      full ranking, or all of it when there are fewer. */
  lemma RankedIsTopSlice(items: seq<TagItem>, full: seq<TagItem>, s: seq<Occurrence>, prefix: string, k: nat)
    requires Ranked(items, s, prefix, Some(k)) && Ranked(full, s, prefix, None)
    ensures |items| == (if k < |full| then k else |full|)
    ensures items == full[..|items|]
  {
    NameSetSize(items);
    NameSetSize(full);
    SubsetSize(NameSet(items), NameSet(full));
    if |items| < k {
      SubsetSize(NameSet(full), NameSet(items));
    }
    SamePrefix(items, full, s, prefix, |items|);
  }

  lemma SameElementsKept<T>(a: seq<T>, b: seq<T>)
    requires multiset(a) == multiset(b)
    ensures forall x :: x in a <==> x in b
  {
    forall x ensures x in a <==> x in b {
      assert x in a <==> x in multiset(a);
      assert x in b <==> x in multiset(b);
    }
  }

  lemma NoDuplicateNames(a: seq<TagItem>, b: seq<TagItem>)
    requires multiset(a) == multiset(b)
    requires NamesDistinct(a)
    ensures NamesDistinct(b)
  {
    forall i, j | 0 <= i < j < |b| ensures b[i].name != b[j].name {
      if b[i].name == b[j].name {
        assert b[i] in multiset(a) && b[j] in multiset(a);
        var p :| 0 <= p < |a| && a[p] == b[i];
        var q :| 0 <= q < |a| && a[q] == b[j];
        if p == q {
          assert b[i] == b[j];
          MultisetTwice(b, i, j);
          MultisetOnce(a, p);
        }
      }
    }
  }

  lemma MultisetTwice<T>(b: seq<T>, i: nat, j: nat)
    requires i < j < |b| && b[i] == b[j]
    ensures multiset(b)[b[i]] >= 2
  {
    assert b == b[..j] + [b[j]] + b[j + 1..];
    assert b[i] in b[..j];
  }

  lemma MultisetOnce(a: seq<TagItem>, p: nat)
    requires p < |a|
    requires NamesDistinct(a)
    ensures multiset(a)[a[p]] == 1
  {
    assert a == a[..p] + [a[p]] + a[p + 1..];
    assert a[p] !in a[..p] && a[p] !in a[p + 1..] by {
      forall k | 0 <= k < |a| && k != p ensures a[k] != a[p] {
        if k < p { assert a[k].name != a[p].name; } else { assert a[p].name != a[k].name; }
      }
    }
  }

  // ------------------------------------------------------------ sources

  function GoalNames(goals: seq<seq<string>>): seq<string> {
    if goals == [] then [] else GoalTagNames(goals[0]) + GoalNames(goals[1..])
  }

  lemma TaggedNames(ns: seq<string>, source: TagSource)
    ensures Names(Tagged(ns, source)) == ns
    ensures forall o :: o in Tagged(ns, source) ==> o.source == source
  {
  }

  lemma {:induction false} GoalStreamNames(goals: seq<seq<string>>)
    ensures forall o :: o in GoalStream(goals) ==> o.source == FromGoal
    ensures Names(GoalStream(goals)) == GoalNames(goals)
  {
    if goals != [] {
      GoalStreamNames(goals[1..]);
      var head := Tagged(GoalTagNames(goals[0]), FromGoal);
      TaggedNames(GoalTagNames(goals[0]), FromGoal);
      NamesAppend(head, GoalStream(goals[1..]));
    }
  }

  /** A tag listed by get_all_tags is a goal tag exactly when some goal lists it. */
  lemma GoalSourceIffGoalTag(goals: seq<seq<string>>, rows: seq<seq<Option<string>>>, summaries: seq<string>, n: string)
    requires Count(TagStream(goals, rows, summaries), n) > 0
    ensures SourceOf(TagStream(goals, rows, summaries), n) == FromGoal <==> n in GoalNames(goals)
  {
    var s := TagStream(goals, rows, summaries);
    var g := GoalStream(goals);
    var rest := EntryStream(rows) + SummaryStream(summaries);
    assert s == g + rest;
    GoalStreamNames(goals);
    EntrySources(rows);
    SummarySources(summaries);
    NameIn(g, n);
    if n in GoalNames(goals) {
      var src :| Occurrence(n, src) in g;
      assert Occurrence(n, FromGoal) in s;
    } else {
      assert Occurrence(n, FromGoal) !in rest;
      FirstSourceIn(s, n);
    }
  }

  lemma {:induction false} EntrySources(rows: seq<seq<Option<string>>>)
    ensures forall o :: o in EntryStream(rows) ==> o.source == FromEntry
  {
    if rows != [] {
      EntrySources(rows[1..]);
      TaggedNames(Hashtags(Some(Join(PresentFields(rows[0]), "\n"))), FromEntry);
    }
  }

  lemma {:induction false} SummarySources(summaries: seq<string>)
    ensures forall o :: o in SummaryStream(summaries) ==> o.source == FromSummary
  {
    if summaries != [] {
      SummarySources(summaries[1..]);
      TaggedNames(Hashtags(Some(summaries[0])), FromSummary);
    }
  }

  /** The first source is the source of some occurrence of the name. */
  lemma {:induction false} FirstSourceIn(s: seq<Occurrence>, n: string)
    requires Count(s, n) > 0
    ensures Occurrence(n, FirstSource(s, n)) in s
  {
    var p := s[..|s| - 1];
    if Count(p, n) > 0 {
      FirstSourceIn(p, n);
      assert s == p + [s[|s| - 1]];
    }
  }
}

=== FILE: tags.dfy ===
/** The text helpers behind manage_log.py's tag listing and search: hashtag
    extraction, the preview line, the first match of a query term, the
    snippet centred on a match, and the date-range test. */
module Tags {
  import opened Wrappers
  import opened Text
  import opened StudyLog

  const Ellipsis: char := '\U{2026}'
  const SnippetLength: nat := 80

  /** The two markers a hashtag may start with: `#` and the full-width `＃`. */
  predicate IsHashMark(c: char) { c == '#' || c == '\U{FF03}' }

  /** A character a tag name is made of: an ASCII letter, digit or `_`, a
      `-`, or any code point from U+0080 to U+FFFF (this range holds the
      full-width `＃` too). The word characters beyond U+FFFF that Python's
      `\w` also accepts are not tag characters here. */
  predicate IsTagChar(c: char) {
    IsAsciiAlnum(c) || c == '_' || c == '-' || ('\U{80}' <= c <= '\U{FFFF}')
  }

  predicate AllTagChars(t: string) { forall k :: 0 <= k < |t| ==> IsTagChar(t[k]) }

  /** Length of the run of tag characters starting at `i`. */
  function TagRun(s: string, i: nat): (n: nat)
    requires i <= |s|
    ensures i + n <= |s|
    ensures forall k :: i <= k < i + n ==> IsTagChar(s[k])
    ensures i + n == |s| || !IsTagChar(s[i + n])
    decreases |s| - i
  {
    if i < |s| && IsTagChar(s[i]) then 1 + TagRun(s, i + 1) else 0
  }

  /** The names the hashtag pattern finds scanning from `i`: a marker followed
      by the longest run of tag characters; the scan resumes after the run. */
  function HashtagsFrom(s: string, i: nat): seq<string>
    requires i <= |s|
    decreases |s| - i
  {
    if i + 1 >= |s| then []
    else if IsHashMark(s[i]) && IsTagChar(s[i + 1]) then
      var n := TagRun(s, i + 1);
      [s[i + 1..i + 1 + n]] + HashtagsFrom(s, i + 1 + n)
    else HashtagsFrom(s, i + 1)
  }

  /** `t` is a whole tag name written right after a marker at `k`: a
      non-empty run of tag characters not followed by another one. */
  predicate NameAt(s: string, k: nat, t: string) {
    && t != [] && AllTagChars(t)
    && k + 1 + |t| <= |s| && IsHashMark(s[k]) && s[k + 1..k + 1 + |t|] == t
    && (k + 1 + |t| == |s| || !IsTagChar(s[k + 1 + |t|]))
  }

  /** Every name found is a non-empty run of tag characters that follows a
      marker in the text and is not followed by another tag character. */
  lemma {:induction false} HashtagsAreNames(s: string, i: nat)
    requires i <= |s|
    ensures forall t :: t in HashtagsFrom(s, i) ==> exists k :: i <= k && NameAt(s, k, t)
    decreases |s| - i
  {
    if i + 1 < |s| {
      if IsHashMark(s[i]) && IsTagChar(s[i + 1]) {
        var n := TagRun(s, i + 1);
        HashtagsAreNames(s, i + 1 + n);
        assert NameAt(s, i, s[i + 1..i + 1 + n]);
      } else {
        HashtagsAreNames(s, i + 1);
      }
    }
  }

  /** _extract_hashtags_from_text. */
  function Hashtags(text: Option<string>): seq<string> {
    if !Truthy(text) then [] else HashtagsFrom(text.value, 0)
  }

  /** `s` from `i` on and `t` from `j` on are the same text. */
  predicate AgreeFrom(s: string, i: nat, t: string, j: nat) {
    && i <= |s| && j <= |t| && |s| - i == |t| - j
    && forall k :: i <= k < |s| ==> s[k] == t[k - i + j]
  }

  /** Agreeing texts have the same slices. */
  lemma AgreeSlice(s: string, i: nat, t: string, j: nat, a: nat, b: nat)
    requires AgreeFrom(s, i, t, j) && i <= a <= b <= |s|
    ensures s[a..b] == t[a - i + j..b - i + j]
  {
    assert forall m :: 0 <= m < b - a ==> s[a..b][m] == s[a + m];
  }

  /** A run depends only on the text from where it starts. */
  lemma {:induction false} TagRunSuffix(s: string, i: nat, t: string, j: nat)
    requires AgreeFrom(s, i, t, j)
    ensures TagRun(s, i) == TagRun(t, j)
    decreases |s| - i
  {
    if i < |s| {
      assert s[i] == t[j];
      TagRunSuffix(s, i + 1, t, j + 1);
    }
  }

  lemma TagRunShift(p: string, b: string, j: nat)
    requires j <= |b|
    ensures TagRun(p + b, |p| + j) == TagRun(b, j)
  {
    TagRunSuffix(p + b, |p| + j, b, j);
  }

  /** The names found depend only on the text from where the scan starts. */
  lemma {:induction false} HashtagsSuffix(s: string, i: nat, t: string, j: nat)
    requires AgreeFrom(s, i, t, j)
    ensures HashtagsFrom(s, i) == HashtagsFrom(t, j)
    decreases |s| - i
  {
    if i + 1 < |s| {
      assert s[i] == t[j] && s[i + 1] == t[j + 1];
      if IsHashMark(s[i]) && IsTagChar(s[i + 1]) {
        SuffixMatch(s, i, t, j);
      } else {
        HashtagsSuffix(s, i + 1, t, j + 1);
        SkipBoth(s, i, t, j);
      }
    }
  }

  /** The step of HashtagsSuffix at a marker. */
  lemma {:induction false} SuffixMatch(s: string, i: nat, t: string, j: nat)
    requires AgreeFrom(s, i, t, j) && i + 1 < |s|
    requires IsHashMark(s[i]) && IsTagChar(s[i + 1])
    ensures HashtagsFrom(s, i) == HashtagsFrom(t, j)
    decreases |s| - i, 0
  {
    assert s[i] == t[j] && s[i + 1] == t[j + 1];
    TagRunSuffix(s, i + 1, t, j + 1);
    var n := TagRun(s, i + 1);
    AgreeSlice(s, i, t, j, i + 1, i + 1 + n);
    HashtagsSuffix(s, i + 1 + n, t, j + 1 + n);
    MatchBoth(s, i, t, j, n);
  }

  /** Two scans at the same marker and run, with the same names after the
      run, find the same names. */
  lemma MatchBoth(s: string, i: nat, t: string, j: nat, n: nat)
    requires i + 1 < |s| && j + 1 < |t| && s[i] == t[j] && s[i + 1] == t[j + 1]
    requires IsHashMark(s[i]) && IsTagChar(s[i + 1])
    requires TagRun(s, i + 1) == n == TagRun(t, j + 1)
    requires s[i + 1..i + 1 + n] == t[j + 1..j + 1 + n]
    requires HashtagsFrom(s, i + 1 + n) == HashtagsFrom(t, j + 1 + n)
    ensures HashtagsFrom(s, i) == HashtagsFrom(t, j)
  {
    var x := s[i + 1..i + 1 + n];
    var rest := HashtagsFrom(s, i + 1 + n);
    MatchAt(s, i, n, x, rest);
    MatchAt(t, j, n, x, rest);
  }

  /** One step of the scan at a marker, with the run, its name and the
      names after it given. */
  lemma MatchAt(s: string, i: nat, n: nat, x: string, rest: seq<string>)
    requires i + 1 < |s| && IsHashMark(s[i]) && IsTagChar(s[i + 1])
    requires TagRun(s, i + 1) == n && s[i + 1..i + 1 + n] == x
    requires HashtagsFrom(s, i + 1 + n) == rest
    ensures HashtagsFrom(s, i) == [x] + rest
  {
  }

  /** Scanning after a prefix finds what scanning the rest alone finds. */
  lemma HashtagsShift(p: string, b: string, j: nat)
    requires j <= |b|
    ensures HashtagsFrom(p + b, |p| + j) == HashtagsFrom(b, j)
  {
    HashtagsSuffix(p + b, |p| + j, b, j);
  }

  /** A run inside `a` stops where it would stop in `a` alone when `a` is
      followed by a character that is not a tag character. */
  lemma {:induction false} TagRunPrefix(a: string, rest: string, i: nat)
    requires i <= |a|
    requires rest != [] && !IsTagChar(rest[0])
    ensures TagRun(a + rest, i) == TagRun(a, i)
    decreases |a| - i
  {
    var s := a + rest;
    if i < |a| {
      assert s[i] == a[i];
      TagRunPrefix(a, rest, i + 1);
    } else {
      assert s[i] == rest[0];
    }
  }

  /** Text joined by a separator that is neither a marker nor a tag character
      yields the tags of each side, in order. */
  lemma {:induction false} HashtagsSplitFrom(a: string, c: char, b: string, i: nat)
    requires !IsHashMark(c) && !IsTagChar(c)
    requires i <= |a|
    ensures HashtagsFrom(a + [c] + b, i) == HashtagsFrom(a, i) + HashtagsFrom(b, 0)
    decreases |a| - i
  {
    var s := a + [c] + b;
    if i == |a| {
      HashtagsAtSeparator(a, c, b);
    } else if i + 1 == |a| {
      assert s[i + 1] == c;
      HashtagsAtSeparator(a, c, b);
      assert HashtagsFrom(s, i) == HashtagsFrom(s, i + 1);
    } else if IsHashMark(a[i]) && IsTagChar(a[i + 1]) {
      var n := TagRun(a, i + 1);
      HashtagsSplitFrom(a, c, b, i + 1 + n);
      HashtagsSplitMatch(a, c, b, i);
    } else {
      HashtagsSplitFrom(a, c, b, i + 1);
      assert s[i] == a[i] && s[i + 1] == a[i + 1];
      assert HashtagsFrom(s, i) == HashtagsFrom(s, i + 1);
    }
  }

  lemma HashtagsAtSeparator(a: string, c: char, b: string)
    requires !IsHashMark(c)
    ensures HashtagsFrom(a + [c] + b, |a|) == HashtagsFrom(b, 0)
  {
    var s := a + [c] + b;
    assert s[|a|] == c;
    assert s == (a + [c]) + b;
    HashtagsShift(a + [c], b, 0);
  }

  lemma HashtagsSplitMatch(a: string, c: char, b: string, i: nat)
    requires !IsTagChar(c)
    requires i + 1 < |a| && IsHashMark(a[i]) && IsTagChar(a[i + 1])
    requires HashtagsFrom(a + [c] + b, i + 1 + TagRun(a, i + 1))
      == HashtagsFrom(a, i + 1 + TagRun(a, i + 1)) + HashtagsFrom(b, 0)
    ensures HashtagsFrom(a + [c] + b, i) == HashtagsFrom(a, i) + HashtagsFrom(b, 0)
  {
    var s := a + [c] + b;
    var n := TagRun(a, i + 1);
    PrefixRun(a, c, b, i);
    MatchSplit(s, a, i, n, HashtagsFrom(b, 0));
  }

  /** Inside `a`, the text `a + [c] + b` reads as `a` does up to the end of
      the run after `i`. */
  lemma PrefixRun(a: string, c: char, b: string, i: nat)
    requires !IsTagChar(c) && i + 1 < |a|
    ensures var s := a + [c] + b; var n := TagRun(a, i + 1);
      && s[i] == a[i] && s[i + 1] == a[i + 1]
      && TagRun(s, i + 1) == n && s[i + 1..i + 1 + n] == a[i + 1..i + 1 + n]
  {
    var s := a + [c] + b;
    assert s == a + ([c] + b);
    TagRunPrefix(a, [c] + b, i + 1);
  }

  lemma MatchSplit(s: string, a: string, i: nat, n: nat, hb: seq<string>)
    requires i + 1 < |s| && i + 1 < |a| && s[i] == a[i] && s[i + 1] == a[i + 1]
    requires IsHashMark(a[i]) && IsTagChar(a[i + 1])
    requires TagRun(s, i + 1) == n == TagRun(a, i + 1)
    requires s[i + 1..i + 1 + n] == a[i + 1..i + 1 + n]
    requires HashtagsFrom(s, i + 1 + n) == HashtagsFrom(a, i + 1 + n) + hb
    ensures HashtagsFrom(s, i) == HashtagsFrom(a, i) + hb
  {
    var x := a[i + 1..i + 1 + n];
    MatchAt(s, i, n, x, HashtagsFrom(s, i + 1 + n));
    MatchAt(a, i, n, x, HashtagsFrom(a, i + 1 + n));
    ConsChain(HashtagsFrom(s, i), HashtagsFrom(a, i), x,
              HashtagsFrom(s, i + 1 + n), HashtagsFrom(a, i + 1 + n), hb);
  }

  lemma ConsChain<T>(hs: seq<T>, ha: seq<T>, x: T, hsj: seq<T>, haj: seq<T>, hb: seq<T>)
    requires hs == [x] + hsj && ha == [x] + haj && hsj == haj + hb
    ensures hs == ha + hb
  {
  }

  /** One step of the scan anywhere else. */
  lemma SkipUnfold(s: string, i: nat)
    requires i + 1 < |s| && !(IsHashMark(s[i]) && IsTagChar(s[i + 1]))
    ensures HashtagsFrom(s, i) == HashtagsFrom(s, i + 1)
  {
  }

  lemma SkipBoth(s: string, i: nat, t: string, j: nat)
    requires i + 1 < |s| && j + 1 < |t| && s[i] == t[j] && s[i + 1] == t[j + 1]
    requires !(IsHashMark(s[i]) && IsTagChar(s[i + 1]))
    requires HashtagsFrom(s, i + 1) == HashtagsFrom(t, j + 1)
    ensures HashtagsFrom(s, i) == HashtagsFrom(t, j)
  {
    SkipUnfold(s, i);
    SkipUnfold(t, j);
  }

  function Concat(parts: seq<seq<string>>): seq<string> {
    if parts == [] then [] else parts[0] + Concat(parts[1..])
  }

  function TagsOfEach(parts: seq<string>): (r: seq<seq<string>>)
    ensures |r| == |parts|
    ensures forall k :: 0 <= k < |parts| ==> r[k] == HashtagsFrom(parts[k], 0)
  {
    if parts == [] then [] else [HashtagsFrom(parts[0], 0)] + TagsOfEach(parts[1..])
  }

  /** get_all_tags joins a row's text fields with newlines: the tags of the
      joined text are the tags of each field, in field order. */
  lemma {:induction false} HashtagsOfJoin(parts: seq<string>)
    ensures HashtagsFrom(Join(parts, "\n"), 0) == Concat(TagsOfEach(parts))
  {
    if |parts| == 1 {
      assert TagsOfEach(parts) == [HashtagsFrom(parts[0], 0)];
    } else if |parts| > 1 {
      HashtagsOfJoin(parts[1..]);
      HashtagsSplitFrom(parts[0], '\n', Join(parts[1..], "\n"), 0);
      assert parts[0] + "\n" + Join(parts[1..], "\n") == parts[0] + ['\n'] + Join(parts[1..], "\n");
    }
  }

  /** A marker directly followed by a tag name yields exactly that name. */
  lemma HashtagOfName(t: string)
    requires t != [] && AllTagChars(t)
    ensures Hashtags(Some("#" + t)) == [t]
  {
    var s := "#" + t;
    TagRunShift("#", t, 0);
    assert TagRun(t, 0) == |t| by {
      TagRunAll(t, 0);
    }
    assert s[1..1 + |t|] == t;
    assert HashtagsFrom(s, |s|) == [];
  }

  lemma {:induction false} TagRunAll(t: string, i: nat)
    requires i <= |t| && AllTagChars(t)
    ensures TagRun(t, i) == |t| - i
    decreases |t| - i
  {
    if i < |t| {
      TagRunAll(t, i + 1);
    }
  }

  /** Text without a marker has no tags. */
  lemma {:induction false} NoMarkNoTags(s: string, i: nat)
    requires i <= |s|
    requires forall k :: 0 <= k < |s| ==> !IsHashMark(s[k])
    ensures HashtagsFrom(s, i) == []
    decreases |s| - i
  {
    if i + 1 < |s| {
      NoMarkNoTags(s, i + 1);
    }
  }

  // ------------------------------------------------------------ previews

  /** The first `max` characters, with an ellipsis when something was cut. */
  function Clip(s: string, max: nat): (r: string)
    ensures |s| <= max ==> r == s
    ensures |s| > max ==> |r| == max + 1 && r[..max] == s[..max] && r[max] == Ellipsis
  {
    if |s| > max then s[..max] + [Ellipsis] else s
  }

  /** A field that is missing or made of whitespace only: exactly the
      fields whose `strip()` is empty (BlankStrips). */
  predicate Blank(f: Option<string>) {
    f.None? || forall i :: 0 <= i < |f.value| ==> IsPySpace(f.value[i])
  }

  lemma BlankStrips(f: Option<string>)
    ensures Blank(f) <==> f.None? || PyStrip(f.value) == ""
  {
    if f.Some? {
      var s := f.value;
      var t := TrimStart(s, IsPySpace);
      if t != [] {
        assert t[0] == s[|s| - |t|];
      }
    }
  }

  /** _make_preview: the first field that is not blank, stripped and clipped
      to 80 characters; "" when every field is blank. */
  function Preview(fields: seq<Option<string>>): (r: string)
  {
    if fields == [] then ""
    else if !Blank(fields[0]) then Clip(PyStrip(fields[0].value), SnippetLength)
    else Preview(fields[1..])
  }

  /** Position of the first field that is not blank; `|fields|` when every
      field is blank. */
  function FirstFilled(fields: seq<Option<string>>): (k: nat)
    ensures k <= |fields|
    ensures k < |fields| ==> !Blank(fields[k])
  {
    if fields == [] || !Blank(fields[0]) then 0
    else
      var k := FirstFilled(fields[1..]);
      assert k < |fields| - 1 ==> fields[1..][k] == fields[k + 1];
      1 + k
  }

  /** Every field before it is blank. */
  lemma {:induction false} FirstFilledAfterBlanks(fields: seq<Option<string>>, j: nat)
    requires j < FirstFilled(fields)
    ensures Blank(fields[j])
  {
    if j > 0 {
      FirstFilledAfterBlanks(fields[1..], j - 1);
      assert fields[1..][j - 1] == fields[j];
    }
  }

  /** The preview is the first field that is not blank, stripped and
      clipped; it is empty exactly when every field is blank, and never
      longer than 80 characters and the ellipsis. */
  lemma {:induction false} PreviewSpec(fields: seq<Option<string>>)
    ensures var k := FirstFilled(fields);
      Preview(fields) == if k < |fields| then Clip(PyStrip(fields[k].value), SnippetLength) else ""
    ensures Preview(fields) == "" <==> FirstFilled(fields) == |fields|
    ensures |Preview(fields)| <= SnippetLength + 1
  {
    if fields != [] && Blank(fields[0]) {
      PreviewSpec(fields[1..]);
      var k := FirstFilled(fields[1..]);
      if k < |fields[1..]| {
        assert fields[1..][k] == fields[k + 1];
      }
    }
  }

  // ------------------------------------------------------------ matches

  /** _first_match_index: the earliest position in the normalised text where
      any non-empty term occurs, or -1. `norm` stands for `_norm` (Unicode
      NFKC and lower-casing). */
  method FirstMatchIndex(text: string, terms: seq<string>, norm: string -> string) returns (best: int)
    ensures text == "" ==> best == -1
    ensures text != "" ==>
      (best == -1 <==> forall t :: t in terms && t != "" ==> !Contains(norm(text), t))
    ensures best != -1 ==> exists t :: t in terms && t != "" && OccursAt(norm(text), t, best)
    ensures best != -1 ==> forall t, k :: t in terms && t != "" && 0 <= k < best ==> !OccursAt(norm(text), t, k)
  {
    if text == "" {
      return -1;
    }
    var hay := norm(text);
    best := -1;
    var i := 0;
    while i < |terms|
      invariant 0 <= i <= |terms|
      invariant best == -1 <==> forall t :: t in terms[..i] && t != "" ==> !Contains(hay, t)
      invariant best != -1 ==> exists t :: t in terms[..i] && t != "" && OccursAt(hay, t, best)
      invariant best != -1 ==> forall t, k :: t in terms[..i] && t != "" && 0 <= k < best ==> !OccursAt(hay, t, k)
    {
      var t := terms[i];
      assert terms[..i + 1] == terms[..i] + [t];
      if t != "" {
        var idx := IndexOf(hay, t);
        if idx != -1 && (best == -1 || idx < best) {
          best := idx;
        }
      }
      i := i + 1;
    }
    assert terms[..|terms|] == terms;
  }

  // ------------------------------------------------------------ snippets

  function Max(a: int, b: int): int { if a >= b then a else b }
  function Min(a: int, b: int): int { if a <= b then a else b }

  /** _make_centered_snippet: `maxLen / 2` characters on each side of the
      match, with an ellipsis on each side that was cut; a position outside
      the text falls back to the clipped start of the text. */
  function CenteredSnippet(text: string, matchIdx: int, matchLen: nat, maxLen: nat): string {
    if text == "" then ""
    else if matchIdx < 0 || matchIdx >= |text| then Clip(text, maxLen)
    else
      var half := maxLen / 2;
      var start := Max(0, matchIdx - half);
      var end := Min(|text|, matchIdx + matchLen + half);
      (if start > 0 then [Ellipsis] else []) + text[start..end] + (if end < |text| then [Ellipsis] else [])
  }

  /** The parts a snippet around a valid match position is made of. */
  lemma SnippetParts(text: string, matchIdx: int, matchLen: nat, maxLen: nat)
    requires 0 <= matchIdx < |text|
    ensures var half := maxLen / 2;
      var start := Max(0, matchIdx - half);
      var end := Min(|text|, matchIdx + matchLen + half);
      && 0 <= start <= matchIdx <= end <= |text|
      && CenteredSnippet(text, matchIdx, matchLen, maxLen)
         == (if start > 0 then [Ellipsis] else []) + text[start..end] + (if end < |text| then [Ellipsis] else [])
  {
  }

  /** The snippet holds the matched text (cut at the end of the text). */
  lemma CenteredSnippetHoldsMatch(text: string, matchIdx: int, matchLen: nat, maxLen: nat)
    requires 0 <= matchIdx < |text|
    ensures var half := maxLen / 2;
      var e := Min(|text|, matchIdx + matchLen);
      var lead := if matchIdx > half then 1 else 0;
      OccursAt(CenteredSnippet(text, matchIdx, matchLen, maxLen), text[matchIdx..e], lead + matchIdx - Max(0, matchIdx - half))
  {
    SnippetParts(text, matchIdx, matchLen, maxLen);
    var r := CenteredSnippet(text, matchIdx, matchLen, maxLen);
    var half := maxLen / 2;
    var start := Max(0, matchIdx - half);
    var end := Min(|text|, matchIdx + matchLen + half);
    var lead: string := if start > 0 then [Ellipsis] else [];
    var mid := text[start..end];
    var tail: string := if end < |text| then [Ellipsis] else [];
    var e := Min(|text|, matchIdx + matchLen);
    SliceOfSlice(text, start, end, matchIdx - start, e - start);
    Window(lead, mid, tail, matchIdx - start, e - start);
  }

  lemma Window<T>(lead: seq<T>, mid: seq<T>, tail: seq<T>, p: nat, q: nat)
    requires p <= q <= |mid|
    ensures (lead + mid + tail)[|lead| + p..|lead| + q] == mid[p..q]
  {
    var r := lead + mid + tail;
    forall k | 0 <= k < q - p ensures r[|lead| + p..|lead| + q][k] == mid[p..q][k] {
      assert r[|lead| + p + k] == mid[p + k];
    }
  }

  /** At most `maxLen / 2` characters on each side of the match, plus two
      ellipses. */
  lemma CenteredSnippetLength(text: string, matchIdx: int, matchLen: nat, maxLen: nat)
    requires 0 <= matchIdx < |text|
    ensures |CenteredSnippet(text, matchIdx, matchLen, maxLen)| <= matchLen + 2 * (maxLen / 2) + 2
  {
    SnippetParts(text, matchIdx, matchLen, maxLen);
  }

  /** An ellipsis stands exactly where the text was cut: otherwise the snippet
      starts with the text's beginning or ends with its end. */
  lemma CenteredSnippetEnds(text: string, matchIdx: int, matchLen: nat, maxLen: nat)
    requires 0 <= matchIdx < |text|
    ensures var r := CenteredSnippet(text, matchIdx, matchLen, maxLen);
      var half := maxLen / 2;
      && (matchIdx > half ==> r[0] == Ellipsis)
      && (matchIdx <= half ==> StartsWith(r, text[..matchIdx]))
      && (matchIdx + matchLen + half < |text| ==> r[|r| - 1] == Ellipsis)
      && (matchIdx + matchLen + half >= |text| ==> EndsWith(r, text[matchIdx..]))
  {
    SnippetParts(text, matchIdx, matchLen, maxLen);
    var r := CenteredSnippet(text, matchIdx, matchLen, maxLen);
    var half := maxLen / 2;
    var start := Max(0, matchIdx - half);
    var end := Min(|text|, matchIdx + matchLen + half);
    var mid := text[start..end];
    if matchIdx <= half {
      assert r[..matchIdx] == mid[..matchIdx];
    }
    if matchIdx + matchLen + half >= |text| {
      assert r[|r| - (|text| - matchIdx)..] == mid[matchIdx - start..];
    }
  }

  lemma SliceOfSlice<T>(s: seq<T>, a: nat, b: nat, c: nat, d: nat)
    requires a <= b <= |s| && c <= d <= b - a
    ensures s[a..b][c..d] == s[a + c..a + d]
  {
    var x := s[a..b];
    forall k | 0 <= k < d - c ensures x[c..d][k] == s[a + c..a + d][k] {
      assert x[c..d][k] == x[c + k] == s[a + c + k];
    }
  }

  // ------------------------------------------------------------ date range

  /** _within_range on day numbers: a missing or unreadable date (None) is
      never in range; a missing bound does not restrict. */
  function WithinRange(date: Option<int>, start: Option<int>, end: Option<int>): (r: bool) {
    if date.None? then false
    else if start.Some? && date.value < start.value then false
    else if end.Some? && date.value > end.value then false
    else true
  }

  /** Widening the range never drops a date, and a range whose start is after
      its end holds no date. */
  lemma WithinRangeMonotone(date: Option<int>, s1: Option<int>, e1: Option<int>, s2: Option<int>, e2: Option<int>)
    requires s2.None? || (s1.Some? && s2.value <= s1.value)
    requires e2.None? || (e1.Some? && e1.value <= e2.value)
    ensures WithinRange(date, s1, e1) ==> WithinRange(date, s2, e2)
    ensures s1.Some? && e1.Some? && s1.value > e1.value ==> !WithinRange(date, s1, e1)
  {
  }
}

=== FILE: templates.dfy ===
/** The chat templates of webnew/components/template-manager.tsx: the
    slash-command validator and the list updates made when a template is
    saved or deleted. */
module Templates {
  import opened Wrappers
  import opened Text

  datatype Template = Template(id: string, title: string, content: string, cmd: Option<string>)

  /** Why a slash command is refused. */
  datatype CmdError = BadFormat | ReservedCmd | DuplicateCmd

  /** RESERVED. */
  const Reserved: set<string> := {"/web", "/clear", "/debug"}

  /** A command with its leading `/` added when missing. */
  function WithSlash(cmd: string): (r: string)
    ensures StartsWith(r, "/")
    ensures StartsWith(cmd, "/") ==> r == cmd
  {
    if StartsWith(cmd, "/") then cmd else "/" + cmd
  }

  predicate IsCmdChar(c: char) { IsAsciiAlnum(c) || c == '-' }

  /** `/^\/[a-zA-Z0-9\-]+$/` matches. */
  predicate IsCmdShape(norm: string) {
    |norm| >= 2 && norm[0] == '/' && forall i :: 1 <= i < |norm| ==> IsCmdChar(norm[i])
  }

  /** Some template other than `currentId` already uses `norm`. */
  predicate TakenByOther(norm: string, existing: seq<Template>, currentId: Option<string>) {
    exists i | 0 <= i < |existing| :: existing[i].cmd == Some(norm) && Some(existing[i].id) != currentId
  }

  /** validateCmd: no command is fine; otherwise, with `/` added, it must
      have the right shape, not be reserved and not belong to another
      template, checked in that order. */
  function ValidateCmd(cmd: Option<string>, existing: seq<Template>, currentId: Option<string>): (r: Option<CmdError>)
    ensures cmd.None? || cmd == Some("") ==> r == None
    ensures r.Some? && r.value == BadFormat ==> !IsCmdShape(WithSlash(cmd.value))
  {
    match cmd
    case None => None
    case Some(c) =>
      if c == "" then None
      else
        var norm := WithSlash(c);
        if !IsCmdShape(norm) then Some(BadFormat)
        else if norm in Reserved then Some(ReservedCmd)
        else if TakenByOther(norm, existing, currentId) then Some(DuplicateCmd)
        else None
  }

  /** A non-empty command passes exactly when its slashed form is
      well-formed, not reserved and not another template's. */
  lemma ValidateCmdAccepts(c: string, existing: seq<Template>, currentId: Option<string>)
    requires c != ""
    ensures ValidateCmd(Some(c), existing, currentId).None? <==>
      && IsCmdShape(WithSlash(c))
      && WithSlash(c) !in Reserved
      && !TakenByOther(WithSlash(c), existing, currentId)
  {
  }

  /** The leading `/` is optional: `x` and `/x` are judged alike. */
  lemma ValidateCmdSlashOptional(c: string, existing: seq<Template>, currentId: Option<string>)
    requires c != ""
    ensures ValidateCmd(Some(c), existing, currentId) == ValidateCmd(Some(WithSlash(c)), existing, currentId)
  {
  }

  /** The template being edited may keep its own command. */
  lemma OwnCmdKept(existing: seq<Template>, k: nat)
    requires k < |existing| && existing[k].cmd.Some?
    requires IsCmdShape(existing[k].cmd.value) && existing[k].cmd.value !in Reserved
    requires forall i :: 0 <= i < |existing| && existing[i].cmd == existing[k].cmd ==> existing[i].id == existing[k].id
    ensures ValidateCmd(existing[k].cmd, existing, Some(existing[k].id)) == None
  {
    var c := existing[k].cmd.value;
    assert WithSlash(c) == c;
  }

  /** No two templates with different ids share a command. */
  predicate CmdsUnique(ts: seq<Template>) {
    forall i, j :: 0 <= i < |ts| && 0 <= j < |ts| && ts[i].cmd.Some? && ts[i].cmd == ts[j].cmd
      ==> ts[i].id == ts[j].id
  }

  // ------------------------------------------------------------ saving and deleting

  /** Why a save is refused. */
  datatype SaveError = InvalidCmd(reason: CmdError) | TitleRequired | ContentRequired

  /** The most templates kept. */
  const MaxTemplates: nat := 200

  /** `templates.find(t => t.id === editingId)`. */
  function FindById(ts: seq<Template>, id: Option<string>): (r: Option<Template>)
    ensures r.Some? ==> r.value in ts && id == Some(r.value.id)
    ensures r.None? ==> forall i :: 0 <= i < |ts| ==> id != Some(ts[i].id)
  {
    if ts == [] then None
    else if id == Some(ts[0].id) then Some(ts[0])
    else FindById(ts[1..], id)
  }

  /** Every template with `id` replaced by its edited form. */
  function ReplaceById(ts: seq<Template>, id: string, title: string, content: string, cmd: Option<string>): (r: seq<Template>)
    ensures |r| == |ts|
    ensures forall i :: 0 <= i < |ts| && ts[i].id != id ==> r[i] == ts[i]
    ensures forall i :: 0 <= i < |ts| && ts[i].id == id ==> r[i] == Template(id, title, content, cmd)
  {
    if ts == [] then []
    else
      [if ts[0].id == id then Template(id, title, content, cmd) else ts[0]]
      + ReplaceById(ts[1..], id, title, content, cmd)
  }

  /** `templates.filter(t => t.id !== id)`. */
  function RemoveById(ts: seq<Template>, id: string): (r: seq<Template>)
    ensures |r| <= |ts|
    ensures forall t :: t in r <==> t in ts && t.id != id
  {
    if ts == [] then []
    else (if ts[0].id == id then [] else [ts[0]]) + RemoveById(ts[1..], id)
  }

  /** `list.slice(0, 200)`. */
  function Capped(list: seq<Template>): (r: seq<Template>)
    ensures r <= list
  {
    if |list| > MaxTemplates then list[..MaxTemplates] else list
  }

  /** handleSave: the form's title, command and content are checked, then
      the edited template (the one whose id is `editingId`) is replaced, or
      a new one with id `newId` is put first and the list cut to 200. The
      new id, built from the clock and a random number, is a parameter. */
  function Save(templates: seq<Template>, editingId: Option<string>, title: string, cmd: string,
                content: string, newId: string): (r: Result<seq<Template>, SaveError>)
    ensures r.Failure? <==>
      ValidateCmd(if cmd == "" then None else Some(WithSlash(cmd)), templates,
                  if FindById(templates, editingId).Some? then Some(FindById(templates, editingId).value.id) else None).Some?
      || JsTrim(title) == "" || JsTrim(content) == ""
  {
    var normCmd := if cmd == "" then None else Some(WithSlash(cmd));
    var editing := FindById(templates, editingId);
    var currentId := if editing.Some? then Some(editing.value.id) else None;
    match ValidateCmd(normCmd, templates, currentId)
    case Some(e) => Failure(InvalidCmd(e))
    case None =>
      if JsTrim(title) == "" then Failure(TitleRequired)
      else if JsTrim(content) == "" then Failure(ContentRequired)
      else if editing.Some? then
        Success(ReplaceById(templates, editing.value.id, JsTrim(title), content, normCmd))
      else
        Success(Capped([Template(newId, JsTrim(title), content, normCmd)] + templates))
  }

  /** handleDelete: without an edited template nothing changes; otherwise
      every template with its id goes and the rest keep their order. */
  function Delete(templates: seq<Template>, editingId: Option<string>): (r: seq<Template>)
  {
    match FindById(templates, editingId)
    case None => templates
    case Some(editing) => RemoveById(templates, editing.id)
  }

  /** A new template goes first, the others follow in their order, and no
      more than 200 are kept. */
  lemma SaveNewPrepends(templates: seq<Template>, editingId: Option<string>, title: string, cmd: string,
                        content: string, newId: string)
    requires FindById(templates, editingId).None?
    requires Save(templates, editingId, title, cmd, content, newId).Success?
    ensures var next := Save(templates, editingId, title, cmd, content, newId).value;
      && |next| == (if |templates| + 1 > MaxTemplates then MaxTemplates else |templates| + 1)
      && next[0] == Template(newId, JsTrim(title), content, if cmd == "" then None else Some(WithSlash(cmd)))
      && next[1..] == templates[..|next| - 1]
  {
    var added := Template(newId, JsTrim(title), content, if cmd == "" then None else Some(WithSlash(cmd)));
    assert Save(templates, editingId, title, cmd, content, newId).value == Capped([added] + templates);
    CappedPrepend(added, templates);
  }

  lemma CappedPrepend(added: Template, templates: seq<Template>)
    ensures var next := Capped([added] + templates);
      && |next| == (if |templates| + 1 > MaxTemplates then MaxTemplates else |templates| + 1)
      && next[0] == added
      && next[1..] == templates[..|next| - 1]
  {
    var whole := [added] + templates;
    var next := Capped(whole);
    assert next[1..] == whole[1..|next|];
  }

  /** An edit changes only the templates with the edited id, giving them
      the trimmed title, the content and the slashed command. */
  lemma SaveEditReplaces(templates: seq<Template>, editingId: Option<string>, title: string, cmd: string,
                         content: string, newId: string)
    requires FindById(templates, editingId).Some?
    requires Save(templates, editingId, title, cmd, content, newId).Success?
    ensures var next := Save(templates, editingId, title, cmd, content, newId).value;
      && |next| == |templates|
      && forall i :: 0 <= i < |templates| ==>
           if Some(templates[i].id) == editingId
           then next[i] == Template(templates[i].id, JsTrim(title), content, if cmd == "" then None else Some(WithSlash(cmd)))
           else next[i] == templates[i]
  {
  }

  /** Deleting removes every template with the edited id and keeps every
      other one. */
  lemma DeleteRemoves(templates: seq<Template>, editingId: Option<string>)
    requires FindById(templates, editingId).Some?
    ensures var next := Delete(templates, editingId);
      forall t :: t in next <==> t in templates && Some(t.id) != editingId
  {
  }

  /** Saving keeps commands unique across templates with different ids. */
  lemma SaveKeepsCmdsUnique(templates: seq<Template>, editingId: Option<string>, title: string, cmd: string,
                            content: string, newId: string)
    requires CmdsUnique(templates)
    requires Save(templates, editingId, title, cmd, content, newId).Success?
    ensures CmdsUnique(Save(templates, editingId, title, cmd, content, newId).value)
  {
    var normCmd := if cmd == "" then None else Some(WithSlash(cmd));
    var editing := FindById(templates, editingId);
    var currentId := if editing.Some? then Some(editing.value.id) else None;
    var next := Save(templates, editingId, title, cmd, content, newId).value;
    assert ValidateCmd(normCmd, templates, currentId).None?;
    assert Unclaimed(normCmd, templates, currentId) by {
      if normCmd.Some? {
        assert !TakenByOther(normCmd.value, templates, currentId);
      }
    }
    if editing.Some? {
      assert next == ReplaceById(templates, editing.value.id, JsTrim(title), content, normCmd);
      ReplaceKeepsCmdsUnique(templates, editing.value.id, JsTrim(title), content, normCmd);
    } else {
      var added := Template(newId, JsTrim(title), content, normCmd);
      assert next == Capped([added] + templates);
      PrependKeepsCmdsUnique(added, templates);
    }
  }

  /** No template other than `currentId` holds `cmd`. */
  predicate Unclaimed(cmd: Option<string>, ts: seq<Template>, currentId: Option<string>) {
    cmd.Some? ==> forall j :: 0 <= j < |ts| && ts[j].cmd == cmd ==> Some(ts[j].id) == currentId
  }

  /** Giving the templates of one id a command no template of another id
      holds keeps commands unique. */
  lemma ReplaceKeepsCmdsUnique(ts: seq<Template>, id: string, title: string, content: string, cmd: Option<string>)
    requires CmdsUnique(ts)
    requires Unclaimed(cmd, ts, Some(id))
    ensures CmdsUnique(ReplaceById(ts, id, title, content, cmd))
  {
  }

  /** Putting first a template whose command nobody holds, and keeping a
      prefix, keeps commands unique. */
  lemma PrependKeepsCmdsUnique(added: Template, ts: seq<Template>)
    requires CmdsUnique(ts)
    requires Unclaimed(added.cmd, ts, None)
    ensures CmdsUnique(Capped([added] + ts))
  {
    var whole := [added] + ts;
    assert CmdsUnique(whole) by {
      forall i, j | 0 <= i < |whole| && 0 <= j < |whole| && whole[i].cmd.Some? && whole[i].cmd == whole[j].cmd
        ensures whole[i].id == whole[j].id
      {
        if i > 0 && j > 0 {
          assert whole[i] == ts[i - 1] && whole[j] == ts[j - 1];
        }
      }
    }
  }
}

=== FILE: text.dfy ===
/** String helpers shared by the models of the Python and JavaScript sources:
    whitespace classes, trimming, searching, splitting, joining and decimal
    rendering. A `char` is one Unicode scalar value (a code point that is not
    a surrogate), which is what a Python `str` holds; a JavaScript string
    holds UTF-16 code units, so its lengths and indices agree with the model
    only on text without characters beyond U+FFFF. */
module Text {

  /** JavaScript's `\s` class; also the characters `String.prototype.trim` removes. */
  predicate IsJsSpace(c: char) {
    c == '\t' || c == '\n' || c == '\U{B}' || c == '\U{C}' || c == '\r' || c == ' '
    || c == '\U{A0}' || c == '\U{1680}' || ('\U{2000}' <= c <= '\U{200A}')
    || c == '\U{2028}' || c == '\U{2029}' || c == '\U{202F}' || c == '\U{205F}'
    || c == '\U{3000}' || c == '\U{FEFF}'
  }

  /** Python's `str.isspace`; the characters `str.strip()` removes. */
  predicate IsPySpace(c: char) {
    ('\t' <= c <= '\r') || ('\U{1C}' <= c <= '\U{1F}') || c == ' ' || c == '\U{85}'
    || c == '\U{A0}' || c == '\U{1680}' || ('\U{2000}' <= c <= '\U{200A}')
    || c == '\U{2028}' || c == '\U{2029}' || c == '\U{202F}' || c == '\U{205F}'
    || c == '\U{3000}'
  }

  predicate IsAsciiDigit(c: char) { '0' <= c <= '9' }
  predicate IsAsciiLetter(c: char) { 'a' <= c <= 'z' || 'A' <= c <= 'Z' }
  predicate IsAsciiAlnum(c: char) { IsAsciiDigit(c) || IsAsciiLetter(c) }

  predicate AllDigits(s: string) { forall i :: 0 <= i < |s| ==> IsAsciiDigit(s[i]) }

  /** Removes leading characters satisfying `ws`. */
  function TrimStart(s: string, ws: char -> bool): (r: string)
    ensures |r| <= |s| && r == s[|s| - |r|..]
    ensures r == [] || !ws(r[0])
    ensures forall i :: 0 <= i < |s| - |r| ==> ws(s[i])
  {
    if s == [] || !ws(s[0]) then s else TrimStart(s[1..], ws)
  }

  /** Removes trailing characters satisfying `ws`. */
  function TrimEnd(s: string, ws: char -> bool): (r: string)
    ensures |r| <= |s| && r == s[..|r|]
    ensures r == [] || !ws(r[|r| - 1])
    ensures forall i :: |r| <= i < |s| ==> ws(s[i])
  {
    if s == [] || !ws(s[|s| - 1]) then s else TrimEnd(s[..|s| - 1], ws)
  }

  function Trim(s: string, ws: char -> bool): string {
    TrimEnd(TrimStart(s, ws), ws)
  }

  /** JavaScript `s.trim()`. */
  function JsTrim(s: string): string { Trim(s, IsJsSpace) }

  /** Text with no space at either end is left alone by `trim()`. */
  lemma JsTrimKeeps(s: string)
    requires s != [] && !IsJsSpace(s[0]) && !IsJsSpace(s[|s| - 1])
    ensures JsTrim(s) == s
  {
  }

  lemma JsTrimDigits(s: string)
    requires s != [] && AllDigits(s)
    ensures JsTrim(s) == s
  {
    assert IsAsciiDigit(s[0]) && IsAsciiDigit(s[|s| - 1]);
    JsTrimKeeps(s);
  }

  /** Python `s.strip()`. */
  function PyStrip(s: string): string { Trim(s, IsPySpace) }

  /** ASCII case folding; non-ASCII case mapping is not modelled. */
  function LowerChar(c: char): char {
    if 'A' <= c <= 'Z' then (c as int + 32) as char else c
  }

  function Lower(s: string): (r: string)
    ensures |r| == |s|
    ensures forall i :: 0 <= i < |s| ==> r[i] == LowerChar(s[i])
  {
    if s == [] then [] else [LowerChar(s[0])] + Lower(s[1..])
  }

  /** Text without upper-case ASCII letters is its own lower-case form. */
  lemma LowerKeeps(s: string)
    requires forall i :: 0 <= i < |s| ==> !('A' <= s[i] <= 'Z')
    ensures Lower(s) == s
  {
  }

  lemma LowerTwice(s: string)
    ensures Lower(Lower(s)) == Lower(s)
  {
  }

  predicate StartsWith(s: string, p: string) { p <= s }

  predicate EndsWith(s: string, p: string) {
    |p| <= |s| && s[|s| - |p|..] == p
  }

  predicate OccursAt(s: string, t: string, i: int) {
    0 <= i && i + |t| <= |s| && s[i..i + |t|] == t
  }

  predicate Contains(s: string, t: string) {
    exists i :: 0 <= i <= |s| && OccursAt(s, t, i)
  }

  /** Index of the first occurrence of `t` in `s` at or after `from`, or -1
      (`str.find` / `String.prototype.indexOf`). */
  function IndexOfFrom(s: string, t: string, from: nat): (r: int)
    decreases |s| - from
    ensures r == -1 || (from <= r && OccursAt(s, t, r))
    ensures r == -1 ==> forall i :: from <= i ==> !OccursAt(s, t, i)
    ensures r != -1 ==> forall i :: from <= i < r ==> !OccursAt(s, t, i)
  {
    if from + |t| > |s| then -1
    else if s[from..from + |t|] == t then from
    else IndexOfFrom(s, t, from + 1)
  }

  function IndexOf(s: string, t: string): (r: int)
    ensures r == -1 <==> !Contains(s, t)
    ensures r != -1 ==> OccursAt(s, t, r) && forall i :: 0 <= i < r ==> !OccursAt(s, t, i)
  {
    IndexOfFrom(s, t, 0)
  }

  /** Index of the first occurrence of character `c`, or -1. */
  function IndexOfChar(s: string, c: char): (r: int)
    ensures -1 <= r < |s|
    ensures r == -1 <==> c !in s
    ensures r != -1 ==> s[r] == c && c !in s[..r]
  {
    if s == [] then -1
    else if s[0] == c then 0
    else var k := IndexOfChar(s[1..], c); if k == -1 then -1 else k + 1
  }

  /** No element occurs twice. */
  predicate Distinct<T(==)>(s: seq<T>) {
    forall i, j :: 0 <= i < j < |s| ==> s[i] != s[j]
  }

  /** The elements in order of first appearance, each once. */
  function FirstOrder<T(==)>(s: seq<T>): (r: seq<T>)
  {
    if s == [] then []
    else
      var init := s[..|s| - 1];
      if s[|s| - 1] in init then FirstOrder(init) else FirstOrder(init) + [s[|s| - 1]]
  }

  lemma {:induction false} FirstOrderSpec<T>(s: seq<T>)
    ensures Distinct(FirstOrder(s))
    ensures forall x :: x in FirstOrder(s) <==> x in s
  {
    if s != [] {
      var init := s[..|s| - 1];
      FirstOrderSpec(init);
      assert s == init + [s[|s| - 1]];
    }
  }

  /** A sequence without repeats is its own first-appearance order. */
  lemma {:induction false} FirstOrderDistinct<T>(s: seq<T>)
    requires Distinct(s)
    ensures FirstOrder(s) == s
  {
    if s != [] {
      var init := s[..|s| - 1];
      assert Distinct(init);
      FirstOrderDistinct(init);
      assert s[|s| - 1] !in init;
      assert s == init + [s[|s| - 1]];
    }
  }

  /** `.filter(Boolean)` on strings: the non-empty ones, in order. */
  function NonEmpty(s: seq<string>): (r: seq<string>)
    ensures forall x :: x in r <==> x in s && x != ""
  {
    if s == [] then []
    else (if s[0] == "" then [] else [s[0]]) + NonEmpty(s[1..])
  }

  /** `pieces.map(s => s.trim())` (JavaScript). */
  function TrimAll(pieces: seq<string>): (r: seq<string>)
    ensures |r| == |pieces|
    ensures forall i :: 0 <= i < |r| ==> r[i] == JsTrim(pieces[i])
  {
    seq(|pieces|, i requires 0 <= i < |pieces| => JsTrim(pieces[i]))
  }

  /** `s.split(sep)` for a one-character separator (same in JavaScript and Python). */
  function Split(s: string, sep: char): (r: seq<string>)
    ensures |r| >= 1
    ensures forall i :: 0 <= i < |r| ==> sep !in r[i]
    decreases |s|
  {
    var k := IndexOfChar(s, sep);
    if k == -1 then [s] else [s[..k]] + Split(s[k + 1..], sep)
  }

  /** `sep.join(parts)` / `parts.join(sep)`. */
  function Join(parts: seq<string>, sep: string): string {
    if parts == [] then []
    else if |parts| == 1 then parts[0]
    else parts[0] + sep + Join(parts[1..], sep)
  }

  lemma {:induction false} SplitJoin(s: string, sep: char)
    ensures Join(Split(s, sep), [sep]) == s
    decreases |s|
  {
    var k := IndexOfChar(s, sep);
    if k != -1 {
      var rest := Split(s[k + 1..], sep);
      SplitJoin(s[k + 1..], sep);
      JoinCons(s[..k], rest, [sep]);
      CutAt(s, k);
    }
  }

  /** Splitting parts joined by a separator they do not contain gives the
      parts back. */
  lemma {:induction false} JoinSplit(parts: seq<string>, sep: char)
    requires parts != []
    requires forall i :: 0 <= i < |parts| ==> sep !in parts[i]
    ensures Split(Join(parts, [sep]), sep) == parts
  {
    if |parts| > 1 {
      var head, rest := parts[0], parts[1..];
      var s := Join(parts, [sep]);
      assert s == head + [sep] + Join(rest, [sep]);
      var k := IndexOfChar(s, sep);
      assert s[|head|] == sep;
      assert k == |head|;
      assert s[k + 1..] == Join(rest, [sep]);
      assert s[..k] == head;
      JoinSplit(rest, sep);
    }
  }

  lemma JoinCons(head: string, rest: seq<string>, sep: string)
    requires rest != []
    ensures Join([head] + rest, sep) == head + sep + Join(rest, sep)
  {
    assert ([head] + rest)[1..] == rest;
  }

  lemma CutAt<T>(s: seq<T>, k: nat)
    requires k < |s|
    ensures s == s[..k] + [s[k]] + s[k + 1..]
  {
  }

  function DigitValue(c: char): nat
    requires IsAsciiDigit(c)
  {
    c as int - '0' as int
  }

  /** Decimal value of an all-digit string (`Number(s)` / `int(s)` on digits). */
  function DecimalValue(s: string): nat
    requires AllDigits(s)
  {
    if s == [] then 0 else DecimalValue(s[..|s| - 1]) * 10 + DigitValue(s[|s| - 1])
  }

  /** `10^k`. */
  function Pow10(k: nat): (r: nat)
    ensures r >= 1
  {
    if k == 0 then 1 else 10 * Pow10(k - 1)
  }

  function DigitChar(d: nat): char
    requires d < 10
  {
    ('0' as int + d) as char
  }

  /** `String(n)` for a natural number. */
  function NatToString(n: nat): (r: string)
    ensures |r| >= 1 && AllDigits(r)
    ensures r[0] == '0' ==> n == 0
  {
    if n < 10 then [DigitChar(n)] else NatToString(n / 10) + [DigitChar(n % 10)]
  }

  lemma {:induction false} NatToStringRoundTrip(n: nat)
    ensures DecimalValue(NatToString(n)) == n
  {
    if n >= 10 {
      NatToStringRoundTrip(n / 10);
      var s := NatToString(n);
      assert s[..|s| - 1] == NatToString(n / 10);
    }
  }

  /** `String(i)` for an integer. */
  function IntToString(i: int): string {
    if i < 0 then "-" + NatToString(-i) else NatToString(i)
  }

  /** `String(n).padStart(2, '0')`. */
  function Pad2(n: nat): (r: string)
    ensures |r| >= 2 && AllDigits(r)
    ensures n < 100 ==> |r| == 2
  {
    var s := NatToString(n);
    assert 10 <= n < 100 ==> |s| == 2 by {
      if 10 <= n < 100 {
        assert NatToString(n / 10) == [DigitChar(n / 10)];
      }
    }
    if |s| < 2 then "0" + s else s
  }

  /** Two-digit padding keeps the number's value. */
  lemma Pad2RoundTrip(n: nat)
    ensures DecimalValue(Pad2(n)) == n
  {
    NatToStringRoundTrip(n);
    var s := NatToString(n);
    if |s| < 2 {
      assert ("0" + s)[..1] == "0";
      assert DecimalValue("0" + s) == DecimalValue(s);
    }
  }

  /** Integer division truncating toward zero (C, JavaScript `Math.trunc`, Python `int(a / b)`). */
  function TruncDiv(a: int, b: int): (q: int)
    requires b > 0
    ensures a >= 0 ==> q == a / b
    ensures a < 0 ==> q == -((-a) / b)
  {
    if a >= 0 then a / b else -((-a) / b)
  }

  /** Remainder with the sign of the dividend (JavaScript `%`). */
  function JsRem(a: int, b: int): (r: int)
    requires b > 0
    ensures a == TruncDiv(a, b) * b + r
    ensures -b < r < b
  {
    a - TruncDiv(a, b) * b
  }
}

=== FILE: tool_history.dfy ===
/** Tool-call status names and the tool-card lookup in the server's history
    (mapToolStatus and findLastToolHistoryIndex of webnew/server.js). */
module ToolHistory {
  import opened Wrappers
  import opened Text

  /** The four statuses a tool card shows. */
  datatype ToolStatus = Pending | Running | Finished | Failed

  function StatusName(s: ToolStatus): string {
    match s
    case Pending => "pending"
    case Running => "running"
    case Finished => "finished"
    case Failed => "error"
  }

  /** The spellings read as finished, pending, running and error. */
  const FinishedWords: seq<string> := ["completed", "complete", "done", "finished", "success", "succeeded"]
  const PendingWords: seq<string> := ["pending"]
  const RunningWords: seq<string> := ["in_progress", "running", "started"]
  const FailedWords: seq<string> := ["error", "failed", "failure"]

  /** mapToolStatus: None stands for `undefined`. */
  function MapToolStatus(status: string): (r: Option<ToolStatus>)
    ensures status == "" ==> r == None
    ensures r == Some(Finished) <==> status != "" && Lower(status) in FinishedWords
    ensures r == Some(Pending) <==> status != "" && Lower(status) in PendingWords
    ensures r == Some(Running) <==> status != "" && Lower(status) in RunningWords
    ensures r == Some(Failed) <==> status != "" && Lower(status) in FailedWords
  {
    if status == "" then None
    else
      var s := Lower(status);
      if s == "completed" || s == "complete" || s == "done" || s == "finished" || s == "success" || s == "succeeded" then Some(Finished)
      else if s == "pending" then Some(Pending)
      else if s == "in_progress" || s == "running" || s == "started" then Some(Running)
      else if s == "error" || s == "failed" || s == "failure" then Some(Failed)
      else None
  }

  /** A status name reads back as that status. */
  lemma StatusNameRoundTrip(s: ToolStatus)
    ensures MapToolStatus(StatusName(s)) == Some(s)
  {
    StatusNameLower(s);
    var name := StatusName(s);
    match s
    case Pending => assert name == PendingWords[0];
    case Running => assert name == RunningWords[1];
    case Finished => assert name == FinishedWords[3];
    case Failed => assert name == FailedWords[0];
  }

  lemma StatusNameLower(s: ToolStatus)
    ensures Lower(StatusName(s)) == StatusName(s) != ""
  {
    LowerKeeps(StatusName(s));
  }

  /** Spelling is read case-insensitively. */
  lemma MapToolStatusIgnoresCase(status: string)
    ensures MapToolStatus(Lower(status)) == MapToolStatus(status)
  {
    LowerTwice(status);
    assert |Lower(status)| == |status|;
  }

  /** A history record; `role`/`type` and the two id fields may be absent. */
  datatype HistoryRecord = HistoryRecord(
    role: Option<string>, kind: Option<string>,
    id: Option<string>, toolCallId: Option<string>)

  /** The test on one record: a tool record carrying the id in either field. */
  predicate IsToolCard(rec: HistoryRecord, toolCallId: Option<string>) {
    (rec.role == Some("tool") || rec.kind == Some("tool"))
    && (rec.id == toolCallId || rec.toolCallId == toolCallId)
  }

  /** Holes in the history (`null` entries) are skipped. */
  predicate CardAt(history: seq<Option<HistoryRecord>>, i: int, toolCallId: Option<string>)
    requires 0 <= i < |history|
  {
    history[i].Some? && IsToolCard(history[i].value, toolCallId)
  }

  /** findLastToolHistoryIndex: the last index holding the card, or -1. */
  method FindLastToolHistoryIndex(history: seq<Option<HistoryRecord>>, toolCallId: Option<string>) returns (idx: int)
    ensures -1 <= idx < |history|
    ensures idx >= 0 ==> CardAt(history, idx, toolCallId)
    ensures forall j :: idx < j < |history| ==> !CardAt(history, j, toolCallId)
  {
    var i := |history| - 1;
    while i >= 0
      invariant -1 <= i < |history|
      invariant forall j :: i < j < |history| ==> !CardAt(history, j, toolCallId)
    {
      var rec := history[i];
      if rec.Some? && IsToolCard(rec.value, toolCallId) {
        return i;
      }
      i := i - 1;
    }
    return -1;
  }
}

=== FILE: upload.dfy ===
/** The upload handler of webnew/app/api/upload/route.ts: the refusal of an
    empty upload and sanitizeFileName, which turns each uploaded file's name
    into a safe, length-limited name that is unique within the request. */
module Upload {
  import opened Text

  /** The characters `[a-zA-Z0-9._-]` a stored name may contain. */
  predicate Allowed(c: char) {
    IsAsciiAlnum(c) || c == '.' || c == '_' || c == '-'
  }

  predicate IsSlash(c: char) { c == '/' }

  predicate IsUnderscore(c: char) { c == '_' }

  predicate AllAllowed(s: string) {
    forall i :: 0 <= i < |s| ==> Allowed(s[i])
  }

  /** The longest name the handler writes. */
  const MaxNameLength: nat := 255

  // ------------------------------------------------------------ the base name

  /** The characters after the last `/` (all of `s` when it has none). */
  function AfterLastSlash(s: string): (r: string)
    ensures |r| <= |s| && r == s[|s| - |r|..]
    ensures '/' !in r
    ensures '/' !in s ==> r == s
  {
    if s == [] || s[|s| - 1] == '/' then []
    else AfterLastSlash(s[..|s| - 1]) + [s[|s| - 1]]
  }

  lemma AfterLastSlashSnoc(s: string)
    requires s != [] && s[|s| - 1] != '/'
    ensures AfterLastSlash(s) == AfterLastSlash(s[..|s| - 1]) + [s[|s| - 1]]
  {
  }

  /** `path.basename(name)` on POSIX: trailing slashes are ignored and the
      last segment is kept. */
  function BaseName(name: string): (r: string)
    ensures '/' !in r
    ensures '/' !in name ==> r == name
  {
    AfterLastSlash(TrimEnd(name, IsSlash))
  }

  /** A directory part in front of the name is dropped. */
  lemma BaseNameDropsDirectory(dir: string, file: string)
    requires file != [] && '/' !in file
    ensures BaseName(dir + "/" + file) == file
  {
    var s := dir + "/" + file;
    assert s[|s| - 1] == file[|file| - 1];
    AfterLastSlashAppend(dir + "/", file);
  }

  lemma {:induction false} AfterLastSlashAppend(front: string, file: string)
    requires front != [] && front[|front| - 1] == '/' && '/' !in file
    ensures AfterLastSlash(front + file) == file
    decreases |file|
  {
    var s := front + file;
    if file != [] {
      var init, last := file[..|file| - 1], file[|file| - 1];
      assert s[|s| - 1] == last && last in file;
      assert '/' !in init by {
        assert forall c :: c in init ==> c in file;
      }
      assert s[..|s| - 1] == front + init;
      AfterLastSlashAppend(front, init);
      AfterLastSlashSnoc(s);
      assert file == init + [last];
    } else {
      assert s == front;
    }
  }

  // ------------------------------------------------------------ cleaning

  /** Drops the leading characters outside the allowed class. */
  function SkipDisallowed(s: string): (r: string)
    ensures |r| <= |s| && r == s[|s| - |r|..]
    ensures r == [] || Allowed(r[0])
  {
    if s == [] || Allowed(s[0]) then s else SkipDisallowed(s[1..])
  }

  /** `s.replace(/[^a-zA-Z0-9._-]+/g, '_')`: every maximal run of other
      characters becomes one `_`. */
  function ReplaceRuns(s: string): (r: string)
    ensures |r| <= |s|
    ensures AllAllowed(r)
    decreases |s|
  {
    if s == [] then []
    else if Allowed(s[0]) then [s[0]] + ReplaceRuns(s[1..])
    else "_" + ReplaceRuns(SkipDisallowed(s[1..]))
  }

  /** A name made of allowed characters only is not rewritten. */
  lemma {:induction false} ReplaceRunsKeeps(s: string)
    requires AllAllowed(s)
    ensures ReplaceRuns(s) == s
    decreases |s|
  {
    if s != [] {
      assert AllAllowed(s[1..]) by {
        assert forall i :: 0 <= i < |s[1..]| ==> s[1..][i] == s[i + 1];
      }
      ReplaceRunsKeeps(s[1..]);
      assert s == [s[0]] + s[1..];
    }
  }

  /** A run of other characters at the head becomes a single `_` followed
      by the rewritten rest. */
  lemma ReplaceRunsCollapses(s: string)
    requires s != [] && !Allowed(s[0])
    ensures ReplaceRuns(s)[0] == '_'
    ensures |ReplaceRuns(s)| == 1 + |ReplaceRuns(SkipDisallowed(s))|
  {
    assert SkipDisallowed(s) == SkipDisallowed(s[1..]);
  }

  /** `.replace(/^_+|_+$/g, '')`. */
  function StripUnderscores(s: string): string {
    Trim(s, IsUnderscore)
  }

  /** The cleaned base name: rewritten, then stripped of `_` at both
      ends. */
  function Cleaned(name: string): string {
    StripUnderscores(ReplaceRuns(BaseName(name)))
  }

  /** The cleaned name holds only allowed characters and neither begins nor
      ends with `_`. */
  lemma CleanedShape(name: string)
    ensures AllAllowed(Cleaned(name))
    ensures var c := Cleaned(name); c == [] || (c[0] != '_' && c[|c| - 1] != '_')
  {
    StripShape(ReplaceRuns(BaseName(name)));
  }

  lemma StripShape(s: string)
    requires AllAllowed(s)
    ensures AllAllowed(StripUnderscores(s))
    ensures var c := StripUnderscores(s); c == [] || (!IsUnderscore(c[0]) && !IsUnderscore(c[|c| - 1]))
  {
    var front := TrimStart(s, IsUnderscore);
    var c := TrimEnd(front, IsUnderscore);
    forall k | 0 <= k < |c| ensures Allowed(c[k]) {
      assert c[k] == front[k] == s[|s| - |front| + k];
    }
  }

  // ------------------------------------------------------------ candidates

  /** The fallback name for an upload whose own name cleans to nothing. */
  function Fallback(index: nat): string {
    "file_" + NatToString(index)
  }

  /** Fallback names hold only allowed characters. */
  lemma FallbackShape(index: nat)
    ensures AllAllowed(Fallback(index)) && Fallback(index)[0] == 'f'
  {
    var p := "file_";
    assert AllAllowed(p) by {
      assert p[0] == 'f' && p[1] == 'i' && p[2] == 'l' && p[3] == 'e' && p[4] == '_';
    }
    var d := NatToString(index);
    AllowedConcat(p, d);
  }

  lemma AllowedConcat(a: string, b: string)
    requires AllAllowed(a) && (AllAllowed(b) || AllDigits(b))
    ensures AllAllowed(a + b)
  {
    assert forall i :: |a| <= i < |a + b| ==> (a + b)[i] == b[i - |a|];
  }

  /** The cleaned name, or `file_<index>` when it is empty, `.` or `..`. */
  function Usable(name: string, index: nat): (c: string)
    ensures c != [] && AllAllowed(c) && c != "." && c != ".."
  {
    CleanedShape(name);
    FallbackShape(index);
    var cleaned := Cleaned(name);
    if cleaned != "" && cleaned != "." && cleaned != ".." then cleaned else Fallback(index)
  }

  /** The usable name cut to 255 characters. */
  function Candidate(name: string, index: nat): (r: string)
    ensures 1 <= |r| <= MaxNameLength
  {
    var c := Usable(name, index);
    if |c| > MaxNameLength then c[..MaxNameLength] else c
  }

  /** The candidate is the usable name when that is short, and its first
      255 characters otherwise. */
  lemma CandidatePrefix(name: string, index: nat)
    ensures var c := Usable(name, index);
      var r := Candidate(name, index);
      && |r| == (if |c| > MaxNameLength then MaxNameLength else |c|)
      && (forall i :: 0 <= i < |r| ==> r[i] == c[i])
  {
  }

  /** A candidate is a safe file name: non-empty, at most 255 allowed
      characters, never `.` or `..`; it is the cleaned name when that is
      usable and short, and `file_<index>` when the cleaned name is empty,
      `.` or `..`. */
  lemma CandidateShape(name: string, index: nat)
    ensures AllAllowed(Candidate(name, index))
    ensures Candidate(name, index) != "." && Candidate(name, index) != ".."
    ensures var cleaned := Cleaned(name);
      cleaned != "" && cleaned != "." && cleaned != ".." && |cleaned| <= MaxNameLength ==>
        Candidate(name, index) == cleaned
    ensures var cleaned := Cleaned(name);
      cleaned == "" || cleaned == "." || cleaned == ".." ==> Candidate(name, index) <= Fallback(index)
  {
    CandidatePrefix(name, index);
    var c := Usable(name, index);
    var r := Candidate(name, index);
    if |r| < |c| {
      assert r == c[..|r|];
    }
  }

  // ------------------------------------------------------------ suffixes

  /** `_<counter>`. */
  function Suffix(counter: nat): string {
    "_" + NatToString(counter)
  }

  /** The name tried for a taken candidate at a given counter: the candidate
      cut to `max(1, 255 - suffix length)` characters, then the suffix. */
  function Suffixed(candidate: string, counter: nat): string {
    var keep := if MaxNameLength - |Suffix(counter)| >= 1 then MaxNameLength - |Suffix(counter)| else 1;
    var cut := if |candidate| <= keep then candidate else candidate[..keep];
    cut + Suffix(counter)
  }

  /** A suffixed name keeps a prefix of the candidate and its characters are
      allowed when the candidate's are; it fits in 255 characters whenever
      the counter has at most 253 digits. */
  lemma SuffixedShape(candidate: string, counter: nat)
    requires candidate != [] && AllAllowed(candidate)
    ensures var s := Suffixed(candidate, counter);
      AllAllowed(s) && s != [] && s[0] == candidate[0] && IsAsciiDigit(s[|s| - 1])
    ensures |NatToString(counter)| <= 253 ==> |Suffixed(candidate, counter)| <= MaxNameLength
  {
    var s := Suffixed(candidate, counter);
    var d := NatToString(counter);
    var keep := if MaxNameLength - |Suffix(counter)| >= 1 then MaxNameLength - |Suffix(counter)| else 1;
    var cut := if |candidate| <= keep then candidate else candidate[..keep];
    assert s == cut + "_" + d;
    assert forall i :: 0 <= i < |cut| ==> s[i] == cut[i] && cut[i] == candidate[i];
    assert forall i :: |cut| + 1 <= i < |s| ==> s[i] == d[i - |cut| - 1];
    assert s[|s| - 1] == d[|d| - 1];
  }

  /** Different counters give different names: the digits after the last
      `_` are the counter. */
  lemma SuffixedInjective(candidate: string, j: nat, k: nat)
    requires Suffixed(candidate, j) == Suffixed(candidate, k)
    ensures j == k
  {
    var u := Suffixed(candidate, j);
    var dj, dk := NatToString(j), NatToString(k);
    var keepJ := if MaxNameLength - |Suffix(j)| >= 1 then MaxNameLength - |Suffix(j)| else 1;
    var cutJ := if |candidate| <= keepJ then candidate else candidate[..keepJ];
    var keepK := if MaxNameLength - |Suffix(k)| >= 1 then MaxNameLength - |Suffix(k)| else 1;
    var cutK := if |candidate| <= keepK then candidate else candidate[..keepK];
    assert u == cutJ + "_" + dj;
    assert u == cutK + "_" + dk;
    DigitTails(cutJ, dj, cutK, dk);
    assert dj == u[|u| - |dj|..] == dk;
    NatToStringRoundTrip(j);
    NatToStringRoundTrip(k);
  }

  /** Two texts that each end in `_` and a run of digits split at the same
      place. */
  lemma DigitTails(a: string, da: string, b: string, db: string)
    requires a + "_" + da == b + "_" + db
    requires AllDigits(da) && AllDigits(db)
    ensures |da| == |db|
  {
    var u := a + "_" + da;
    assert u[|a|] == '_' && u[|b|] == '_';
  }

  /** Longer numbers have at least as many digits. */
  lemma {:induction false} DigitsMonotone(a: nat, b: nat)
    requires a <= b
    ensures |NatToString(a)| <= |NatToString(b)|
    decreases b
  {
    if a >= 10 {
      DigitsMonotone(a / 10, b / 10);
    }
  }

  /** A sequence of pairwise different elements, all drawn from a set, is no
      longer than the set. */
  lemma {:induction false} DistinctWithin<T>(xs: seq<T>, s: set<T>)
    requires Distinct(xs)
    requires forall i :: 0 <= i < |xs| ==> xs[i] in s
    ensures |xs| <= |s|
  {
    if xs != [] {
      var last := xs[|xs| - 1];
      DistinctWithin(xs[..|xs| - 1], s - {last});
    }
  }

  /** One well-formed stored name. */
  predicate SafeName(n: string) {
    n != [] && AllAllowed(n) && n != "." && n != ".."
  }

  // ------------------------------------------------------------ the request

  /** One upload request and the set `usedNames` its sanitizeFileName
      closure fills. */
  class UploadRequest {
    var usedNames: set<string>

    constructor()
      ensures usedNames == {}
    {
      usedNames := {};
    }

    /** sanitizeFileName: the candidate when it is free, otherwise the
        first free suffixed name; the name is then claimed. */
    method SanitizeFileName(name: string, index: nat) returns (unique: string)
      modifies this
      ensures usedNames == old(usedNames) + {unique}
      ensures unique !in old(usedNames)
      ensures SafeName(unique)
      ensures Candidate(name, index) !in old(usedNames) ==> unique == Candidate(name, index)
      ensures IsFirstFree(old(usedNames), Candidate(name, index), unique)
      ensures |NatToString(|old(usedNames)| + 1)| <= 253 ==> |unique| <= MaxNameLength
    {
      var candidate := Candidate(name, index);
      CandidateShape(name, index);
      unique := FirstFree(usedNames, candidate);
      usedNames := usedNames + {unique};
    }
  }

  /** `unique` is what the uniqueness loop settles on for `candidate`: the
      candidate itself when it is free, otherwise the suffixed name with the
      smallest counter that is free. */
  ghost predicate IsFirstFree(used: set<string>, candidate: string, unique: string) {
    unique !in used &&
    (candidate !in used ==> unique == candidate) &&
    (candidate in used ==>
      exists k: nat :: 1 <= k && unique == Suffixed(candidate, k)
        && forall j: nat :: 1 <= j < k ==> Suffixed(candidate, j) in used)
  }

  /** The uniqueness loop of sanitizeFileName: counters 1, 2, ... are tried
      until a suffixed name is free. */
  method FirstFree(used: set<string>, candidate: string) returns (unique: string)
    requires SafeName(candidate) && |candidate| <= MaxNameLength
    ensures IsFirstFree(used, candidate, unique)
    ensures SafeName(unique)
    ensures |NatToString(|used| + 1)| <= 253 ==> |unique| <= MaxNameLength
  {
    unique := candidate;
    var counter: nat := 1;
    ghost var tried: seq<string> := [];
    while unique in used
      invariant |tried| == counter - 1
      invariant forall i :: 0 <= i < |tried| ==> tried[i] == Suffixed(candidate, i + 1)
      invariant forall i :: 0 <= i < |tried| - 1 ==> tried[i] in used
      invariant counter == 1 ==> unique == candidate
      invariant counter > 1 ==> unique == tried[|tried| - 1] && candidate in used
      decreases |used| + 2 - counter
    {
      TriedBound(candidate, tried, used);
      unique := Suffixed(candidate, counter);
      tried := tried + [unique];
      counter := counter + 1;
    }
    FirstFreeFound(used, candidate, tried, unique);
  }

  /** What the uniqueness loop has established when it stops: the tried
      names are the suffixed names for counters 1, 2, ..., all taken but the
      last, which is the free name returned. */
  lemma FirstFreeFound(used: set<string>, candidate: string, tried: seq<string>, unique: string)
    requires SafeName(candidate) && |candidate| <= MaxNameLength
    requires forall i :: 0 <= i < |tried| ==> tried[i] == Suffixed(candidate, i + 1)
    requires forall i :: 0 <= i < |tried| - 1 ==> tried[i] in used
    requires tried == [] ==> unique == candidate
    requires tried != [] ==> unique == tried[|tried| - 1] && candidate in used
    requires unique !in used
    ensures IsFirstFree(used, candidate, unique)
    ensures SafeName(unique)
    ensures |NatToString(|used| + 1)| <= 253 ==> |unique| <= MaxNameLength
  {
    if tried != [] {
      var k := |tried|;
      assert forall j: nat :: 1 <= j < k ==> Suffixed(candidate, j) in used by {
        forall j: nat | 1 <= j < k ensures Suffixed(candidate, j) in used {
          assert tried[j - 1] in used;
        }
      }
      TriedBound(candidate, tried[..k - 1], used);
      SuffixedShape(candidate, k);
      if |NatToString(|used| + 1)| <= 253 {
        DigitsMonotone(k, |used| + 1);
      }
      assert unique != "." && unique != ".." by {
        assert IsAsciiDigit(unique[|unique| - 1]);
      }
    }
  }

  /** The suffixed names already tried are different from each other, so
      there are no more of them than taken names. */
  lemma TriedBound(candidate: string, tried: seq<string>, used: set<string>)
    requires forall i :: 0 <= i < |tried| ==> tried[i] == Suffixed(candidate, i + 1) && tried[i] in used
    ensures |tried| <= |used|
  {
    forall i, j | 0 <= i < j < |tried| ensures tried[i] != tried[j] {
      if tried[i] == tried[j] {
        SuffixedInjective(candidate, i + 1, j + 1);
      }
    }
    DistinctWithin(tried, used);
  }

  // ------------------------------------------------------------ the handler

  /** What POST answers: 400 with an error message, or the stored names. */
  datatype Response = BadRequest(error: string) | Uploaded(names: seq<string>)

  /** Each stored name is its file's candidate exactly when no earlier file
      has already taken that candidate. */
  predicate FirstClaimantKeeps(stored: seq<string>, candidates: seq<string>)
    requires |stored| <= |candidates|
  {
    forall i :: 0 <= i < |stored| ==> (stored[i] == candidates[i] <==> candidates[i] !in stored[..i])
  }

  lemma ClaimNext(stored: seq<string>, candidates: seq<string>, next: string)
    requires |stored| < |candidates|
    requires Distinct(stored) && FirstClaimantKeeps(stored, candidates)
    requires next !in stored
    requires next == candidates[|stored|] <==> candidates[|stored|] !in stored
    ensures Distinct(stored + [next]) && FirstClaimantKeeps(stored + [next], candidates)
  {
    var extended := stored + [next];
    assert extended[..|stored|] == stored;
    assert forall i :: 0 <= i < |stored| ==> extended[..i] == stored[..i];
  }

  /** The candidate of every uploaded file, by position. */
  function Candidates(names: seq<string>): (r: seq<string>)
    ensures |r| == |names|
    ensures forall i :: 0 <= i < |names| ==> r[i] == Candidate(names[i], i)
  {
    seq(|names|, i requires 0 <= i < |names| => Candidate(names[i], i))
  }

  /** The loop of POST over the uploaded files, each named through one
      request's sanitizeFileName: the names are safe and pairwise
      different, each file keeps its candidate exactly when no earlier file
      took it, and they fit in 255 characters whenever the file count has at
      most 253 digits. */
  method SanitizeAll(names: seq<string>) returns (stored: seq<string>)
    ensures |stored| == |names|
    ensures forall i :: 0 <= i < |names| ==> SafeName(stored[i])
    ensures Distinct(stored)
    ensures FirstClaimantKeeps(stored, Candidates(names))
    ensures |NatToString(|names|)| <= 253 ==> forall i :: 0 <= i < |names| ==> |stored[i]| <= MaxNameLength
  {
    var request := new UploadRequest();
    stored := [];
    for index := 0 to |names|
      invariant |stored| == index
      invariant forall n :: n in request.usedNames <==> n in stored
      invariant |request.usedNames| == index
      invariant NamedPrefix(stored, names)
    {
      var safeName := NameNext(request, names, index, stored);
      NamedPrefixStep(stored, names, safeName);
      stored := stored + [safeName];
    }
  }

  /** The names given to the first `|stored|` files satisfy what POST
      promises of all of them. */
  predicate NamedPrefix(stored: seq<string>, names: seq<string>)
    requires |stored| <= |names|
  {
    && (forall i :: 0 <= i < |stored| ==> SafeName(stored[i]))
    && Distinct(stored) && FirstClaimantKeeps(stored, Candidates(names))
    && (|NatToString(|names|)| <= 253 ==> forall i :: 0 <= i < |stored| ==> |stored[i]| <= MaxNameLength)
  }

  lemma NamedPrefixStep(stored: seq<string>, names: seq<string>, next: string)
    requires |stored| < |names| && NamedPrefix(stored, names)
    requires next !in stored && SafeName(next)
    requires next == Candidates(names)[|stored|] <==> Candidates(names)[|stored|] !in stored
    requires |NatToString(|names|)| <= 253 ==> |next| <= MaxNameLength
    ensures NamedPrefix(stored + [next], names)
  {
    ClaimNext(stored, Candidates(names), next);
  }

  /** One round of the loop of POST: the file at `index` is named while the
      earlier ones hold `stored`. */
  method NameNext(request: UploadRequest, names: seq<string>, index: nat, stored: seq<string>)
    returns (safeName: string)
    requires index < |names| && |stored| == index
    requires forall n :: n in request.usedNames <==> n in stored
    requires |request.usedNames| == index
    modifies request
    ensures forall n :: n in request.usedNames <==> n in stored + [safeName]
    ensures |request.usedNames| == index + 1
    ensures safeName !in stored && SafeName(safeName)
    ensures safeName == Candidates(names)[index] <==> Candidates(names)[index] !in stored
    ensures |NatToString(|names|)| <= 253 ==> |safeName| <= MaxNameLength
  {
    ghost var candidate := Candidates(names)[index];
    assert candidate == Candidate(names[index], index);
    assert candidate in stored <==> candidate in request.usedNames;
    safeName := request.SanitizeFileName(names[index], index);
    if |NatToString(|names|)| <= 253 {
      DigitsMonotone(index + 1, |names|);
    }
  }

  /** POST with the uploaded files' names: an empty upload is refused before
      the directory is created; otherwise every file is stored under its
      sanitised name, in order. Writing the files is left out; `dirCreated`
      says whether the upload directory is made. */
  method Post(names: seq<string>) returns (response: Response, dirCreated: bool)
    ensures names == [] <==> response.BadRequest?
    ensures names == [] ==> response.error == "No files were uploaded." && !dirCreated
    ensures names != [] ==> dirCreated && |response.names| == |names|
    ensures response.Uploaded? ==> Distinct(response.names)
    ensures response.Uploaded? ==> forall i :: 0 <= i < |names| ==> SafeName(response.names[i])
  {
    if |names| == 0 {
      return BadRequest("No files were uploaded."), false;
    }
    dirCreated := true;
    var stored := SanitizeAll(names);
    response := Uploaded(stored);
  }
}

=== FILE: use_chat.dfy ===
/** The message bookkeeping of webnew/hooks/useChat.ts: normalizeToolStatus,
    the tool-status pass of finalizeTurn, and the handling of a history
    page (de-duplicating the batch, merging it into the list, deciding
    whether older history is exhausted). */
module UseChat {
  import opened Wrappers
  import opened Text

  datatype Role = User | Assistant | ToolRole | System
  datatype Kind = TextKind | ToolKind
  datatype Status = Pending | Running | Finished | Error | InProgress

  /** A chat message; `content` stands for the fields the model does not
      look at. */
  datatype Message = Message(id: string, role: Role, kind: Option<Kind>, status: Option<Status>, content: string)

  // ------------------------------------------------------------ normalizeToolStatus

  predicate IsFinishedWord(w: string) {
    w == "completed" || w == "complete" || w == "done" || w == "finished" || w == "success" || w == "succeeded"
  }

  predicate IsRunningWord(w: string) { w == "in_progress" || w == "running" || w == "started" }

  predicate IsErrorWord(w: string) { w == "error" || w == "failed" || w == "failure" }

  /** normalizeToolStatus: a tool's status word, read case-insensitively,
      as one of the four states; an empty, missing or unknown word gives
      None. */
  function NormalizeToolStatus(status: Option<string>): (r: Option<Status>)
    ensures r != Some(InProgress)
    ensures status.None? || status == Some("") ==> r == None
  {
    match status
    case None => None
    case Some(s) =>
      if s == "" then None
      else
        var w := Lower(s);
        if IsFinishedWord(w) then Some(Finished)
        else if w == "pending" then Some(Pending)
        else if IsRunningWord(w) then Some(Running)
        else if IsErrorWord(w) then Some(Error)
        else None
  }

  /** The word each state is named by. */
  function StatusName(st: Status): string {
    match st
    case Pending => "pending"
    case Running => "running"
    case Finished => "finished"
    case Error => "error"
    case InProgress => "in_progress"
  }

  /** Letter case does not matter. */
  lemma NormalizeCaseInsensitive(s: string)
    ensures NormalizeToolStatus(Some(s)) == NormalizeToolStatus(Some(Lower(s)))
  {
    LowerTwice(s);
    assert s == "" <==> Lower(s) == "";
  }

  /** Every state's own name reads back as that state; `in_progress` reads
      as running. */
  lemma NormalizeStatusName(st: Status)
    ensures NormalizeToolStatus(Some(StatusName(st))) == Some(if st == InProgress then Running else st)
  {
    var w := StatusName(st);
    LowerKeeps(w);
    match st
    case Pending =>
    case Running =>
      assert IsRunningWord(w) && !IsFinishedWord(w);
    case Finished =>
      assert IsFinishedWord(w);
    case Error =>
      assert IsErrorWord(w) && !IsFinishedWord(w) && !IsRunningWord(w);
    case InProgress =>
      assert IsRunningWord(w) && !IsFinishedWord(w);
  }

  /** Which words give which state. */
  lemma NormalizeWords(s: string)
    requires s != ""
    ensures NormalizeToolStatus(Some(s)) == Some(Finished) <==> IsFinishedWord(Lower(s))
    ensures NormalizeToolStatus(Some(s)) == Some(Pending) <==> Lower(s) == "pending"
    ensures NormalizeToolStatus(Some(s)) == Some(Running) <==> IsRunningWord(Lower(s))
    ensures NormalizeToolStatus(Some(s)) == Some(Error) <==> IsErrorWord(Lower(s))
  {
  }

  // ------------------------------------------------------------ finalizeTurn

  predicate IsToolMessage(m: Message) { m.role == ToolRole || m.kind == Some(ToolKind) }

  /** A tool message still shown as in progress. */
  predicate IsOpenTool(m: Message) {
    IsToolMessage(m) && (m.status == Some(Running) || m.status == Some(InProgress) || m.status.None?)
  }

  /** finalizeTurn's pass over the list: open tool messages are marked
      finished. */
  function FinalizeStatuses(ms: seq<Message>): (r: seq<Message>)
    ensures |r| == |ms|
    ensures forall i :: 0 <= i < |ms| ==> r[i] == if IsOpenTool(ms[i]) then ms[i].(status := Some(Finished)) else ms[i]
  {
    if ms == [] then []
    else [if IsOpenTool(ms[0]) then ms[0].(status := Some(Finished)) else ms[0]] + FinalizeStatuses(ms[1..])
  }

  /** After the pass no tool message is open, ids and order are kept, and a
      second pass changes nothing. */
  lemma FinalizeCloses(ms: seq<Message>)
    ensures forall i :: 0 <= i < |ms| ==> !IsOpenTool(FinalizeStatuses(ms)[i])
    ensures forall i :: 0 <= i < |ms| ==> FinalizeStatuses(ms)[i].id == ms[i].id
    ensures FinalizeStatuses(FinalizeStatuses(ms)) == FinalizeStatuses(ms)
  {
  }

  // ------------------------------------------------------------ the history batch

  function Ids(ms: seq<Message>): (r: seq<string>)
    ensures |r| == |ms| && forall i :: 0 <= i < |ms| ==> r[i] == ms[i].id
  {
    if ms == [] then [] else [ms[0].id] + Ids(ms[1..])
  }

  /** Each id's last message. */
  function LastById(raw: seq<Message>): (r: map<string, Message>)
    ensures forall k :: k in r <==> k in Ids(raw)
    ensures forall k :: k in r ==> r[k].id == k
  {
    if raw == [] then map[]
    else
      IdsSnoc(raw);
      LastById(raw[..|raw| - 1])[raw[|raw| - 1].id := raw[|raw| - 1]]
  }

  lemma IdsSnoc(raw: seq<Message>)
    requires raw != []
    ensures Ids(raw) == Ids(raw[..|raw| - 1]) + [raw[|raw| - 1].id]
  {
    var a, b := Ids(raw), Ids(raw[..|raw| - 1]) + [raw[|raw| - 1].id];
    assert forall i :: 0 <= i < |a| ==> a[i] == b[i];
  }

  function Lookup(order: seq<string>, byId: map<string, Message>): (r: seq<Message>)
    requires forall i :: 0 <= i < |order| ==> order[i] in byId
    ensures |r| == |order| && forall i :: 0 <= i < |order| ==> r[i] == byId[order[i]]
  {
    if order == [] then [] else [byId[order[0]]] + Lookup(order[1..], byId)
  }

  /** The batch as it is merged: one message per id, in order of first
      appearance, each the last one with that id. */
  function UniqueBatch(raw: seq<Message>): (r: seq<Message>)
  {
    var order := FirstOrder(Ids(raw));
    FirstOrderSpec(Ids(raw));
    Lookup(order, LastById(raw))
  }

  /** The loop over the raw batch that records the first-appearance order
      and the last message of each id. */
  method DedupeBatch(raw: seq<Message>) returns (unique: seq<Message>)
    ensures unique == UniqueBatch(raw)
  {
    var idOrder: seq<string> := [];
    var lastById: map<string, Message> := map[];
    for k := 0 to |raw|
      invariant idOrder == FirstOrder(Ids(raw[..k]))
      invariant lastById == LastById(raw[..k])
    {
      var r := raw[k];
      DedupeStep(raw, k);
      if r.id !in lastById {
        idOrder := idOrder + [r.id];
      }
      lastById := lastById[r.id := r];
    }
    assert raw[..|raw|] == raw;
    FirstOrderSpec(Ids(raw));
    unique := Lookup(idOrder, lastById);
  }

  /** One step of the batch loop. */
  lemma DedupeStep(raw: seq<Message>, k: nat)
    requires k < |raw|
    ensures FirstOrder(Ids(raw[..k + 1]))
      == FirstOrder(Ids(raw[..k])) + (if raw[k].id in LastById(raw[..k]) then [] else [raw[k].id])
    ensures LastById(raw[..k + 1]) == LastById(raw[..k])[raw[k].id := raw[k]]
  {
    var ids := Ids(raw[..k + 1]);
    assert raw[..k + 1][..k] == raw[..k];
    assert ids[..k] == Ids(raw[..k]);
    assert ids[k] == raw[k].id;
  }

  /** The de-duplicated batch has each id of the raw batch exactly once, and
      carries that id's last message. */
  lemma UniqueBatchSpec(raw: seq<Message>)
    ensures Distinct(Ids(UniqueBatch(raw)))
    ensures forall x :: x in Ids(UniqueBatch(raw)) <==> x in Ids(raw)
    ensures forall i :: 0 <= i < |raw| && IsLastOfId(raw, i) ==> raw[i] in UniqueBatch(raw)
  {
    UniqueBatchIds(raw);
    FirstOrderSpec(Ids(raw));
    forall i | 0 <= i < |raw| && IsLastOfId(raw, i)
      ensures raw[i] in UniqueBatch(raw)
    {
      LastInUnique(raw, i);
    }
  }

  lemma UniqueBatchIds(raw: seq<Message>)
    ensures Ids(UniqueBatch(raw)) == FirstOrder(Ids(raw))
  {
    FirstOrderSpec(Ids(raw));
    LookupIds(FirstOrder(Ids(raw)), LastById(raw));
  }

  lemma LastInUnique(raw: seq<Message>, i: nat)
    requires i < |raw| && IsLastOfId(raw, i)
    ensures raw[i] in UniqueBatch(raw)
  {
    FirstOrderSpec(Ids(raw));
    var order := FirstOrder(Ids(raw));
    var u := Lookup(order, LastById(raw));
    assert u == UniqueBatch(raw);
    LastByIdIsLast(raw, i);
    assert raw[i].id in order by {
      assert Ids(raw)[i] == raw[i].id;
    }
    var k :| 0 <= k < |order| && order[k] == raw[i].id;
    assert u[k] == raw[i];
  }

  /** Looking up messages stored under their own ids gives back the ids. */
  lemma LookupIds(order: seq<string>, byId: map<string, Message>)
    requires forall i :: 0 <= i < |order| ==> order[i] in byId
    requires forall k :: k in byId ==> byId[k].id == k
    ensures Ids(Lookup(order, byId)) == order
  {
    var u := Lookup(order, byId);
    assert forall i :: 0 <= i < |order| ==> Ids(u)[i] == order[i];
  }

  /** No later message has the id of the `i`th. */
  predicate IsLastOfId(raw: seq<Message>, i: nat)
    requires i < |raw|
  {
    forall j :: i < j < |raw| ==> raw[j].id != raw[i].id
  }

  /** The map keeps a message that no later message with its id replaces. */
  lemma {:induction false} LastByIdIsLast(raw: seq<Message>, i: nat)
    requires i < |raw| && IsLastOfId(raw, i)
    ensures LastById(raw)[raw[i].id] == raw[i]
  {
    if i < |raw| - 1 {
      var init := raw[..|raw| - 1];
      LastByIdIsLast(init, i);
    }
  }

  // ------------------------------------------------------------ merging a page

  /** `list.findIndex(x => x.id === id)`. */
  function FindIndex(list: seq<Message>, id: string): (r: int)
    ensures -1 <= r < |list|
    ensures r == -1 <==> id !in Ids(list)
    ensures r != -1 ==> list[r].id == id && forall j :: 0 <= j < r ==> list[j].id != id
  {
    if list == [] then -1
    else if list[0].id == id then 0
    else
      var k := FindIndex(list[1..], id);
      assert Ids(list) == [list[0].id] + Ids(list[1..]);
      if k == -1 then -1 else k + 1
  }

  /** One batch message merged into the list: it replaces the first
      message with its id, if any. */
  function Apply(list: seq<Message>, m: Message): (r: seq<Message>)
    ensures Ids(r) == Ids(list)
  {
    var idx := FindIndex(list, m.id);
    if idx == -1 then list
    else
      var r := list[idx := m];
      assert forall j :: 0 <= j < |r| ==> Ids(r)[j] == Ids(list)[j];
      r
  }

  /** The list after the first messages of the batch are merged in. */
  function Updated(prev: seq<Message>, batch: seq<Message>): (r: seq<Message>)
    ensures Ids(r) == Ids(prev)
  {
    if batch == [] then prev else Apply(Updated(prev, batch[..|batch| - 1]), batch[|batch| - 1])
  }

  /** The batch messages whose id is not in the list, in batch order. */
  function NewOnes(prev: seq<Message>, batch: seq<Message>): (r: seq<Message>)
    ensures forall m :: m in r <==> m in batch && m.id !in Ids(prev)
  {
    if batch == [] then []
    else
      var last := batch[|batch| - 1];
      NewOnes(prev, batch[..|batch| - 1]) + (if last.id in Ids(prev) then [] else [last])
  }

  /** The merge loop: a message whose id is shown replaces it in place,
      the others are collected and put before the list for an older or
      initial page and after it for a newer one. */
  method MergeBatch(prev: seq<Message>, batch: seq<Message>, olderOrInitial: bool) returns (next: seq<Message>)
    ensures var updated := Updated(prev, batch);
      next == if olderOrInitial then NewOnes(prev, batch) + updated else updated + NewOnes(prev, batch)
  {
    var list := prev;
    var toInsert: seq<Message> := [];
    for k := 0 to |batch|
      invariant list == Updated(prev, batch[..k])
      invariant toInsert == NewOnes(prev, batch[..k])
    {
      var m := batch[k];
      assert batch[..k + 1][..k] == batch[..k];
      var idx := FindIndex(list, m.id);
      if idx != -1 {
        list := list[idx := m];
      } else {
        toInsert := toInsert + [m];
      }
    }
    assert batch[..|batch|] == batch;
    next := if olderOrInitial then toInsert + list else list + toInsert;
  }

  /** The merged list holds exactly the ids of the list and the batch, and
      holds no id twice when neither did. */
  lemma MergeIds(prev: seq<Message>, batch: seq<Message>, olderOrInitial: bool)
    requires Distinct(Ids(prev)) && Distinct(Ids(batch))
    ensures var updated := Updated(prev, batch);
      var next := if olderOrInitial then NewOnes(prev, batch) + updated else updated + NewOnes(prev, batch);
      && Distinct(Ids(next))
      && forall x :: x in Ids(next) <==> x in Ids(prev) || x in Ids(batch)
  {
    var updated := Updated(prev, batch);
    var added := NewOnes(prev, batch);
    NewOnesDistinct(prev, batch);
    AddedIdsFresh(prev, batch);
    IdsConcat(added, updated);
    IdsConcat(updated, added);
    DistinctConcat(Ids(added), Ids(updated));
    DistinctConcat(Ids(updated), Ids(added));
    BatchIdsCovered(prev, batch);
    AddedIdsFromBatch(prev, batch);
  }

  /** No new message carries an id the list already shows. */
  lemma AddedIdsFresh(prev: seq<Message>, batch: seq<Message>)
    ensures forall x :: x in Ids(NewOnes(prev, batch)) ==> x !in Ids(Updated(prev, batch))
  {
    var added := NewOnes(prev, batch);
    forall x | x in Ids(added)
      ensures x !in Ids(prev)
    {
      var k :| 0 <= k < |added| && Ids(added)[k] == x;
      assert added[k] in added;
    }
  }

  /** Every id of the batch is either already shown or among the new ones. */
  lemma BatchIdsCovered(prev: seq<Message>, batch: seq<Message>)
    ensures forall x :: x in Ids(batch) ==> x in Ids(prev) || x in Ids(NewOnes(prev, batch))
  {
    var added := NewOnes(prev, batch);
    forall x | x in Ids(batch) && x !in Ids(prev)
      ensures x in Ids(added)
    {
      var k :| 0 <= k < |batch| && Ids(batch)[k] == x;
      assert batch[k] in added;
      var j :| 0 <= j < |added| && added[j] == batch[k];
      assert Ids(added)[j] == x;
    }
  }

  /** The new ones come from the batch. */
  lemma AddedIdsFromBatch(prev: seq<Message>, batch: seq<Message>)
    ensures forall x :: x in Ids(NewOnes(prev, batch)) ==> x in Ids(batch)
  {
    var added := NewOnes(prev, batch);
    forall x | x in Ids(added)
      ensures x in Ids(batch)
    {
      var k :| 0 <= k < |added| && Ids(added)[k] == x;
      assert added[k] in batch;
      var j :| 0 <= j < |batch| && batch[j] == added[k];
      assert Ids(batch)[j] == x;
    }
  }

  lemma IdsConcat(a: seq<Message>, b: seq<Message>)
    ensures Ids(a + b) == Ids(a) + Ids(b)
  {
  }

  lemma DistinctConcat(a: seq<string>, b: seq<string>)
    requires Distinct(a) && Distinct(b)
    requires forall x :: x in a ==> x !in b
    ensures Distinct(a + b)
  {
    var ab := a + b;
    forall i, j | 0 <= i < j < |ab|
      ensures ab[i] != ab[j]
    {
      if i < |a| && j >= |a| {
        assert ab[i] in a && ab[j] == b[j - |a|];
      } else if i >= |a| {
        assert ab[i] == b[i - |a|] && ab[j] == b[j - |a|];
      }
    }
  }

  /** The new messages of a batch without repeated ids have distinct ids. */
  lemma {:induction false} NewOnesDistinct(prev: seq<Message>, batch: seq<Message>)
    requires Distinct(Ids(batch))
    ensures Distinct(Ids(NewOnes(prev, batch)))
  {
    if batch != [] {
      var init := batch[..|batch| - 1];
      var last := batch[|batch| - 1];
      assert Distinct(Ids(init)) by {
        assert forall i :: 0 <= i < |init| ==> Ids(init)[i] == Ids(batch)[i];
      }
      NewOnesDistinct(prev, init);
      assert last.id !in Ids(NewOnes(prev, init)) by {
        forall i | 0 <= i < |NewOnes(prev, init)|
          ensures Ids(NewOnes(prev, init))[i] != last.id
        {
          var m := NewOnes(prev, init)[i];
          assert m in init;
          var k :| 0 <= k < |init| && init[k] == m;
          assert Ids(batch)[k] != Ids(batch)[|batch| - 1];
        }
      }
      var a := NewOnes(prev, init);
      if last.id !in Ids(prev) {
        assert NewOnes(prev, batch) == a + [last];
        IdsConcat(a, [last]);
        assert Ids([last]) == [last.id];
        DistinctConcat(Ids(a), [last.id]);
      } else {
        assert NewOnes(prev, batch) == a + [];
        assert a + [] == a;
      }
    }
  }

  /** Every message of a batch without repeated ids ends up in the list
      as it was sent. */
  lemma {:induction false} MergeCarriesBatch(prev: seq<Message>, batch: seq<Message>, m: Message)
    requires Distinct(Ids(batch)) && m in batch
    ensures m in Updated(prev, batch) || m in NewOnes(prev, batch)
  {
    var init := batch[..|batch| - 1];
    var last := batch[|batch| - 1];
    if m == last {
      if m.id in Ids(prev) {
        assert Ids(Updated(prev, init)) == Ids(prev);
      }
    } else {
      assert Distinct(Ids(init)) by {
        assert forall i :: 0 <= i < |init| ==> Ids(init)[i] == Ids(batch)[i];
      }
      assert m in init;
      MergeCarriesBatch(prev, init, m);
      if m in Updated(prev, init) {
        var k :| 0 <= k < |init| && init[k] == m;
        assert m.id != last.id by {
          assert Ids(batch)[k] != Ids(batch)[|batch| - 1];
        }
        ApplyKeepsOthers(Updated(prev, init), last, m);
      }
    }
  }

  /** Merging one message keeps every message with another id. */
  lemma ApplyKeepsOthers(list: seq<Message>, last: Message, m: Message)
    requires m in list && m.id != last.id
    ensures m in Apply(list, last)
  {
    var k :| 0 <= k < |list| && list[k] == m;
    assert Apply(list, last)[k] == m;
  }

  // ------------------------------------------------------------ end of history

  /** Which way a history request pages. */
  datatype PageMode = Initial | Older | Newer

  /** Whether the history is exhausted after a page: an older or initial
      page shorter than its limit (given, else 30 for the initial page and
      20 otherwise) marks it so; nothing ever clears it. */
  function HistoryFinished(mode: Option<PageMode>, limit: Option<int>, rawLength: nat, finished: bool): (r: bool)
    ensures finished ==> r
  {
    var reqLimit := limit.GetOr(if mode == Some(Initial) then 30 else 20);
    if (mode == Some(Older) || mode == Some(Initial)) && rawLength < reqLimit then true else finished
  }

  /** A newer page, or a request nobody recorded, never ends the history;
      a short initial or older page always does; a full page does not. */
  lemma HistoryFinishedRule(mode: Option<PageMode>, limit: Option<int>, rawLength: nat, finished: bool)
    ensures mode == Some(Newer) || mode.None? ==> HistoryFinished(mode, limit, rawLength, finished) == finished
    ensures mode == Some(Initial) && limit.None? ==>
      HistoryFinished(mode, limit, rawLength, finished) == (rawLength < 30 || finished)
    ensures mode == Some(Older) && limit.None? ==>
      HistoryFinished(mode, limit, rawLength, finished) == (rawLength < 20 || finished)
    ensures limit.Some? && rawLength >= limit.value ==> HistoryFinished(mode, limit, rawLength, finished) == finished
  {
  }
}

=== FILE: utils.dfy ===
/** The colour and tag helpers of webnew/lib/utils.ts: hexToRgb,
    getSubjectStyle (the colours a subject badge is drawn in) and
    normalizeTags (a study record's tags field read as a list of names). */
module Utils {
  import opened Wrappers
  import opened Text
  import opened JsValues

  // ------------------------------------------------------------ hexToRgb

  /** `[a-f\d]` under the `i` flag. */
  predicate IsHexDigit(c: char) {
    IsAsciiDigit(c) || 'a' <= c <= 'f' || 'A' <= c <= 'F'
  }

  function HexDigitValue(c: char): (r: nat)
    requires IsHexDigit(c)
    ensures r < 16
  {
    if IsAsciiDigit(c) then c as nat - '0' as nat
    else if 'a' <= c <= 'f' then c as nat - 'a' as nat + 10
    else c as nat - 'A' as nat + 10
  }

  /** `parseInt(pair, 16)` on two hex digits. */
  function HexPair(hi: char, lo: char): (r: nat)
    requires IsHexDigit(hi) && IsHexDigit(lo)
    ensures r <= 255
  {
    16 * HexDigitValue(hi) + HexDigitValue(lo)
  }

  datatype Rgb = Rgb(r: nat, g: nat, b: nat)

  predicate IsByteRgb(c: Rgb) { c.r <= 255 && c.g <= 255 && c.b <= 255 }

  /** The text after the optional leading `#`. */
  function HexBody(hex: string): string {
    if hex != [] && hex[0] == '#' then hex[1..] else hex
  }

  /** `/^#?([a-f\d]{2})([a-f\d]{2})([a-f\d]{2})$/i` matches. */
  predicate IsHexColor(hex: string) {
    var d := HexBody(hex);
    |d| == 6 && forall i :: 0 <= i < 6 ==> IsHexDigit(d[i])
  }

  /** hexToRgb: the three channels of a six-digit hex colour, or null. */
  function HexToRgb(hex: string): (r: Option<Rgb>)
    ensures r.Some? <==> IsHexColor(hex)
    ensures r.Some? ==> IsByteRgb(r.value)
  {
    if IsHexColor(hex) then
      var d := HexBody(hex);
      Some(Rgb(HexPair(d[0], d[1]), HexPair(d[2], d[3]), HexPair(d[4], d[5])))
    else None
  }

  /** The lower-case hex digit for `d`. */
  function HexDigitChar(d: nat): (c: char)
    requires d < 16
    ensures IsHexDigit(c)
  {
    if d < 10 then DigitChar(d) else ('a' as nat + d - 10) as char
  }

  /** Two lower-case hex digits for a byte. */
  function HexByte(n: nat): (r: string)
    requires n <= 255
    ensures |r| == 2 && IsHexDigit(r[0]) && IsHexDigit(r[1])
  {
    [HexDigitChar(n / 16), HexDigitChar(n % 16)]
  }

  /** A colour written as `#rrggbb` in lower case. */
  function ToHex(c: Rgb): string
    requires IsByteRgb(c)
  {
    "#" + HexByte(c.r) + HexByte(c.g) + HexByte(c.b)
  }

  lemma HexDigitRoundTrip(d: nat)
    requires d < 16
    ensures HexDigitValue(HexDigitChar(d)) == d
  {
  }

  lemma HexDigitLower(c: char)
    requires IsHexDigit(c)
    ensures HexDigitChar(HexDigitValue(c)) == LowerChar(c)
  {
  }

  /** hexToRgb reads back every colour written as `#rrggbb`. */
  lemma HexRoundTrip(c: Rgb)
    requires IsByteRgb(c)
    ensures HexToRgb(ToHex(c)) == Some(c)
  {
    var h := ToHex(c);
    var d := HexBody(h);
    assert d == HexByte(c.r) + HexByte(c.g) + HexByte(c.b);
    HexDigitRoundTrip(c.r / 16);
    HexDigitRoundTrip(c.r % 16);
    HexDigitRoundTrip(c.g / 16);
    HexDigitRoundTrip(c.g % 16);
    HexDigitRoundTrip(c.b / 16);
    HexDigitRoundTrip(c.b % 16);
  }

  /** A byte read from two hex digits is written back as those digits in
      lower case. */
  lemma HexByteOfPair(hi: char, lo: char)
    requires IsHexDigit(hi) && IsHexDigit(lo)
    ensures HexByte(HexPair(hi, lo)) == [LowerChar(hi), LowerChar(lo)]
  {
    var n := HexPair(hi, lo);
    assert n / 16 == HexDigitValue(hi) && n % 16 == HexDigitValue(lo);
    HexDigitLower(hi);
    HexDigitLower(lo);
  }

  /** Every colour hexToRgb accepts is, up to letter case and the optional
      `#`, the one written back from its channels. */
  lemma HexCanonical(hex: string)
    requires IsHexColor(hex)
    ensures ToHex(HexToRgb(hex).value) == "#" + Lower(HexBody(hex))
  {
    var d := HexBody(hex);
    var l := Lower(d);
    HexByteOfPair(d[0], d[1]);
    HexByteOfPair(d[2], d[3]);
    HexByteOfPair(d[4], d[5]);
    assert l == [l[0], l[1]] + [l[2], l[3]] + [l[4], l[5]];
  }

  // ------------------------------------------------------------ getSubjectStyle

  /** SUBJECT_COLOR_MAP: physics in sky blue, mathematics in violet. */
  const SubjectColorMap: map<string, string> := map["物理" := "#0ea5e9", "数学" := "#8b5cf6"]

  /** sky-500, the colour of a subject with no colour of its own. */
  const DefaultColor: string := "#0ea5e9"

  /** The colour chosen for a subject: the user's colour for it when set and
      non-empty, else the built-in one, else sky-500; no subject (undefined
      or empty) is sky-500 too. */
  function BaseColor(subject: Option<string>, subjectColors: map<string, string>): (r: string)
    ensures subject.None? || subject == Some("") ==> r == DefaultColor
    ensures subject.Some? && subject.value != "" && subject.value in subjectColors && subjectColors[subject.value] != ""
      ==> r == subjectColors[subject.value]
  {
    match subject
    case None => DefaultColor
    case Some(s) =>
      if s == "" then DefaultColor
      else if s in subjectColors && subjectColors[s] != "" then subjectColors[s]
      else if s in SubjectColorMap then SubjectColorMap[s]
      else DefaultColor
  }

  /** The style object: the two border fields are present only on a tinted
      style. */
  datatype Style = Style(
    color: string,
    backgroundColor: string,
    borderColor: string,
    borderWidth: Option<string>,
    borderStyle: Option<string>)

  /** sky-600 text on sky-50 with a sky-100 border, for a colour that is
      not a hex colour. */
  const FallbackStyle: Style := Style("#0284c7", "#f0f9ff", "#e0f2fe", None, None)

  /** `rgba(r, g, b, alpha)` with the alpha written as given. */
  function Rgba(c: Rgb, alpha: string): string {
    "rgba(" + NatToString(c.r) + ", " + NatToString(c.g) + ", " + NatToString(c.b) + ", " + alpha + ")"
  }

  /** getSubjectStyle. */
  function GetSubjectStyle(subject: Option<string>, subjectColors: map<string, string>): (r: Style)
    ensures HexToRgb(BaseColor(subject, subjectColors)).None? ==> r == FallbackStyle
    ensures HexToRgb(BaseColor(subject, subjectColors)).Some? ==>
      && r.color == BaseColor(subject, subjectColors)
      && r.borderWidth == Some("1px") && r.borderStyle == Some("solid")
  {
    var baseColor := BaseColor(subject, subjectColors);
    match HexToRgb(baseColor)
    case None => FallbackStyle
    case Some(rgb) =>
      Style(baseColor, Rgba(rgb, "0.035"), Rgba(rgb, "0.4"), Some("1px"), Some("solid"))
  }

  lemma DefaultColorIsHex()
    ensures IsHexColor(DefaultColor) && IsHexColor(FallbackStyle.color)
  {
    var d := HexBody(DefaultColor);
    assert d == "0ea5e9";
    assert IsHexDigit(d[0]) && IsHexDigit(d[1]) && IsHexDigit(d[2]);
    assert IsHexDigit(d[3]) && IsHexDigit(d[4]) && IsHexDigit(d[5]);
    var f := HexBody(FallbackStyle.color);
    assert f == "0284c7";
    assert IsHexDigit(f[0]) && IsHexDigit(f[1]) && IsHexDigit(f[2]);
    assert IsHexDigit(f[3]) && IsHexDigit(f[4]) && IsHexDigit(f[5]);
  }

  /** A subject is always drawn in a valid hex colour; a tinted style's
      background and border are that colour at 3.5% and 40% opacity. */
  lemma StyleColorIsHex(subject: Option<string>, subjectColors: map<string, string>)
    ensures var r := GetSubjectStyle(subject, subjectColors);
      && HexToRgb(r.color).Some?
      && (r.borderWidth.Some? ==>
            && r.backgroundColor == Rgba(HexToRgb(r.color).value, "0.035")
            && r.borderColor == Rgba(HexToRgb(r.color).value, "0.4"))
  {
    DefaultColorIsHex();
  }

  /** With no subject, or a subject that has no colour of its own or
      built in, the badge is tinted sky-500. */
  lemma DefaultSubjectTinted(subject: Option<string>, subjectColors: map<string, string>)
    requires subject.Some? ==>
      (subject.value !in subjectColors || subjectColors[subject.value] == "") && subject.value !in SubjectColorMap
    ensures GetSubjectStyle(subject, subjectColors).color == DefaultColor
    ensures GetSubjectStyle(subject, subjectColors).borderWidth == Some("1px")
  {
    DefaultColorIsHex();
  }

  /** A subject whose own colour is a hex colour is drawn in it; one whose
      own colour is not gets the fallback style, not the built-in colour. */
  lemma UserColorWins(s: string, subjectColors: map<string, string>)
    requires s != "" && s in subjectColors && subjectColors[s] != ""
    ensures IsHexColor(subjectColors[s]) ==> GetSubjectStyle(Some(s), subjectColors).color == subjectColors[s]
    ensures !IsHexColor(subjectColors[s]) ==> GetSubjectStyle(Some(s), subjectColors) == FallbackStyle
  {
  }

  /** Without a colour of the user's own, a built-in subject keeps its
      built-in colour. */
  lemma BuiltInColor(s: string, subjectColors: map<string, string>)
    requires s in SubjectColorMap && (s !in subjectColors || subjectColors[s] == "")
    ensures GetSubjectStyle(Some(s), subjectColors).color == SubjectColorMap[s]
  {
    var c := SubjectColorMap[s];
    assert c == "#0ea5e9" || c == "#8b5cf6";
    var d := HexBody(c);
    assert d == "0ea5e9" || d == "8b5cf6";
    assert IsHexDigit(d[0]) && IsHexDigit(d[1]) && IsHexDigit(d[2]);
    assert IsHexDigit(d[3]) && IsHexDigit(d[4]) && IsHexDigit(d[5]);
  }

  // ------------------------------------------------------------ normalizeTags

  /** normalizeTags. An array gives its elements' strings, empty ones
      dropped; a string is trimmed, read as a JSON array when `parseJson`
      (standing for `JSON.parse`, None when it throws) gives one, and split
      at commas with each piece trimmed otherwise; anything else gives no
      tags. */
  function NormalizeTags(tags: JsValue, parseJson: string -> Option<JsValue>): (r: seq<string>)
    ensures "" !in r
    ensures !tags.Arr? && !tags.Str? ==> r == []
    ensures tags.Str? && JsTrim(tags.s) == "" ==> r == []
  {
    match tags
    case Arr(items) => NonEmpty(StringsOf(items))
    case Str(t) =>
      var s := JsTrim(t);
      if s == "" then []
      else
        (match parseJson(s)
         case Some(Arr(items)) => NonEmpty(StringsOf(items))
         case _ => NonEmpty(TrimAll(Split(s, ','))))
    case _ => []
  }

  /** Dropping empty names from a list that has none changes nothing. */
  lemma {:induction false} NonEmptyKeeps(names: seq<string>)
    requires "" !in names
    ensures NonEmpty(names) == names
  {
    if names != [] {
      NonEmptyKeeps(names[1..]);
      assert names == [names[0]] + names[1..];
    }
  }

  /** The strings of string values are those strings. */
  lemma {:induction false} StringsOfStrs(texts: seq<string>)
    ensures StringsOf(Strs(texts)) == texts
  {
  }

  /** Normalising the tags a second time, as an array, gives them back. */
  lemma NormalizeTagsIdempotent(tags: JsValue, parseJson: string -> Option<JsValue>)
    ensures var r := NormalizeTags(tags, parseJson);
      NormalizeTags(Arr(Strs(r)), parseJson) == r
  {
    var r := NormalizeTags(tags, parseJson);
    StringsOfStrs(r);
    NonEmptyKeeps(r);
  }

  /** A name with no blank at either end. */
  predicate IsTagName(name: string) {
    name != "" && !IsJsSpace(name[0]) && !IsJsSpace(name[|name| - 1])
  }

  /** Names written out joined by commas read back as those names, unless the
      text happens to parse as a JSON array. */
  lemma CommaListRoundTrip(names: seq<string>, parseJson: string -> Option<JsValue>)
    requires names != []
    requires forall i :: 0 <= i < |names| ==> IsTagName(names[i]) && ',' !in names[i]
    requires var text := Join(names, ","); !(parseJson(text).Some? && parseJson(text).value.Arr?)
    ensures NormalizeTags(Str(Join(names, ",")), parseJson) == names
  {
    JoinedTrimmed(names);
    JoinedPieces(names);
  }

  /** A comma-joined list of names has no blank at either end. */
  lemma JoinedTrimmed(names: seq<string>)
    requires names != []
    requires forall i :: 0 <= i < |names| ==> IsTagName(names[i])
    ensures JsTrim(Join(names, ",")) == Join(names, ",")
  {
    var text := Join(names, ",");
    JoinEnds(names);
    TagNameTrimmed(text);
  }

  lemma TagNameTrimmed(name: string)
    requires IsTagName(name)
    ensures JsTrim(name) == name
  {
    JsTrimKeeps(name);
  }


  /** Splitting a comma-joined list of names and trimming the pieces gives
      the names. */
  lemma JoinedPieces(names: seq<string>)
    requires names != []
    requires forall i :: 0 <= i < |names| ==> IsTagName(names[i]) && ',' !in names[i]
    ensures NonEmpty(TrimAll(Split(Join(names, ","), ','))) == names
  {
    JoinSplit(names, ',');
    TrimAllKeeps(names);
    NonEmptyKeeps(names);
  }

  /** Names with no blank at either end are left alone by trimming each. */
  lemma TrimAllKeeps(names: seq<string>)
    requires forall i :: 0 <= i < |names| ==> IsTagName(names[i])
    ensures TrimAll(names) == names
  {
    forall i | 0 <= i < |names|
      ensures TrimAll(names)[i] == names[i]
    {
      TagNameTrimmed(names[i]);
    }
  }


  /** A comma-joined list starts with its first name and ends with its
      last. */
  lemma {:induction false} JoinEnds(names: seq<string>)
    requires names != [] && IsTagName(names[0]) && IsTagName(names[|names| - 1])
    ensures IsTagName(Join(names, ","))
  {
    if |names| > 1 {
      var rest := names[1..];
      assert rest[|rest| - 1] == names[|names| - 1];
      JoinEndsLast(rest);
    }
  }

  /** A comma-joined list ends with its last name's last character. */
  lemma {:induction false} JoinEndsLast(names: seq<string>)
    requires names != [] && names[|names| - 1] != []
    ensures var text := Join(names, ",");
      text != [] && text[|text| - 1] == names[|names| - 1][|names[|names| - 1]| - 1]
  {
    if |names| > 1 {
      var rest := names[1..];
      assert rest[|rest| - 1] == names[|names| - 1];
      JoinEndsLast(rest);
    }
  }
}

=== FILE: wrappers.dfy ===
/** Option and Result values used across the model for the source's
    null/None returns and its error dictionaries. */
module Wrappers {

  datatype Option<+T> = None | Some(value: T) {
    function GetOr(default: T): T {
      match this
      case Some(v) => v
      case None => default
    }
  }

  datatype Result<+R, +E> = Success(value: R) | Failure(error: E)
}
